=== FILE: README.md ===
# Advent of Code 2022 (Python solutions): a Dafny model

This project models the puzzle logic of a set of Python solutions to
Advent of Code 2022 and proves properties of it. The centrepiece is day 15
(beacon exclusion zone):

- Sensors define circles of the Manhattan metric.
- Each circle covers a closed range of x on a row.
- Ranges are flattened into a canonical list, complemented within bounds
  and clamped to bounds.
- The inefficient first attempt scans a row cell by cell.

The other days model their core routines:

- day 1: elf calorie totals and a top-three array;
- day 2: rock, paper, scissors scoring;
- day 3: rucksack priorities and group badges;
- day 4: section range overlap counts;
- day 5: crate stacks read from a drawing and moved by a crane;
- day 6: start-of-packet markers;
- day 7: a file tree built from a terminal session;
- day 8: tree visibility and scenic scores;
- day 9: a rope whose knots follow the head;
- day 10: a CPU's signal strengths and CRT picture;
- day 11: monkeys throwing items, with worry levels reduced modulo the
  product of the divisors;
- day 13: the packet ordering and the decoder key.

Each day has its own module. Day 8 has two, `Forest` (visibility) and
`Scenic` (scenic scores), and day 15's cell-by-cell attempt has its own,
`NearestNeighbour`. Shared modules:

- `Outcomes` (an `Option` type for "the Python code raises here");
- `Ranges` (the range algebra of day 15, also used by day 4);
- `Sorting` (a stable insertion sort standing for Python's `sort`);
- `Digits` (decimal digit strings, for `int` and `str`).

Inputs are taken already parsed, with three exceptions whose parsing is
part of the puzzle's work: day 5's drawing and move lines, day 7's
terminal lines, and day 10's instruction lines.

Python's exceptions become `None` results: an index error, a key error,
popping an empty list. The four `assert`s of day_15/part_1_2.py (lines
108, 145, 146 and 198) are instead preconditions of `Ranges.Merge`,
`Ranges.NotCovered` and `Ranges.Limit`, and every caller in the model
meets them, so none of them can fail. Python's unbounded integers are
modelled by Dafny's `int`.

## Model

| member | source | states |
|---|---|---|
| Ranges.IntersectSymmetric | day_15/part_1_2.py:76-99 | The intersect test does not depend on the order of the two ranges. |
| Ranges.IntersectIffContiguous | day_15/part_1_2.py:76-99 | For well-formed ranges, "intersect" holds exactly when they overlap or are adjacent, i.e. exactly when their union fills the span from the lowest to the highest end with no hole. |
| Ranges.IntersectExamples | day_15/part_1_2.py:84-93 | The five doctests of `ranges_intersect` and the doctest of `ranges_merge`. |
| Ranges.Merge | day_15/part_1_2.py:102-109 | Requires the two ranges to intersect (the source's assert); the merge of two well-formed ranges is well-formed and holds exactly the integers of one or the other. |
| Ranges.RangeLeTotalOrder | day_15/part_1_2.py:122 | Python's tuple order on `(lo, hi)` is a total, antisymmetric preorder, so sorting by it has one answer. |
| Ranges.AbsorbFlat | day_15/part_1_2.py:124-128 | One loop iteration of `ranges_flatten` keeps the kept list flat and adds exactly the integers of the new range. |
| Ranges.MergeRunFlat | day_15/part_1_2.py:123-128 | The loop over ascending ranges yields a flat list covering exactly what the start and the visited ranges cover. |
| Ranges.Flatten | day_15/part_1_2.py:112-129 | The result is empty exactly when the input is; for well-formed input it is flat (sorted, each range ending at least two before the next starts) and covers exactly the same integers as the input. |
| Ranges.FlattenOfFlat | day_15/part_1_2.py:112-129 | A list that is already flat is returned unchanged. |
| Ranges.FlattenIdempotent | day_15/part_1_2.py:112-129 | Flattening twice is flattening once. |
| Ranges.FlattenPermutation | day_15/part_1_2.py:122-129 | The result depends only on the multiset of input ranges, not their order. |
| Ranges.FlatSeparated | day_15/part_1_2.py:112-129 | In a flat list every range lies strictly before and apart from every later one. |
| Ranges.FlatCoveringIsOneRange | day_15/part_1_2.py:112-129 | A flat list covering exactly `[start, end]` is the single range `(start, end)`. |
| Ranges.InnerGapsAt | day_15/part_1_2.py:150-151 | The k-th inner gap runs from one after the end of range k to one before the start of range k+1. |
| Ranges.InnerGapsFacts | day_15/part_1_2.py:147-153 | The inner gaps of a flat list are flat, lie between its first and last range, and cover exactly the uncovered integers of that span. |
| Ranges.NotCovered | day_15/part_1_2.py:132-154 | Requires the source's two asserts (`start` before the first range, `end` after the last). For flat input the gaps are flat, lie in `[start, end]` and cover exactly the integers of `[start, end]` that the input does not. |
| Ranges.NotCoveredFacts | day_15/part_1_2.py:144-154 | The leading gap, the inner gaps and the trailing gap together are flat, lie in bounds and are exactly the complement. |
| Ranges.NotCoveredFirstGap | day_15/part_1_2.py:132-154 | The first gap starts at the least uncovered integer of `[start, end]`; with no gaps every integer there is covered. |
| Ranges.NotCoveredRoundTrip | day_15/part_1_2.py:112-154 | Flattening a flat list together with its complement gives back the single range `(start, end)`. |
| Ranges.NotCoveredExamples | day_15/part_1_2.py:135-142 | The four doctests of `ranges_not_covered`. |
| Ranges.FlattenExamples | day_15/part_1_2.py:113-120 | The three doctests of `ranges_flatten`: overlapping ranges merge, adjacent ranges chain into one, and ranges with a gap between them stay apart. |
| Ranges.FlattenOfSorted | day_15/part_1_2.py:122-129 | On input already in order the sort changes nothing, and the result is the merging loop run from the first range. |
| Ranges.Limit | day_15/part_1_2.py:184-201 | Requires `lo <= hi` (the source's assert). The clamped range holds exactly the integers of the range within `[min_val, max_val]`; when there are none, the result is `None`, standing for the empty tuple. |
| Ranges.LimitExamples | day_15/part_1_2.py:187-196 | The five doctests of `limit_range`. |
| Sorting.Insert | day_15/part_1_2.py:122 | Insertion adds exactly one element: the result's multiset is the input's plus the element. |
| Sorting.SortBy | day_15/part_1_2.py:122 | The sort is a permutation of its input. |
| Sorting.InsertSorted | day_15/part_1_2.py:122 | Under a total preorder, inserting into a sorted list keeps it sorted. |
| Sorting.SortBySorted | day_15/part_1_2.py:122 | Under a total preorder the sort's result is sorted. |
| Sorting.SortedUnique | day_15/part_1_2.py:122 | Two sorted permutations of one multiset under a total antisymmetric order are equal. |
| Sorting.SortByOfSorted | day_15/part_1_2.py:122 | Sorting a sorted list leaves it unchanged. |
| Sorting.SortByPermutation | day_15/part_1_2.py:122 | Under a total antisymmetric order, permuted inputs sort to the same list. |
| Sorting.InsertTies | day_13/part_1_2.py:94 | Inserting into a sorted list places the new element after every element tied with it, so the tied elements keep their order with the new one last. |
| Sorting.SortByStable | day_13/part_1_2.py:94 | The sort is stable: for every value, the elements tied with it appear in the result in their input order. |
| Sorting.StableUnique | day_13/part_1_2.py:94 | Two sorted lists whose tied elements appear in the same order are equal, so a stable sort has exactly one result even when distinct elements are tied. |
| Sensors.Manhattan | day_15/part_1_2.py:37-40 | The distance is zero exactly between equal points. |
| Sensors.ManhattanMetric | day_15/part_1_2.py:37-40 | The distance is symmetric and satisfies the triangle inequality. |
| Sensors.NewCircle | day_15/part_1_2.py:21-25 | The radius is the distance from the sensor to its beacon. The beacon's row is spanned, and the beacon is an end of that row's range. Every point strictly closer than the beacon is reached. |
| Sensors.GetX | day_15/part_1_2.py:27-35 | The pair is centred on the centre's x. It is a well-formed range exactly on the rows the circle spans. Its integers are exactly the cells of row `y` within the radius. |
| Sensors.CircleExample | day_15/part_1_2.py:21-35 | The sensor at (8, 7) with beacon (2, 10) from the puzzle: radius 9, row 10 covers 2..14, row 17 is outside its span. |
| Sensors.RowCover | day_15/part_1_2.py:170-173 | The cover of a row holds one well-formed range per spanning circle. It is empty exactly when no circle spans the row. Its integers are exactly the x of the row's reached cells. |
| Sensors.NumBeaconsInRange | day_15/part_1_2.py:157-163 | The count is the number of beacons on row `y` inside the range. |
| Sensors.RangeSetSize | day_15/part_1_2.py:180 | A well-formed range holds `hi - lo + 1` integers. |
| Sensors.FreeInSize | day_15/part_1_2.py:178-180 | The beacon-free cells of one range number its length minus the beacons inside it, the quantity the loop adds. |
| Sensors.FreeCoveredFlatten | day_15/part_1_2.py:174 | Flattening the cover does not change the set of beacon-free covered cells. |
| Sensors.NumXWithoutBeacon | day_15/part_1_2.py:166-181 | The count is the number of cells of row `y` that some sensor reaches and that are not a known beacon. |
| Sensors.ClampedCover | day_15/part_1_2.py:209-217 | The clamped ranges exist exactly when no clamp is empty. They are well-formed and inside `[xLo, xHi]`, empty exactly when no circle spans the row, and cover exactly the reached cells of the row inside the bounds. |
| Sensors.GapAtRow | day_15/part_1_2.py:208-228 | One row of the search. It crashes exactly on rows that cannot be scanned: no circle spans the row, or a clamp is empty. A gap is the least x in bounds that no sensor reaches. No gap means every cell in bounds is reached. |
| Sensors.Scan | day_15/part_1_2.py:206-229 | Rows are searched in ascending order. A found point is in the box and unreached, and every earlier cell of the box, row by row, is reached. "Not found" means the whole box is reached. A crash names the first unscannable row, with all rows before it fully reached. Every row the scan passes is scannable: the rows before a crash, the rows up to and including a found point's row, and every row of the box for "not found". |
| Sensors.DecodeEncode | day_15/part_1_2.py:228 | The tuning frequency `x * 4000000 + y` gives back the cell for rows below 4000000. |
| Sensors.TuningFrequency | day_15/part_1_2.py:204-229 | For any bounds, a result `Some(v)` is either -1 with every cell of the box reached and every row scannable, or `v` is `x * 4000000 + y` of the first unreached cell of the box in row-then-column order, every row up to that cell's being scannable. With non-negative bounds -1 can only mean the first case. For rows below 4000000 the frequency also decodes back to that cell; on row 4000000 it does not (see `Sensors.LastRowAliases`). `None` names a row of the box that cannot be scanned, every earlier row being scannable and fully reached. When every row of the box is scannable there is a result. |
| Sensors.FirstUnreachedUnique | day_15/part_1_2.py:206-228 | The cell the scan stops at is determined by the box: two first unreached cells are the same cell. |
| Sensors.TuningFrequencyOfFirstUnreached | day_15/part_1_2.py:204-229 | Whenever the box has a first unreached cell, the result is `x * 4000000 + y` of that cell, for any bounds, including the program's own call over `0..4000000` in both directions (day_15/part_1_2.py:254-257). |
| Sensors.LastRowAliases | day_15/part_1_2.py:228 | On row 4000000 the encoding collides with row 0 of the next column: `(k, 4000000)` and `(k + 1, 0)` have the same frequency, which decodes to `(k + 1, 0)`. |
| Sensors.Join | day_15/part_1_2.py:66-72 | The joined box contains both boxes. |
| Sensors.BoundingBox | day_15/part_1_2.py:62-73 | The box contains every circle's square. Each of its four sides is attained by some circle. |
| Sensors.TightSnoc | day_15/part_1_2.py:66-72 | One loop iteration keeps the box tight around the circles seen so far. |
| NearestNeighbour.CircleAt | day_15/part_1_inefficient.py:39-40 | Sensor i becomes the circle with radius the distance to its closest beacon. |
| NearestNeighbour.ReachesIffReached | day_15/part_1_inefficient.py:89-97 | A sensor's range reaching a position is the same as the position being reached by the circles of the efficient version. |
| NearestNeighbour.GetBoundingBox | day_15/part_1_inefficient.py:31-46 | The box is cached after the first call. It contains every sensor's range square, and each side is attained by some sensor. |
| NearestNeighbour.BoxOfSensors | day_15/part_1_inefficient.py:36-45 | The box of the efficient version, computed from the sensor map, is tight around the sensors' ranges. |
| NearestNeighbour.BoundingBoxCached | day_15/part_1_inefficient.py:36 | A second call returns the cached box and leaves the map unchanged. |
| NearestNeighbour.CannotContainBeacon | day_15/part_1_inefficient.py:92-97 | The inner loop finds a sensor exactly when the position is within some sensor's range. |
| NearestNeighbour.ScanRow | day_15/part_1_inefficient.py:89-99 | The listing holds, in ascending x, exactly the positions of the row between the bounds that some sensor reaches and that are neither a beacon nor a sensor. |
| NearestNeighbour.BeaconFreePositionsAtRow | day_15/part_1_inefficient.py:71-100 | Lists exactly those positions for the bounding box's columns; no sensor reaches outside those columns. |
| NearestNeighbour.IncreasingRowSize | day_15/part_1_inefficient.py:89-99 | A listing in strictly ascending x has as many positions as distinct columns. |
| NearestNeighbour.ListedCells | day_15/part_1_inefficient.py:89-99 | A column is listed exactly when it is a no-beacon cell of the efficient version that is not a sensor. |
| NearestNeighbour.SensorCellsCounted | day_15/part_1_inefficient.py:91 | A column holds a sensor that is not also a beacon exactly when it is a no-beacon cell of the efficient version with a sensor on it. |
| NearestNeighbour.FreePositionsMatchIntervals | day_15/part_1_inefficient.py:71-100 | The brute-force count plus the row's sensors that are not also beacons equals the no-beacon count of `get_num_x_coordinates_without_beacon` in day_15/part_1_2.py. |
| Calories.UnterminatedIgnored | day_01/part_1.py:27-34 | Lines after the last empty line close no group: they only add to the open total, so a final group with no empty line after it is never counted. |
| Calories.ClosedBySeparator | day_01/part_1.py:27-33 | A group ended by an empty line contributes its sum as the next closed total. |
| Calories.Append | day_01/part_1.py:28-33 | A food line adds to the open total. An empty line closes the open total and resets it to zero. |
| Calories.MaxCalories | day_01/part_1.py:12-34 | The result is at least 0, at least every closed total, and either 0 or one of the closed totals. |
| Calories.Update | day_01/part_2.py:39-45 | The array stays ascending. A total not above the smallest value leaves it unchanged. A larger total replaces the smallest value. |
| Calories.FloatUp | day_01/part_2.py:41-45 | The swap loop moves the new first value to its sorted place among the other two. |
| Calories.UpdateKeepsLargest | day_01/part_2.py:39-45 | If the array held the largest values of a pool, then after an update it holds the largest values of the pool plus the new total. |
| Calories.Closes | day_01/part_2.py:36-47 | An empty line adds the open total to the pool, and the updated array still holds the pool's three largest values. |
| Calories.ReadLine | day_01/part_2.py:35-47 | One line keeps the loop invariant: the open total is the current group's sum, and the array holds the three largest of the zeros and the closed totals. |
| Calories.TopThreeCalories | day_01/part_2.py:13-48 | The result is the sum of the three largest values among three zeros and the closed totals. |
| RockPaperScissors.ItemOfLetter | day_02/part_1.py:15-22 | A letter maps to an item exactly when it is one of `A B C X Y Z`. |
| RockPaperScissors.OpponentItemOfLetter | day_02/part_2.py:15-19 | Only `A B C` map, and to the same items as in the first part. |
| RockPaperScissors.Shape | day_02/part_1.py:25-29 | A shape is worth 1 to 3 points. |
| RockPaperScissors.ShapeInjective | day_02/part_1.py:25-29 | Different items are worth different points. |
| RockPaperScissors.Result | day_02/part_1.py:39-51 | The result is a draw, a loss or a win, and a draw exactly when both play the same item. |
| RockPaperScissors.GameLogicConsistent | day_02/part_2.py:36-40 | Each item's "beats" and "defeated_by" entries are the two other items, and they undo each other. |
| RockPaperScissors.ResultAgreesWithGameLogic | day_02/part_1.py:39-51 | The first part's result agrees with the second part's table. You lose exactly when you play what the opponent beats, and win exactly when you play what defeats the opponent. |
| RockPaperScissors.ResultAntisymmetric | day_02/part_1.py:39-51 | Swapping the players turns a win into a loss and back. |
| RockPaperScissors.ResultOfLetter | day_02/part_2.py:22-26 | Only `X Y Z` map, to a loss, a draw and a win. |
| RockPaperScissors.YourItem | day_02/part_2.py:50-58 | For a valid result, the chosen item gets exactly that result against the opponent. |
| RockPaperScissors.YourItemUnique | day_02/part_2.py:50-58 | No other item gets that result, so the choice is forced. |
| RockPaperScissors.RoundScore | day_02/part_1.py:56-60 | A round is scored exactly when both letters are known. The score is from 1 to 9, and minus your shape's value it is the result. |
| RockPaperScissors.RoundScore2 | day_02/part_2.py:63-67 | A round is scored exactly when both letters are known. The score is from 1 to 9, and some item gets the requested result with that score. |
| RockPaperScissors.Round | day_02/part_1.py:56-60 | A round is scored exactly when the opponent's letter is in that part's table (`A`-`C`, or `X`-`Z` too in the first part) and yours is in that part's table (`A`-`C` and `X`-`Z` in the first part, `X`-`Z` in the second). The score is from 1 to 9. |
| RockPaperScissors.TotalScore | day_02/part_1.py:54-61 | The total exists exactly when every round's letters are known. It lies between 1 and 9 points per round. |
| RockPaperScissors.TotalScoreSingle | day_02/part_1.py:54-61 | The total of one round is that round's score. |
| RockPaperScissors.TotalScoreAppend | day_02/part_1.py:54-61 | One more round adds its score to the total, and a round with an unknown letter makes the whole total fail. |
| RockPaperScissors.TotalScoreConcat | day_02/part_1.py:54-61 | The total of two games played one after the other is the sum of their totals, and fails exactly when either fails. Together with the single-round case this fixes the total as the sum of the round scores. |
| RockPaperScissors.ExampleFirst | day_02/part_1.py:54-61 | The puzzle's example scores 15 under the first part's rules. |
| RockPaperScissors.ExampleSecond | day_02/part_2.py:61-68 | The same example scores 12 under the second part's rules. |
| CampRanges.FullyOverlapIffContains | day_04/part_1.py:15-16 | For well-formed ranges, "fully overlap" holds exactly when one range's integers contain the other's. |
| CampRanges.FullyOverlapSymmetric | day_04/part_1.py:15-16 | The test is symmetric and holds of a range with itself. |
| CampRanges.OverlapSymmetric | day_04/part_2.py:15-17 | The overlap test is symmetric. |
| CampRanges.OverlapIffShared | day_04/part_2.py:15-17 | For well-formed ranges, they overlap exactly when some integer lies in both. |
| CampRanges.FullyOverlapImpliesOverlap | day_04/part_1.py:15-16 | Full overlap implies overlap. |
| CampRanges.NumFullyOverlaps | day_04/part_1.py:19-23 | The count is the number of pairs that fully overlap, at most the number of pairs. |
| CampRanges.NumOverlaps | day_04/part_2.py:20-24 | The count is the number of pairs that overlap, at most the number of pairs. |
| CampRanges.FullyCountedAmongOverlaps | day_04/part_2.py:15-24 | Every pair the first part counts is also counted by the second, so the first answer never exceeds the second. |
| Digits.Decimal | day_05/part_1.py:50 | Writing a number yields a non-empty run of decimal digits. |
| Digits.DecimalValue | day_05/part_1.py:50 | Reading the digits of a written number gives the number back. |
| Crates.CreateStackLayout | day_05/part_1.py:14-45 | One drawing line makes as many stacks as the longer of the old list and the line's `len // 4` slots. Each non-blank letter goes below the existing crates of its stack. |
| Crates.Reverse | day_05/part_1.py:45 | Reversal keeps the length and mirrors the positions. |
| Crates.ReadLayoutColumns | day_05/part_1.py:14-45 | Reading a drawing top line first makes one stack per slot column. Each stack is the column's letters read bottom up. |
| Crates.ColumnAppend | day_05/part_1.py:37-45 | A new drawing line adds its letter, if any, to the bottom end of a column. |
| Crates.PyIndex | day_05/part_1.py:52-53 | Python list indexing: an index is valid exactly when it lies in `-len .. len-1`, and a negative one counts from the end. |
| Crates.MoveOne | day_05/part_1.py:52-53 | Moving one crate keeps the number of stacks. It fails on an empty source or an index out of range. |
| Crates.Move | day_05/part_1.py:48-53 | Moving `n` crates one at a time keeps the number of stacks. |
| Crates.MoveKeepsCrates | day_05/part_1.py:48-53 | A move that succeeds neither creates nor loses crates. |
| Crates.MoveBlock | day_05/part_1.py:48-53 | Between two distinct stacks, the move succeeds exactly when the source holds at least `n` crates. Its result is the source's top `n` crates, reversed, placed on the target. |
| Crates.MoveLineRoundTrip | day_05/part_1.py:50 | Extracting the numbers of a "move n from a to b" line gives back `[n, a, b]`. |
| Crates.NumbersOfDigitsThen | day_05/part_1.py:50 | A run of digits followed by a non-digit is read as one number. |
| Crates.Tops | day_05/part_1.py:92-96 | The tops exist exactly when every stack is non-empty. They are each stack's top crate, in order. |
| Crates.Classify | day_05/part_1.py:77-90 | A line is a move exactly when it starts with `m`. A line raises exactly when it is not the blank line, not a move, and has fewer than two characters. A drawing line has a second character other than `1`. |
| Crates.Step | day_05/part_1.py:77-90 | The blank line and the numbering line leave the stacks as they are. A line too short to classify raises. A line that succeeds never removes a stack. |
| Crates.Run | day_05/part_1.py:71-90 | A run succeeds only from a successful start and never removes a stack. Lines that are all blank or numbering lines change nothing. |
| Crates.GetTops | day_05/part_1.py:56-96 | The answer exists only when every line is processed. It then holds one letter per stack, each stack's top crate, and no stack is empty. With only blank and numbering lines the answer is empty. |
| Crates.RunConcat | day_05/part_1.py:71-90 | Processing lines in two batches is the same as processing them in one. |
| Crates.RunNone | day_05/part_1.py:71-90 | Once a line has failed, the whole run fails. |
| Crates.RunSkipped | day_05/part_1.py:89 | The numbering and separator lines change nothing. |
| Crates.RunDrawing | day_05/part_1.py:89-90 | The drawing lines build the layout read from the drawing. |
| Crates.RunMoves | day_05/part_1.py:77-78 | The move lines apply the crane moves in order. |
| Crates.StepMoveLine | day_05/part_1.py:48-53 | One move line moves `n` crates from stack `a - 1` to stack `b - 1`. |
| Crates.GetTopsOfPuzzle | day_05/part_1.py:56-96 | For a well-formed puzzle (drawing, numbering line, empty line, moves), the answer is the tops of the drawn layout after the moves. |
| Crates.LayoutExample | day_05/part_1.py:14-45 | The puzzle's drawing reads as the stacks `ZN`, `MCD`, `P`. |
| Marker.FirstMarkerIsFirst | day_06/part_1.py:15-34 | For a line with a marker, the answer is the end of the first run of four pairwise different characters. The answer is -1 exactly for the empty line, and an error exactly for other lines without a marker. |
| Marker.ScanWindow | day_06/part_1.py:19-27 | The inner loop's verdict is "different" exactly when a marker starts at `i`. It is an error exactly when the line ends inside a window of different characters. |
| Marker.DistinctSnoc | day_06/part_1.py:22-26 | Adding a character to a window of different characters keeps them different exactly when it is not in the set. |
| Marker.NumCharsToProcess | day_06/part_1.py:15-34 | The outer loop returns the answer for the line defined above. |
| Marker.NumCharsPerLine | day_06/part_1.py:37-46 | Gives one answer per line, in order, or an error exactly when some line has none. |
| Marker.ExampleLine | day_06/part_1.py:15-34 | The puzzle's first example line gives 5. |
| FileTree.ValidExtend | day_07/filesystem.py:45-48 | Stepping into an existing child of a node at a valid path gives a valid path to that child. |
| FileTree.AddUnder | day_07/filesystem.py:17-27 | Adding a child under a path keeps the root's name and kind, adds the size to the root's, and adds one child exactly when the path ends at the root. |
| FileTree.AddUnderEffect | day_07/filesystem.py:23-27 | Every other node keeps its name and kind. Its size grows by the added amount exactly when it is on the path from the root to the current directory. |
| FileTree.AddUnderNewChild | day_07/filesystem.py:80-81 | The new node is the current directory's last child. |
| FileTree.AddDirectory | day_07/filesystem.py:11-15 | Adding a directory fails exactly when there is no current directory. It keeps the current directory and the tree's paths valid. |
| FileTree.AddedDirectoryIsChild | day_07/filesystem.py:11-15 | After adding a new name, the current directory has a child of that name. |
| FileTree.AddFile | day_07/filesystem.py:17-27 | Adding a file fails exactly when there is no current directory. It keeps the current directory and the tree's paths valid. |
| FileTree.AddFileSizes | day_07/filesystem.py:17-27 | A new file's size is added to the current directory and every directory above it, and to nothing else. |
| FileTree.MoveUp | day_07/filesystem.py:29-31 | Moving up fails exactly when there is no current directory. Otherwise the parent becomes current, or none above the root, and the tree is unchanged. |
| FileTree.FirstChild | day_07/filesystem.py:44-48 | Returns the position of the first child with the name: it has the name and no earlier child does. |
| FileTree.MoveTo | day_07/filesystem.py:33-42 | The first `cd` creates the root and makes it current. Later it fails exactly when there is no current directory. An existing child becomes current. An unknown name is added as a child, and the current directory does not change. |
| FileTree.AddUnderConsistent | day_07/filesystem.py:17-27 | Adding a node whose size is its own total keeps every directory's size equal to the sum of its children's sizes. |
| FileTree.AddDirectoryValid | day_07/filesystem.py:11-15 | Adding a directory keeps the tree consistent and the current node a directory. |
| FileTree.AddFileValid | day_07/filesystem.py:17-27 | Adding a file keeps the tree consistent and the current node a directory. |
| FileTree.MoveUpValid | day_07/filesystem.py:29-31 | Moving up keeps the tree consistent and the current node a directory. |
| FileTree.MoveToValid | day_07/filesystem.py:33-42 | Moving into a directory keeps the tree consistent and the current node a directory. |
| FileTree.SizeIsFileTotal | day_07/filesystem.py:17-27 | In a consistent tree a directory's size is the total size of the files below it. |
| FileTree.Iterate | day_07/filesystem.py:59-64 | The stack-based iteration yields a node, then its children's subtrees from the last child to the first. |
| FileTree.PreorderCount | day_07/filesystem.py:59-64 | The iteration yields as many nodes as the tree has. |
| FileTree.PreorderVisits | day_07/filesystem.py:59-64 | The iteration yields the node at every valid path. |
| FileTree.SmallDirsOfTree | day_07/part_1_2.py:33-38 | The first part's sum over the iteration equals the sum over the tree of the directories below the threshold, whatever order the iteration uses. |
| FileTree.SmallestToFree | day_07/part_1_2.py:43-51 | The answer is the smallest directory size freeing enough space, or 70000000 when none does. On a disk not over-full the root qualifies, so the fallback never wins. |
| FileTree.SplitTwoWords | day_07/part_1_2.py:28 | Two words joined by one space split back into the two words. |
| FileTree.ParseSizeRoundTrip | day_07/part_1_2.py:29 | A size written in decimal reads back as itself. |
| FileTree.Step | day_07/part_1_2.py:16-29 | One line of the session keeps the current directory on the tree, or fails. |
| FileTree.StepValid | day_07/part_1_2.py:16-29 | Every line that does not fail keeps directory sizes equal to their files' totals, except a `cd` into a file. |
| FileTree.BuildFs | day_07/part_1_2.py:13-30 | A session that does not fail leaves the current directory on the tree. |
| FileTree.SessionExample | day_07/part_1_2.py:13-30 | The first four lines of the puzzle's example build a root of size 584 holding directory `a` and file `i`. |
| Packets.Cmp | day_13/part_1_2.py:20-54 | The comparison answers +1, 0 or -1. |
| Packets.CmpReflexive | day_13/part_1_2.py:20-54 | Every packet compares equal to itself. |
| Packets.CmpAntisymmetric | day_13/part_1_2.py:20-54 | Swapping the arguments negates the answer. |
| Packets.CmpItemPromotes | day_13/part_1_2.py:37-42 | Comparing two elements is comparing them as lists, with an integer promoted to a one-element list. |
| Packets.CmpFromLexicographic | day_13/part_1_2.py:29-54 | The answer is that of the first differing position, or else the length test: the shorter list comes first. |
| Packets.CmpItemTransitive | day_13/part_1_2.py:20-54 | "Not after" is transitive, and strictly so when either step is strict. |
| Packets.LeTotalPreorder | day_13/part_1_2.py:67-68 | The order the sort uses is a total preorder, so sorting by it is well defined. |
| Packets.CmpExamples | day_13/part_1_2.py:112-120 | The eight comparisons asserted in the main block. |
| Packets.RightOrderNumbers | day_13/part_1_2.py:77-83 | The numbers of the pairs in the right order, each once, ascending. |
| Packets.Part1 | day_13/part_1_2.py:77-83 | The answer is the sum of the numbers of the pairs in the right order. |
| Packets.AllPackets | day_13/part_1_2.py:88-93 | Returns the two dividers, then each pair's packets in input order. |
| Packets.DividersOrdered | day_13/part_1_2.py:88-89 | `[[2]]` sorts strictly before `[[6]]`. |
| Packets.SortedDividersInOrder | day_13/part_1_2.py:94 | In any sorted list every copy of `[[2]]` precedes every copy of `[[6]]`. |
| Packets.DecoderKeys | day_13/part_1_2.py:96-106 | Each key is set exactly when its divider occurs, at a 1-based position holding it. With the dividers in order, the first key is the last `[[2]]` and the second the first `[[6]]`. |
| Packets.SortedWithDividers | day_13/part_1_2.py:88-94 | The sorted packets are a sorted permutation of all packets and contain both dividers in order. |
| Packets.Part2 | day_13/part_1_2.py:86-107 | The packets are sorted, smallest first, as a permutation of the input, and packets that compare equal keep their input order, as Python's stable sort keeps them. The key is the product of the 1-based positions of the last `[[2]]` and the first `[[6]]`. |
| Packets.SortStable | day_13/part_1_2.py:94 | Sorting the packets keeps every group of packets that compare equal in input order. |
| Rucksacks.Index | day_03/part_1.py:17-24 | A letter's slot lies below 52 (`NUM_ITEMS`). Uppercase letters take exactly the first 26 slots. |
| Rucksacks.IndexRoundTrip | day_03/part_1.py:17-24 | Slots and letters are in one-to-one correspondence: a letter's slot gives back the letter, and a slot's letter gives back the slot. |
| Rucksacks.IndexInjective | day_03/part_1.py:17-24 | Two letters with the same slot are the same letter. |
| Rucksacks.Priority | day_03/part_1.py:27-32 | A priority lies in 1..52. Lowercase letters take exactly the priorities up to 26. |
| Rucksacks.PriorityOfIndex | day_03/part_1.py:17-32 | A letter's priority is its slot rotated by 26, plus 1. |
| Rucksacks.HasSlotIff | day_03/part_1.py:45-49 | A string marks a letter's slot exactly when the letter occurs in it. |
| Rucksacks.SharedPriorityIsFirst | day_03/part_1.py:54-60 | The rucksack's priority is 0 exactly when no letter of the second half occurs in the first half. Otherwise it is the priority of the first such letter of the second half. |
| Rucksacks.CountItems | day_03/part_1.py:41-49 | After counting the first `n` letters, a slot's count is positive exactly when its letter is among them. |
| Rucksacks.RucksackPriority | day_03/part_1.py:41-60 | The two loops over one rucksack add the priority of its first shared letter, or nothing. |
| Rucksacks.GetSumOfPriorities | day_03/part_1.py:35-62 | The result is the sum over the rucksacks of their shared-letter priorities. |
| Rucksacks.SumOfPrioritiesBound | day_03/part_1.py:35-62 | The sum is at most 52 per rucksack. |
| Rucksacks.BadgeIsFirstCommon | day_03/part_2.py:66-75 | A group's badge is 0 exactly when no letter of the third rucksack is in both others. Otherwise it is the priority of the first letter of the third that is. |
| Rucksacks.SumOfBadgesSnoc | day_03/part_2.py:45-75 | Each complete group of three adds its badge to the sum. |
| Rucksacks.SumOfBadgesIgnoresRest | day_03/part_2.py:60-64 | One or two rucksacks left over after the last full group add nothing. |
| Rucksacks.SumOfBadgesBound | day_03/part_2.py:39-77 | The sum is at most 52 per complete group. |
| Rucksacks.CommonSlot | day_03/part_2.py:60-64 | After the first two rucksacks are marked, a letter's count is 2 exactly when it occurs in both. |
| Rucksacks.MarkRucksack | day_03/part_2.py:60-64 | After marking a rucksack, a slot's count reaches the number of rucksacks marked in the group exactly when its letter is in all of them, and never exceeds it. |
| Rucksacks.FindBadge | day_03/part_2.py:66-75 | The search over the third rucksack finds the group's badge. |
| Rucksacks.ReadRucksack | day_03/part_2.py:45-75 | One pass of the loop body keeps the counts and the total in step with the rucksacks read so far, resetting at each new group. The total is the sum of the badges of the complete groups read so far. |
| Rucksacks.GetSumOfBadges | day_03/part_2.py:39-77 | The result is the sum of the badges of the complete groups of three. |
| Cpu.TrailingDigits | day_10/part_1.py:29 | The count of characters is that of the maximal run of digits ending the line. |
| Cpu.TrailingNumber | day_10/part_1.py:29 | The pattern matches exactly when the line ends in a digit; otherwise indexing the missing match raises. |
| Cpu.TrailingNumberOf | day_10/part_1.py:29 | A line whose end is a run of digits, preceded by a non-digit or by nothing, reads as the run's value, negated exactly when a minus sign precedes it. |
| Cpu.ParseInstruction | day_10/part_1.py:23-29 | A line is a `noop` exactly when it reads `noop`. Any other line is an `addx` of its trailing number, and it raises exactly when it does not end in a digit. |
| Cpu.ParseLine | day_10/part_1.py:23-29 | Reading the line written for an instruction gives the instruction back, negative `addx` values included. |
| Cpu.CycleCount | day_10/part_1.py:21-36 | A program runs one cycle per `noop` and two per `addx`. |
| Cpu.XDuringPrefix | day_10/part_1.py:21-36 | Running a prefix of a program gives a prefix of its `x` values. |
| Cpu.Next | day_10/part_1.py:21-36 | One more instruction adds one cycle (`noop`) or two (`addx`) at the current `x`. After it, `x` has grown by the `addx` value. |
| Cpu.AddXTiming | day_10/part_1.py:28-36 | During both cycles of an `addx` the register still holds its old value. The value changes only after the second cycle. |
| Cpu.SmallProgram | day_10/part_1.py:17-38 | `noop; addx 3; addx -5` runs 5 cycles with `x` = 1, 1, 1, 4, 4, and leaves `x` at -1. |
| Cpu.StrengthAt | day_10/part_1.py:13-14 | The strength at a cycle is `cycle * x` when the cycle is sampled, else 0. |
| Cpu.StrengthSnoc | day_10/part_1.py:24-26 | One more cycle adds its own strength. |
| Cpu.StrengthTwice | day_10/part_1.py:30-35 | An `addx` adds the strengths of two cycles at the same `x`. |
| Cpu.SignalStrength | day_10/part_1.py:17-38 | The result is the sum of `cycle * x` over the sampled cycles of the program's run. |
| Cpu.BeamAt | day_10/part_2.py:17-20 | The beam's pixel at cycle `n` is the `(n-1)`-th pixel in reading order of a 40-wide screen. |
| Cpu.LitSnoc | day_10/part_2.py:21-22 | One more cycle lights the beam's pixel exactly when the sprite covers it. |
| Cpu.LitTwice | day_10/part_2.py:36-39 | An `addx` lights the beam's pixels of its two cycles, both against the same `x`. |
| Cpu.ComputeCrt | day_10/part_2.py:25-41 | The lit pixels are exactly those of the program's run. |
| Cpu.DrawInstr | day_10/part_2.py:30-40 | One instruction of the loop keeps `x`, the cycle counter and the lit set in step with the run of the program prefix. |
| Cpu.LitIff | day_10/part_2.py:17-22 | A pixel is lit exactly when some cycle puts the beam on it while the three-pixel sprite centred on `x` covers its column. |
| Cpu.LitGrows | day_10/part_2.py:25-41 | Running more instructions never turns a pixel off. |
| Rope.Unit | day_09/part_1.py:14-23 | Each direction moves one cell along one axis. |
| Rope.MoveHead | day_09/part_1.py:14-23 | The head moves by the direction's unit step. |
| Rope.DragTail | day_09/part_1.py:26-35 | The dragged tail is one unit step behind the head. |
| Rope.AreDistantIffFar | day_09/part_1.py:38-42 | Knots are distant exactly when their Chebyshev distance is at least 2. |
| Rope.DragTailIsPreviousHead | day_09/part_1.py:51-53 | The dragged tail lands on the cell the head has just left. |
| Rope.Step2 | day_09/part_1.py:50-54 | Each unit step moves the head. |
| Rope.Step2KeepsTouching | day_09/part_1.py:50-54 | The tail touches the head after every step if it did before, and it moves at most one cell. |
| Rope.Trace2 | day_09/part_1.py:45-55 | Both knots start at the origin, and there is one state per unit step. |
| Rope.Trace2Touching | day_09/part_1.py:45-55 | The tail touches the head in every state. |
| Rope.Trace2Next | day_09/part_1.py:50-54 | Each further step extends the trace by one state. The visited set grows by that state's tail. |
| Rope.StepsLength | day_09/part_1.py:49-50 | The steps are one per unit of each instruction's count. |
| Rope.NumPositionsVisited | day_09/part_1.py:45-55 | The result is the number of distinct cells the tail occupies, the origin included, so it is at least 1. |
| Rope.VisitStep | day_09/part_1.py:51-54 | One pass of the inner loop keeps the knots and the visited set in step with the trace. |
| Rope.StartVisited | day_09/part_1.py:48 | The origin is always among the visited cells. |
| Rope.Start | day_09/part_2.py:10-11 | The rope starts as ten knots at the origin. |
| Rope.AdjacentFacts | day_09/part_2.py:16-20 | Adjacency is symmetric. It holds exactly at Chebyshev distance at most 1, which is exactly "not distant" in the first part's sense. |
| Rope.NewPosAsWritten | day_09/part_2.py:22-57 | As written, a knot adjacent to its follower moves to twice its position plus the unit step. A knot that is not moves onto its follower. |
| Rope.StretchFrom | day_09/part_2.py:48-57 | As written, the loop leaves knots before `i` alone and never writes the last knot. |
| Rope.StretchAsWritten | day_09/part_2.py:48-57 | As written, a stretch never moves the tail. |
| Rope.TraceAsWritten | day_09/part_2.py:68-74 | The as-written rope starts at the origin and keeps ten knots. |
| Rope.TailNeverMoves | day_09/part_2.py:48-57 | As written, the tail stays at the origin through any instructions. |
| Rope.TailCountAsWrittenIsOne | day_09/part_2.py:68-75 | As written, the count of tail positions is 1 for any non-empty instructions, and 0 for none. |
| Rope.RopeBreaksAsWritten | day_09/part_2.py:22-57 | After `R 2` the as-written rope has its head at (0, 3) and the next knot at (0, 1), which are not adjacent. |
| Rope.TwoStepsRight | day_09/part_2.py:71-73 | The as-written trace of `R 2` is two stretches from the start. |
| Rope.FirstStretchAsWritten | day_09/part_2.py:48-57 | As written, the first step right moves only the head, to (0, 1). |
| Rope.SecondStretchAsWritten | day_09/part_2.py:48-57 | As written, the second step right sends the head to (0, 3) and the next knot to (0, 1). |
| Rope.FollowTouches | day_09/part_2.py:48-57 | Corrected follow rule: a knot pulled after a neighbour that moved one cell ends adjacent to it, having moved at most one cell. |
| Rope.FollowIsDrag | day_09/part_1.py:51-53 | On a two-knot rope the corrected rule agrees with the first part's drag. |
| Rope.FollowChain | day_09/part_2.py:48-57 | The corrected pull keeps the number of knots. |
| Rope.Stretch | day_09/part_2.py:48-57 | The corrected stretch keeps the number of knots and moves the head by the unit step. |
| Rope.FollowChainTaut | day_09/part_2.py:48-57 | A taut chain stays taut when its leader moves at most one cell. |
| Rope.StretchTaut | day_09/part_2.py:48-57 | The corrected stretch keeps the rope taut. |
| Rope.Trace | day_09/part_2.py:68-74 | The corrected rope starts at the origin and keeps ten knots. |
| Rope.TraceTaut | day_09/part_2.py:68-74 | Every knot of the corrected rope touches the next one after every step. |
| Rope.ChainMovesAtMostOne | day_09/part_2.py:48-57 | In a corrected stretch no knot moves more than one cell. |
| Rope.TailStepsAtMostOne | day_09/part_2.py:68-75 | The corrected tail moves at most one cell per step. |
| Rope.TailsBound | day_09/part_2.py:68-75 | The tail occupies no more distinct cells than there are steps. |
| Rope.TailCount | day_09/part_2.py:68-75 | Corrected count: 0 for no steps, and otherwise between 1 and the number of steps. |
| Rope.FollowChainStill | day_09/part_2.py:48-57 | In the corrected pull, a taut chain whose leader has not moved stays where it is. |
| Rope.StretchStill | day_09/part_2.py:48-57 | From the start, one corrected step moves only the head. |
| Rope.TautSpan | day_09/part_2.py:48-57 | The two ends of a taut rope are at most one cell apart per link. |
| Rope.WalkDistance | day_09/part_1.py:14-23 | `n` unit steps in one direction end `n` cells from the origin along that direction's axis. |
| Rope.HeadMoves | day_09/part_2.py:68-74 | After `n` steps in one direction the corrected head has walked `n` cells that way. |
| Rope.TailStaysFirst | day_09/part_2.py:68-75 | After the first step the corrected tail is still at the origin. |
| Rope.TailLeaves | day_09/part_2.py:68-75 | After ten or more steps in one direction the corrected tail is no longer at the origin. |
| Rope.TailMoves | day_09/part_2.py:68-75 | An instruction of ten or more steps makes the corrected tail visit at least two cells, where the code as written counts one. |
| Forest.RunMax | day_08/part_1.py:39-45 | A skyline is never below its starting value of -1. |
| Forest.AboveRunMax | day_08/part_1.py:52-61 | A height exceeds the skyline exactly when it exceeds every tree before it. |
| Forest.RunMaxSnoc | day_08/part_1.py:52-53 | Each tree raises the skyline to the larger of the two. |
| Forest.RunMaxAttained | day_08/part_1.py:59-61 | A non-empty skyline is the height of one of its trees, and no tree is taller. |
| Forest.Above | day_08/part_1.py:52-54 | The trees above a cell are its column's earlier rows. |
| Forest.Below | day_08/part_1.py:79-89 | The trees below a cell are its column's later rows, read from the bottom. |
| Forest.ScanRow | day_08/part_1.py:47-61 | One row's left-to-right pass finds exactly the trees taller than the top skyline, and exactly those visible from the left. It raises the top skyline cell by cell and ends with the row's maximum. |
| Forest.LeftStep | day_08/part_1.py:59-61 | A tree is visible from the left exactly when it beats the running skyline. |
| Forest.ScanFromRight | day_08/part_1.py:66-74 | The right-to-left pass finds exactly the trees visible from the right. Stopping at the first tree as tall as the row's maximum loses none. |
| Forest.RightStep | day_08/part_1.py:66-69 | A tree is visible from the right exactly when it beats the running skyline from the right. |
| Forest.HiddenBehindTallest | day_08/part_1.py:73-74 | No tree left of a tallest tree is visible from the right. |
| Forest.TopSkyline | day_08/part_1.py:52-54 | With the top skyline of the rows above, the trees that beat it are exactly those visible from the top, and the updated skyline includes this row. |
| Forest.BottomSkyline | day_08/part_1.py:85-89 | The same holds from the bottom. |
| Forest.TopLeftRightRow | day_08/part_1.py:32-74 | Each row of the first pass adds exactly its trees seen from the top, left or right. |
| Forest.BottomRow | day_08/part_1.py:79-89 | Each row of the second pass adds exactly its trees seen from the bottom. |
| Forest.AllSeen | day_08/part_1.py:29-91 | The two passes together cover exactly the trees visible from some side. |
| Forest.TopDownPass | day_08/part_1.py:32-74 | The first pass collects exactly the trees seen from the top, left or right. |
| Forest.BottomUpPass | day_08/part_1.py:79-89 | The second pass adds exactly the trees seen from the bottom. |
| Forest.NumTreesSeen | day_08/part_1.py:22-91 | The result is the number of trees visible from at least one side. |
| Forest.VisibleAtMostAll | day_08/part_1.py:22-91 | At most every tree is visible. |
| Forest.BorderVisible | day_08/part_1.py:22-91 | Every tree on the border is visible. |
| Scenic.RayUp | day_08/part_2.py:23-32 | The view up runs from the row above to the top edge. |
| Scenic.RayDown | day_08/part_2.py:34-42 | The view down runs from the row below to the bottom edge. |
| Scenic.RayLeft | day_08/part_2.py:44-52 | The view left runs from the column before to the left edge. |
| Scenic.RayRight | day_08/part_2.py:54-62 | The view right runs from the column after to the right edge. |
| Scenic.ViewDistance | day_08/part_2.py:34-62 | A viewing distance counts every tree up to and including the first one at least as tall, or to the edge. It lies between 1 and the ray's length. |
| Scenic.UpCountAsWritten | day_08/part_2.py:23-32 | As written, the upward count leaves out a blocking tree that is strictly taller. |
| Scenic.UpCount | day_08/part_2.py:23-32 | The upward count never exceeds the viewing distance. It equals it exactly when the count is the intended one or the tree that ends the walk is no taller than the viewer. |
| Scenic.ScenicScore | day_08/part_2.py:13-64 | With the intended count, every interior score is at least 1. As written, a score is 0 exactly when the tree just above is taller. |
| Scenic.Positions | day_08/part_2.py:77-78 | The positions visited are exactly the interior cells of the given bounds. |
| Scenic.Scores | day_08/part_2.py:77-81 | The scores are computed position by position. They exist exactly when every position is interior, since otherwise a walk indexes past the grid. |
| Scenic.MaxFrom | day_08/part_2.py:79-81 | The running best is at least every score, and it is one of them or the start value. |
| Scenic.BestOf | day_08/part_2.py:79-81 | The running best never drops below its start. |
| Scenic.BestOfIsBest | day_08/part_2.py:67-82 | The search succeeds exactly when every position is interior. It then returns the largest score, or the start value when there is none. |
| Scenic.HighestAsWrittenOnSquare | day_08/part_2.py:67-82 | On a square grid the as-written search succeeds and returns the largest as-written score, or -1. |
| Scenic.HighestAsWritten | day_08/part_2.py:67-82 | The search as written succeeds exactly when the grid is non-empty and either square or with fewer than three rows or columns. Otherwise some visited position is on or past the border, and a walk from it indexes past the grid. |
| Scenic.SwappedVisitsInterior | day_08/part_2.py:76-80 | With the swapped bounds every position visited is interior exactly when the grid is square or has fewer than three rows or columns. |
| Scenic.SwappedBoundsFail | day_08/part_2.py:76 | On 3 rows of 4 trees the swapped bounds reach a row outside the grid, which raises. |
| Scenic.Highest | day_08/part_2.py:67-82 | Corrected search: the best intended score over the interior. It is -1 exactly when there is no interior cell. |
| Scenic.HighestPositive | day_08/part_2.py:67-82 | The corrected search never fails, and returns -1 only for grids with fewer than three rows or columns. |
| Scenic.HighestOver | day_08/part_2.py:67-82 | With the right bounds, the search succeeds under either count and returns the best score over the interior. |
| Scenic.AllInterior | day_08/part_2.py:77-78 | With the right bounds every position visited is interior. |
| Scenic.PositionIndex | day_08/part_2.py:77-78 | Every interior cell is visited. |
| Scenic.TallerAboveScoresZero | day_08/part_2.py:23-32 | On `[[9,9,9],[9,5,9],[9,9,9]]` the centre scores 0 as written and 1 as intended. |
| Monkeys.ThrowOf | day_11/monkeys.py:124-131 | An inspected item's worry is the operation's result, relaxed. It goes to the true destination exactly when the divisor divides the relaxed worry. |
| Monkeys.Throws | day_11/monkeys.py:121-132 | A turn produces one throw per held item, in queue order. It raises exactly when the divisor is 0 and there is an item. |
| Monkeys.Deliver | day_11/monkeys.py:83-84 | Delivery succeeds exactly when every destination names a monkey, and keeps the number of monkeys. |
| Monkeys.DeliverArrivals | day_11/monkeys.py:83-84 | Each monkey's queue gains exactly the worry levels thrown to it, in throwing order, and nothing else about it changes. |
| Monkeys.Turn | day_11/monkeys.py:81-84 | A turn keeps the number of monkeys. Its queues are stated by `Monkeys.TurnArrivals`. |
| Monkeys.TurnArrivals | day_11/monkeys.py:81-84 | A turn raises exactly when the thrower's test raises or a throw names no monkey. Otherwise the thrower's queue is emptied and every queue gains the levels thrown to it, in order. |
| Monkeys.Rounds | day_11/monkeys.py:78-84 | Rounds keep the number of monkeys, and once a round raises every later round count fails too. |
| Monkeys.RoundsAdd | day_11/monkeys.py:78-84 | Playing `a` rounds and then `b` more is playing `a + b` rounds. |
| Monkeys.LevelOfBusiness | day_11/monkeys.py:95-108 | The product of no counts is 1. With one factor, the level is the largest inspection count. |
| Monkeys.TopCount | day_11/monkeys.py:95-108 | The first count after the descending sort is one of the counts, and no count exceeds it. |
| Monkeys.DeliverFacts | day_11/monkeys.py:83-84 | Delivery succeeds when every destination names a monkey. It keeps the notes and the inspection counts, and adds one item per throw. |
| Monkeys.TurnFacts | day_11/monkeys.py:81-84 | A turn of a playable troop succeeds. It keeps the notes and the number of items. It raises the thrower's count by the items it held and leaves the others' counts alone. |
| Monkeys.TurnsFromFacts | day_11/monkeys.py:81-84 | A round's turns keep the notes and the number of items, and never lower a count. |
| Monkeys.RoundsFacts | day_11/monkeys.py:78-84 | Any number of rounds of a playable troop succeed, keep the notes and the number of items, and never lower a count. |
| Monkeys.LevelIsTopCounts | day_11/monkeys.py:95-108 | The level of business is the product of the `k` largest counts: the factors and the other counts together are all the counts, and no other count exceeds a factor. |
| Monkeys.LevelIgnoresOrder | day_11/monkeys.py:95-108 | The level depends only on the multiset of counts. |
| Monkeys.Calm | day_11/part_1.py:14-15 | The first part's relaxation floors a third of the worry. |
| Monkeys.DivisorProductFacts | day_11/part_2.py:36-38 | The product of the divisors is positive, and every divisor divides it. |
| Monkeys.DivisorProductOfSameNotes | day_11/part_2.py:36-38 | The product is the same after any rounds, because the notes do not change. |
| Monkeys.ModBy | day_11/part_2.py:30-39 | The second part's relaxation lands in [0, product), leaves a worry already in that range unchanged, and agrees with the worry modulo the product. |
| Monkeys.ModByRange | day_11/part_2.py:39 | The second part's relaxation keeps worry in [0, product). |
| Monkeys.ApplyReduced | day_11/monkeys.py:126 | An operation on a reduced worry agrees, modulo the product, with the operation on the full worry. |
| Monkeys.ThrowTracks | day_11/monkeys.py:127-131 | Items that agree modulo the product go to the same monkey, and still agree after reduction. |
| Monkeys.DeliverTracks | day_11/monkeys.py:83-84 | Delivering matching throws keeps the reduced troop tracking the full one. |
| Monkeys.TurnTracks | day_11/monkeys.py:81-84 | A turn keeps the reduced troop tracking the full one, and succeeds in both or neither. |
| Monkeys.TurnsFromTracks | day_11/monkeys.py:81-84 | A round's turns keep the tracking. |
| Monkeys.ReductionKeepsCounts | day_11/monkeys.py:78-84 | Over any number of rounds, reducing modulo a common multiple of the divisors changes no inspection count. Failure happens in both runs or neither. |
| Monkeys.SecondPartMatchesUnreduced | day_11/part_2.py:30-45 | The second part's level of business equals what the unreduced simulation would give. |

## Left out

- Reading the input files: every loader and line generator, including the seek-based reverse line reader of day 8 (day_08/part_1.py:13-19). The model takes the lines, or the values on them, as parameters.
- The parsing of day 15's sensor lines, day 11's monkey notes (day_11/monkeys.py:35-76) and day 13's packets. Packets are read with `eval` (day_13/part_1_2.py:13) and are modelled as the `Item` datatype of numbers and lists.
- `eval` of a monkey's operation line (day_11/monkeys.py:126). It is modelled as the three operations `old + c`, `old * c` and `old * old` that the notes use.
- The `ValueError` branch of `cmp` (day_13/part_1_2.py:43-45). It is unreachable for a value that is always a number or a list.
- Printing and rendering: `draw_crt` (day_10/part_2.py:44-49), `__str__` and `_traverse` (day_07/filesystem.py, day_11/monkeys.py:17-29), `show_progress` (day_11/monkeys.py:86-93) and the prints of the `main` functions. The model returns the values they print.
- The `math.inf` sentinels of the bounding boxes (day_15/part_1_2.py:64, day_15/part_1_inefficient.py:37). They are floats, so the bounding-box members require a non-empty list of sensors instead.
- The numeric answers on the puzzles' own inputs, asserted in the `main` functions of day 15 and day 13. The input files are not part of this model; the statements' small examples are proved where they are given.
- day_12/part_1.py, which cannot run: it adds an int to a tuple and updates a missing dictionary key.
- day_14/part_1.py, which does not parse: its loader returns nothing and `move_grain` is empty.
- day_11/part_1.py beyond its relaxation, which is modelled as `Monkeys.Calm`. The rest is a driver around the shared simulation.
- The mutation of Python objects: in-place sorts, deques, `array` buffers and the monkey and filesystem objects. The model works on immutable values and returns the new state.
- Python's exception types: every exception the modelled code can raise becomes the same `None`. The exceptions are the members that exclude some of the source's bad inputs by a precondition (rucksacks of letters only, a rectangular grid) instead of modelling them: Rucksacks.CountItems, Rucksacks.GetSumOfPriorities, Rucksacks.GetSumOfBadges, Forest.NumTreesSeen and Scenic.Highest, each with its own line below.
- Rucksacks.CountItems: counts are unbounded. The source's signed-byte array (day_03/part_1.py:41) raises once a letter occurs more than 127 times in a first half.
- Rucksacks.GetSumOfPriorities: requires rucksacks of letters only. The source's tests `letter <= 'Z'` (day_03/part_1.py:19-23 and 28-31) let other characters through: `[` to `` ` `` get the slots of `U` to `Z` (20 to 25) and priorities from -5 to 0, so the source silently miscounts; a character below `A` gets a negative slot, which Python reads from the end of the array or rejects below -52; a character above `z` gets a slot past 51 and raises. The group counts of day_03/part_2.py never exceed 2, so no overflow arises there.
- Rucksacks.GetSumOfBadges: requires rucksacks of letters only, for the same reason.
- Calories.TopThreeCalories: totals are unbounded integers. The source's unsigned `array('L')` (day_01/part_2.py:32) raises on a total that does not fit in 64 bits. A negative total never reaches the array, since only a total above `top_3[0]`, which is at least 0, is stored (day_01/part_2.py:39-41).
- Forest.NumTreesSeen: requires a rectangular grid of heights. A ragged file makes the source index past the first row's skyline or skip cells; the puzzle's forests are rectangular.
- Scenic.Highest: requires a rectangular grid, for the same reason. For an empty grid it returns -1, where the source's `len(forest[0])` raises.
- FileTree.ParseSize: reads only runs of decimal digits. Python's `int` also accepts a sign, surrounding blanks and underscores; such sizes are an error in the model.
- Cpu.ParseInstruction: a line other than `noop` is read as an `addx` from its trailing number, as the source does. The model does not check the `addx` word itself.
- Monkeys.Rounds: destinations are natural numbers, as the source's `\d+` pattern reads them. The source would treat a negative destination as counting from the end of the list.
- Digits.IsDigit: only the ASCII digits `0`-`9` count as digits. Python's `\d` and `int` also accept the other Unicode decimal digits, which the model treats as non-digits.
- Crates.Numbers: reads only ASCII digit runs, for the same reason as Digits.IsDigit; the puzzle's move lines hold no other digits.
- Cpu.TrailingNumber: reads only ASCII digit runs, for the same reason as Digits.IsDigit; a line ending in another Unicode digit is an error in the model.

## Findings

| source | as written | input that shows it | evidently intended | confidence | as-written member | corrected member |
|---|---|---|---|---|---|---|
| day_09/part_2.py:48-57 | The loop runs over knots 0..8 and never writes knot 9, the tail. A knot touching its follower moves to twice its own position plus a step, because `_compute_vector_from_direction` returns a position and `_compute_new_pos` adds it. | Any instructions with at least one step: the tail stays at (0, 0), so the count is 1 (0 for no steps). After `R 2` the head is at (0, 3) and knot 1 at (0, 1), which no longer touch. | The head steps once and every later knot follows the one ahead of it, so the rope stays taut and the tail moves. | high (not executed) | Rope.TailCountAsWrittenIsOne, Rope.RopeBreaksAsWritten | Rope.Stretch, Rope.TraceTaut, Rope.TailMoves |
| day_08/part_2.py:23-32 | The upward walk counts a tree only when it is no taller than the house (`<=`), so a strictly taller tree that blocks the view is not counted. The other three walks count the blocking tree. | `[[9,9,9],[9,5,9],[9,9,9]]`: the centre scores 0 instead of 1. | The upward distance counts the blocking tree as the other three directions do. | high (not executed) | Scenic.UpCountAsWritten, Scenic.TallerAboveScoresZero | Scenic.ViewDistance, Scenic.Highest |
| day_08/part_2.py:76 | `num_cols, num_rows = len(forest), len(forest[0])` swaps the two counts, so rows are bounded by the width and columns by the height. | 3 rows of 4 trees: the loop reaches row 2, whose downward walk indexes row 3, which does not exist. | Rows are bounded by the number of lines and columns by their length. | high (not executed) | Scenic.SwappedBoundsFail, Scenic.HighestAsWritten | Scenic.Highest |

=== FILE: calories.dfy ===
/** Day 1 (day_01/part_1.py, day_01/part_2.py): each elf's food is a run of
    calorie lines ended by an empty line. The first part finds the largest
    total of one elf; the second the sum of the three largest totals, kept
    in a sorted array of three that starts at zeros. */
module Calories {

  /** A line, already read: an empty line or a number of calories. */
  datatype Entry = Separator | Food(calories: int)

  /** The totals of the groups closed by an empty line, in order. */
  function Closed(entries: seq<Entry>): seq<int>
  {
    if |entries| == 0 then []
    else
      var init := entries[..|entries| - 1];
      match entries[|entries| - 1]
      case Separator => Closed(init) + [Open(init)]
      case Food(_) => Closed(init)
  }

  /** The total of the group still open after the last empty line. */
  function Open(entries: seq<Entry>): int
  {
    if |entries| == 0 then 0
    else
      var init := entries[..|entries| - 1];
      match entries[|entries| - 1]
      case Separator => 0
      case Food(n) => Open(init) + n
  }

  function Sum(xs: seq<int>): int
  {
    if |xs| == 0 then 0 else Sum(xs[..|xs| - 1]) + xs[|xs| - 1]
  }

  predicate NoSeparator(entries: seq<Entry>)
  {
    forall k :: 0 <= k < |entries| ==> entries[k].Food?
  }

  function Calories(entries: seq<Entry>): (cs: seq<int>)
    requires NoSeparator(entries)
    ensures |cs| == |entries| && forall k :: 0 <= k < |entries| ==> cs[k] == entries[k].calories
  {
    seq(|entries|, k requires 0 <= k < |entries| => entries[k].calories)
  }

  /** Lines after the last empty line close no group: a last group with no
      empty line after it is left out. */
  lemma {:induction false} UnterminatedIgnored(entries: seq<Entry>, tail: seq<Entry>)
    requires NoSeparator(tail)
    ensures Closed(entries + tail) == Closed(entries)
    ensures Open(entries + tail) == Open(entries) + Sum(Calories(tail))
  {
    if |tail| > 0 {
      var init := tail[..|tail| - 1];
      UnterminatedIgnored(entries, init);
      assert (entries + tail)[..|entries + tail| - 1] == entries + init;
      assert Calories(tail)[..|tail| - 1] == Calories(init);
    } else {
      assert entries + tail == entries;
    }
  }

  /** An empty line closes the group before it with the sum of its lines. */
  lemma ClosedBySeparator(entries: seq<Entry>, group: seq<Entry>)
    requires NoSeparator(group)
    ensures Closed(entries + [Separator] + group + [Separator]) == Closed(entries) + [Open(entries), Sum(Calories(group))]
  {
    var e := entries + [Separator];
    UnterminatedIgnored(e, group);
    assert (e + group + [Separator])[..|e + group|] == e + group;
    assert e[..|entries|] == entries;
    assert Open(e) == 0;
  }

  /** One more line, as both parts read it. */
  lemma Append(seen: seq<Entry>, e: Entry)
    ensures Closed(seen + [e]) == if e.Separator? then Closed(seen) + [Open(seen)] else Closed(seen)
    ensures Open(seen + [e]) == if e.Separator? then 0 else Open(seen) + e.calories
  {
    assert (seen + [e])[..|seen|] == seen;
  }

  // ---------------------------------------------------------------------
  // Part 1
  // ---------------------------------------------------------------------

  /** The next step of both loops: what a line does to the closed and open
      groups. */
  lemma Next(entries: seq<Entry>, k: nat)
    requires k < |entries|
    ensures Closed(entries[..k + 1]) == if entries[k].Separator? then Closed(entries[..k]) + [Open(entries[..k])] else Closed(entries[..k])
    ensures Open(entries[..k + 1]) == if entries[k].Separator? then 0 else Open(entries[..k]) + entries[k].calories
  {
    assert entries[..k + 1][..k] == entries[..k];
  }

  /** `get_max_calories`: the largest closed total, or 0 if no group was
      closed or all closed totals are negative. */
  method MaxCalories(entries: seq<Entry>) returns (m: int)
    ensures m >= 0
    ensures forall k :: 0 <= k < |Closed(entries)| ==> Closed(entries)[k] <= m
    ensures m == 0 || m in Closed(entries)
  {
    m := 0;
    var current := 0;
    var n := 0;
    while n < |entries|
      invariant 0 <= n <= |entries|
      invariant current == Open(entries[..n])
      invariant m >= 0 && forall k :: 0 <= k < |Closed(entries[..n])| ==> Closed(entries[..n])[k] <= m
      invariant m == 0 || m in Closed(entries[..n])
    {
      Next(entries, n);
      match entries[n] {
        case Food(c) =>
          current := current + c;
        case Separator =>
          if current > m {
            m := current;
          }
          current := 0;
      }
      n := n + 1;
    }
    assert entries[..n] == entries;
  }

  // ---------------------------------------------------------------------
  // Part 2
  // ---------------------------------------------------------------------

  const TopSize: nat := 3

  predicate Ascending(top: seq<int>)
  {
    forall a, b :: 0 <= a < b < |top| ==> top[a] <= top[b]
  }

  /** The values held by the array of three. */
  function Values(top: seq<int>): multiset<int>
    requires |top| == TopSize
  {
    multiset{top[0], top[1], top[2]}
  }

  /** `top` holds the largest values of `pool`: the pool is the values of
      `top` plus `rest`, and nothing in `rest` is above the smallest of
      `top`. */
  predicate Largest(top: seq<int>, rest: multiset<int>, pool: multiset<int>)
  {
    |top| == TopSize && Ascending(top) && pool == Values(top) + rest &&
    forall x :: x in rest ==> x <= top[0]
  }

  /** The update of `top_3` for a closed total: replace the smallest if the
      total is strictly greater, then float it up to keep the order. */
  method Update(top: seq<int>, total: int) returns (top': seq<int>)
    requires |top| == TopSize && Ascending(top)
    ensures |top'| == TopSize && Ascending(top')
    ensures total <= top[0] ==> top' == top
    ensures total > top[0] ==> Values(top') + multiset{top[0]} == Values(top) + multiset{total}
    ensures top'[0] >= top[0]
  {
    top' := top;
    if total > top'[0] {
      var a, b, c := top[0], top[1], top[2];
      assert a <= b <= c;
      top' := FloatUp(top'[0 := total]);
      if total <= b {
        LandsFirst(a, b, c, total);
      } else if total <= c {
        LandsSecond(a, b, c, total);
      } else {
        LandsThird(a, b, c, total);
      }
    }
  }

  /** The swap loop: the first value moves right past every smaller one. */
  method FloatUp(top: seq<int>) returns (top': seq<int>)
    requires |top| == TopSize && top[1] <= top[2]
    ensures top[0] <= top[1] ==> top' == top
    ensures top[1] < top[0] <= top[2] ==> top' == [top[1], top[0], top[2]]
    ensures top[2] < top[0] ==> top' == [top[1], top[2], top[0]]
  {
    var t, b, c := top[0], top[1], top[2];
    top' := top;
    var i := 1;
    while i < |top'| && top'[i - 1] > top'[i]
      invariant 1 <= i <= TopSize && |top'| == TopSize
      invariant i == 1 ==> top' == [t, b, c]
      invariant i == 2 ==> top' == [b, t, c] && b < t
      invariant i == 3 ==> top' == [b, c, t] && c < t
    {
      top' := top'[i := top'[i - 1]][i - 1 := top'[i]];
      i := i + 1;
    }
  }

  /** The total stays in front of the two larger values. */
  lemma LandsFirst(a: int, b: int, c: int, t: int)
    requires a <= b <= c && a < t <= b
    ensures Ascending([t, b, c])
    ensures multiset{t, b, c} + multiset{a} == multiset{a, b, c} + multiset{t}
  {
    forall x
      ensures (multiset{t, b, c} + multiset{a})[x] == (multiset{a, b, c} + multiset{t})[x]
    {
    }
  }

  /** The total passes the middle value. */
  lemma LandsSecond(a: int, b: int, c: int, t: int)
    requires a <= b <= c && b < t <= c
    ensures Ascending([b, t, c])
    ensures multiset{b, t, c} + multiset{a} == multiset{a, b, c} + multiset{t}
  {
    forall x
      ensures (multiset{b, t, c} + multiset{a})[x] == (multiset{a, b, c} + multiset{t})[x]
    {
    }
  }

  /** The total passes both values and becomes the largest. */
  lemma LandsThird(a: int, b: int, c: int, t: int)
    requires a <= b <= c && c < t
    ensures Ascending([b, c, t])
    ensures multiset{b, c, t} + multiset{a} == multiset{a, b, c} + multiset{t}
  {
    forall x
      ensures (multiset{b, c, t} + multiset{a})[x] == (multiset{a, b, c} + multiset{t})[x]
    {
    }
  }

  /** The invariant of the second part: the array holds the three largest of
      the closed totals padded with three zeros. */
  lemma UpdateKeepsLargest(top: seq<int>, rest: multiset<int>, pool: multiset<int>, total: int, top': seq<int>)
    requires Largest(top, rest, pool)
    requires total <= top[0] ==> top' == top
    requires |top'| == TopSize && Ascending(top') && top'[0] >= top[0]
    requires total > top[0] ==> Values(top') + multiset{top[0]} == Values(top) + multiset{total}
    ensures Largest(top', rest + multiset{if total > top[0] then top[0] else total}, pool + multiset{total})
  {
    var rest' := rest + multiset{if total > top[0] then top[0] else total};
    forall x
      ensures (pool + multiset{total})[x] == (Values(top') + rest')[x]
    {
      if total > top[0] {
        assert (Values(top') + multiset{top[0]})[x] == (Values(top) + multiset{total})[x];
      }
    }
  }

  /** The three zeros `top_3` starts from, with the closed totals. */
  function Pool(entries: seq<Entry>): multiset<int>
  {
    multiset{0, 0, 0} + multiset(Closed(entries))
  }

  /** An empty line adds the open total to the pool, and the updated array
      holds the three largest of the new pool. */
  lemma Closes(seen: seq<Entry>, top: seq<int>, rest: multiset<int>, top': seq<int>)
    requires Largest(top, rest, Pool(seen))
    requires Open(seen) <= top[0] ==> top' == top
    requires |top'| == TopSize && Ascending(top') && top'[0] >= top[0]
    requires Open(seen) > top[0] ==> Values(top') + multiset{top[0]} == Values(top) + multiset{Open(seen)}
    ensures Largest(top', rest + multiset{if Open(seen) > top[0] then top[0] else Open(seen)}, Pool(seen + [Separator]))
  {
    Append(seen, Separator);
    assert Pool(seen + [Separator]) == Pool(seen) + multiset{Open(seen)};
    UpdateKeepsLargest(top, rest, Pool(seen), Open(seen), top');
  }

  /** One line of `get_top_three_max_calories`: a number adds to the open
      total; an empty line offers the total to the array and starts a new
      group. */
  method ReadLine(entries: seq<Entry>, n: nat, top: seq<int>, ghost rest: multiset<int>, current: int)
    returns (top': seq<int>, ghost rest': multiset<int>, current': int)
    requires n < |entries|
    requires current == Open(entries[..n]) && Largest(top, rest, Pool(entries[..n]))
    ensures current' == Open(entries[..n + 1]) && Largest(top', rest', Pool(entries[..n + 1]))
  {
    ghost var seen := entries[..n];
    var e := entries[n];
    assert entries[..n + 1] == seen + [e];
    if e.Separator? {
      top' := Update(top, current);
      rest' := rest + multiset{if current > top[0] then top[0] else current};
      Closes(seen, top, rest, top');
      current' := 0;
    } else {
      Append(seen, e);
      top', rest', current' := top, rest, current + e.calories;
    }
  }

  /** `get_top_three_max_calories`: the sum of the three largest closed
      totals, zeros filling in for missing ones. */
  method TopThreeCalories(entries: seq<Entry>) returns (total: int)
    ensures exists top, rest :: Largest(top, rest, Pool(entries)) && total == top[0] + top[1] + top[2]
  {
    var top := [0, 0, 0];
    ghost var rest := multiset{};
    var current := 0;
    var n := 0;
    while n < |entries|
      invariant 0 <= n <= |entries|
      invariant current == Open(entries[..n])
      invariant Largest(top, rest, Pool(entries[..n]))
    {
      top, rest, current := ReadLine(entries, n, top, rest, current);
      n := n + 1;
    }
    assert entries[..n] == entries;
    total := top[0] + top[1] + top[2];
  }
}

=== FILE: camp_ranges.dfy ===
/** Day 4 (day_04/part_1.py, day_04/part_2.py): pairs of section
    assignments, each a closed range of section numbers, and the counts of
    pairs where one range contains the other or where the two overlap. */
module CampRanges {
  import opened Ranges

  /** One line of the input: the assignments of the two elves of a pair. */
  datatype Assignment = Assignment(first: Range, second: Range)

  /** `ranges_fully_overlap`. */
  predicate FullyOverlap(a: Range, b: Range)
  {
    (a.lo <= b.lo && a.hi >= b.hi) || (b.lo <= a.lo && b.hi >= a.hi)
  }

  /** `ranges_overlap`: A.start <= B.end and B.start <= A.end. */
  predicate Overlap(a: Range, b: Range)
  {
    a.lo <= b.hi && b.lo <= a.hi
  }

  /** Every section of `b` is a section of `a`. */
  ghost predicate Contains(a: Range, b: Range)
  {
    forall x :: In(x, b) ==> In(x, a)
  }

  /** Full overlap is containment of the section sets, one way or the other. */
  lemma FullyOverlapIffContains(a: Range, b: Range)
    requires WellFormed(a) && WellFormed(b)
    ensures FullyOverlap(a, b) <==> Contains(a, b) || Contains(b, a)
  {
    if Contains(a, b) {
      assert In(b.lo, b) && In(b.hi, b);
    }
    if Contains(b, a) {
      assert In(a.lo, a) && In(a.hi, a);
    }
  }

  /** Full overlap does not depend on the order of the pair, and a range
      fully overlaps itself. */
  lemma FullyOverlapSymmetric(a: Range, b: Range)
    ensures FullyOverlap(a, b) == FullyOverlap(b, a)
    ensures FullyOverlap(a, a)
  {
  }

  lemma OverlapSymmetric(a: Range, b: Range)
    ensures Overlap(a, b) == Overlap(b, a)
  {
  }

  /** Two well-formed ranges overlap exactly when they share a section. */
  lemma OverlapIffShared(a: Range, b: Range)
    requires WellFormed(a) && WellFormed(b)
    ensures Overlap(a, b) <==> exists x :: In(x, a) && In(x, b)
  {
    if Overlap(a, b) {
      var x := Max(a.lo, b.lo);
      assert In(x, a) && In(x, b);
    }
  }

  /** Full overlap is the stronger of the two tests. */
  lemma FullyOverlapImpliesOverlap(a: Range, b: Range)
    requires WellFormed(a) && WellFormed(b)
    ensures FullyOverlap(a, b) ==> Overlap(a, b)
  {
  }

  /** The positions of the pairs where one range contains the other. */
  ghost function FullyOverlapping(pairs: seq<Assignment>, n: int): set<int>
  {
    set i | 0 <= i < n && i < |pairs| && FullyOverlap(pairs[i].first, pairs[i].second)
  }

  /** The positions of the pairs whose ranges overlap. */
  ghost function Overlapping(pairs: seq<Assignment>, n: int): set<int>
  {
    set i | 0 <= i < n && i < |pairs| && Overlap(pairs[i].first, pairs[i].second)
  }

  /** `get_num_of_fully_overlaps`. */
  method NumFullyOverlaps(pairs: seq<Assignment>) returns (res: nat)
    ensures res == |FullyOverlapping(pairs, |pairs|)|
    ensures res <= |pairs|
  {
    res := 0;
    var i := 0;
    while i < |pairs|
      invariant 0 <= i <= |pairs|
      invariant res == |FullyOverlapping(pairs, i)| && res <= i
    {
      if FullyOverlap(pairs[i].first, pairs[i].second) {
        assert FullyOverlapping(pairs, i + 1) == FullyOverlapping(pairs, i) + {i};
        res := res + 1;
      } else {
        assert FullyOverlapping(pairs, i + 1) == FullyOverlapping(pairs, i);
      }
      i := i + 1;
    }
  }

  /** `get_num_of_overlaps`. */
  method NumOverlaps(pairs: seq<Assignment>) returns (res: nat)
    ensures res == |Overlapping(pairs, |pairs|)|
    ensures res <= |pairs|
  {
    res := 0;
    var i := 0;
    while i < |pairs|
      invariant 0 <= i <= |pairs|
      invariant res == |Overlapping(pairs, i)| && res <= i
    {
      if Overlap(pairs[i].first, pairs[i].second) {
        assert Overlapping(pairs, i + 1) == Overlapping(pairs, i) + {i};
        res := res + 1;
      } else {
        assert Overlapping(pairs, i + 1) == Overlapping(pairs, i);
      }
      i := i + 1;
    }
  }

  /** With well-formed ranges, every fully overlapping pair is also counted
      by the second part, so its answer is never the smaller. */
  lemma FullyCountedAmongOverlaps(pairs: seq<Assignment>)
    requires forall i :: 0 <= i < |pairs| ==> WellFormed(pairs[i].first) && WellFormed(pairs[i].second)
    ensures FullyOverlapping(pairs, |pairs|) <= Overlapping(pairs, |pairs|)
    ensures |FullyOverlapping(pairs, |pairs|)| <= |Overlapping(pairs, |pairs|)|
  {
    var f := FullyOverlapping(pairs, |pairs|);
    var o := Overlapping(pairs, |pairs|);
    assert f <= o;
    assert |o| == |f| + |o - f|;
  }
}

=== FILE: cpu.dfy ===
/** Day 10 (day_10/part_1.py, day_10/part_2.py): a CPU with one register `x`
    and two instructions, `noop` (one cycle) and `addx v` (two cycles, after
    which `x` grows by `v`); the signal strength samples `cycle * x` at
    chosen cycles, and the CRT lights the pixel the beam is on whenever the
    three-pixel sprite centred on `x` covers it. */
module Cpu {
  import opened Outcomes
  import opened Digits

  datatype Instr = Noop | AddX(v: int)

  // ---------------------------------------------------------------------
  // Reading an instruction line
  // ---------------------------------------------------------------------

  /** The length of the run of digits that ends the line. */
  function TrailingDigits(s: string): (k: nat)
    ensures k <= |s|
    ensures forall i :: |s| - k <= i < |s| ==> IsDigit(s[i])
    ensures k < |s| ==> !IsDigit(s[|s| - k - 1])
  {
    if |s| == 0 || !IsDigit(s[|s| - 1]) then 0 else 1 + TrailingDigits(s[..|s| - 1])
  }

  /** `re.search(r'-?\d+$', line)[0]` read with `int`: the digits ending the
      line, negated when a minus sign precedes them; with no trailing digit
      there is no match and indexing it raises. */
  function TrailingNumber(s: string): (v: Option<int>)
    ensures v.Some? <==> |s| > 0 && IsDigit(s[|s| - 1])
  {
    var k := TrailingDigits(s);
    if k == 0 then None
    else
      var n: int := DigitsValue(s[|s| - k..]);
      if k < |s| && s[|s| - k - 1] == '-' then Some(-n) else Some(n)
  }

  /** A line is `noop` exactly, or else it is taken for an `addx`. */
  function ParseInstruction(line: string): (r: Option<Instr>)
    ensures r == Some(Noop) <==> line == "noop"
    ensures r.None? <==> line != "noop" && (|line| == 0 || !IsDigit(line[|line| - 1]))
  {
    if line == "noop" then Some(Noop)
    else
      var v := TrailingNumber(line);
      if v.None? then None else Some(AddX(v.value))
  }

  function Signed(v: int): string
  {
    if v < 0 then "-" + Decimal(-v) else Decimal(v)
  }

  function Line(i: Instr): string
  {
    match i
    case Noop => "noop"
    case AddX(v) => "addx " + Signed(v)
  }

  lemma {:induction false} TrailingDigitsOf(prefix: string, d: string)
    requires |d| > 0 && forall i :: 0 <= i < |d| ==> IsDigit(d[i])
    requires |prefix| == 0 || !IsDigit(prefix[|prefix| - 1])
    ensures TrailingDigits(prefix + d) == |d|
    decreases |d|
  {
    var s := prefix + d;
    assert s[|s| - 1] == d[|d| - 1];
    if |d| > 1 {
      assert s[..|s| - 1] == prefix + d[..|d| - 1];
      TrailingDigitsOf(prefix, d[..|d| - 1]);
    } else {
      assert s[..|s| - 1] == prefix;
    }
  }

  /** A line ending in a run of digits, after a non-digit or from its start,
      reads as their value, negated when that non-digit is a minus sign. */
  lemma TrailingNumberOf(prefix: string, d: string)
    requires |d| > 0 && forall i :: 0 <= i < |d| ==> IsDigit(d[i])
    requires |prefix| == 0 || !IsDigit(prefix[|prefix| - 1])
    ensures TrailingNumber(prefix + d)
         == if |prefix| > 0 && prefix[|prefix| - 1] == '-' then Some(-(DigitsValue(d) as int)) else Some(DigitsValue(d))
  {
    if |prefix| > 0 {
      TrailingNumberAfter(prefix, d);
    } else {
      assert prefix + d == [] + d == d;
      TrailingDigitsOf([], d);
      assert d[|d| - |d|..] == d;
    }
  }

  lemma TrailingNumberAfter(prefix: string, d: string)
    requires |d| > 0 && forall i :: 0 <= i < |d| ==> IsDigit(d[i])
    requires |prefix| > 0 && !IsDigit(prefix[|prefix| - 1])
    ensures TrailingNumber(prefix + d)
         == if prefix[|prefix| - 1] == '-' then Some(-(DigitsValue(d) as int)) else Some(DigitsValue(d))
  {
    var s := prefix + d;
    TrailingDigitsOf(prefix, d);
    assert s[|s| - |d|..] == d;
    assert s[|s| - |d| - 1] == prefix[|prefix| - 1];
  }

  /** Every instruction reads back from the line that spells it. */
  lemma ParseLine(i: Instr)
    ensures ParseInstruction(Line(i)) == Some(i)
  {
    match i
    case Noop =>
    case AddX(v) =>
      var d := Decimal(if v < 0 then -v else v);
      DecimalValue(if v < 0 then -v else v);
      var prefix := if v < 0 then "addx -" else "addx ";
      assert Line(i) == prefix + d;
      TrailingDigitsOf(prefix, d);
      assert (prefix + d)[|prefix|..] == d;
  }

  // ---------------------------------------------------------------------
  // Timing
  // ---------------------------------------------------------------------

  /** The register after the instructions: 1 plus every added value. */
  function XAfter(instrs: seq<Instr>): int
  {
    if |instrs| == 0 then 1
    else
      var last := instrs[|instrs| - 1];
      XAfter(instrs[..|instrs| - 1]) + (if last.AddX? then last.v else 0)
  }

  /** The register during each cycle: element `c - 1` is `x` during cycle
      `c`. An `addx` spends two cycles at the old value. */
  function XDuring(instrs: seq<Instr>): seq<int>
  {
    if |instrs| == 0 then []
    else
      var init := instrs[..|instrs| - 1];
      var x := XAfter(init);
      XDuring(init) + (if instrs[|instrs| - 1].Noop? then [x] else [x, x])
  }

  function NumNoops(instrs: seq<Instr>): nat
  {
    if |instrs| == 0 then 0
    else NumNoops(instrs[..|instrs| - 1]) + (if instrs[|instrs| - 1].Noop? then 1 else 0)
  }

  /** A `noop` takes one cycle and an `addx` two. */
  lemma {:induction false} CycleCount(instrs: seq<Instr>)
    ensures |XDuring(instrs)| == NumNoops(instrs) + 2 * (|instrs| - NumNoops(instrs))
  {
    if |instrs| > 0 {
      CycleCount(instrs[..|instrs| - 1]);
    }
  }

  /** The cycles of the instructions so far stay as they were. */
  lemma {:induction false} XDuringPrefix(instrs: seq<Instr>, j: nat)
    requires j <= |instrs|
    ensures |XDuring(instrs[..j])| <= |XDuring(instrs)|
    ensures XDuring(instrs[..j]) == XDuring(instrs)[..|XDuring(instrs[..j])|]
    decreases |instrs|
  {
    if j < |instrs| {
      var init := instrs[..|instrs| - 1];
      assert init[..j] == instrs[..j];
      XDuringPrefix(init, j);
    } else {
      assert instrs[..j] == instrs;
    }
  }

  /** One more instruction adds its cycles, at the value `x` had before it. */
  lemma Next(instrs: seq<Instr>, i: nat)
    requires i < |instrs|
    ensures var x := XAfter(instrs[..i]);
      XDuring(instrs[..i + 1]) == XDuring(instrs[..i]) + (if instrs[i].Noop? then [x] else [x, x]) &&
      XAfter(instrs[..i + 1]) == x + (if instrs[i].AddX? then instrs[i].v else 0)
  {
    assert instrs[..i + 1][..i] == instrs[..i];
  }

  /** During every cycle of an `addx`, `x` is still the value it had before;
      the new value shows from the next instruction on. */
  lemma AddXTiming(instrs: seq<Instr>, v: int)
    ensures var before := |XDuring(instrs)|;
      var xs := XDuring(instrs + [AddX(v)]);
      |xs| == before + 2 && xs[before] == XAfter(instrs) && xs[before + 1] == XAfter(instrs) &&
      XAfter(instrs + [AddX(v)]) == XAfter(instrs) + v
  {
    assert (instrs + [AddX(v)])[..|instrs|] == instrs;
  }

  /** The puzzle's small program: `noop`, `addx 3`, `addx -5` runs five
      cycles and leaves `x` at -1. */
  lemma SmallProgram()
    ensures XDuring([Noop, AddX(3), AddX(-5)]) == [1, 1, 1, 4, 4]
    ensures XAfter([Noop, AddX(3), AddX(-5)]) == -1
  {
    var p := [Noop, AddX(3), AddX(-5)];
    assert p[..2] == [Noop, AddX(3)] && p[..2][..1] == [Noop] && [Noop][..0] == [];
  }

  // ---------------------------------------------------------------------
  // Signal strength
  // ---------------------------------------------------------------------

  /** `compute_signal_strength_at_cycle`. */
  function StrengthAt(cycle: int, x: int, atCycles: seq<int>): (s: int)
    ensures cycle in atCycles ==> s == cycle * x
    ensures cycle !in atCycles ==> s == 0
  {
    if cycle in atCycles then cycle * x else 0
  }

  /** The sum over the cycles `c` that are sampled of `c` times `x` during
      `c`. */
  function Strength(xs: seq<int>, atCycles: seq<int>): int
  {
    if |xs| == 0 then 0
    else Strength(xs[..|xs| - 1], atCycles) + StrengthAt(|xs|, xs[|xs| - 1], atCycles)
  }

  lemma StrengthSnoc(xs: seq<int>, x: int, atCycles: seq<int>)
    ensures Strength(xs + [x], atCycles) == Strength(xs, atCycles) + StrengthAt(|xs| + 1, x, atCycles)
  {
    assert (xs + [x])[..|xs|] == xs;
  }

  lemma StrengthTwice(xs: seq<int>, x: int, atCycles: seq<int>)
    ensures Strength(xs + [x, x], atCycles) ==
      Strength(xs, atCycles) + StrengthAt(|xs| + 1, x, atCycles) + StrengthAt(|xs| + 2, x, atCycles)
  {
    StrengthSnoc(xs, x, atCycles);
    StrengthSnoc(xs + [x], x, atCycles);
    assert xs + [x, x] == xs + [x] + [x];
  }

  /** `compute_signal_strength`. */
  method SignalStrength(instrs: seq<Instr>, atCycles: seq<int>) returns (strength: int)
    ensures strength == Strength(XDuring(instrs), atCycles)
  {
    strength := 0;
    var x := 1;
    var cycle := 1;
    var i := 0;
    while i < |instrs|
      invariant 0 <= i <= |instrs|
      invariant x == XAfter(instrs[..i])
      invariant cycle == |XDuring(instrs[..i])| + 1
      invariant strength == Strength(XDuring(instrs[..i]), atCycles)
    {
      var xs := XDuring(instrs[..i]);
      Next(instrs, i);
      match instrs[i] {
      case Noop =>
        StrengthSnoc(xs, x, atCycles);
        strength := strength + StrengthAt(cycle, x, atCycles);
        cycle := cycle + 1;
      case AddX(v) =>
        StrengthTwice(xs, x, atCycles);
        strength := strength + StrengthAt(cycle, x, atCycles);
        cycle := cycle + 1;
        strength := strength + StrengthAt(cycle, x, atCycles);
        cycle := cycle + 1;
        x := x + v;
      }
      i := i + 1;
    }
    assert instrs[..|instrs|] == instrs;
  }

  // ---------------------------------------------------------------------
  // The CRT
  // ---------------------------------------------------------------------

  const CrtWidth: nat := 40
  const CrtHeight: nat := 6

  datatype Pixel = Pixel(row: int, col: int)

  /** The pixel the beam draws during a cycle: `divmod(cycle - 1, 40)`. */
  function BeamAt(cycle: nat): (p: Pixel)
    requires cycle >= 1
    ensures 0 <= p.col < CrtWidth && p.row >= 0
    ensures p.row * CrtWidth + p.col == cycle - 1
  {
    Pixel((cycle - 1) / CrtWidth, (cycle - 1) % CrtWidth)
  }

  /** `hit_on_crt`: the sprite covers the beam's column. */
  predicate Hit(cycle: nat, x: int)
    requires cycle >= 1
  {
    x - 1 <= BeamAt(cycle).col <= x + 1
  }

  /** The pixels lit over the cycles of `xs`. */
  function Lit(xs: seq<int>): set<Pixel>
  {
    set c | 1 <= c <= |xs| && Hit(c, xs[c - 1]) :: BeamAt(c)
  }

  lemma LitSnoc(xs: seq<int>, x: int)
    ensures Lit(xs + [x]) == Lit(xs) + (if Hit(|xs| + 1, x) then {BeamAt(|xs| + 1)} else {})
  {
    var ys := xs + [x];
    assert forall k :: 0 <= k < |xs| ==> ys[k] == xs[k];
    assert ys[|xs|] == x;
  }

  lemma LitTwice(xs: seq<int>, x: int)
    ensures Lit(xs + [x, x]) == Lit(xs) + (if Hit(|xs| + 1, x) then {BeamAt(|xs| + 1)} else {})
      + (if Hit(|xs| + 2, x) then {BeamAt(|xs| + 2)} else {})
  {
    LitSnoc(xs, x);
    LitSnoc(xs + [x], x);
    assert xs + [x, x] == xs + [x] + [x];
  }

  /** `compute_crt`. */
  method ComputeCrt(instrs: seq<Instr>) returns (crt: set<Pixel>)
    ensures crt == Lit(XDuring(instrs))
  {
    crt := {};
    var x := 1;
    var cycle := 1;
    var i := 0;
    while i < |instrs|
      invariant 0 <= i <= |instrs|
      invariant x == XAfter(instrs[..i])
      invariant cycle == |XDuring(instrs[..i])| + 1
      invariant crt == Lit(XDuring(instrs[..i]))
    {
      x, cycle, crt := DrawInstr(instrs, i, x, cycle, crt);
      i := i + 1;
    }
    assert instrs[..|instrs|] == instrs;
  }

  /** One turn of the loop of `compute_crt`: draw during the cycles of
      instruction `i`. */
  method DrawInstr(instrs: seq<Instr>, i: nat, x: int, cycle: int, crt: set<Pixel>) returns (x': int, cycle': int, crt': set<Pixel>)
    requires i < |instrs| && x == XAfter(instrs[..i])
    requires cycle == |XDuring(instrs[..i])| + 1 && crt == Lit(XDuring(instrs[..i]))
    ensures x' == XAfter(instrs[..i + 1])
    ensures cycle' == |XDuring(instrs[..i + 1])| + 1 && crt' == Lit(XDuring(instrs[..i + 1]))
  {
    var xs := XDuring(instrs[..i]);
    Next(instrs, i);
    match instrs[i] {
      case Noop =>
        LitSnoc(xs, x);
        assert XDuring(instrs[..i + 1]) == xs + [x] && |xs| + 1 == cycle;
        crt' := crt + (if Hit(cycle, x) then {BeamAt(cycle)} else {});
        cycle', x' := cycle + 1, x;
      case AddX(v) =>
        LitTwice(xs, x);
        assert XDuring(instrs[..i + 1]) == xs + [x, x] && |xs| + 1 == cycle;
        crt' := crt + (if Hit(cycle, x) then {BeamAt(cycle)} else {})
          + (if Hit(cycle + 1, x) then {BeamAt(cycle + 1)} else {});
        cycle', x' := cycle + 2, x + v;
    }
  }

  /** A pixel is lit exactly when it lies in the 40 columns, its cycle
      `row * 40 + col + 1` is one the program runs, and the sprite during
      that cycle covers its column. */
  lemma LitIff(xs: seq<int>, p: Pixel)
    ensures p in Lit(xs) <==>
      0 <= p.col < CrtWidth && p.row >= 0 && p.row * CrtWidth + p.col < |xs| &&
      xs[p.row * CrtWidth + p.col] - 1 <= p.col <= xs[p.row * CrtWidth + p.col] + 1
  {
    if 0 <= p.col < CrtWidth && p.row >= 0 && p.row * CrtWidth + p.col < |xs| {
      var c := p.row * CrtWidth + p.col + 1;
      assert BeamAt(c) == p;
    }
  }

  /** Pixels are only ever added: running more instructions keeps every
      pixel already lit. */
  lemma LitGrows(instrs: seq<Instr>, j: nat)
    requires j <= |instrs|
    ensures Lit(XDuring(instrs[..j])) <= Lit(XDuring(instrs))
  {
    XDuringPrefix(instrs, j);
    var xs, ys := XDuring(instrs[..j]), XDuring(instrs);
    forall p | p in Lit(xs)
      ensures p in Lit(ys)
    {
      var c :| 1 <= c <= |xs| && Hit(c, xs[c - 1]) && BeamAt(c) == p;
      assert ys[c - 1] == xs[c - 1];
    }
  }
}

=== FILE: crates.dfy ===
/** Day 5 (day_05/part_1.py): stacks of crates drawn as a text layout, then
    rearranged by a crane that moves crates one at a time. A stack is a
    `seq<char>` listed bottom first, so its last element is the top crate. */
module Crates {
  import opened Outcomes
  import opened Digits

  type Stack = seq<char>
  type Stacks = seq<Stack>

  // ---------------------------------------------------------------------
  // Reading the drawing
  // ---------------------------------------------------------------------

  /** The number of stacks a drawing line describes: four characters per
      stack, `[`, a letter, `]` and a space. */
  function StacksOnLine(line: seq<char>): nat
  {
    |line| / 4
  }

  /** The letter a drawing line shows for stack `k`, or `' '` for none. */
  function LetterAt(line: seq<char>, k: nat): char
    requires k < StacksOnLine(line)
  {
    line[4 * k + 1]
  }

  /** `create_stack_layout`: grows the list of stacks to as many as the line
      describes, then puts every letter of the line under the crates already
      read for its stack (the drawing lists each stack top first). */
  function CreateStackLayout(stacks: Stacks, line: seq<char>): (r: Stacks)
    ensures |r| == if StacksOnLine(line) > |stacks| then StacksOnLine(line) else |stacks|
    ensures forall k :: 0 <= k < |r| ==>
      r[k] == (if k < StacksOnLine(line) && LetterAt(line, k) != ' ' then [LetterAt(line, k)] else []) +
              (if k < |stacks| then stacks[k] else [])
  {
    var grown := if StacksOnLine(line) > |stacks| then stacks + seq(StacksOnLine(line) - |stacks|, _ => []) else stacks;
    seq(|grown|, k requires 0 <= k < |grown| =>
      if k < StacksOnLine(line) && LetterAt(line, k) != ' ' then [LetterAt(line, k)] + grown[k] else grown[k])
  }

  /** The letters a drawing shows for stack `k`, from the top line down. */
  function Column(lines: seq<seq<char>>, k: nat): seq<char>
  {
    if |lines| == 0 then []
    else
      (if k < StacksOnLine(lines[0]) && LetterAt(lines[0], k) != ' ' then [LetterAt(lines[0], k)] else []) +
      Column(lines[1..], k)
  }

  /** The widest line of a drawing, in stacks. */
  function Width(lines: seq<seq<char>>): nat
  {
    if |lines| == 0 then 0
    else if StacksOnLine(lines[|lines| - 1]) > Width(lines[..|lines| - 1]) then StacksOnLine(lines[|lines| - 1])
    else Width(lines[..|lines| - 1])
  }

  /** Reading a drawing line by line, from an empty list of stacks. */
  function ReadLayout(lines: seq<seq<char>>): Stacks
  {
    if |lines| == 0 then [] else CreateStackLayout(ReadLayout(lines[..|lines| - 1]), lines[|lines| - 1])
  }

  function Reverse<T>(s: seq<T>): (r: seq<T>)
    ensures |r| == |s|
    ensures forall i :: 0 <= i < |s| ==> r[i] == s[|s| - 1 - i]
  {
    if |s| == 0 then [] else Reverse(s[1..]) + [s[0]]
  }

  /** Reading a drawing gives one stack per column of its widest line, and
      stack `k` holds the letters of column `k` bottom line first. */
  lemma {:induction false} ReadLayoutColumns(lines: seq<seq<char>>)
    ensures |ReadLayout(lines)| == Width(lines)
    ensures forall k :: 0 <= k < Width(lines) ==> ReadLayout(lines)[k] == Reverse(Column(lines, k))
  {
    if |lines| > 0 {
      var init := lines[..|lines| - 1];
      var last := lines[|lines| - 1];
      ReadLayoutColumns(init);
      var prev := ReadLayout(init);
      assert lines == init + [last];
      forall k | 0 <= k < Width(lines)
        ensures ReadLayout(lines)[k] == Reverse(Column(lines, k))
      {
        LayoutColumn(init, last, prev, k);
      }
    }
  }

  /** Reading one more line puts its letter, if any, on top of column `k`. */
  lemma LayoutColumn(init: seq<seq<char>>, last: seq<char>, prev: Stacks, k: nat)
    requires |prev| == Width(init)
    requires forall j :: 0 <= j < Width(init) ==> prev[j] == Reverse(Column(init, j))
    requires k < |CreateStackLayout(prev, last)|
    ensures CreateStackLayout(prev, last)[k] == Reverse(Column(init + [last], k))
  {
    ColumnAppend(init, last, k);
    if k >= Width(init) {
      ColumnEmpty(init, k);
    }
  }

  lemma {:induction false} ColumnAppend(init: seq<seq<char>>, last: seq<char>, k: nat)
    ensures Column(init + [last], k) ==
      Column(init, k) + (if k < StacksOnLine(last) && LetterAt(last, k) != ' ' then [LetterAt(last, k)] else [])
  {
    if |init| == 0 {
      assert init + [last] == [last];
      assert [last][1..] == [];
    } else {
      assert (init + [last])[1..] == init[1..] + [last];
      ColumnAppend(init[1..], last, k);
    }
  }

  /** A drawing narrower than `k + 1` stacks shows nothing for stack `k`. */
  lemma {:induction false} ColumnEmpty(lines: seq<seq<char>>, k: nat)
    requires k >= Width(lines)
    ensures Column(lines, k) == []
  {
    if |lines| > 0 {
      var init := lines[..|lines| - 1];
      ColumnEmpty(init, k);
      ColumnAppend(init, lines[|lines| - 1], k);
      assert lines == init + [lines[|lines| - 1]];
    }
  }

  // ---------------------------------------------------------------------
  // The crane
  // ---------------------------------------------------------------------

  /** Python list indexing: a negative index counts from the end; anything
      else out of range raises. */
  function PyIndex(i: int, len: nat): (r: Option<nat>)
    ensures r.Some? <==> -(len as int) <= i < len
    ensures r.Some? ==> r.value < len && (r.value == i || r.value == i + len)
  {
    if 0 <= i < len then Some(i) else if -(len as int) <= i < 0 then Some(i + len) else None
  }

  /** One iteration of the loop of `modify_stack_layout`: pop the top crate
      of stack `source` and push it on stack `target` (both 0-based, as
      Python indexes them). Popping an empty stack raises. */
  function MoveOne(stacks: Stacks, source: int, target: int): (r: Option<Stacks>)
    ensures r.Some? ==> |r.value| == |stacks|
  {
    var f := PyIndex(source, |stacks|);
    if f.None? || |stacks[f.value]| == 0 then None
    else
      var from := stacks[f.value];
      var popped := stacks[f.value := from[..|from| - 1]];
      var t := PyIndex(target, |popped|);
      if t.None? then None
      else Some(popped[t.value := popped[t.value] + [from[|from| - 1]]])
  }

  /** `modify_stack_layout` on a parsed move: `n` single-crate moves. */
  function Move(stacks: Stacks, n: nat, source: int, target: int): (r: Option<Stacks>)
    ensures r.Some? ==> |r.value| == |stacks|
    decreases n
  {
    if n == 0 then Some(stacks)
    else
      var once := MoveOne(stacks, source, target);
      if once.None? then None else Move(once.value, n - 1, source, target)
  }

  /** The number of crates on all stacks. */
  function Total(stacks: Stacks): nat
  {
    if |stacks| == 0 then 0 else Total(stacks[..|stacks| - 1]) + |stacks[|stacks| - 1]|
  }

  lemma {:induction false} TotalUpdate(stacks: Stacks, i: nat, s: Stack)
    requires i < |stacks|
    ensures Total(stacks[i := s]) + |stacks[i]| == Total(stacks) + |s|
  {
    var init := stacks[..|stacks| - 1];
    if i < |stacks| - 1 {
      TotalUpdate(init, i, s);
      assert stacks[i := s][..|stacks| - 1] == init[i := s];
    } else {
      assert stacks[i := s][..|stacks| - 1] == init;
    }
  }

  /** A move keeps the number of crates and of stacks. */
  lemma {:induction false} MoveKeepsCrates(stacks: Stacks, n: nat, source: int, target: int)
    requires Move(stacks, n, source, target).Some?
    ensures Total(Move(stacks, n, source, target).value) == Total(stacks)
    decreases n
  {
    if n > 0 {
      var once := MoveOne(stacks, source, target);
      var f := PyIndex(source, |stacks|).value;
      var from := stacks[f];
      var popped := stacks[f := from[..|from| - 1]];
      var t := PyIndex(target, |popped|).value;
      TotalUpdate(stacks, f, from[..|from| - 1]);
      TotalUpdate(popped, t, popped[t] + [from[|from| - 1]]);
      MoveKeepsCrates(once.value, n - 1, source, target);
    }
  }

  /** Between two different stacks, a move of `n` crates succeeds exactly
      when the source holds at least `n`; the moved block lands reversed on
      the target and every other stack is untouched. */
  lemma {:induction false} MoveBlock(stacks: Stacks, n: nat, f: nat, t: nat)
    requires f < |stacks| && t < |stacks| && f != t
    ensures Move(stacks, n, f, t).Some? <==> n <= |stacks[f]|
    ensures n <= |stacks[f]| ==>
      Move(stacks, n, f, t) == Some(MovedBlock(stacks, n, f, t))
    decreases n
  {
    var from := stacks[f];
    if n == 0 {
      MovedNothing(stacks, f, t);
    } else if |from| > 0 {
      var once := stacks[f := from[..|from| - 1]][t := stacks[t] + [from[|from| - 1]]];
      assert MoveOne(stacks, f, t) == Some(once);
      MoveBlock(once, n - 1, f, t);
      if n <= |from| {
        MovedBlockStep(stacks, n, f, t);
      }
    }
  }

  lemma MovedNothing(stacks: Stacks, f: nat, t: nat)
    requires f < |stacks| && t < |stacks|
    ensures MovedBlock(stacks, 0, f, t) == stacks
  {
    var from := stacks[f];
    assert from[..|from|] == from && from[|from|..] == [];
    assert stacks[t] + Reverse(from[|from|..]) == stacks[t];
    assert stacks[f := from] == stacks;
  }

  /** Moving `n` crates is moving one, then `n - 1`. */
  lemma MovedBlockStep(stacks: Stacks, n: nat, f: nat, t: nat)
    requires f < |stacks| && t < |stacks| && f != t && 0 < n <= |stacks[f]|
    ensures var from := stacks[f];
      var once := stacks[f := from[..|from| - 1]][t := stacks[t] + [from[|from| - 1]]];
      MovedBlock(once, n - 1, f, t) == MovedBlock(stacks, n, f, t)
  {
    var from := stacks[f];
    var once := stacks[f := from[..|from| - 1]][t := stacks[t] + [from[|from| - 1]]];
    var k := |from| - n;
    assert once[f][..k] == from[..k];
    assert once[f][k..] == from[k..|from| - 1];
    assert from[k..] == from[k..|from| - 1] + [from[|from| - 1]];
    ReverseAppend(from[k..|from| - 1], from[|from| - 1]);
    assert stacks[t] + Reverse(from[k..]) == once[t] + Reverse(once[f][k..]);
  }

  /** The stacks after moving the top `n` crates of `f` onto `t`, the block
      reversed. */
  function MovedBlock(stacks: Stacks, n: nat, f: nat, t: nat): Stacks
    requires f < |stacks| && t < |stacks| && n <= |stacks[f]|
  {
    var k := |stacks[f]| - n;
    stacks[f := stacks[f][..k]][t := stacks[t] + Reverse(stacks[f][k..])]
  }

  lemma ReverseAppend<T>(s: seq<T>, x: T)
    ensures Reverse(s + [x]) == [x] + Reverse(s)
  {
  }

  // ---------------------------------------------------------------------
  // Reading a move line
  // ---------------------------------------------------------------------

  /** The length of the run of digits at the start of `s`. */
  function DigitRun(s: seq<char>): (k: nat)
    ensures k <= |s|
    ensures forall i :: 0 <= i < k ==> IsDigit(s[i])
    ensures k < |s| ==> !IsDigit(s[k])
  {
    if |s| == 0 || !IsDigit(s[0]) then 0 else 1 + DigitRun(s[1..])
  }

  /** `re.findall(r'\d+', line)` converted with `int`: the values of the
      maximal runs of digits, left to right. */
  function Numbers(s: seq<char>): seq<nat>
  {
    if |s| == 0 then []
    else if !IsDigit(s[0]) then Numbers(s[1..])
    else
      var k := DigitRun(s);
      [DigitsValue(s[..k])] + Numbers(s[k..])
  }

  /** A run of digits followed by a non-digit is read as one number. */
  lemma NumbersOfDigitsThen(d: seq<char>, rest: seq<char>)
    requires |d| > 0 && forall i :: 0 <= i < |d| ==> IsDigit(d[i])
    requires |rest| > 0 && !IsDigit(rest[0])
    ensures Numbers(d + rest) == [DigitsValue(d)] + Numbers(rest)
  {
    var s := d + rest;
    DigitRunOf(d, rest);
    assert s[..|d|] == d;
    assert s[|d|..] == rest;
  }

  lemma {:induction false} DigitRunOf(d: seq<char>, rest: seq<char>)
    requires forall i :: 0 <= i < |d| ==> IsDigit(d[i])
    requires |rest| > 0 && !IsDigit(rest[0])
    ensures DigitRun(d + rest) == |d|
  {
    if |d| > 0 {
      assert (d + rest)[1..] == d[1..] + rest;
      DigitRunOf(d[1..], rest);
    }
  }

  /** Text without digits holds no numbers. */
  lemma {:induction false} NumbersOfText(t: seq<char>, rest: seq<char>)
    requires forall i :: 0 <= i < |t| ==> !IsDigit(t[i])
    ensures Numbers(t + rest) == Numbers(rest)
  {
    if |t| == 0 {
      assert t + rest == rest;
    } else {
      assert (t + rest)[0] == t[0];
      assert (t + rest)[1..] == t[1..] + rest;
      NumbersOfText(t[1..], rest);
    }
  }

  /** The text of a move line, as the puzzle writes it. */
  function MoveLine(n: nat, source: nat, target: nat): seq<char>
  {
    "move " + Decimal(n) + " from " + Decimal(source) + " to " + Decimal(target) + "\n"
  }

  /** Reading the numbers of a written move line gives back the three
      numbers it was written from. */
  lemma MoveLineRoundTrip(n: nat, source: nat, target: nat)
    ensures Numbers(MoveLine(n, source, target)) == [n, source, target]
  {
    var a, b, c := Decimal(n), Decimal(source), Decimal(target);
    var r3 := " to " + c + "\n";
    NumberPiece(" to ", target, "\n");
    assert Numbers("\n") == [];
    var r2 := " from " + b + r3;
    NumberPiece(" from ", source, r3);
    var r1 := "move " + a + r2;
    NumberPiece("move ", n, r2);
    assert MoveLine(n, source, target) == r1;
  }

  lemma ConcatAssoc<T>(a: seq<T>, b: seq<T>, c: seq<T>)
    ensures a + b + c == a + (b + c)
  {
  }

  /** Text without digits, a number, then a non-digit: one number read. */
  lemma NumberPiece(text: seq<char>, n: nat, rest: seq<char>)
    requires forall i :: 0 <= i < |text| ==> !IsDigit(text[i])
    requires |rest| > 0 && !IsDigit(rest[0])
    ensures Numbers(text + Decimal(n) + rest) == [n] + Numbers(rest)
  {
    var d := Decimal(n);
    var tail := d + rest;
    DecimalValue(n);
    NumbersOfDigitsThen(d, rest);
    assert Numbers(tail) == [n] + Numbers(rest);
    NumbersOfText(text, tail);
    ConcatAssoc(text, d, rest);
  }

  // ---------------------------------------------------------------------
  // `get_tops`
  // ---------------------------------------------------------------------

  datatype LineKind = MoveCommand | Drawing | Skipped | Unreadable

  /** The dispatch of `get_tops`: a line starting with `m` is a move; the
      blank line and the line numbering the stacks (second character `1`)
      are skipped; any other line is a drawing line. A line other than the
      blank one that has no second character raises. */
  function Classify(line: seq<char>): (k: LineKind)
    ensures k == MoveCommand <==> |line| > 0 && line[0] == 'm'
    ensures k == Unreadable <==> line != "\n" && (|line| == 0 || (|line| == 1 && line[0] != 'm'))
    ensures k == Drawing ==> |line| >= 2 && line[1] != '1'
  {
    if |line| > 0 && line[0] == 'm' then MoveCommand
    else if line == "\n" then Skipped
    else if |line| < 2 then Unreadable
    else if line[1] != '1' then Drawing
    else Skipped
  }

  /** One line of the input applied to the stacks. A move line must hold
      exactly three numbers, or unpacking them raises. */
  function Step(stacks: Stacks, line: seq<char>): (r: Option<Stacks>)
    ensures Classify(line) == Skipped ==> r == Some(stacks)
    ensures Classify(line) == Unreadable ==> r.None?
    ensures r.Some? ==> |r.value| >= |stacks|
  {
    match Classify(line)
    case MoveCommand =>
      var ns := Numbers(line);
      if |ns| != 3 then None else Move(stacks, ns[0], ns[1] as int - 1, ns[2] as int - 1)
    case Drawing => Some(CreateStackLayout(stacks, line))
    case Skipped => Some(stacks)
    case Unreadable => None
  }

  /** The loop of `get_tops` over the lines, stopping at the first error. */
  function Run(stacks: Option<Stacks>, lines: seq<seq<char>>): (r: Option<Stacks>)
    ensures r.Some? ==> stacks.Some? && |r.value| >= |stacks.value|
    ensures (forall k :: 0 <= k < |lines| ==> Classify(lines[k]) == Skipped) ==> r == stacks
    decreases |lines|
  {
    if |lines| == 0 || stacks.None? then stacks
    else Run(Step(stacks.value, lines[0]), lines[1..])
  }

  lemma {:induction false} RunConcat(stacks: Option<Stacks>, a: seq<seq<char>>, b: seq<seq<char>>)
    ensures Run(stacks, a + b) == Run(Run(stacks, a), b)
    decreases |a|
  {
    if |a| > 0 && stacks.Some? {
      assert (a + b)[1..] == a[1..] + b;
      RunConcat(Step(stacks.value, a[0]), a[1..], b);
    } else if |a| == 0 {
      assert a + b == b;
    } else {
      RunNone(b);
      RunNone(a + b);
    }
  }

  lemma {:induction false} RunNone(lines: seq<seq<char>>)
    ensures Run(None, lines) == None
  {
  }

  /** The last crate of every stack, in order; an empty stack raises. */
  function Tops(stacks: Stacks): (r: Option<seq<char>>)
    ensures r.Some? <==> forall k :: 0 <= k < |stacks| ==> |stacks[k]| > 0
    ensures r.Some? ==> |r.value| == |stacks|
    ensures r.Some? ==> forall k :: 0 <= k < |stacks| ==> r.value[k] == stacks[k][|stacks[k]| - 1]
  {
    if |stacks| == 0 then Some([])
    else
      var init := Tops(stacks[..|stacks| - 1]);
      var last := stacks[|stacks| - 1];
      if |last| == 0 || init.None? then None
      else Some(init.value + [last[|last| - 1]])
  }

  /** `get_tops`. */
  function GetTops(lines: seq<seq<char>>): (r: Option<seq<char>>)
    ensures r.Some? ==> Run(Some([]), lines).Some?
    ensures r.Some? ==> var stacks := Run(Some([]), lines).value;
      |r.value| == |stacks| && forall k :: 0 <= k < |stacks| ==> |stacks[k]| > 0 && r.value[k] == stacks[k][|stacks[k]| - 1]
    ensures (forall k :: 0 <= k < |lines| ==> Classify(lines[k]) == Skipped) ==> r == Some([])
  {
    var stacks := Run(Some([]), lines);
    if stacks.None? then None else Tops(stacks.value)
  }

  /** One parsed move: `n` crates from stack `source` to stack `target`,
      numbered from 1. */
  datatype Crane = Crane(n: nat, source: nat, target: nat)

  function ApplyMoves(stacks: Option<Stacks>, moves: seq<Crane>): Option<Stacks>
    decreases |moves|
  {
    if |moves| == 0 || stacks.None? then stacks
    else
      var m := moves[0];
      ApplyMoves(Move(stacks.value, m.n, m.source as int - 1, m.target as int - 1), moves[1..])
  }

  function MoveLines(moves: seq<Crane>): seq<seq<char>>
  {
    if |moves| == 0 then [] else [MoveLine(moves[0].n, moves[0].source, moves[0].target)] + MoveLines(moves[1..])
  }

  /** The input as the puzzle gives it: the drawing, the line numbering the
      stacks, a blank line, then one line per move. On it `get_tops` reads
      the drawing column by column, applies the moves in order, and reports
      the top of every stack. */
  lemma GetTopsOfPuzzle(drawing: seq<seq<char>>, numbering: seq<char>, moves: seq<Crane>)
    requires forall i :: 0 <= i < |drawing| ==> Classify(drawing[i]) == Drawing
    requires |numbering| >= 2 && numbering[0] == ' ' && numbering[1] == '1'
    ensures GetTops(drawing + [numbering, "\n"] + MoveLines(moves)) ==
      var final := ApplyMoves(Some(ReadLayout(drawing)), moves);
      if final.None? then None else Tops(final.value)
  {
    var layout := ReadLayout(drawing);
    var footer: seq<seq<char>> := [numbering, "\n"];
    RunConcat(Some([]), drawing + footer, MoveLines(moves));
    RunConcat(Some([]), drawing, footer);
    RunDrawing(Some([]), drawing);
    assert Classify(numbering) == Skipped && Classify("\n") == Skipped;
    RunSkipped(layout, footer);
    RunMoves(Some(layout), moves);
  }

  /** Skipped lines leave the stacks as they are. */
  lemma {:induction false} RunSkipped(stacks: Stacks, lines: seq<seq<char>>)
    requires forall i :: 0 <= i < |lines| ==> Classify(lines[i]) == Skipped
    ensures Run(Some(stacks), lines) == Some(stacks)
    decreases |lines|
  {
    if |lines| > 0 {
      assert Classify(lines[0]) == Skipped;
      RunSkipped(stacks, lines[1..]);
    }
  }

  lemma {:induction false} RunDrawing(start: Option<Stacks>, drawing: seq<seq<char>>)
    requires start == Some([])
    requires forall i :: 0 <= i < |drawing| ==> Classify(drawing[i]) == Drawing
    ensures Run(start, drawing) == Some(ReadLayout(drawing))
  {
    if |drawing| > 0 {
      var init := drawing[..|drawing| - 1];
      var last := drawing[|drawing| - 1];
      RunDrawing(start, init);
      RunConcat(start, init, [last]);
      assert drawing == init + [last];
      assert [last][1..] == [];
    }
  }

  lemma {:induction false} RunMoves(stacks: Option<Stacks>, moves: seq<Crane>)
    ensures Run(stacks, MoveLines(moves)) == ApplyMoves(stacks, moves)
    decreases |moves|
  {
    if |moves| > 0 && stacks.Some? {
      var m := moves[0];
      StepMoveLine(stacks.value, m);
      assert MoveLines(moves)[1..] == MoveLines(moves[1..]);
      RunMoves(Move(stacks.value, m.n, m.source as int - 1, m.target as int - 1), moves[1..]);
    } else if stacks.None? {
      RunNone(MoveLines(moves));
    }
  }

  /** A move line, once read back, performs its move. */
  lemma StepMoveLine(stacks: Stacks, m: Crane)
    ensures Step(stacks, MoveLine(m.n, m.source, m.target)) == Move(stacks, m.n, m.source as int - 1, m.target as int - 1)
  {
    MoveLineRoundTrip(m.n, m.source, m.target);
    assert Classify(MoveLine(m.n, m.source, m.target)) == MoveCommand;
  }

  /** The small drawing of the puzzle's example: stacks 1, 2, 3 read as
      `ZN`, `MCD` and `P` from the bottom. */
  lemma LayoutExample()
    ensures ReadLayout(["    [D]    \n", "[N] [C]    \n", "[Z] [M] [P]\n"]) == ["ZN", "MCD", "P"]
  {
    var l1, l2, l3 := "    [D]    \n", "[N] [C]    \n", "[Z] [M] [P]\n";
    var lines: seq<seq<char>> := [l1, l2, l3];
    LayoutExampleFirst();
    LayoutExampleSecond();
    LayoutExampleThird();
    assert lines[..2] == [l1, l2];
    assert [l1, l2][..1] == [l1];
    assert [l1][..0] == [];
    assert ReadLayout([l1]) == ["", "D", ""];
    assert ReadLayout([l1, l2]) == ["N", "CD", ""];
  }

  lemma LayoutExampleFirst()
    ensures CreateStackLayout([], "    [D]    \n") == ["", "D", ""]
  {
    var l1 := "    [D]    \n";
    var s1 := CreateStackLayout([], l1);
    assert LetterAt(l1, 0) == ' ' && LetterAt(l1, 1) == 'D' && LetterAt(l1, 2) == ' ';
    assert s1[0] == [] && s1[1] == ['D'] && s1[2] == [];
  }

  lemma LayoutExampleSecond()
    ensures CreateStackLayout(["", "D", ""], "[N] [C]    \n") == ["N", "CD", ""]
  {
    var l2 := "[N] [C]    \n";
    var s2 := CreateStackLayout(["", "D", ""], l2);
    assert LetterAt(l2, 0) == 'N' && LetterAt(l2, 1) == 'C' && LetterAt(l2, 2) == ' ';
    assert s2[0] == ['N'] && s2[1] == ['C', 'D'] && s2[2] == [];
  }

  lemma LayoutExampleThird()
    ensures CreateStackLayout(["N", "CD", ""], "[Z] [M] [P]\n") == ["ZN", "MCD", "P"]
  {
    var l3 := "[Z] [M] [P]\n";
    var s3 := CreateStackLayout(["N", "CD", ""], l3);
    assert LetterAt(l3, 0) == 'Z' && LetterAt(l3, 1) == 'M' && LetterAt(l3, 2) == 'P';
    assert s3[0] == ['Z', 'N'] && s3[1] == ['M', 'C', 'D'] && s3[2] == ['P'];
  }
}

=== FILE: digits.dfy ===
/** Decimal digit strings: reading the value of a run of digits, as Python's
    `int` does, and writing a number without leading zeros, as `str` does. */
module Digits {

  predicate IsDigit(c: char)
  {
    '0' <= c <= '9'
  }

  /** The value of a string of decimal digits. */
  function DigitsValue(d: seq<char>): nat
    requires forall i :: 0 <= i < |d| ==> IsDigit(d[i])
  {
    if |d| == 0 then 0
    else
      var c := d[|d| - 1];
      assert IsDigit(c);
      10 * DigitsValue(d[..|d| - 1]) + (c as int - '0' as int)
  }

  /** The decimal digits of `n`, without leading zeros. */
  function Decimal(n: nat): (d: seq<char>)
    ensures |d| > 0 && forall i :: 0 <= i < |d| ==> IsDigit(d[i])
  {
    var last := ['0' + (n % 10) as char];
    if n < 10 then last else Decimal(n / 10) + last
  }

  /** Reading is the inverse of writing. */
  lemma {:induction false} DecimalValue(n: nat)
    ensures DigitsValue(Decimal(n)) == n
  {
    if n >= 10 {
      DecimalValue(n / 10);
      var d := Decimal(n);
      assert d[..|d| - 1] == Decimal(n / 10);
    }
  }
}

=== FILE: file_tree.dfy ===
/** Day 7 (day_07/filesystem.py, day_07/part_1_2.py): a directory tree
    rebuilt from a terminal session, where every directory carries the total
    size of the files below it. The tree is a value; the current directory
    is a path of child positions from the root. */
module FileTree {
  import opened Outcomes
  import opened Digits

  /** `File`: a file or a directory; `size` is `_size`, which for a directory
      grows as files are added below it. */
  datatype Node = Node(name: string, isDir: bool, size: nat, children: seq<Node>)

  /** `FileSystem`: `root` and `cwd` are `None` until the first `cd`; moving
      up from the root makes `cwd` `None` again. */
  datatype FS = FS(root: Option<Node>, cwd: Option<seq<nat>>)

  function Dir(name: string): Node
  {
    Node(name, true, 0, [])
  }

  function File(name: string, size: nat): Node
  {
    Node(name, false, size, [])
  }

  // ---------------------------------------------------------------------
  // Paths
  // ---------------------------------------------------------------------

  predicate ValidPath(n: Node, p: seq<nat>)
  {
    |p| == 0 || (p[0] < |n.children| && ValidPath(n.children[p[0]], p[1..]))
  }

  function At(n: Node, p: seq<nat>): Node
    requires ValidPath(n, p)
  {
    if |p| == 0 then n else At(n.children[p[0]], p[1..])
  }

  /** The path of the parent leads to a node too. */
  lemma {:induction false} ValidPrefix(n: Node, p: seq<nat>)
    requires ValidPath(n, p) && |p| > 0
    ensures ValidPath(n, p[..|p| - 1])
  {
    if |p| > 1 {
      ValidPrefix(n.children[p[0]], p[1..]);
      assert p[1..][..|p| - 2] == p[..|p| - 1][1..];
    }
  }

  /** A child of the node at `p` is at `p + [i]`. */
  lemma {:induction false} ValidExtend(n: Node, p: seq<nat>, i: nat)
    requires ValidPath(n, p) && i < |At(n, p).children|
    ensures ValidPath(n, p + [i]) && At(n, p + [i]) == At(n, p).children[i]
  {
    if |p| == 0 {
      assert [i][1..] == [];
    } else {
      ValidExtend(n.children[p[0]], p[1..], i);
      assert (p + [i])[1..] == p[1..] + [i];
    }
  }

  predicate IsPrefix(q: seq<nat>, p: seq<nat>)
  {
    |q| <= |p| && q == p[..|q|]
  }

  /** The names of the children of a directory. */
  function ChildNames(n: Node): set<string>
  {
    set c | c in n.children :: c.name
  }

  // ---------------------------------------------------------------------
  // Adding below the current directory
  // ---------------------------------------------------------------------

  /** Appends `child` to the node at `p` and adds `delta` to the size of that
      node and of every node above it. */
  function AddUnder(n: Node, p: seq<nat>, child: Node, delta: nat): (r: Node)
    requires ValidPath(n, p)
    ensures r.name == n.name && r.isDir == n.isDir && r.size == n.size + delta
    ensures |r.children| == |n.children| + (if |p| == 0 then 1 else 0)
    decreases |p|
  {
    if |p| == 0 then n.(size := n.size + delta, children := n.children + [child])
    else n.(size := n.size + delta, children := n.children[p[0] := AddUnder(n.children[p[0]], p[1..], child, delta)])
  }

  /** Every node that was there keeps its name and kind; the nodes on the
      path grow by `delta`, the others keep their size; the new child sits
      last under the node at `p`. */
  lemma {:induction false} AddUnderEffect(n: Node, p: seq<nat>, child: Node, delta: nat, q: seq<nat>)
    requires ValidPath(n, p) && ValidPath(n, q)
    ensures ValidPath(AddUnder(n, p, child, delta), q)
    ensures At(AddUnder(n, p, child, delta), q).name == At(n, q).name
    ensures At(AddUnder(n, p, child, delta), q).isDir == At(n, q).isDir
    ensures At(AddUnder(n, p, child, delta), q).size == At(n, q).size + (if IsPrefix(q, p) then delta else 0)
    decreases |q|
  {
    if |q| > 0 && |p| > 0 && q[0] == p[0] {
      AddUnderEffect(n.children[p[0]], p[1..], child, delta, q[1..]);
    } else if |q| > 0 {
      assert AddUnder(n, p, child, delta).children[q[0]] == n.children[q[0]];
    }
  }

  lemma {:induction false} AddUnderNewChild(n: Node, p: seq<nat>, child: Node, delta: nat)
    requires ValidPath(n, p)
    ensures var r := AddUnder(n, p, child, delta);
      var k := |At(n, p).children|;
      ValidPath(r, p + [k]) && At(r, p + [k]) == child
    decreases |p|
  {
    var r := AddUnder(n, p, child, delta);
    var k := |At(n, p).children|;
    if |p| == 0 {
      assert [k][1..] == [];
    } else {
      AddUnderNewChild(n.children[p[0]], p[1..], child, delta);
      assert (p + [k])[1..] == p[1..] + [k];
    }
  }

  // ---------------------------------------------------------------------
  // The filesystem operations
  // ---------------------------------------------------------------------

  /** The state `FileSystem` can be in: a current directory, when there is
      one, is a node of the tree. */
  ghost predicate Reachable(fs: FS)
  {
    (fs.root.None? ==> fs.cwd.None?) &&
    (fs.cwd.Some? ==> ValidPath(fs.root.value, fs.cwd.value))
  }

  function Empty(): (fs: FS)
    ensures Reachable(fs)
  {
    FS(None, None)
  }

  function Cwd(fs: FS): Node
    requires Reachable(fs) && fs.cwd.Some?
  {
    At(fs.root.value, fs.cwd.value)
  }

  /** `add_directory`: a new empty directory under the current one, unless a
      child already has the name. With no current directory it raises. */
  function AddDirectory(fs: FS, name: string): (r: Option<FS>)
    requires Reachable(fs)
    ensures r.Some? <==> fs.cwd.Some?
    ensures r.Some? ==> Reachable(r.value) && r.value.cwd == fs.cwd
  {
    if fs.cwd.None? then None
    else if name in ChildNames(Cwd(fs)) then Some(fs)
    else
      var root := AddUnder(fs.root.value, fs.cwd.value, Dir(name), 0);
      AddUnderEffect(fs.root.value, fs.cwd.value, Dir(name), 0, fs.cwd.value);
      Some(FS(Some(root), fs.cwd))
  }

  /** `add_file`: a new file under the current directory, whose size is
      added to the current directory and every directory above it, unless a
      child already has the name. With no current directory it raises. */
  function AddFile(fs: FS, name: string, size: nat): (r: Option<FS>)
    requires Reachable(fs)
    ensures r.Some? <==> fs.cwd.Some?
    ensures r.Some? ==> Reachable(r.value) && r.value.cwd == fs.cwd
  {
    if fs.cwd.None? then None
    else if name in ChildNames(Cwd(fs)) then Some(fs)
    else
      var root := AddUnder(fs.root.value, fs.cwd.value, File(name, size), size);
      AddUnderEffect(fs.root.value, fs.cwd.value, File(name, size), size, fs.cwd.value);
      Some(FS(Some(root), fs.cwd))
  }

  /** `move_up`: the parent becomes current; above the root there is none.
      With no current directory it raises. */
  function MoveUp(fs: FS): (r: Option<FS>)
    requires Reachable(fs)
    ensures r.Some? <==> fs.cwd.Some?
    ensures r.Some? ==> Reachable(r.value) && r.value.root == fs.root
    ensures r.Some? && |fs.cwd.value| > 0 ==> r.value.cwd == Some(fs.cwd.value[..|fs.cwd.value| - 1])
    ensures r.Some? && |fs.cwd.value| == 0 ==> r.value.cwd.None?
  {
    if fs.cwd.None? then None
    else if |fs.cwd.value| == 0 then Some(fs.(cwd := None))
    else
      ValidPrefix(fs.root.value, fs.cwd.value);
      Some(fs.(cwd := Some(fs.cwd.value[..|fs.cwd.value| - 1])))
  }

  /** The position of the first child called `name`. */
  function FirstChild(n: Node, name: string): (i: nat)
    requires name in ChildNames(n)
    ensures i < |n.children| && n.children[i].name == name
    ensures forall j :: 0 <= j < i ==> n.children[j].name != name
  {
    FirstChildFrom(n.children, name, 0)
  }

  function FirstChildFrom(cs: seq<Node>, name: string, i: nat): (k: nat)
    requires i <= |cs|
    requires exists j :: i <= j < |cs| && cs[j].name == name
    requires forall j :: 0 <= j < i ==> cs[j].name != name
    ensures i <= k < |cs| && cs[k].name == name
    ensures forall j :: 0 <= j < k ==> cs[j].name != name
    decreases |cs| - i
  {
    if cs[i].name == name then i else FirstChildFrom(cs, name, i + 1)
  }

  /** `move_to`: the first `cd` creates the root and enters it; later ones
      enter the first child with that name, or, when there is none, only add
      such a directory and stay where they are. With no current directory
      after the first `cd` it raises. */
  function MoveTo(fs: FS, name: string): (r: Option<FS>)
    requires Reachable(fs)
    ensures fs.root.None? ==> r == Some(FS(Some(Dir(name)), Some([])))
    ensures fs.root.Some? ==> (r.Some? <==> fs.cwd.Some?)
    ensures r.Some? ==> Reachable(r.value)
    ensures fs.root.Some? && r.Some? && name in ChildNames(Cwd(fs)) ==>
      r.value.root == fs.root && r.value.cwd == Some(fs.cwd.value + [FirstChild(Cwd(fs), name)])
    ensures fs.root.Some? && r.Some? && name !in ChildNames(Cwd(fs)) ==>
      r.value.cwd == fs.cwd && name in ChildNames(Cwd(r.value))
  {
    if fs.root.None? then Some(FS(Some(Dir(name)), Some([])))
    else if fs.cwd.None? then None
    else if name !in ChildNames(Cwd(fs)) then
      var r := AddDirectory(fs, name);
      AddedDirectoryIsChild(fs, name);
      r
    else
      var i := FirstChild(Cwd(fs), name);
      ValidExtend(fs.root.value, fs.cwd.value, i);
      Some(fs.(cwd := Some(fs.cwd.value + [i])))
  }

  lemma AddedDirectoryIsChild(fs: FS, name: string)
    requires Reachable(fs) && fs.cwd.Some? && name !in ChildNames(Cwd(fs))
    ensures name in ChildNames(Cwd(AddDirectory(fs, name).value))
  {
    var p := fs.cwd.value;
    var old_ := fs.root.value;
    var k := |At(old_, p).children|;
    var r := AddUnder(old_, p, Dir(name), 0);
    AddUnderNewChild(old_, p, Dir(name), 0);
    ValidPrefixOfChild(r, p, k);
  }

  /** The node at `p + [k]` is child `k` of the node at `p`. */
  lemma {:induction false} ValidPrefixOfChild(n: Node, p: seq<nat>, k: nat)
    requires ValidPath(n, p + [k])
    ensures ValidPath(n, p) && k < |At(n, p).children| && At(n, p + [k]) == At(n, p).children[k]
  {
    if |p| == 0 {
      assert (p + [k])[0] == k && (p + [k])[1..] == [];
    } else {
      assert (p + [k])[1..] == p[1..] + [k];
      ValidPrefixOfChild(n.children[p[0]], p[1..], k);
    }
  }

  /** `add_file` grows exactly the current directory and the directories
      above it, by the file's size; every other node keeps its size, and
      every node keeps its name and kind. */
  lemma AddFileSizes(fs: FS, name: string, size: nat, q: seq<nat>)
    requires Reachable(fs) && fs.cwd.Some? && name !in ChildNames(Cwd(fs))
    requires ValidPath(fs.root.value, q)
    ensures var r := AddFile(fs, name, size).value.root.value;
      ValidPath(r, q) &&
      At(r, q).name == At(fs.root.value, q).name && At(r, q).isDir == At(fs.root.value, q).isDir &&
      At(r, q).size == At(fs.root.value, q).size + (if IsPrefix(q, fs.cwd.value) then size else 0)
  {
    AddUnderEffect(fs.root.value, fs.cwd.value, File(name, size), size, q);
  }

  // ---------------------------------------------------------------------
  // The size invariant
  // ---------------------------------------------------------------------

  function SumSizes(cs: seq<Node>): nat
  {
    if |cs| == 0 then 0 else SumSizes(cs[..|cs| - 1]) + cs[|cs| - 1].size
  }

  lemma {:induction false} SumSizesUpdate(cs: seq<Node>, i: nat, c: Node)
    requires i < |cs|
    ensures SumSizes(cs[i := c]) + cs[i].size == SumSizes(cs) + c.size
  {
    var init := cs[..|cs| - 1];
    if i < |cs| - 1 {
      SumSizesUpdate(init, i, c);
      assert cs[i := c][..|cs| - 1] == init[i := c];
    } else {
      assert cs[i := c][..|cs| - 1] == init;
    }
  }

  /** A directory's size is the sum of its children's sizes, and files have
      no children: what starting every directory at size 0 and adding each
      file's size upwards maintains. */
  ghost predicate Consistent(n: Node)
  {
    (n.isDir ==> n.size == SumSizes(n.children)) &&
    (!n.isDir ==> |n.children| == 0) &&
    forall i :: 0 <= i < |n.children| ==> Consistent(n.children[i])
  }

  /** A reachable filesystem whose tree is consistent and whose current
      directory is a directory. */
  ghost predicate Valid(fs: FS)
  {
    Reachable(fs) &&
    (fs.root.Some? ==> fs.root.value.isDir && Consistent(fs.root.value)) &&
    (fs.cwd.Some? ==> Cwd(fs).isDir)
  }

  lemma {:induction false} AddUnderConsistent(n: Node, p: seq<nat>, child: Node, delta: nat)
    requires ValidPath(n, p) && Consistent(n) && At(n, p).isDir
    requires Consistent(child) && child.size == delta
    ensures Consistent(AddUnder(n, p, child, delta))
    decreases |p|
  {
    var r := AddUnder(n, p, child, delta);
    if |p| == 0 {
      assert (n.children + [child])[..|n.children|] == n.children;
      assert forall i :: 0 <= i < |r.children| ==> r.children[i] == (n.children + [child])[i];
    } else {
      var c := n.children[p[0]];
      AddUnderConsistent(c, p[1..], child, delta);
      SumSizesUpdate(n.children, p[0], AddUnder(c, p[1..], child, delta));
      assert forall i :: 0 <= i < |r.children| && i != p[0] ==> r.children[i] == n.children[i];
    }
  }

  lemma AddDirectoryValid(fs: FS, name: string)
    requires Valid(fs) && fs.cwd.Some?
    ensures Valid(AddDirectory(fs, name).value)
  {
    if name !in ChildNames(Cwd(fs)) {
      AddUnderConsistent(fs.root.value, fs.cwd.value, Dir(name), 0);
      AddUnderEffect(fs.root.value, fs.cwd.value, Dir(name), 0, fs.cwd.value);
      AddUnderEffect(fs.root.value, fs.cwd.value, Dir(name), 0, []);
    }
  }

  lemma AddFileValid(fs: FS, name: string, size: nat)
    requires Valid(fs) && fs.cwd.Some?
    ensures Valid(AddFile(fs, name, size).value)
  {
    if name !in ChildNames(Cwd(fs)) {
      AddUnderConsistent(fs.root.value, fs.cwd.value, File(name, size), size);
      AddUnderEffect(fs.root.value, fs.cwd.value, File(name, size), size, fs.cwd.value);
      AddUnderEffect(fs.root.value, fs.cwd.value, File(name, size), size, []);
    }
  }

  lemma MoveUpValid(fs: FS)
    requires Valid(fs) && fs.cwd.Some?
    ensures Valid(MoveUp(fs).value)
  {
    if |fs.cwd.value| > 0 {
      var p := fs.cwd.value;
      var up := p[..|p| - 1];
      assert p == up + [p[|p| - 1]];
      ValidPrefixOfChild(fs.root.value, up, p[|p| - 1]);
      ConsistentAt(fs.root.value, up);
    }
  }

  /** A node with children in a consistent tree is a directory. */
  lemma {:induction false} ConsistentAt(n: Node, p: seq<nat>)
    requires ValidPath(n, p) && Consistent(n)
    ensures Consistent(At(n, p))
    decreases |p|
  {
    if |p| > 0 {
      ConsistentAt(n.children[p[0]], p[1..]);
    }
  }

  /** `move_to` keeps the invariant unless it enters a file: a `cd` into a
      file name makes a file the current directory. */
  lemma MoveToValid(fs: FS, name: string)
    requires Valid(fs) && (fs.root.None? || fs.cwd.Some?)
    requires fs.root.Some? && name in ChildNames(Cwd(fs)) ==> Cwd(fs).children[FirstChild(Cwd(fs), name)].isDir
    ensures Valid(MoveTo(fs, name).value)
  {
    if fs.root.Some? {
      if name !in ChildNames(Cwd(fs)) {
        AddDirectoryValid(fs, name);
      } else {
        var i := FirstChild(Cwd(fs), name);
        ValidExtend(fs.root.value, fs.cwd.value, i);
      }
    }
  }

  /** The sizes of the files in a subtree. */
  function FileTotal(n: Node): nat
  {
    (if n.isDir then 0 else n.size) + FileTotals(n.children)
  }

  function FileTotals(cs: seq<Node>): nat
  {
    if |cs| == 0 then 0 else FileTotals(cs[..|cs| - 1]) + FileTotal(cs[|cs| - 1])
  }

  /** In a consistent tree every node's size is the total size of the files
      in its subtree: for a directory, of the files below it. */
  lemma {:induction false} SizeIsFileTotal(n: Node)
    requires Consistent(n)
    ensures n.size == FileTotal(n)
    decreases n, 1
  {
    SizesAreFileTotals(n.children);
  }

  lemma {:induction false} SizesAreFileTotals(cs: seq<Node>)
    requires forall i :: 0 <= i < |cs| ==> Consistent(cs[i])
    ensures SumSizes(cs) == FileTotals(cs)
    decreases cs, 0
  {
    if |cs| > 0 {
      SizesAreFileTotals(cs[..|cs| - 1]);
      SizeIsFileTotal(cs[|cs| - 1]);
    }
  }

  // ---------------------------------------------------------------------
  // Iteration
  // ---------------------------------------------------------------------

  /** The order `__iter__` yields nodes in: a node, then the subtrees of its
      children from the last child to the first (the stack pops the child
      pushed last). */
  function Preorder(n: Node): seq<Node>
    decreases n, 1
  {
    [n] + StackOrder(n.children)
  }

  /** What the nodes on a stack yield, the top (last) one first. */
  function StackOrder(stack: seq<Node>): seq<Node>
    decreases stack, 0
  {
    if |stack| == 0 then []
    else Preorder(stack[|stack| - 1]) + StackOrder(stack[..|stack| - 1])
  }

  lemma {:induction false} StackOrderAppend(a: seq<Node>, b: seq<Node>)
    ensures StackOrder(a + b) == StackOrder(b) + StackOrder(a)
    decreases |b|
  {
    if |b| == 0 {
      assert a + b == a;
    } else {
      var init := b[..|b| - 1];
      assert (a + b)[..|a + b| - 1] == a + init;
      StackOrderAppend(a, init);
    }
  }

  /** `__iter__`: pop a node, push its children, yield the node. */
  method Iterate(root: Node) returns (nodes: seq<Node>)
    ensures nodes == Preorder(root)
  {
    var stack := [root];
    nodes := [];
    assert StackOrder(stack) == Preorder(root) + StackOrder([]);
    while |stack| > 0
      invariant nodes + StackOrder(stack) == Preorder(root)
      decreases |StackOrder(stack)|
    {
      var node := stack[|stack| - 1];
      var rest := stack[..|stack| - 1];
      StackOrderAppend(rest, node.children);
      stack := rest + node.children;
      nodes := nodes + [node];
    }
  }

  /** The number of nodes of a tree. */
  function Count(n: Node): nat
    decreases n, 1
  {
    1 + Counts(n.children)
  }

  function Counts(cs: seq<Node>): nat
    decreases cs, 0
  {
    if |cs| == 0 then 0 else Counts(cs[..|cs| - 1]) + Count(cs[|cs| - 1])
  }

  /** The iteration yields as many nodes as the tree has, and the node at
      every path among them. */
  lemma {:induction false} PreorderCount(n: Node)
    ensures |Preorder(n)| == Count(n)
    decreases n, 1
  {
    StackOrderCount(n.children);
  }

  lemma {:induction false} StackOrderCount(cs: seq<Node>)
    ensures |StackOrder(cs)| == Counts(cs)
    decreases cs, 0
  {
    if |cs| > 0 {
      StackOrderCount(cs[..|cs| - 1]);
      PreorderCount(cs[|cs| - 1]);
    }
  }

  lemma {:induction false} PreorderVisits(n: Node, p: seq<nat>)
    requires ValidPath(n, p)
    ensures At(n, p) in Preorder(n)
    decreases |p|
  {
    if |p| > 0 {
      PreorderVisits(n.children[p[0]], p[1..]);
      StackOrderHolds(n.children, p[0]);
    }
  }

  lemma {:induction false} StackOrderHolds(cs: seq<Node>, i: nat)
    requires i < |cs|
    ensures forall x :: x in Preorder(cs[i]) ==> x in StackOrder(cs)
    decreases |cs|
  {
    if i < |cs| - 1 {
      StackOrderHolds(cs[..|cs| - 1], i);
    }
  }

  // ---------------------------------------------------------------------
  // The two answers
  // ---------------------------------------------------------------------

  const Threshold: nat := 100000
  const TotalSpace: nat := 70000000
  const RequiredUnused: nat := 30000000

  /** `part_1`: the sum of the sizes of the directories smaller than the
      threshold, over the nodes in iteration order. */
  function SmallDirsTotal(nodes: seq<Node>): nat
  {
    if |nodes| == 0 then 0
    else
      var n := nodes[|nodes| - 1];
      SmallDirsTotal(nodes[..|nodes| - 1]) + (if n.isDir && n.size < Threshold then n.size else 0)
  }

  /** The same sum taken over the tree. */
  function SmallInTree(n: Node): nat
    decreases n, 1
  {
    (if n.isDir && n.size < Threshold then n.size else 0) + SmallInForest(n.children)
  }

  function SmallInForest(cs: seq<Node>): nat
    decreases cs, 0
  {
    if |cs| == 0 then 0 else SmallInForest(cs[..|cs| - 1]) + SmallInTree(cs[|cs| - 1])
  }

  lemma {:induction false} SmallDirsTotalAppend(a: seq<Node>, b: seq<Node>)
    ensures SmallDirsTotal(a + b) == SmallDirsTotal(a) + SmallDirsTotal(b)
    decreases |b|
  {
    if |b| == 0 {
      assert a + b == a;
    } else {
      assert (a + b)[..|a + b| - 1] == a + b[..|b| - 1];
      SmallDirsTotalAppend(a, b[..|b| - 1]);
    }
  }

  /** Summing over the iteration is summing over the tree: the order of the
      stack does not change the answer of the first part. */
  lemma {:induction false} SmallDirsOfTree(n: Node)
    ensures SmallDirsTotal(Preorder(n)) == SmallInTree(n)
    decreases n, 1
  {
    SmallDirsTotalAppend([n], StackOrder(n.children));
    assert [n][..0] == [];
    SmallDirsOfForest(n.children);
  }

  lemma {:induction false} SmallDirsOfForest(cs: seq<Node>)
    ensures SmallDirsTotal(StackOrder(cs)) == SmallInForest(cs)
    decreases cs, 0
  {
    if |cs| > 0 {
      SmallDirsTotalAppend(Preorder(cs[|cs| - 1]), StackOrder(cs[..|cs| - 1]));
      SmallDirsOfTree(cs[|cs| - 1]);
      SmallDirsOfForest(cs[..|cs| - 1]);
    }
  }

  /** `part_2`: the smallest directory whose removal frees enough space,
      starting from the total space as a value large enough. */
  method SmallestToFree(nodes: seq<Node>, rootSize: nat) returns (smallest: int)
    ensures smallest <= TotalSpace
    ensures forall n :: n in nodes && n.isDir && n.size >= RequiredUnused - (TotalSpace - rootSize) ==>
      smallest <= n.size
    ensures smallest == TotalSpace ||
      exists n :: n in nodes && n.isDir && n.size >= RequiredUnused - (TotalSpace - rootSize) && smallest == n.size
    // The root always qualifies, the amount to free being its size minus
    // 40000000: on a disk that is not over-full the fallback never wins.
    ensures rootSize < TotalSpace && (exists n :: n in nodes && n.isDir && n.size == rootSize) ==>
      smallest <= rootSize < TotalSpace
  {
    var amountToFree := RequiredUnused - (TotalSpace - rootSize);
    smallest := TotalSpace;
    var i := 0;
    while i < |nodes|
      invariant 0 <= i <= |nodes|
      invariant smallest <= TotalSpace
      invariant forall k :: 0 <= k < i && nodes[k].isDir && nodes[k].size >= amountToFree ==> smallest <= nodes[k].size
      invariant smallest == TotalSpace ||
        exists k :: 0 <= k < i && nodes[k].isDir && nodes[k].size >= amountToFree && smallest == nodes[k].size
    {
      var node := nodes[i];
      if node.isDir && node.size >= amountToFree {
        if node.size < smallest {
          smallest := node.size;
        }
      }
      i := i + 1;
    }
  }

  // ---------------------------------------------------------------------
  // Reading the terminal session
  // ---------------------------------------------------------------------

  /** Python's `s[i:]` and `s[i:j]`, which never raise. */
  function Drop(s: string, i: nat): string
  {
    if i <= |s| then s[i..] else []
  }

  function Slice(s: string, i: nat, j: nat): string
  {
    if i >= |s| || j <= i then [] else if j <= |s| then s[i..j] else s[i..]
  }

  /** `str.split(' ')`: the pieces between single spaces. */
  function SplitSpace(s: string): (pieces: seq<string>)
    ensures |pieces| >= 1
  {
    if |s| == 0 then [""]
    else
      var rest := SplitSpace(s[1..]);
      if s[0] == ' ' then [""] + rest else [[s[0]] + rest[0]] + rest[1..]
  }

  /** `int()` on a size: a non-empty run of decimal digits. Other spellings
      `int` would accept (a sign, surrounding blanks, underscores) are read as
      an error. */
  function ParseSize(s: string): Option<nat>
  {
    if |s| == 0 || exists i :: 0 <= i < |s| && !IsDigit(s[i]) then None
    else Some(DigitsValue(s))
  }

  /** A size written in decimal reads back as itself. */
  lemma ParseSizeRoundTrip(n: nat)
    ensures ParseSize(Decimal(n)) == Some(n)
  {
    DecimalValue(n);
  }

  /** One line of `build_fs`. An empty line, a file line that is not two
      space-separated words, or a size that does not read as a number,
      raises. */
  function Step(fs: FS, line: string): (r: Option<FS>)
    requires Reachable(fs)
    ensures r.Some? ==> Reachable(r.value)
  {
    if |line| == 0 then None
    else if line[0] == '$' && Slice(line, 2, 4) == "cd" then
      var name := Drop(line, 5);
      if name == ".." then MoveUp(fs) else MoveTo(fs, name)
    else if line == "$ ls" then Some(fs)
    else if line[0] == 'd' then AddDirectory(fs, Drop(line, 4))
    else
      var pieces := SplitSpace(line);
      if |pieces| != 2 then None
      else
        var size := ParseSize(pieces[0]);
        if size.None? then None else AddFile(fs, pieces[1], size.value)
  }

  /** The line is a `cd` into a child that is a file. */
  predicate EntersFile(fs: FS, line: string)
    requires Reachable(fs)
  {
    |line| > 0 && line[0] == '$' && Slice(line, 2, 4) == "cd" && Drop(line, 5) != ".." &&
    fs.root.Some? && fs.cwd.Some? && Drop(line, 5) in ChildNames(Cwd(fs)) &&
    !Cwd(fs).children[FirstChild(Cwd(fs), Drop(line, 5))].isDir
  }

  /** Every line that does not raise keeps the tree consistent and the
      current directory a directory, except a `cd` into a file. */
  lemma StepValid(fs: FS, line: string)
    requires Valid(fs) && Step(fs, line).Some? && !EntersFile(fs, line)
    ensures Valid(Step(fs, line).value)
  {
    if line[0] == '$' && Slice(line, 2, 4) == "cd" {
      if Drop(line, 5) == ".." {
        MoveUpValid(fs);
      } else {
        MoveToValid(fs, Drop(line, 5));
      }
    } else if line == "$ ls" {
    } else if line[0] == 'd' {
      AddDirectoryValid(fs, Drop(line, 4));
    } else {
      var pieces := SplitSpace(line);
      AddFileValid(fs, pieces[1], ParseSize(pieces[0]).value);
    }
  }

  /** `build_fs`: the lines in order from an empty filesystem. */
  function BuildFs(lines: seq<string>): (r: Option<FS>)
    ensures r.Some? ==> Reachable(r.value)
  {
    if |lines| == 0 then Some(Empty())
    else
      var before := BuildFs(lines[..|lines| - 1]);
      if before.None? then None else Step(before.value, lines[|lines| - 1])
  }

  /** A word without spaces is one piece. */
  lemma {:induction false} SplitWord(w: string)
    requires ' ' !in w
    ensures SplitSpace(w) == [w]
  {
    if |w| > 0 {
      SplitWord(w[1..]);
      assert [w[0]] + w[1..] == w;
    }
  }

  /** Two words joined by one space split back into the two words: the
      only file lines `build_fs` accepts. */
  lemma {:induction false} SplitTwoWords(a: string, b: string)
    requires ' ' !in a && ' ' !in b
    ensures SplitSpace(a + " " + b) == [a, b]
  {
    if |a| == 0 {
      assert a + " " + b == [' '] + b;
      assert (a + " " + b)[1..] == b;
      SplitWord(b);
    } else {
      SplitTwoWords(a[1..], b);
      assert (a + " " + b)[1..] == a[1..] + " " + b;
      assert [a[0]] + a[1..] == a;
    }
  }

  /** The session of the puzzle's example up to its first listing: the root,
      a directory and a file in it. */
  lemma SessionExample()
    ensures BuildFs(["$ cd /", "$ ls", "dir a", "584 i"]) ==
      Some(FS(Some(Node("/", true, 584, [Dir("a"), File("i", 584)])), Some([])))
  {
    var l1, l2, l3, l4 := "$ cd /", "$ ls", "dir a", "584 i";
    var lines := [l1, l2, l3, l4];
    var fs1 := FS(Some(Dir("/")), Some([]));
    var fs3 := FS(Some(Node("/", true, 0, [Dir("a")])), Some([]));
    SessionFirstLines(fs1);
    SessionDirLine(fs1, fs3);
    SessionFileLine(fs3);
    assert [l1][..0] == [];
    assert BuildFs([l1]) == Some(fs1);
    assert [l1, l2][..1] == [l1];
    assert BuildFs([l1, l2]) == Some(fs1);
    assert [l1, l2, l3][..2] == [l1, l2];
    assert BuildFs([l1, l2, l3]) == Some(fs3);
    assert lines[..3] == [l1, l2, l3];
  }

  lemma SessionFirstLines(fs1: FS)
    requires fs1 == FS(Some(Dir("/")), Some([]))
    ensures Step(Empty(), "$ cd /") == Some(fs1) && Step(fs1, "$ ls") == Some(fs1)
  {
    assert Slice("$ cd /", 2, 4) == "cd" && Drop("$ cd /", 5) == "/";
    assert Slice("$ ls", 2, 4) == "ls";
  }

  lemma SessionDirLine(fs1: FS, fs3: FS)
    requires fs1 == FS(Some(Dir("/")), Some([]))
    requires fs3 == FS(Some(Node("/", true, 0, [Dir("a")])), Some([]))
    ensures Step(fs1, "dir a") == Some(fs3)
  {
    assert Slice("dir a", 2, 4) == "r ";
    assert Drop("dir a", 4) == "a";
    assert ChildNames(Dir("/")) == {};
    assert [] + [Dir("a")] == [Dir("a")];
  }

  lemma ParseExampleSize()
    ensures ParseSize("584") == Some(584)
  {
    assert "584"[..2] == "58" && "58"[..1] == "5" && "5"[..0] == "";
  }

  lemma SessionFileLine(fs3: FS)
    requires fs3 == FS(Some(Node("/", true, 0, [Dir("a")])), Some([]))
    ensures Step(fs3, "584 i") == Some(FS(Some(Node("/", true, 584, [Dir("a"), File("i", 584)])), Some([])))
  {
    var l := "584 i";
    assert Slice(l, 2, 4) == "4 ";
    assert l == "584" + " " + "i";
    SplitTwoWords("584", "i");
    ParseExampleSize();
    assert ChildNames(Cwd(fs3)) == {"a"};
    assert "i" !in ChildNames(Cwd(fs3));
    assert [Dir("a")] + [File("i", 584)] == [Dir("a"), File("i", 584)];
    assert AddFile(fs3, "i", 584) == Some(FS(Some(Node("/", true, 584, [Dir("a"), File("i", 584)])), Some([])));
  }
}

=== FILE: forest.dfy ===
/** Day 8, first part (day_08/part_1.py): a rectangular grid of tree
    heights (digits), and the count of the trees visible from outside the
    grid, scanning each row from the left and the right and keeping a
    per-column skyline from the top and from the bottom. */
module Forest {
  import opened Ranges

  /** Rows of heights, top row first. */
  type Grid = seq<seq<nat>>

  datatype Cell = Cell(row: int, col: int)

  predicate Rectangular(g: Grid)
  {
    forall r :: 0 <= r < |g| ==> |g[r]| == |g[0]|
  }

  function Width(g: Grid): nat
  {
    if |g| == 0 then 0 else |g[0]|
  }

  // ---------------------------------------------------------------------
  // Visibility
  // ---------------------------------------------------------------------

  /** Every tree between the cell and the left edge is shorter. */
  ghost predicate VisibleLeft(row: seq<nat>, c: nat)
    requires c < |row|
  {
    forall k :: 0 <= k < c ==> row[k] < row[c]
  }

  ghost predicate VisibleRight(row: seq<nat>, c: nat)
    requires c < |row|
  {
    forall k :: c < k < |row| ==> row[k] < row[c]
  }

  ghost predicate VisibleTop(g: Grid, r: nat, c: nat)
    requires Rectangular(g) && r < |g| && c < Width(g)
  {
    forall k :: 0 <= k < r ==> g[k][c] < g[r][c]
  }

  ghost predicate VisibleBottom(g: Grid, r: nat, c: nat)
    requires Rectangular(g) && r < |g| && c < Width(g)
  {
    forall k :: r < k < |g| ==> g[k][c] < g[r][c]
  }

  /** The trees seen from outside the grid: strictly taller than every tree
      between them and at least one edge. */
  ghost function VisibleTrees(g: Grid): set<Cell>
    requires Rectangular(g)
  {
    set r: nat, c: nat | r < |g| && c < Width(g) &&
      (VisibleTop(g, r, c) || VisibleLeft(g[r], c) || VisibleRight(g[r], c) || VisibleBottom(g, r, c)) :: Cell(r, c)
  }

  /** The running skyline: the tallest height seen, or -1 before any. */
  function RunMax(s: seq<nat>): (m: int)
    ensures m >= -1
  {
    if |s| == 0 then -1 else Max(RunMax(s[..|s| - 1]), s[|s| - 1])
  }

  /** A height tops the skyline exactly when it is taller than every height
      seen. */
  lemma {:induction false} AboveRunMax(s: seq<nat>, h: nat)
    ensures h > RunMax(s) <==> forall k :: 0 <= k < |s| ==> s[k] < h
  {
    if |s| > 0 {
      AboveRunMax(s[..|s| - 1], h);
      assert forall k :: 0 <= k < |s| - 1 ==> s[..|s| - 1][k] == s[k];
    }
  }

  lemma RunMaxSnoc(s: seq<nat>, x: nat)
    ensures RunMax(s + [x]) == Max(RunMax(s), x)
  {
    assert (s + [x])[..|s|] == s;
  }

  /** The skyline is attained, unless nothing was seen. */
  lemma {:induction false} RunMaxAttained(s: seq<nat>)
    requires |s| > 0
    ensures exists k :: 0 <= k < |s| && s[k] == RunMax(s)
    ensures forall k :: 0 <= k < |s| ==> s[k] <= RunMax(s)
  {
    var init := s[..|s| - 1];
    if |s| > 1 {
      RunMaxAttained(init);
      assert forall k :: 0 <= k < |s| - 1 ==> init[k] == s[k];
    }
    if |s| > 1 && s[|s| - 1] < RunMax(init) {
      var k :| 0 <= k < |init| && init[k] == RunMax(init);
      assert s[k] == RunMax(s);
    } else {
      assert s[|s| - 1] == RunMax(s);
    }
  }

  // ---------------------------------------------------------------------
  // Scanning one row
  // ---------------------------------------------------------------------

  /** The columns above the row and below it, as the scans meet them. */
  function Above(g: Grid, r: nat, c: nat): (s: seq<nat>)
    requires Rectangular(g) && r <= |g| && c < Width(g)
    ensures |s| == r && forall k :: 0 <= k < r ==> s[k] == g[k][c]
  {
    seq(r, k requires 0 <= k < r => g[k][c])
  }

  /** The column below row `r`, from the bottom row up. */
  function Below(g: Grid, r: int, c: nat): (s: seq<nat>)
    requires Rectangular(g) && -1 <= r < |g| && c < Width(g)
    ensures |s| == |g| - 1 - r && forall k :: 0 <= k < |s| ==> s[k] == g[|g| - 1 - k][c]
  {
    seq(|g| - 1 - r, k requires 0 <= k < |g| - 1 - r => g[|g| - 1 - k][c])
  }

  /** The loop over the columns of one row: the top skyline is raised where
      the row tops it, and the left skyline is the running maximum. */
  method ScanRow(line: seq<nat>, skyline: seq<int>) returns (top: set<nat>, left: set<nat>, skyline': seq<int>, leftMax: int)
    requires |skyline| == |line|
    ensures |skyline'| == |line|
    ensures top == set c: nat | c < |line| && line[c] > skyline[c]
    ensures forall c :: 0 <= c < |line| ==> skyline'[c] == Max(skyline[c], line[c])
    ensures left == set c: nat | c < |line| && VisibleLeft(line, c)
    ensures leftMax == RunMax(line)
  {
    top, left := {}, {};
    skyline' := skyline;
    leftMax := -1;
    var c := 0;
    while c < |line|
      invariant 0 <= c <= |line| && |skyline'| == |line|
      invariant top == set j: nat | j < c && line[j] > skyline[j]
      invariant forall j :: 0 <= j < c ==> skyline'[j] == Max(skyline[j], line[j])
      invariant forall j :: c <= j < |line| ==> skyline'[j] == skyline[j]
      invariant left == set j: nat | j < c && VisibleLeft(line, j)
      invariant leftMax == RunMax(line[..c])
    {
      if line[c] > skyline'[c] {
        skyline' := skyline'[c := line[c]];
        top := top + {c};
      }
      LeftStep(line, c);
      if line[c] > leftMax {
        leftMax := line[c];
        left := left + {c};
      }
      c := c + 1;
    }
    assert line[..c] == line;
  }

  /** One step of the scan from the left. */
  lemma LeftStep(line: seq<nat>, c: nat)
    requires c < |line|
    ensures line[c] > RunMax(line[..c]) <==> VisibleLeft(line, c)
    ensures RunMax(line[..c + 1]) == Max(RunMax(line[..c]), line[c])
  {
    AboveRunMax(line[..c], line[c]);
    assert forall k :: 0 <= k < c ==> line[..c][k] == line[k];
    assert line[..c + 1] == line[..c] + [line[c]];
    RunMaxSnoc(line[..c], line[c]);
  }

  /** The loop from the right, which stops at the first tree (from the
      right) as tall as the row's tallest: nothing to its left can top it. */
  method ScanFromRight(line: seq<nat>, rowMax: int) returns (right: set<nat>)
    requires rowMax == RunMax(line)
    ensures right == set c: nat | c < |line| && VisibleRight(line, c)
  {
    right := {};
    var skyline: int := -1;
    var c := |line|;
    while c > 0
      invariant 0 <= c <= |line|
      invariant skyline == RunMax(Reverse(line[c..]))
      invariant right == set j: nat | c <= j < |line| && VisibleRight(line, j)
    {
      c := c - 1;
      RightStep(line, c);
      if line[c] > skyline {
        skyline := line[c];
        right := right + {c};
      }
      if line[c] == rowMax {
        HiddenBehindTallest(line, c);
        break;
      }
    }
  }

  function Reverse(s: seq<nat>): (r: seq<nat>)
    ensures |r| == |s| && forall k :: 0 <= k < |s| ==> r[k] == s[|s| - 1 - k]
  {
    seq(|s|, k requires 0 <= k < |s| => s[|s| - 1 - k])
  }

  /** One step of the scan from the right. */
  lemma RightStep(line: seq<nat>, c: nat)
    requires c < |line|
    ensures line[c] > RunMax(Reverse(line[c + 1..])) <==> VisibleRight(line, c)
    ensures RunMax(Reverse(line[c..])) == Max(RunMax(Reverse(line[c + 1..])), line[c])
  {
    var rest := Reverse(line[c + 1..]);
    AboveRunMax(rest, line[c]);
    if !VisibleRight(line, c) {
      var k :| c < k < |line| && line[k] >= line[c];
      assert rest[|line| - 1 - k] == line[k];
    }
    assert Reverse(line[c..]) == rest + [line[c]];
    RunMaxSnoc(rest, line[c]);
  }

  /** Left of a tree as tall as the tallest, no tree is visible from the
      right. */
  lemma HiddenBehindTallest(line: seq<nat>, c: nat)
    requires c < |line| && line[c] == RunMax(line)
    ensures forall j :: 0 <= j < c ==> !VisibleRight(line, j)
  {
    RunMaxAttained(line);
  }

  // ---------------------------------------------------------------------
  // The whole count
  // ---------------------------------------------------------------------

  function Cells(r: nat, cols: set<nat>): set<Cell>
  {
    set c | c in cols :: Cell(r, c)
  }

  /** The cells of rows `..n` seen from the top, the left or the right. */
  ghost function SeenFromTopLeftRight(g: Grid, n: nat): set<Cell>
    requires Rectangular(g) && n <= |g|
  {
    set r: nat, c: nat | r < n && c < Width(g) &&
      (VisibleTop(g, r, c) || VisibleLeft(g[r], c) || VisibleRight(g[r], c)) :: Cell(r, c)
  }

  /** The cells of rows `n..` seen from the bottom. */
  ghost function SeenFromBottom(g: Grid, n: nat): set<Cell>
    requires Rectangular(g) && n <= |g|
  {
    set r: nat, c: nat | n <= r < |g| && c < Width(g) && VisibleBottom(g, r, c) :: Cell(r, c)
  }

  /** A row's three scans add its cells seen from the top, left or right. */
  lemma TopLeftRightRow(g: Grid, r: nat, top: set<nat>, left: set<nat>, right: set<nat>)
    requires Rectangular(g) && r < |g|
    requires top == set c: nat | c < Width(g) && VisibleTop(g, r, c)
    requires left == set c: nat | c < Width(g) && VisibleLeft(g[r], c)
    requires right == set c: nat | c < Width(g) && VisibleRight(g[r], c)
    ensures SeenFromTopLeftRight(g, r + 1) == SeenFromTopLeftRight(g, r) + Cells(r, top + left + right)
  {
  }

  lemma BottomRow(g: Grid, r: nat, bottom: set<nat>)
    requires Rectangular(g) && r < |g|
    requires bottom == set c: nat | c < Width(g) && VisibleBottom(g, r, c)
    ensures SeenFromBottom(g, r) == SeenFromBottom(g, r + 1) + Cells(r, bottom)
  {
  }

  lemma AllSeen(g: Grid)
    requires Rectangular(g)
    ensures VisibleTrees(g) == SeenFromTopLeftRight(g, |g|) + SeenFromBottom(g, 0)
  {
  }

  /** The top skyline before row `r` is the tallest tree above, column by
      column, so the row tops it exactly where it is visible from the top. */
  lemma TopSkyline(g: Grid, r: nat, skyline: seq<int>)
    requires Rectangular(g) && r < |g| && |skyline| == Width(g)
    requires forall c :: 0 <= c < Width(g) ==> skyline[c] == RunMax(Above(g, r, c))
    ensures (set c: nat | c < |g[r]| && g[r][c] > skyline[c]) == set c: nat | c < Width(g) && VisibleTop(g, r, c)
    ensures forall c :: 0 <= c < Width(g) ==> Max(skyline[c], g[r][c]) == RunMax(Above(g, r + 1, c))
  {
    forall c | 0 <= c < Width(g)
      ensures g[r][c] > skyline[c] <==> VisibleTop(g, r, c)
      ensures Max(skyline[c], g[r][c]) == RunMax(Above(g, r + 1, c))
    {
      AboveRunMax(Above(g, r, c), g[r][c]);
      assert Above(g, r + 1, c) == Above(g, r, c) + [g[r][c]];
      RunMaxSnoc(Above(g, r, c), g[r][c]);
    }
  }

  lemma BottomSkyline(g: Grid, r: nat, skyline: seq<int>)
    requires Rectangular(g) && r < |g| && |skyline| == Width(g)
    requires forall c :: 0 <= c < Width(g) ==> skyline[c] == RunMax(Below(g, r, c))
    ensures (set c: nat | c < |g[r]| && g[r][c] > skyline[c]) == set c: nat | c < Width(g) && VisibleBottom(g, r, c)
    ensures forall c :: 0 <= c < Width(g) ==> Max(skyline[c], g[r][c]) == RunMax(Below(g, r - 1, c))
  {
    forall c | 0 <= c < Width(g)
      ensures g[r][c] > skyline[c] <==> VisibleBottom(g, r, c)
      ensures Max(skyline[c], g[r][c]) == RunMax(Below(g, r - 1, c))
    {
      var below := Below(g, r, c);
      AboveRunMax(below, g[r][c]);
      if !VisibleBottom(g, r, c) {
        var k :| r < k < |g| && g[k][c] >= g[r][c];
        assert below[|g| - 1 - k] == g[k][c];
      }
      assert Below(g, r - 1, c) == below + [g[r][c]];
      RunMaxSnoc(below, g[r][c]);
    }
  }

  /** `get_num_trees_seen`: one pass from the top row down, then one from
      the bottom row up. */
  method NumTreesSeen(g: Grid) returns (count: nat)
    requires Rectangular(g)
    ensures count == |VisibleTrees(g)|
  {
    var trees := TopDownPass(g);
    trees := BottomUpPass(g, trees);
    AllSeen(g);
    count := |trees|;
  }

  /** The first pass: each row against the top skyline and scanned from
      both sides. */
  method TopDownPass(g: Grid) returns (trees: set<Cell>)
    requires Rectangular(g)
    ensures trees == SeenFromTopLeftRight(g, |g|)
  {
    trees := {};
    var skylineTop: seq<int> := [];
    var r := 0;
    while r < |g|
      invariant 0 <= r <= |g|
      invariant r > 0 ==> |skylineTop| == Width(g)
      invariant r > 0 ==> forall c :: 0 <= c < Width(g) ==> skylineTop[c] == RunMax(Above(g, r, c))
      invariant trees == SeenFromTopLeftRight(g, r)
    {
      if r == 0 {
        skylineTop := seq(|g[0]|, _ => -1);
      }
      assert |g[r]| == Width(g) == |skylineTop|;
      var top, left, sky, leftMax := ScanRow(g[r], skylineTop);
      var right := ScanFromRight(g[r], leftMax);
      TopSkyline(g, r, skylineTop);
      assert forall c :: 0 <= c < Width(g) ==> sky[c] == RunMax(Above(g, r + 1, c));
      TopLeftRightRow(g, r, top, left, right);
      trees := trees + Cells(r, top + left + right);
      skylineTop := sky;
      r := r + 1;
    }
  }

  /** The second pass: each row, from the bottom up, against the bottom
      skyline. */
  method BottomUpPass(g: Grid, seen: set<Cell>) returns (trees: set<Cell>)
    requires Rectangular(g)
    ensures trees == seen + SeenFromBottom(g, 0)
  {
    trees := seen;
    var skylineBottom: seq<int> := [];
    var row := |g|;
    while row > 0
      invariant 0 <= row <= |g|
      invariant row < |g| ==> |skylineBottom| == Width(g)
      invariant row < |g| ==> forall c :: 0 <= c < Width(g) ==> skylineBottom[c] == RunMax(Below(g, row - 1, c))
      invariant trees == seen + SeenFromBottom(g, row)
    {
      row := row - 1;
      if row == |g| - 1 {
        skylineBottom := seq(|g[row]|, _ => -1);
      }
      var bottom, _, sky, _ := ScanRow(g[row], skylineBottom);
      BottomSkyline(g, row, skylineBottom);
      BottomRow(g, row, bottom);
      trees := trees + Cells(row, bottom);
      skylineBottom := sky;
    }
  }

  /** All cells of a grid, row by row. */
  function GridCells(rows: nat, cols: nat): set<Cell>
  {
    if rows == 0 then {} else GridCells(rows - 1, cols) + RowCells(rows - 1, cols)
  }

  function RowCells(r: nat, cols: nat): set<Cell>
  {
    if cols == 0 then {} else RowCells(r, cols - 1) + {Cell(r, cols - 1)}
  }

  lemma {:induction false} InGridCells(rows: nat, cols: nat, r: nat, c: nat)
    requires r < rows && c < cols
    ensures Cell(r, c) in GridCells(rows, cols)
  {
    if r < rows - 1 {
      InGridCells(rows - 1, cols, r, c);
    } else {
      InRowCells(r, cols, c);
    }
  }

  lemma {:induction false} InRowCells(r: nat, cols: nat, c: nat)
    requires c < cols
    ensures Cell(r, c) in RowCells(r, cols)
  {
    if c < cols - 1 {
      InRowCells(r, cols - 1, c);
    }
  }

  lemma {:induction false} GridCellsCount(rows: nat, cols: nat)
    ensures |GridCells(rows, cols)| <= rows * cols
  {
    if rows > 0 {
      GridCellsCount(rows - 1, cols);
      RowCellsCount(rows - 1, cols);
      UnionCount(GridCells(rows - 1, cols), RowCells(rows - 1, cols));
      assert rows * cols == (rows - 1) * cols + cols by {
        MulPred(rows, cols);
      }
    }
  }

  lemma {:induction false} RowCellsCount(r: nat, cols: nat)
    ensures |RowCells(r, cols)| <= cols
  {
    if cols > 0 {
      RowCellsCount(r, cols - 1);
    }
  }

  /** The count is at most the number of trees. */
  lemma VisibleAtMostAll(g: Grid)
    requires Rectangular(g)
    ensures |VisibleTrees(g)| <= |g| * Width(g)
  {
    forall cell | cell in VisibleTrees(g)
      ensures cell in GridCells(|g|, Width(g))
    {
      InGridCells(|g|, Width(g), cell.row, cell.col);
    }
    SubsetCount(VisibleTrees(g), GridCells(|g|, Width(g)));
    GridCellsCount(|g|, Width(g));
  }

  lemma MulPred(a: nat, b: nat)
    requires a > 0
    ensures a * b == (a - 1) * b + b
  {
  }

  lemma UnionCount<T>(a: set<T>, b: set<T>)
    ensures |a + b| <= |a| + |b|
  {
    assert a + b == a + (b - a);
  }

  lemma SubsetCount<T>(a: set<T>, b: set<T>)
    requires a <= b
    ensures |a| <= |b|
  {
    assert b == a + (b - a);
  }

  /** The trees on the border are all seen. */
  lemma BorderVisible(g: Grid, r: nat, c: nat)
    requires Rectangular(g) && r < |g| && c < Width(g)
    requires r == 0 || r == |g| - 1 || c == 0 || c == Width(g) - 1
    ensures Cell(r, c) in VisibleTrees(g)
  {
  }
}

=== FILE: marker.dfy ===
/** Day 6 (day_06/part_1.py): the start of a packet is the first run of
    four pairwise different characters; the answer for a line is the number
    of characters read up to the end of that run. The scan reads ahead
    without checking the end of the line, so a non-empty line without a
    marker ends in an index error, modelled as `None`. */
module Marker {
  import opened Outcomes

  const StartOfPacketSize: nat := 4

  /** No character occurs twice. */
  predicate Distinct(s: string)
  {
    forall a, b :: 0 <= a < b < |s| ==> s[a] != s[b]
  }

  /** A marker starts at `i`. */
  predicate MarkerAt(line: string, i: int)
  {
    0 <= i && i + StartOfPacketSize <= |line| && Distinct(line[i..i + StartOfPacketSize])
  }

  /** The answer for a line, searching the windows from `i` on: the end of
      the first marker; -1 for an empty line; `None` for a non-empty line
      without a marker. */
  function MarkerFrom(line: string, i: nat): Option<int>
    decreases |line| - i
  {
    if i + StartOfPacketSize > |line| then (if |line| == 0 then Some(-1) else None)
    else if Distinct(line[i..i + StartOfPacketSize]) then Some(i + StartOfPacketSize)
    else MarkerFrom(line, i + 1)
  }

  function FirstMarker(line: string): Option<int>
  {
    MarkerFrom(line, 0)
  }

  /** The answer is the end of the first marker, -1 exactly for the empty
      line, and an error exactly for the other lines without a marker. */
  lemma FirstMarkerIsFirst(line: string)
    ensures FirstMarker(line) == Some(-1) <==> |line| == 0
    ensures FirstMarker(line) == None <==> |line| > 0 && forall k :: !MarkerAt(line, k)
    ensures forall n :: FirstMarker(line) == Some(n) && n != -1 ==>
      StartOfPacketSize <= n <= |line| && MarkerAt(line, n - StartOfPacketSize) &&
      forall k :: 0 <= k < n - StartOfPacketSize ==> !MarkerAt(line, k)
  {
    MarkerFromIsFirst(line, 0);
  }

  lemma {:induction false} MarkerFromIsFirst(line: string, i: nat)
    requires forall k :: 0 <= k < i ==> !MarkerAt(line, k)
    ensures MarkerFrom(line, i) == Some(-1) <==> |line| == 0
    ensures MarkerFrom(line, i) == None <==> |line| > 0 && forall k :: !MarkerAt(line, k)
    ensures forall n :: MarkerFrom(line, i) == Some(n) && n != -1 ==>
      StartOfPacketSize <= n <= |line| && MarkerAt(line, n - StartOfPacketSize) &&
      forall k :: 0 <= k < n - StartOfPacketSize ==> !MarkerAt(line, k)
    decreases |line| - i
  {
    if i + StartOfPacketSize > |line| {
    } else if Distinct(line[i..i + StartOfPacketSize]) {
      assert MarkerAt(line, i);
    } else {
      MarkerFromIsFirst(line, i + 1);
    }
  }

  /** The inner loop of `_get_num_chars_to_process` at position `i`: add the
      following characters to a set until one is already in it or four have
      been read. `Some(true)`: the four are different; `Some(false)`: a
      repeat; `None`: the end of the line came first. */
  method ScanWindow(line: string, i: nat) returns (r: Option<bool>)
    requires i < |line|
    ensures r == Some(true) <==> MarkerAt(line, i)
    ensures r == None <==> i + StartOfPacketSize > |line| && Distinct(line[i..])
    ensures r == Some(false) ==> i + 1 < |line|
  {
    var s := {line[i]};
    var notFound := true;
    var j := 1;
    while j < StartOfPacketSize && notFound
      invariant 1 <= j <= StartOfPacketSize
      invariant notFound ==> i + j <= |line| && Distinct(line[i..i + j]) && s == set k | i <= k < i + j :: line[k]
      invariant !notFound ==> 1 < j && i + j <= |line| && !Distinct(line[i..i + j])
    {
      if i + j >= |line| {
        assert i + j == |line|;
        return None;
      }
      var c := line[i + j];
      DistinctSnoc(line, i, j);
      if c in s {
        notFound := false;
      } else {
        s := s + {c};
      }
      j := j + 1;
    }
    if notFound {
      r := Some(true);
    } else {
      r := Some(false);
      NotDistinctWider(line, i, j);
    }
  }

  /** Extending a window of different characters by one keeps them
      different exactly when the new one is not among them. */
  lemma DistinctSnoc(line: string, i: nat, j: nat)
    requires i + j < |line| && Distinct(line[i..i + j])
    ensures Distinct(line[i..i + j + 1]) <==> line[i + j] !in set k | i <= k < i + j :: line[k]
  {
    var w := line[i..i + j + 1];
    if line[i + j] in set k | i <= k < i + j :: line[k] {
      var k :| i <= k < i + j && line[k] == line[i + j];
      assert w[k - i] == w[j];
    } else {
      forall a, b | 0 <= a < b < |w|
        ensures w[a] != w[b]
      {
        if b < j {
          assert w[a] == line[i..i + j][a] && w[b] == line[i..i + j][b];
        } else {
          assert b == j && w[a] == line[i + a] && w[b] == line[i + j];
          assert line[i + a] in set k | i <= k < i + j :: line[k];
        }
      }
    }
  }

  /** A repeat in a window stays a repeat in any window containing it. */
  lemma NotDistinctWider(line: string, i: nat, j: nat)
    requires j <= StartOfPacketSize && i + j <= |line| && !Distinct(line[i..i + j])
    ensures i + StartOfPacketSize <= |line| ==> !Distinct(line[i..i + StartOfPacketSize])
    ensures !Distinct(line[i..])
  {
    var a, b :| 0 <= a < b < j && line[i..i + j][a] == line[i..i + j][b];
    assert line[i..][a] == line[i..][b];
    if i + StartOfPacketSize <= |line| {
      assert line[i..i + StartOfPacketSize][a] == line[i..i + StartOfPacketSize][b];
    }
  }

  /** `_get_num_chars_to_process`. */
  method NumCharsToProcess(line: string) returns (r: Option<int>)
    ensures r == FirstMarker(line)
  {
    var i := 0;
    while i < |line|
      invariant 0 <= i <= |line|
      invariant i == 0 || i < |line|
      invariant FirstMarker(line) == MarkerFrom(line, i)
    {
      var w := ScanWindow(line, i);
      match w {
        case None =>
          NoMarkerAhead(line, i);
          return None;
        case Some(distinct) =>
          if distinct {
            return Some(i + StartOfPacketSize);
          }
      }
      i := i + 1;
    }
    return Some(-1);
  }

  /** Once the rest of the line is shorter than a window, nothing is found. */
  lemma NoMarkerAhead(line: string, i: nat)
    requires i < |line| && i + StartOfPacketSize > |line|
    ensures MarkerFrom(line, i) == None
  {
  }

  /** `get_num_chars_to_process`: one answer per line, in order; an error on
      any line ends the whole call. */
  method NumCharsPerLine(lines: seq<string>) returns (r: Option<seq<int>>)
    ensures r.None? <==> exists k :: 0 <= k < |lines| && FirstMarker(lines[k]).None?
    ensures r.Some? ==> |r.value| == |lines|
    ensures r.Some? ==> forall k :: 0 <= k < |lines| ==> FirstMarker(lines[k]) == Some(r.value[k])
  {
    var numChars: seq<int> := [];
    var n := 0;
    while n < |lines|
      invariant 0 <= n <= |lines| && |numChars| == n
      invariant forall k :: 0 <= k < n ==> FirstMarker(lines[k]) == Some(numChars[k])
    {
      var x := NumCharsToProcess(lines[n]);
      if x.None? {
        return None;
      }
      numChars := numChars + [x.value];
      n := n + 1;
    }
    return Some(numChars);
  }

  /** The example from the puzzle statement. */
  lemma ExampleLine()
    ensures FirstMarker("bvwbjplbgvbhsrlpgdmjqwftvncz") == Some(5)
  {
    var line := "bvwbjplbgvbhsrlpgdmjqwftvncz";
    assert line[0] == 'b' && line[1] == 'v' && line[2] == 'w' && line[3] == 'b' && line[4] == 'j';
    var first := line[0..4];
    assert first[0] == line[0] && first[3] == line[3];
    assert !Distinct(first);
    var second := line[1..5];
    assert second == [line[1], line[2], line[3], line[4]];
    assert Distinct(second);
  }
}

=== FILE: monkeys.dfy ===
/** Day 11 (day_11/monkeys.py, day_11/part_1.py, day_11/part_2.py): monkeys
    pass items around; each inspection applies the monkey's operation to the
    item's worry level, relaxes it, and throws the item on according to a
    divisibility test. The second part keeps worry levels small by reducing
    them modulo the product of all the divisors. */
module Monkeys {
  import opened Outcomes
  import opened Sorting

  /** The operation line `new = old + c`, `new = old * c` or `new = old * old`. */
  datatype Op = Add(c: int) | Mul(c: int) | Square

  function Apply(op: Op, w: int): int
  {
    match op
    case Add(c) => w + c
    case Mul(c) => w * c
    case Square => w * w
  }

  /** `Monkey`: its queue of worry levels (front first), its operation, the
      divisor of its test, where the item goes when the test holds and when it
      does not, and how many items it has inspected. */
  datatype Monkey = Monkey(items: seq<int>, op: Op, divisibleBy: nat, ifTrue: nat, ifFalse: nat, inspected: nat)

  /** One throw: the destination and the worry level that travels. */
  datatype Throw = Throw(dest: nat, worry: int)

  // ---------------------------------------------------------------------
  // One monkey's turn
  // ---------------------------------------------------------------------

  /** What `get_throws` does with one item: operation, relaxation, test.
      Python's `%` and Dafny's agree for a positive divisor. */
  function ThrowOf(m: Monkey, relax: int -> int, item: int): (t: Throw)
    requires m.divisibleBy > 0
    ensures t.worry == relax(Apply(m.op, item))
    ensures t.worry % m.divisibleBy == 0 ==> t.dest == m.ifTrue
    ensures t.worry % m.divisibleBy != 0 ==> t.dest == m.ifFalse
  {
    var w := relax(Apply(m.op, item));
    Throw(if w % m.divisibleBy == 0 then m.ifTrue else m.ifFalse, w)
  }

  /** `get_throws`: one throw per held item, in queue order. A divisor of 0
      raises on the first item. */
  function Throws(m: Monkey, relax: int -> int): (ts: Option<seq<Throw>>)
    ensures ts.Some? <==> m.divisibleBy > 0 || |m.items| == 0
    ensures ts.Some? ==> |ts.value| == |m.items|
    ensures ts.Some? ==> forall k :: 0 <= k < |m.items| ==> ts.value[k] == ThrowOf(m, relax, m.items[k])
  {
    if |m.items| == 0 then Some([])
    else if m.divisibleBy == 0 then None
    else Some(seq(|m.items|, k requires 0 <= k < |m.items| => ThrowOf(m, relax, m.items[k])))
  }

  /** Appends each throw's worry level to its destination's queue, in order;
      a destination past the last monkey raises. */
  function Deliver(ms: seq<Monkey>, throws: seq<Throw>): (r: Option<seq<Monkey>>)
    ensures r.Some? <==> forall k :: 0 <= k < |throws| ==> throws[k].dest < |ms|
    ensures r.Some? ==> |r.value| == |ms|
    decreases |throws|
  {
    if |throws| == 0 then Some(ms)
    else if throws[0].dest >= |ms| then None
    else
      var d := throws[0].dest;
      Deliver(ms[d := ms[d].(items := ms[d].items + [throws[0].worry])], throws[1..])
  }

  /** The worry levels thrown to monkey `j`, in the order they are thrown. */
  function Arrivals(throws: seq<Throw>, j: nat): seq<int>
  {
    if |throws| == 0 then []
    else (if throws[0].dest == j then [throws[0].worry] else []) + Arrivals(throws[1..], j)
  }

  /** Monkey `i` empties its queue, counts the inspections and throws. */
  function Turn(ms: seq<Monkey>, i: nat, relax: int -> int): (r: Option<seq<Monkey>>)
    requires i < |ms|
    ensures r.Some? ==> |r.value| == |ms|
  {
    var m := ms[i];
    var ts := Throws(m, relax);
    if ts.None? then None
    else Deliver(ms[i := m.(items := [], inspected := m.inspected + |m.items|)], ts.value)
  }

  /** The turns of monkeys `i..` of one round of `process_items`. */
  function TurnsFrom(ms: seq<Monkey>, i: nat, relax: int -> int): (r: Option<seq<Monkey>>)
    requires i <= |ms|
    ensures r.Some? ==> |r.value| == |ms|
    decreases |ms| - i
  {
    if i == |ms| then Some(ms)
    else
      var next := Turn(ms, i, relax);
      if next.None? then None else TurnsFrom(next.value, i + 1, relax)
  }

  function Round(ms: seq<Monkey>, relax: int -> int): (r: Option<seq<Monkey>>)
    ensures r.Some? ==> |r.value| == |ms|
  {
    TurnsFrom(ms, 0, relax)
  }

  /** `process_items` for `n` rounds. An error ends the game: no later
      round count succeeds after one that raised. */
  function Rounds(ms: seq<Monkey>, n: nat, relax: int -> int): (r: Option<seq<Monkey>>)
    ensures r.Some? ==> |r.value| == |ms|
    ensures r.Some? ==> forall k :: 0 <= k < n ==> Rounds(ms, k, relax).Some?
  {
    if n == 0 then Some(ms)
    else
      var before := Rounds(ms, n - 1, relax);
      if before.None? then None else Round(before.value, relax)
  }

  /** Playing `a` rounds and then `b` more is playing `a + b` rounds. */
  lemma {:induction false} RoundsAdd(ms: seq<Monkey>, a: nat, b: nat, relax: int -> int)
    ensures Rounds(ms, a + b, relax)
         == if Rounds(ms, a, relax).None? then None else Rounds(Rounds(ms, a, relax).value, b, relax)
  {
    if b > 0 {
      RoundsAdd(ms, a, b - 1, relax);
      var before := Rounds(ms, a + b - 1, relax);
      assert Rounds(ms, a + b, relax) == if before.None? then None else Round(before.value, relax);
      var first := Rounds(ms, a, relax);
      if first.Some? {
        var later := Rounds(first.value, b - 1, relax);
        assert Rounds(first.value, b, relax) == if later.None? then None else Round(later.value, relax);
      }
    }
  }

  // ---------------------------------------------------------------------
  // What a round keeps
  // ---------------------------------------------------------------------

  /** The parsed notes: operations, divisors and destinations. */
  predicate SameNotes(a: Monkey, b: Monkey)
  {
    a.op == b.op && a.divisibleBy == b.divisibleBy && a.ifTrue == b.ifTrue && a.ifFalse == b.ifFalse
  }

  predicate AllSameNotes(a: seq<Monkey>, b: seq<Monkey>)
  {
    |a| == |b| && forall i :: 0 <= i < |a| ==> SameNotes(a[i], b[i])
  }

  /** Notes under which no throw can raise: positive divisors and
      destinations that name a monkey. */
  predicate Playable(ms: seq<Monkey>)
  {
    forall i :: 0 <= i < |ms| ==> ms[i].divisibleBy > 0 && ms[i].ifTrue < |ms| && ms[i].ifFalse < |ms|
  }

  function TotalItems(ms: seq<Monkey>): nat
  {
    if |ms| == 0 then 0 else TotalItems(ms[..|ms| - 1]) + |ms[|ms| - 1].items|
  }

  lemma {:induction false} TotalItemsUpdate(ms: seq<Monkey>, i: nat, m: Monkey)
    requires i < |ms|
    ensures TotalItems(ms[i := m]) + |ms[i].items| == TotalItems(ms) + |m.items|
  {
    var init := ms[..|ms| - 1];
    if i < |ms| - 1 {
      TotalItemsUpdate(init, i, m);
      assert ms[i := m][..|ms| - 1] == init[i := m];
    } else {
      assert ms[i := m][..|ms| - 1] == init;
    }
  }

  /** Each monkey's queue gains the worry levels thrown to it, in the order
      they were thrown; nothing else about it changes. */
  lemma {:induction false} DeliverArrivals(ms: seq<Monkey>, throws: seq<Throw>)
    requires Deliver(ms, throws).Some?
    ensures forall j :: 0 <= j < |ms| ==>
      Deliver(ms, throws).value[j] == ms[j].(items := ms[j].items + Arrivals(throws, j))
    decreases |throws|
  {
    if |throws| > 0 {
      var d, w := throws[0].dest, throws[0].worry;
      var next := ms[d := ms[d].(items := ms[d].items + [w])];
      DeliverArrivals(next, throws[1..]);
      forall j | 0 <= j < |ms|
        ensures Deliver(ms, throws).value[j] == ms[j].(items := ms[j].items + Arrivals(throws, j))
      {
        if j == d {
          assert ms[d].items + [w] + Arrivals(throws[1..], j) == ms[d].items + ([w] + Arrivals(throws[1..], j));
        } else {
          assert Arrivals(throws, j) == Arrivals(throws[1..], j);
        }
      }
    }
  }

  /** After monkey `i`'s turn, each queue holds what it held before (none
      for monkey `i`) followed by the worry levels thrown to it. A turn
      raises exactly when the monkey's test raises or a throw names no
      monkey. */
  lemma TurnArrivals(ms: seq<Monkey>, i: nat, relax: int -> int)
    requires i < |ms|
    ensures Turn(ms, i, relax).Some? <==> (Throws(ms[i], relax).Some? &&
      forall k :: 0 <= k < |Throws(ms[i], relax).value| ==> Throws(ms[i], relax).value[k].dest < |ms|)
    ensures Turn(ms, i, relax).Some? ==> forall j :: 0 <= j < |ms| ==>
      Turn(ms, i, relax).value[j].items == (if j == i then [] else ms[j].items) + Arrivals(Throws(ms[i], relax).value, j)
  {
    var m := ms[i];
    var emptied := ms[i := m.(items := [], inspected := m.inspected + |m.items|)];
    var ts := Throws(m, relax);
    if ts.Some? && Deliver(emptied, ts.value).Some? {
      DeliverArrivals(emptied, ts.value);
    }
  }

  /** Delivering keeps the notes and the counts, adds one item per throw,
      and succeeds when every destination names a monkey. */
  lemma {:induction false} DeliverFacts(ms: seq<Monkey>, throws: seq<Throw>)
    ensures (forall k :: 0 <= k < |throws| ==> throws[k].dest < |ms|) ==> Deliver(ms, throws).Some?
    ensures Deliver(ms, throws).Some? ==>
      var r := Deliver(ms, throws).value;
      AllSameNotes(ms, r) &&
      (forall j :: 0 <= j < |ms| ==> r[j].inspected == ms[j].inspected) &&
      TotalItems(r) == TotalItems(ms) + |throws|
    decreases |throws|
  {
    if |throws| > 0 && throws[0].dest < |ms| {
      var d := throws[0].dest;
      var next := ms[d := ms[d].(items := ms[d].items + [throws[0].worry])];
      TotalItemsUpdate(ms, d, next[d]);
      DeliverFacts(next, throws[1..]);
      if (forall k :: 0 <= k < |throws| ==> throws[k].dest < |ms|) {
        assert forall k :: 0 <= k < |throws| - 1 ==> throws[1..][k] == throws[k + 1];
      }
    }
  }

  /** A turn keeps the notes and the number of items; it adds the number of
      items the monkey held to its own count and leaves the other counts. */
  lemma TurnFacts(ms: seq<Monkey>, i: nat, relax: int -> int)
    requires i < |ms|
    ensures Playable(ms) ==> Turn(ms, i, relax).Some?
    ensures Turn(ms, i, relax).Some? ==>
      var r := Turn(ms, i, relax).value;
      AllSameNotes(ms, r) && TotalItems(r) == TotalItems(ms) &&
      r[i].inspected == ms[i].inspected + |ms[i].items| &&
      (forall j :: 0 <= j < |ms| && j != i ==> r[j].inspected == ms[j].inspected)
  {
    var m := ms[i];
    var emptied := ms[i := m.(items := [], inspected := m.inspected + |m.items|)];
    var ts := Throws(m, relax);
    assert Turn(ms, i, relax) == if ts.None? then None else Deliver(emptied, ts.value);
    if ts.Some? {
      DeliverFacts(emptied, ts.value);
      if Playable(ms) {
        assert forall k :: 0 <= k < |ts.value| ==> ts.value[k].dest < |emptied|;
      }
      var r := Deliver(emptied, ts.value);
      if r.Some? {
        EmptiedFacts(ms, i, emptied, r.value, |ts.value|);
      }
    }
  }

  /** Emptying monkey `i` and then delivering `n` items to the monkeys, in
      terms of the monkeys before the turn. */
  lemma EmptiedFacts(ms: seq<Monkey>, i: nat, emptied: seq<Monkey>, r: seq<Monkey>, n: nat)
    requires i < |ms| && n == |ms[i].items|
    requires emptied == ms[i := ms[i].(items := [], inspected := ms[i].inspected + |ms[i].items|)]
    requires AllSameNotes(emptied, r) && TotalItems(r) == TotalItems(emptied) + n
    requires forall j :: 0 <= j < |emptied| ==> r[j].inspected == emptied[j].inspected
    ensures AllSameNotes(ms, r) && TotalItems(r) == TotalItems(ms)
    ensures r[i].inspected == ms[i].inspected + |ms[i].items|
    ensures forall j :: 0 <= j < |ms| && j != i ==> r[j].inspected == ms[j].inspected
  {
    TotalItemsUpdate(ms, i, emptied[i]);
    forall j | 0 <= j < |ms|
      ensures SameNotes(ms[j], r[j])
    {
      assert SameNotes(emptied[j], r[j]);
    }
  }

  /** A round conserves the items and never lowers a count; with playable
      notes it does not raise. */
  lemma {:induction false} TurnsFromFacts(ms: seq<Monkey>, i: nat, relax: int -> int)
    requires i <= |ms|
    ensures Playable(ms) ==> TurnsFrom(ms, i, relax).Some?
    ensures TurnsFrom(ms, i, relax).Some? ==>
      var r := TurnsFrom(ms, i, relax).value;
      AllSameNotes(ms, r) && TotalItems(r) == TotalItems(ms) &&
      (forall j :: 0 <= j < |ms| ==> r[j].inspected >= ms[j].inspected)
    decreases |ms| - i
  {
    if i < |ms| {
      TurnFacts(ms, i, relax);
      var next := Turn(ms, i, relax);
      if next.Some? {
        PlayableKept(ms, next.value);
        TurnsFromFacts(next.value, i + 1, relax);
        var r := TurnsFrom(next.value, i + 1, relax);
        assert TurnsFrom(ms, i, relax) == r;
        if r.Some? {
          FactsCompose(ms, next.value, r.value);
        }
      }
    }
  }

  /** The notes decide playability. */
  lemma PlayableKept(a: seq<Monkey>, b: seq<Monkey>)
    requires AllSameNotes(a, b)
    ensures Playable(a) ==> Playable(b)
  {
    assert forall i :: 0 <= i < |a| ==> SameNotes(a[i], b[i]);
  }

  /** What a turn keeps, two turns keep. */
  lemma FactsCompose(a: seq<Monkey>, b: seq<Monkey>, c: seq<Monkey>)
    requires AllSameNotes(a, b) && TotalItems(b) == TotalItems(a)
    requires forall j :: 0 <= j < |a| ==> b[j].inspected >= a[j].inspected
    requires AllSameNotes(b, c) && TotalItems(c) == TotalItems(b)
    requires forall j :: 0 <= j < |b| ==> c[j].inspected >= b[j].inspected
    ensures AllSameNotes(a, c) && TotalItems(c) == TotalItems(a)
    ensures forall j :: 0 <= j < |a| ==> c[j].inspected >= a[j].inspected
  {
    forall j | 0 <= j < |a|
      ensures SameNotes(a[j], c[j])
    {
      assert SameNotes(a[j], b[j]) && SameNotes(b[j], c[j]);
    }
  }

  lemma {:induction false} RoundsFacts(ms: seq<Monkey>, n: nat, relax: int -> int)
    ensures Playable(ms) ==> Rounds(ms, n, relax).Some?
    ensures Rounds(ms, n, relax).Some? ==>
      var r := Rounds(ms, n, relax).value;
      AllSameNotes(ms, r) && TotalItems(r) == TotalItems(ms) &&
      (forall j :: 0 <= j < |ms| ==> r[j].inspected >= ms[j].inspected)
  {
    if n > 0 {
      RoundsFacts(ms, n - 1, relax);
      var before := Rounds(ms, n - 1, relax);
      if before.Some? {
        assert Playable(ms) ==> Playable(before.value);
        TurnsFromFacts(before.value, 0, relax);
      }
    }
  }

  // ---------------------------------------------------------------------
  // Level of monkey business
  // ---------------------------------------------------------------------

  function Counts(ms: seq<Monkey>): (cs: seq<nat>)
    ensures |cs| == |ms| && forall i :: 0 <= i < |ms| ==> cs[i] == ms[i].inspected
  {
    seq(|ms|, i requires 0 <= i < |ms| => ms[i].inspected)
  }

  function Ge(a: nat, b: nat): bool
  {
    a >= b
  }

  function Product(s: seq<nat>): nat
  {
    if |s| == 0 then 1 else Product(s[..|s| - 1]) * s[|s| - 1]
  }

  function Min(a: nat, b: nat): nat
  {
    if a <= b then a else b
  }

  /** `get_level_of_business`: the counts from the largest down, and the
      product of the first `k` of them (all of them when there are fewer). */
  function LevelOfBusiness(ms: seq<Monkey>, k: nat): (level: nat)
    ensures k == 0 ==> level == 1
    ensures k == 1 && |ms| > 0 ==> level in Counts(ms) && forall j :: 0 <= j < |ms| ==> ms[j].inspected <= level
  {
    var sorted := SortBy(Counts(ms), Ge);
    if k == 1 && |ms| > 0 then
      TopCount(ms);
      assert sorted[..1] == [sorted[0]] && [sorted[0]][..0] == [];
      assert Product([sorted[0]]) == Product([]) * sorted[0];
      Product(sorted[..Min(k, |ms|)])
    else
      Product(sorted[..Min(k, |ms|)])
  }

  /** The first count after sorting is the largest count. */
  lemma TopCount(ms: seq<Monkey>)
    requires |ms| > 0
    ensures var top := SortBy(Counts(ms), Ge)[0];
      top in Counts(ms) && forall j :: 0 <= j < |ms| ==> ms[j].inspected <= top
  {
    var counts := Counts(ms);
    var sorted := SortBy(counts, Ge);
    GeOrder();
    SortBySorted(counts, Ge);
    assert sorted[0] in multiset(counts);
    forall j | 0 <= j < |ms|
      ensures ms[j].inspected <= sorted[0]
    {
      assert counts[j] in multiset(sorted);
      var t :| 0 <= t < |sorted| && sorted[t] == counts[j];
      if t > 0 {
        assert Ge(sorted[0], sorted[t]);
      }
    }
  }

  lemma GeOrder()
    ensures TotalPreorder(Ge) && Antisymmetric(Ge)
  {
  }

  /** The counts that are multiplied are the `k` largest: together with the
      others they are the counts of all monkeys, and none of the others is
      larger than any of them. */
  lemma LevelIsTopCounts(ms: seq<Monkey>, k: nat)
    ensures var sorted := SortBy(Counts(ms), Ge);
      var top, rest := sorted[..Min(k, |ms|)], sorted[Min(k, |ms|)..];
      LevelOfBusiness(ms, k) == Product(top) &&
      multiset(top) + multiset(rest) == multiset(Counts(ms)) &&
      (forall a, b :: 0 <= a < |top| && 0 <= b < |rest| ==> top[a] >= rest[b])
  {
    var sorted := SortBy(Counts(ms), Ge);
    GeOrder();
    SortBySorted(Counts(ms), Ge);
    var n := Min(k, |ms|);
    assert sorted == sorted[..n] + sorted[n..];
    forall a, b | 0 <= a < n && 0 <= b < |sorted| - n
      ensures sorted[..n][a] >= sorted[n..][b]
    {
      assert Ge(sorted[a], sorted[n + b]);
    }
  }

  /** The level depends only on the counts, not on the monkeys' order. */
  lemma LevelIgnoresOrder(a: seq<Monkey>, b: seq<Monkey>, k: nat)
    requires multiset(Counts(a)) == multiset(Counts(b))
    ensures LevelOfBusiness(a, k) == LevelOfBusiness(b, k)
  {
    GeOrder();
    SortByPermutation(Counts(a), Counts(b), Ge);
    assert |a| == |Counts(a)| == |Counts(b)| == |b| by {
      calc {
        |Counts(a)|;
        |multiset(Counts(a))|;
        |multiset(Counts(b))|;
        |Counts(b)|;
      }
    }
  }

  // ---------------------------------------------------------------------
  // Keeping worry levels small (the second part)
  // ---------------------------------------------------------------------

  /** The product of every monkey's divisor, computed the same on every call
      of `relax_worry` because the notes do not change. */
  function DivisorProduct(ms: seq<Monkey>): nat
  {
    if |ms| == 0 then 1 else DivisorProduct(ms[..|ms| - 1]) * ms[|ms| - 1].divisibleBy
  }

  /** Every divisor divides the product, which is positive when they are. */
  lemma {:induction false} DivisorProductFacts(ms: seq<Monkey>)
    requires forall i :: 0 <= i < |ms| ==> ms[i].divisibleBy > 0
    ensures DivisorProduct(ms) > 0
    ensures forall i :: 0 <= i < |ms| ==> DivisorProduct(ms) % ms[i].divisibleBy == 0
  {
    if |ms| > 0 {
      var init := ms[..|ms| - 1];
      DivisorProductFacts(init);
      var p, d := DivisorProduct(init), ms[|ms| - 1].divisibleBy;
      MulPositive(p, d);
      forall i | 0 <= i < |ms|
        ensures DivisorProduct(ms) % ms[i].divisibleBy == 0
      {
        if i < |ms| - 1 {
          assert init[i] == ms[i];
          MultipleOfFactor(p, d, ms[i].divisibleBy);
        } else {
          MultipleOfFactor(d, p, d);
          assert d * p == p * d;
        }
      }
    }
  }

  /** The same divisor product whatever the notes' state after any rounds. */
  lemma DivisorProductOfSameNotes(a: seq<Monkey>, b: seq<Monkey>)
    requires AllSameNotes(a, b)
    ensures DivisorProduct(a) == DivisorProduct(b)
  {
    if |a| > 0 {
      DivisorProductOfSameNotes(a[..|a| - 1], b[..|b| - 1]);
    }
  }

  /** `relax_worry` of the first part: Python's `// 3`, which floors, as
      Dafny's `/` does for a positive divisor. */
  function Calm(w: int): (r: int)
    ensures 3 * r <= w < 3 * r + 3
  {
    w / 3
  }

  /** `relax_worry` of the second part: the remainder modulo `p`, which
      lies in [0, p) and agrees with the worry level modulo `p`. */
  function ModBy(p: nat): (f: int -> int)
    requires p > 0
    ensures forall w :: 0 <= f(w) < p
    ensures forall w :: 0 <= w < p ==> f(w) == w
    ensures forall w :: f(w) % p == w % p
  {
    RemainderIdempotent(p);
    w => w % p
  }

  /** Taking the remainder twice is taking it once. */
  lemma RemainderIdempotent(p: nat)
    requires p > 0
    ensures forall w :: (w % p) % p == w % p
  {
    forall w: int
      ensures (w % p) % p == w % p
    {
      SmallRemainder(w % p, p);
    }
  }

  /** A number already in [0, p) is its own remainder. */
  lemma SmallRemainder(x: int, p: nat)
    requires 0 <= x < p
    ensures x % p == x
  {
  }

  /** `relax_worry` of the second part lands in [0, P). */
  lemma ModByRange(p: nat, w: int)
    requires p > 0
    ensures 0 <= ModBy(p)(w) < p
  {
  }

  lemma MulPositive(a: int, b: int)
    requires a > 0 && b > 0
    ensures a * b > 0
  {
  }

  /** `a * b` is a multiple of every divisor of `a`. */
  lemma MultipleOfFactor(a: int, b: int, d: int)
    requires d > 0 && a % d == 0
    ensures (a * b) % d == 0
  {
    var q := a / d;
    assert a == d * q;
    assert a * b == d * (q * b);
    ModUnique(a * b, d, q * b, 0);
  }

  /** Euclidean division is unique. */
  lemma ModUnique(x: int, d: int, q: int, m: int)
    requires d > 0 && 0 <= m < d && x == d * q + m
    ensures x % d == m && x / d == q
  {
    var q', m' := x / d, x % d;
    assert d * (q - q') == m' - m;
    if q > q' {
      MulAtLeast(d, q - q');
    } else if q < q' {
      MulAtLeast(d, q' - q);
    }
  }

  lemma MulAtLeast(d: int, k: int)
    requires d > 0 && k >= 1
    ensures d * k >= d
  {
  }

  /** Numbers that differ by a multiple of `p` leave the same remainder. */
  lemma CongruentIfDifferByMultiple(x: int, y: int, p: int, k: int)
    requires p > 0 && x - y == p * k
    ensures x % p == y % p
  {
    assert x == p * (y / p + k) + y % p;
    ModUnique(x, p, y / p + k, y % p);
  }

  lemma DifferByMultiple(x: int, y: int, p: int)
    requires p > 0 && x % p == y % p
    ensures x - y == p * (x / p - y / p)
  {
  }

  /** Reducing modulo the product keeps the remainder modulo each divisor:
      every test decides as it would on the unreduced level. */
  lemma ModOfMod(w: int, p: int, d: int)
    requires p > 0 && d > 0 && p % d == 0
    ensures (w % p) % d == w % d
  {
    var k := p / d;
    assert p == d * k;
    assert w - w % p == p * (w / p);
    assert w - w % p == d * (k * (w / p));
    CongruentIfDifferByMultiple(w, w % p, d, k * (w / p));
  }

  /** Each operation shape respects congruence modulo `p`: applying it and
      then reducing gives what reducing first gives. */
  lemma ApplyCongruent(op: Op, x: int, y: int, p: int)
    requires p > 0 && x % p == y % p
    ensures Apply(op, x) % p == Apply(op, y) % p
  {
    var k := x / p - y / p;
    DifferByMultiple(x, y, p);
    match op
    case Add(c) =>
      CongruentIfDifferByMultiple(x + c, y + c, p, k);
    case Mul(c) =>
      MulDifference(x, y, c, p, k);
      CongruentIfDifferByMultiple(x * c, y * c, p, k * c);
    case Square =>
      SquareDifference(x, y, p, k);
      CongruentIfDifferByMultiple(x * x, y * y, p, k * (x + y));
  }

  lemma MulDifference(x: int, y: int, c: int, p: int, k: int)
    requires x - y == p * k
    ensures x * c - y * c == p * (k * c)
  {
    assert x * c - y * c == (x - y) * c;
  }

  lemma SquareDifference(x: int, y: int, p: int, k: int)
    requires x - y == p * k
    ensures x * x - y * y == p * (k * (x + y))
  {
    assert x * x - y * y == (x - y) * (x + y);
  }

  lemma ApplyReduced(op: Op, w: int, p: int)
    requires p > 0
    ensures Apply(op, w % p) % p == Apply(op, w) % p
  {
    assert (w % p) % p == w % p;
    ApplyCongruent(op, w % p, w, p);
  }

  /** The reduced simulation tracks the unreduced one: same notes, same
      counts, queues of the same lengths whose levels agree modulo `p`. */
  ghost predicate Tracks(full: seq<Monkey>, reduced: seq<Monkey>, p: nat)
  {
    p > 0 && AllSameNotes(full, reduced) &&
    forall i :: 0 <= i < |full| ==> MonkeyTracks(full[i], reduced[i], p)
  }

  /** One monkey of the reduced simulation tracks its unreduced self. */
  ghost predicate MonkeyTracks(full: Monkey, reduced: Monkey, p: nat)
    requires p > 0
  {
    full.inspected == reduced.inspected &&
    |full.items| == |reduced.items| &&
    forall k :: 0 <= k < |full.items| ==> full.items[k] % p == reduced.items[k] % p
  }

  /** The divisors of the notes all divide `p`. */
  predicate DividesAll(ms: seq<Monkey>, p: nat)
  {
    p > 0 && forall i :: 0 <= i < |ms| ==> ms[i].divisibleBy > 0 && p % ms[i].divisibleBy == 0
  }

  function Identity(w: int): int
  {
    w
  }

  /** Two items that agree modulo `p` are thrown to the same monkey, and
      still agree after the reduced one is relaxed. */
  lemma ThrowTracks(full: Monkey, reduced: Monkey, p: nat, x: int, y: int)
    requires p > 0 && SameNotes(full, reduced) && full.divisibleBy > 0 && p % full.divisibleBy == 0
    requires x % p == y % p
    ensures ThrowOf(full, Identity, x).dest == ThrowOf(reduced, ModBy(p), y).dest
    ensures ThrowOf(full, Identity, x).worry % p == ThrowOf(reduced, ModBy(p), y).worry % p
  {
    var wx := Apply(full.op, x);
    var wy := Apply(full.op, y);
    ApplyCongruent(full.op, x, y, p);
    TestAgrees(wx, wy, p, full.divisibleBy);
    assert ThrowOf(full, Identity, x) == ThrowOf(full, Identity, x).(worry := wx);
    assert ThrowOf(reduced, ModBy(p), y).worry == wy % p;
  }

  /** Two levels that agree modulo `p` pass the same tests, before and after
      the second one is reduced. */
  lemma TestAgrees(wx: int, wy: int, p: int, d: int)
    requires p > 0 && d > 0 && p % d == 0 && wx % p == wy % p
    ensures wx % d == (wy % p) % d
    ensures wx % p == (wy % p) % p
  {
    ModOfMod(wy, p, d);
    ModOfMod(wx, p, d);
    ModIdempotent(wy, p);
  }

  lemma ModIdempotent(w: int, p: int)
    requires p > 0
    ensures (w % p) % p == w % p
  {
    ModUnique(w % p, p, 0, w % p);
  }

  ghost predicate ThrowsTrack(a: seq<Throw>, b: seq<Throw>, p: nat)
  {
    p > 0 && |a| == |b| && forall k :: 0 <= k < |a| ==> a[k].dest == b[k].dest && a[k].worry % p == b[k].worry % p
  }

  lemma {:induction false} DeliverTracks(full: seq<Monkey>, reduced: seq<Monkey>, a: seq<Throw>, b: seq<Throw>, p: nat)
    requires Tracks(full, reduced, p) && ThrowsTrack(a, b, p)
    ensures Deliver(full, a).Some? <==> Deliver(reduced, b).Some?
    ensures Deliver(full, a).Some? ==> Tracks(Deliver(full, a).value, Deliver(reduced, b).value, p)
    decreases |a|
  {
    if |a| > 0 && a[0].dest < |full| {
      var d := a[0].dest;
      var f := full[d := full[d].(items := full[d].items + [a[0].worry])];
      var r := reduced[d := reduced[d].(items := reduced[d].items + [b[0].worry])];
      assert Tracks(f, r, p) by {
        forall i | 0 <= i < |f|
          ensures forall k :: 0 <= k < |f[i].items| ==> f[i].items[k] % p == r[i].items[k] % p
        {
          if i == d {
            forall k | 0 <= k < |f[i].items|
              ensures f[i].items[k] % p == r[i].items[k] % p
            {
              if k < |full[d].items| {
                assert f[i].items[k] == full[d].items[k] && r[i].items[k] == reduced[d].items[k];
              }
            }
          }
        }
      }
      DeliverTracks(f, r, a[1..], b[1..], p);
    }
  }

  lemma TurnTracks(full: seq<Monkey>, reduced: seq<Monkey>, i: nat, p: nat)
    requires Tracks(full, reduced, p) && DividesAll(full, p) && i < |full|
    ensures Turn(full, i, Identity).Some? <==> Turn(reduced, i, ModBy(p)).Some?
    ensures Turn(full, i, Identity).Some? ==>
      Tracks(Turn(full, i, Identity).value, Turn(reduced, i, ModBy(p)).value, p)
  {
    var m, n := full[i], reduced[i];
    var f := full[i := m.(items := [], inspected := m.inspected + |m.items|)];
    var r := reduced[i := n.(items := [], inspected := n.inspected + |n.items|)];
    var ta, tb := Throws(m, Identity), Throws(n, ModBy(p));
    assert ta.Some? && tb.Some?;
    forall k | 0 <= k < |m.items|
      ensures ta.value[k].dest == tb.value[k].dest && ta.value[k].worry % p == tb.value[k].worry % p
    {
      ThrowTracks(m, n, p, m.items[k], n.items[k]);
    }
    EmptiedTracks(full, reduced, i, p);
    DeliverTracks(f, r, ta.value, tb.value, p);
  }

  /** Emptying the same monkey of two tracking simulations keeps them
      tracking. */
  lemma EmptiedTracks(full: seq<Monkey>, reduced: seq<Monkey>, i: nat, p: nat)
    requires Tracks(full, reduced, p) && i < |full|
    ensures var m, n := full[i], reduced[i];
      Tracks(full[i := m.(items := [], inspected := m.inspected + |m.items|)],
             reduced[i := n.(items := [], inspected := n.inspected + |n.items|)], p)
  {
  }

  lemma {:induction false} TurnsFromTracks(full: seq<Monkey>, reduced: seq<Monkey>, i: nat, p: nat)
    requires Tracks(full, reduced, p) && DividesAll(full, p) && i <= |full|
    ensures TurnsFrom(full, i, Identity).Some? <==> TurnsFrom(reduced, i, ModBy(p)).Some?
    ensures TurnsFrom(full, i, Identity).Some? ==>
      Tracks(TurnsFrom(full, i, Identity).value, TurnsFrom(reduced, i, ModBy(p)).value, p)
    decreases |full| - i
  {
    if i == |full| {
      assert TurnsFrom(full, i, Identity) == Some(full);
      assert TurnsFrom(reduced, i, ModBy(p)) == Some(reduced);
    } else {
      TurnTracks(full, reduced, i, p);
      var f, r := Turn(full, i, Identity), Turn(reduced, i, ModBy(p));
      if f.Some? {
        TurnFacts(full, i, Identity);
        NotesKeepDivisors(full, f.value, p);
        TurnsFromTracks(f.value, r.value, i + 1, p);
        assert TurnsFrom(full, i, Identity) == TurnsFrom(f.value, i + 1, Identity);
        assert TurnsFrom(reduced, i, ModBy(p)) == TurnsFrom(r.value, i + 1, ModBy(p));
      } else {
        assert TurnsFrom(full, i, Identity) == None;
        assert TurnsFrom(reduced, i, ModBy(p)) == None;
      }
    }
  }

  /** Reducing modulo a common multiple of the divisors changes no throw:
      after any number of rounds the counts, and so the level of monkey
      business, are those of the unreduced simulation. */
  lemma {:induction false} ReductionKeepsCounts(ms: seq<Monkey>, n: nat, p: nat)
    requires DividesAll(ms, p)
    ensures Rounds(ms, n, Identity).Some? <==> Rounds(ms, n, ModBy(p)).Some?
    ensures Rounds(ms, n, Identity).Some? ==>
      Tracks(Rounds(ms, n, Identity).value, Rounds(ms, n, ModBy(p)).value, p) &&
      Counts(Rounds(ms, n, Identity).value) == Counts(Rounds(ms, n, ModBy(p)).value)
  {
    if n == 0 {
      assert Tracks(ms, ms, p);
      TracksCounts(ms, ms, p);
    } else {
      ReductionKeepsCounts(ms, n - 1, p);
      var f, r := Rounds(ms, n - 1, Identity), Rounds(ms, n - 1, ModBy(p));
      if f.Some? {
        RoundsFacts(ms, n - 1, Identity);
        NotesKeepDivisors(ms, f.value, p);
        TurnsFromTracks(f.value, r.value, 0, p);
        var f', r' := Round(f.value, Identity), Round(r.value, ModBy(p));
        if f'.Some? {
          TracksCounts(f'.value, r'.value, p);
        }
      }
    }
  }

  /** Tracking simulations have the same counts. */
  lemma TracksCounts(full: seq<Monkey>, reduced: seq<Monkey>, p: nat)
    requires Tracks(full, reduced, p)
    ensures Counts(full) == Counts(reduced)
  {
  }

  /** The divisors live in the notes, which the rounds keep. */
  lemma NotesKeepDivisors(a: seq<Monkey>, b: seq<Monkey>, p: nat)
    requires DividesAll(a, p) && AllSameNotes(a, b)
    ensures DividesAll(b, p)
  {
    assert forall i :: 0 <= i < |a| ==> SameNotes(a[i], b[i]);
  }

  /** The second part's answer equals the answer without reduction, with
      the divisor product as the modulus. */
  lemma SecondPartMatchesUnreduced(ms: seq<Monkey>, n: nat, k: nat)
    requires forall i :: 0 <= i < |ms| ==> ms[i].divisibleBy > 0
    ensures DivisorProduct(ms) > 0
    ensures Rounds(ms, n, Identity).Some? <==> Rounds(ms, n, ModBy(DivisorProduct(ms))).Some?
    ensures Rounds(ms, n, Identity).Some? ==>
      LevelOfBusiness(Rounds(ms, n, Identity).value, k) ==
      LevelOfBusiness(Rounds(ms, n, ModBy(DivisorProduct(ms))).value, k)
  {
    DivisorProductFacts(ms);
    ReductionKeepsCounts(ms, n, DivisorProduct(ms));
  }
}

=== FILE: nearest_neighbour.dfy ===
/** The first, brute-force attempt at day 15
    (day_15/part_1_inefficient.py): a map from each sensor to its closest
    beacon, a cached bounding box, and a cell-by-cell scan of one row. It
    gives the per-cell meaning that the interval version of `Sensors` is
    related to at the end of this module. */
module NearestNeighbour {
  import opened Outcomes
  import opened Ranges
  import opened Sensors

  /** `NearestNeighbour`: `sensors` are the keys of the dict `_nn` in
      insertion order, `closest` the dict itself, `bb` the cached box. */
  datatype NN = NN(sensors: seq<Point>, closest: map<Point, Point>, bb: Option<Box>)

  /** The sensors are the distinct keys of the map. */
  ghost predicate Valid(nn: NN)
  {
    (forall i, j :: 0 <= i < j < |nn.sensors| ==> nn.sensors[i] != nn.sensors[j]) &&
    (forall s :: s in nn.sensors <==> s in nn.closest)
  }

  /** A cached box is the one the sensors determine. */
  ghost predicate CacheOk(nn: NN)
    requires Valid(nn)
  {
    nn.bb.Some? ==> |nn.sensors| > 0 && nn.bb.value == BoundingBox(Circles(nn.sensors, nn.closest))
  }

  /** Every sensor's reach lies within the columns `lo..hi`. */
  ghost predicate ColumnsHold(nn: NN, lo: int, hi: int)
  {
    forall s :: s in nn.closest ==> lo <= s.x - Manhattan(s, nn.closest[s]) && s.x + Manhattan(s, nn.closest[s]) <= hi
  }

  /** The distance from a sensor to its closest beacon. */
  function Radius(nn: NN, s: Point): nat
    requires s in nn.closest
  {
    Manhattan(s, nn.closest[s])
  }

  /** The sensors as circles, numbered from 1 like the lines of the input. */
  function Circles(sensors: seq<Point>, closest: map<Point, Point>): (cs: seq<Circle>)
    requires forall s :: s in sensors ==> s in closest
    ensures |cs| == |sensors|
  {
    if |sensors| == 0 then []
    else
      var init := sensors[..|sensors| - 1];
      var s := sensors[|sensors| - 1];
      assert forall t :: t in init ==> t in sensors;
      Circles(init, closest) + [Circle(|sensors|, s, Manhattan(s, closest[s]))]
  }

  /** The circle of the `i`-th sensor. */
  lemma {:induction false} CircleAt(sensors: seq<Point>, closest: map<Point, Point>, i: int)
    requires forall s :: s in sensors ==> s in closest
    requires 0 <= i < |sensors|
    ensures Circles(sensors, closest)[i] == Circle(i + 1, sensors[i], Manhattan(sensors[i], closest[sensors[i]]))
  {
    var init := sensors[..|sensors| - 1];
    assert forall t :: t in init ==> t in sensors;
    if i < |sensors| - 1 {
      CircleAt(init, closest, i);
    }
  }

  /** `is_beacon`. */
  predicate IsBeacon(nn: NN, pos: Point)
  {
    pos in nn.closest.Values
  }

  /** `is_sensor`. */
  predicate IsSensor(nn: NN, pos: Point)
  {
    pos in nn.closest
  }

  /** Some sensor is at least as close to `pos` as to its own beacon. */
  ghost predicate SensorReaches(nn: NN, pos: Point)
  {
    exists s :: s in nn.closest && Manhattan(pos, s) <= Manhattan(s, nn.closest[s])
  }

  /** A cell reached by a sensor is reached by its circle, and back. */
  lemma ReachesIffReached(nn: NN, pos: Point)
    requires Valid(nn)
    ensures SensorReaches(nn, pos) <==> Reached(pos, Circles(nn.sensors, nn.closest))
  {
    var cs := Circles(nn.sensors, nn.closest);
    if SensorReaches(nn, pos) {
      var s :| s in nn.closest && Manhattan(pos, s) <= Manhattan(s, nn.closest[s]);
      var i :| 0 <= i < |nn.sensors| && nn.sensors[i] == s;
      CircleAt(nn.sensors, nn.closest, i);
      ManhattanMetric(pos, s, s);
      assert cs[i] in cs;
    }
    if Reached(pos, cs) {
      var c :| c in cs && Manhattan(c.center, pos) <= c.radius;
      SensorOfCircle(nn, c);
      ManhattanMetric(pos, c.center, pos);
    }
  }

  /** `get_bounding_box`: computed from the sensors on the first call and
      cached; later calls return the cached box. */
  function GetBoundingBox(nn: NN): (r: (Box, NN))
    requires Valid(nn) && CacheOk(nn) && |nn.sensors| > 0
    ensures Valid(r.1) && CacheOk(r.1) && r.1.sensors == nn.sensors && r.1.closest == nn.closest
    ensures r.1.bb == Some(r.0)
    ensures forall s :: s in nn.closest ==>
      r.0.minX <= s.x - Radius(nn, s) && s.x + Radius(nn, s) <= r.0.maxX &&
      r.0.minY <= s.y - Radius(nn, s) && s.y + Radius(nn, s) <= r.0.maxY
    ensures exists s :: s in nn.closest && r.0.minX == s.x - Radius(nn, s)
    ensures exists s :: s in nn.closest && r.0.maxX == s.x + Radius(nn, s)
    ensures exists s :: s in nn.closest && r.0.minY == s.y - Radius(nn, s)
    ensures exists s :: s in nn.closest && r.0.maxY == s.y + Radius(nn, s)
  {
    var b := if nn.bb.Some? then nn.bb.value else BoundingBox(Circles(nn.sensors, nn.closest));
    BoxOfSensors(nn, b);
    (b, nn.(bb := Some(b)))
  }

  lemma BoxOfSensors(nn: NN, b: Box)
    requires Valid(nn) && |nn.sensors| > 0
    requires b == BoundingBox(Circles(nn.sensors, nn.closest))
    ensures forall s :: s in nn.closest ==>
      b.minX <= s.x - Radius(nn, s) && s.x + Radius(nn, s) <= b.maxX &&
      b.minY <= s.y - Radius(nn, s) && s.y + Radius(nn, s) <= b.maxY
    ensures exists s :: s in nn.closest && b.minX == s.x - Radius(nn, s)
    ensures exists s :: s in nn.closest && b.maxX == s.x + Radius(nn, s)
    ensures exists s :: s in nn.closest && b.minY == s.y - Radius(nn, s)
    ensures exists s :: s in nn.closest && b.maxY == s.y + Radius(nn, s)
  {
    var cs := Circles(nn.sensors, nn.closest);
    forall s | s in nn.closest
      ensures b.minX <= s.x - Radius(nn, s) && s.x + Radius(nn, s) <= b.maxX &&
              b.minY <= s.y - Radius(nn, s) && s.y + Radius(nn, s) <= b.maxY
    {
      var i :| 0 <= i < |nn.sensors| && nn.sensors[i] == s;
      CircleAt(nn.sensors, nn.closest, i);
      assert cs[i] in cs;
    }
    var c1 :| c1 in cs && CircleBox(c1).minX == b.minX;
    SensorOfCircle(nn, c1);
    var c2 :| c2 in cs && CircleBox(c2).maxX == b.maxX;
    SensorOfCircle(nn, c2);
    var c3 :| c3 in cs && CircleBox(c3).minY == b.minY;
    SensorOfCircle(nn, c3);
    var c4 :| c4 in cs && CircleBox(c4).maxY == b.maxY;
    SensorOfCircle(nn, c4);
  }

  /** Each circle is a sensor with its radius. */
  lemma SensorOfCircle(nn: NN, c: Circle)
    requires Valid(nn) && c in Circles(nn.sensors, nn.closest)
    ensures c.center in nn.closest && c.radius == Radius(nn, c.center)
  {
    var cs := Circles(nn.sensors, nn.closest);
    var i :| 0 <= i < |cs| && cs[i] == c;
    CircleAt(nn.sensors, nn.closest, i);
    assert nn.sensors[i] in nn.sensors;
  }

  /** Asking twice gives the same box and leaves the cache as it was. */
  lemma BoundingBoxCached(nn: NN)
    requires Valid(nn) && CacheOk(nn) && |nn.sensors| > 0
    ensures GetBoundingBox(GetBoundingBox(nn).1) == GetBoundingBox(nn)
  {
  }

  /** The inner loop of `get_beacon_free_positions_at_row`: whether some
      sensor is at least as close to `pos` as to its beacon, stopping at the
      first one. */
  method CannotContainBeacon(nn: NN, dist: map<Point, nat>, pos: Point) returns (found: bool)
    requires Valid(nn)
    requires forall s :: s in nn.closest ==> s in dist && dist[s] == Radius(nn, s)
    ensures found <==> SensorReaches(nn, pos)
  {
    found := false;
    var i := 0;
    while i < |nn.sensors|
      invariant 0 <= i <= |nn.sensors|
      invariant !found
      invariant forall k :: 0 <= k < i ==> Manhattan(pos, nn.sensors[k]) > dist[nn.sensors[k]]
    {
      var sensor := nn.sensors[i];
      assert sensor in nn.closest;
      if Manhattan(pos, sensor) <= dist[sensor] {
        found := true;
        return;
      }
      i := i + 1;
    }
  }

  /** A cell that cannot hold an unknown beacon: neither a beacon nor a
      sensor, and reached by some sensor. */
  ghost predicate BeaconFree(nn: NN, pos: Point)
  {
    !IsBeacon(nn, pos) && !IsSensor(nn, pos) && SensorReaches(nn, pos)
  }

  /** `positions` lists, left to right, exactly the beacon-free cells of
      row `y` with `lo <= x < hi`. */
  ghost predicate RowListing(nn: NN, y: int, lo: int, hi: int, positions: seq<Point>)
  {
    (forall i :: 0 <= i < |positions| ==> positions[i].y == y && lo <= positions[i].x < hi) &&
    (forall i, j :: 0 <= i < j < |positions| ==> positions[i].x < positions[j].x) &&
    (forall x :: lo <= x < hi ==> (Point(x, y) in positions <==> BeaconFree(nn, Point(x, y))))
  }

  /** Listing one more cell. */
  lemma RowListingStep(nn: NN, y: int, lo: int, x: int, positions: seq<Point>, keep: bool)
    requires lo <= x && RowListing(nn, y, lo, x, positions)
    requires keep <==> BeaconFree(nn, Point(x, y))
    ensures RowListing(nn, y, lo, x + 1, if keep then positions + [Point(x, y)] else positions)
  {
    var next := if keep then positions + [Point(x, y)] else positions;
    forall x' | lo <= x' < x + 1
      ensures Point(x', y) in next <==> BeaconFree(nn, Point(x', y))
    {
    }
  }

  /** The loop over `range(min_x, max_x + 1)`. */
  method ScanRow(nn: NN, y: int, lo: int, hi: int) returns (positions: seq<Point>)
    requires Valid(nn) && lo <= hi + 1
    ensures RowListing(nn, y, lo, hi + 1, positions)
    ensures forall p :: p in positions ==> !IsBeacon(nn, p) && !IsSensor(nn, p)
  {
    var dist := map s | s in nn.closest :: Radius(nn, s);
    positions := [];
    var x := lo;
    while x <= hi
      invariant lo <= x <= hi + 1
      invariant RowListing(nn, y, lo, x, positions)
      invariant forall p :: p in positions ==> !IsBeacon(nn, p) && !IsSensor(nn, p)
      decreases hi - x
    {
      var pos := Point(x, y);
      var keep := false;
      if !IsBeacon(nn, pos) && !IsSensor(nn, pos) {
        keep := CannotContainBeacon(nn, dist, pos);
      }
      RowListingStep(nn, y, lo, x, positions, keep);
      if keep {
        positions := positions + [pos];
      }
      x := x + 1;
    }
  }

  /** `get_beacon_free_positions_at_row`: scan row `y` across the bounding
      box from left to right and keep every cell that is neither a beacon
      nor a sensor but is as close to some sensor as that sensor's beacon. */
  method BeaconFreePositionsAtRow(nn: NN, y: int) returns (nn': NN, positions: seq<Point>)
    requires Valid(nn) && CacheOk(nn) && |nn.sensors| > 0
    ensures nn' == GetBoundingBox(nn).1
    ensures forall p :: p in positions ==> !IsBeacon(nn, p) && !IsSensor(nn, p)
    ensures RowListing(nn, y, GetBoundingBox(nn).0.minX, GetBoundingBox(nn).0.maxX + 1, positions)
    ensures ColumnsHold(nn, GetBoundingBox(nn).0.minX, GetBoundingBox(nn).0.maxX)
  {
    var r := GetBoundingBox(nn);
    var box := r.0;
    nn' := r.1;
    var s :| s in nn.closest && box.minX == s.x - Radius(nn, s);
    positions := ScanRow(nn, y, box.minX, box.maxX);
  }

  // ---------------------------------------------------------------------
  // Relation to the interval version
  // ---------------------------------------------------------------------

  /** The beacons, as the set the interval version is given. */
  function Beacons(nn: NN): set<Point>
  {
    nn.closest.Values
  }

  /** The sensors of row `y` that are not also a beacon. */
  function SensorCells(nn: NN, y: int): set<int>
  {
    set s | s in nn.closest.Keys && s.y == y && s !in nn.closest.Values :: s.x
  }

  /** The columns of a list of cells. */
  function Xs(ps: seq<Point>): set<int>
  {
    set p | p in ps :: p.x
  }

  /** A row of strictly increasing x holds as many cells as it has x's. */
  lemma {:induction false} IncreasingRowSize(ps: seq<Point>)
    requires forall i, j :: 0 <= i < j < |ps| ==> ps[i].x < ps[j].x
    ensures |Xs(ps)| == |ps|
  {
    if |ps| > 0 {
      var init := ps[..|ps| - 1];
      IncreasingRowSize(init);
      XsSnoc(ps, init, ps[|ps| - 1]);
    }
  }

  /** The last cell of an increasing row adds a new column. */
  lemma XsSnoc(ps: seq<Point>, init: seq<Point>, last: Point)
    requires ps == init + [last]
    requires forall i, j :: 0 <= i < j < |ps| ==> ps[i].x < ps[j].x
    ensures forall i, j :: 0 <= i < j < |init| ==> init[i].x < init[j].x
    ensures Xs(ps) == Xs(init) + {last.x} && last.x !in Xs(init)
  {
    assert forall i :: 0 <= i < |init| ==> ps[i] == init[i];
    forall p | p in init
      ensures p.x < last.x
    {
      var i :| 0 <= i < |init| && init[i] == p;
      assert ps[i].x < ps[|ps| - 1].x;
    }
  }

  /** Every reached cell lies within columns that hold every reach. */
  lemma ReachedInColumns(nn: NN, pos: Point, lo: int, hi: int)
    requires ColumnsHold(nn, lo, hi) && SensorReaches(nn, pos)
    ensures lo <= pos.x <= hi
  {
  }

  /** The brute-force count differs from the interval count of
      `get_num_x_coordinates_without_beacon` exactly by the sensors of the
      row that are not beacons: only the brute force leaves them out. */
  lemma FreePositionsMatchIntervals(nn: NN, y: int, lo: int, hi: int, positions: seq<Point>)
    requires Valid(nn) && ColumnsHold(nn, lo, hi)
    requires RowListing(nn, y, lo, hi + 1, positions)
    ensures |positions| + |SensorCells(nn, y)| ==
      |NoBeaconCells(y, Circles(nn.sensors, nn.closest), Beacons(nn))|
  {
    var all := NoBeaconCells(y, Circles(nn.sensors, nn.closest), Beacons(nn));
    var xs := Xs(positions);
    var sensorXs := SensorCells(nn, y);
    IncreasingRowSize(positions);
    ListedCells(nn, y, lo, hi, positions);
    SensorCellsCounted(nn, y);
    SplitSize(all, xs, sensorXs, x => Point(x, y) in nn.closest);
  }

  /** Splitting a set of columns by a test splits its size. */
  lemma SplitSize(all: set<int>, out: set<int>, in_: set<int>, test: int -> bool)
    requires forall x :: x in out <==> x in all && !test(x)
    requires forall x :: x in in_ <==> x in all && test(x)
    ensures |all| == |out| + |in_|
  {
    forall x
      ensures x in all <==> x in out + in_
      ensures !(x in out && x in in_)
    {
      if test(x) {
        assert x in all <==> x in in_;
      } else {
        assert x in all <==> x in out;
      }
    }
    assert all == out + in_;
    assert out !! in_;
  }

  /** The listed cells are the counted cells that are not sensors. */
  lemma ListedCells(nn: NN, y: int, lo: int, hi: int, positions: seq<Point>)
    requires Valid(nn) && ColumnsHold(nn, lo, hi)
    requires RowListing(nn, y, lo, hi + 1, positions)
    ensures forall x :: x in Xs(positions) <==>
      x in NoBeaconCells(y, Circles(nn.sensors, nn.closest), Beacons(nn)) && Point(x, y) !in nn.closest
  {
    forall x
      ensures x in Xs(positions) <==>
        x in NoBeaconCells(y, Circles(nn.sensors, nn.closest), Beacons(nn)) && Point(x, y) !in nn.closest
    {
      ListedCell(nn, y, lo, hi, positions, x);
    }
  }

  lemma ListedCell(nn: NN, y: int, lo: int, hi: int, positions: seq<Point>, x: int)
    requires Valid(nn) && ColumnsHold(nn, lo, hi)
    requires RowListing(nn, y, lo, hi + 1, positions)
    ensures x in Xs(positions) <==>
      Reached(Point(x, y), Circles(nn.sensors, nn.closest)) && Point(x, y) !in Beacons(nn) && Point(x, y) !in nn.closest
  {
    var pos := Point(x, y);
    ReachesIffReached(nn, pos);
    if x in Xs(positions) {
      var p :| p in positions && p.x == x;
      var i :| 0 <= i < |positions| && positions[i] == p;
      assert p == pos;
    } else if SensorReaches(nn, pos) {
      ReachedInColumns(nn, pos, lo, hi);
    }
  }

  /** The sensors of the row that are not beacons are all counted. */
  lemma SensorCellsCounted(nn: NN, y: int)
    requires Valid(nn)
    ensures forall x :: x in SensorCells(nn, y) <==>
      x in NoBeaconCells(y, Circles(nn.sensors, nn.closest), Beacons(nn)) && Point(x, y) in nn.closest
  {
    var cs := Circles(nn.sensors, nn.closest);
    forall x
      ensures x in SensorCells(nn, y) <==>
        x in NoBeaconCells(y, cs, Beacons(nn)) && Point(x, y) in nn.closest
    {
      var pos := Point(x, y);
      if pos in nn.closest {
        assert SensorReaches(nn, pos);
        ReachesIffReached(nn, pos);
      }
      if x in SensorCells(nn, y) {
        var s :| s in nn.closest.Keys && s.y == y && s !in nn.closest.Values && s.x == x;
        assert s == pos;
      }
    }
  }
}

=== FILE: outcomes.dfy ===
/** Optional values, used wherever the modelled Python code either produces a
    value or stops with an exception (an IndexError on an empty stack, a read
    past the end of a line, an attribute lookup on `None`, ...). */
module Outcomes {

  /** `None` stands for "the source raises here"; `Some(v)` for a normal return. */
  datatype Option<+T> = None | Some(value: T)
}

=== FILE: packets.dfy ===
/** Day 13 (day_13/part_1_2.py): packets are nested lists of integers,
    compared element by element, with an integer facing a list promoted to a
    one-element list. */
module Packets {
  import opened Sorting

  /** One element of a packet: an integer or a nested list. A packet is the
      outermost list, a `seq<Item>`. */
  datatype Item = Int(n: int) | List(items: seq<Item>)

  /** The number of integers and lists in an item, counting the item itself. */
  function ItemSize(a: Item): (n: nat)
    ensures n >= 1
  {
    match a
    case Int(_) => 1
    case List(s) => 1 + ListSize(s)
  }

  /** The total size of the items of a list. */
  function ListSize(s: seq<Item>): nat
  {
    if |s| == 0 then 0 else ItemSize(s[0]) + ListSize(s[1..])
  }

  lemma {:induction false} ElementSize(s: seq<Item>, i: int)
    requires 0 <= i < |s|
    ensures ItemSize(s[i]) <= ListSize(s)
  {
    if i > 0 {
      ElementSize(s[1..], i - 1);
    }
  }

  lemma SingletonSize(a: Item)
    ensures ListSize([a]) == ItemSize(a)
  {
    assert [a][1..] == [];
  }

  /** `cmp(l1, l2)`: +1 when `l1` comes first (the pair is in the right
      order), -1 when `l2` comes first, 0 when neither does. */
  function Cmp(l1: seq<Item>, l2: seq<Item>): (r: int)
    ensures r == -1 || r == 0 || r == 1
  {
    CmpFrom(l1, l2, 0)
  }

  /** The `while` loop of `cmp` from position `i` on, followed by the length
      test that runs when every shared position compared equal. */
  function CmpFrom(l1: seq<Item>, l2: seq<Item>, i: nat): (r: int)
    requires i <= |l1| && i <= |l2|
    ensures r == -1 || r == 0 || r == 1
    decreases ListSize(l1) + ListSize(l2), 1, |l1| - i
  {
    if i < |l1| && i < |l2| then
      ElementSize(l1, i);
      ElementSize(l2, i);
      var res := CmpItem(l1[i], l2[i]);
      if res != 0 then res else CmpFrom(l1, l2, i + 1)
    else if i == |l1| && i < |l2| then 1
    else if i < |l1| && i == |l2| then -1
    else 0
  }

  /** One step of the loop of `cmp`: two integers compare by value, and an
      integer facing a list is compared as the one-element list holding it. */
  function CmpItem(a: Item, b: Item): (r: int)
    ensures r == -1 || r == 0 || r == 1
    decreases ItemSize(a) + ItemSize(b), 0
  {
    match (a, b)
    case (Int(x), Int(y)) => if x < y then 1 else if x > y then -1 else 0
    case (Int(_), List(t)) => SingletonSize(a); CmpFrom([a], t, 0)
    case (List(s), Int(_)) => SingletonSize(b); CmpFrom(s, [b], 0)
    case (List(s), List(t)) => CmpFrom(s, t, 0)
  }

  // ---------------------------------------------------------------------
  // Properties of the comparison
  // ---------------------------------------------------------------------

  /** Every item and every list equals itself. */
  lemma {:induction false} CmpItemReflexive(a: Item)
    ensures CmpItem(a, a) == 0
    decreases ItemSize(a), 0
  {
    if a.List? {
      CmpFromReflexive(a.items, 0);
    }
  }

  lemma {:induction false} CmpFromReflexive(l: seq<Item>, i: nat)
    requires i <= |l|
    ensures CmpFrom(l, l, i) == 0
    decreases ListSize(l), 1, |l| - i
  {
    if i < |l| {
      ElementSize(l, i);
      CmpItemReflexive(l[i]);
      CmpFromReflexive(l, i + 1);
    }
  }

  /** "Returns 0 if l1 and l2 are equal". */
  lemma CmpReflexive(l: seq<Item>)
    ensures Cmp(l, l) == 0
  {
    CmpFromReflexive(l, 0);
  }

  /** Swapping the arguments swaps +1 and -1. */
  lemma {:induction false} CmpItemAntisymmetric(a: Item, b: Item)
    ensures CmpItem(a, b) == -CmpItem(b, a)
    decreases ItemSize(a) + ItemSize(b), 0
  {
    match (a, b)
    case (Int(_), Int(_)) =>
    case (Int(_), List(t)) => SingletonSize(a); CmpFromAntisymmetric([a], t, 0);
    case (List(s), Int(_)) => SingletonSize(b); CmpFromAntisymmetric(s, [b], 0);
    case (List(s), List(t)) => CmpFromAntisymmetric(s, t, 0);
  }

  lemma {:induction false} CmpFromAntisymmetric(l1: seq<Item>, l2: seq<Item>, i: nat)
    requires i <= |l1| && i <= |l2|
    ensures CmpFrom(l1, l2, i) == -CmpFrom(l2, l1, i)
    decreases ListSize(l1) + ListSize(l2), 1, |l1| - i
  {
    if i < |l1| && i < |l2| {
      ElementSize(l1, i);
      ElementSize(l2, i);
      CmpItemAntisymmetric(l1[i], l2[i]);
      CmpFromAntisymmetric(l1, l2, i + 1);
    }
  }

  lemma CmpAntisymmetric(l1: seq<Item>, l2: seq<Item>)
    ensures Cmp(l1, l2) == -Cmp(l2, l1)
  {
    CmpFromAntisymmetric(l1, l2, 0);
  }

  /** The list an item stands for when it meets a list: an integer becomes a
      one-element list. */
  function Promote(a: Item): seq<Item>
  {
    if a.Int? then [a] else a.items
  }

  /** Comparing two items is comparing the lists they stand for, whatever
      their kinds: the promotion rule of `cmp` in one line. */
  lemma CmpItemPromotes(a: Item, b: Item)
    ensures CmpItem(a, b) == Cmp(Promote(a), Promote(b))
  {
    if a.Int? && b.Int? {
      assert CmpFrom([a], [b], 1) == 0;
    }
  }

  /** `cmp` is lexicographic: the first position whose items differ decides,
      and when every shared position is equal the shorter list comes first. */
  lemma {:induction false} CmpFromLexicographic(l1: seq<Item>, l2: seq<Item>, i: nat)
    requires i <= |l1| && i <= |l2|
    ensures (exists k :: i <= k < |l1| && k < |l2| && CmpItem(l1[k], l2[k]) != 0 &&
              (forall j :: i <= j < k ==> CmpItem(l1[j], l2[j]) == 0) &&
              CmpFrom(l1, l2, i) == CmpItem(l1[k], l2[k])) ||
            ((forall j :: i <= j < |l1| && j < |l2| ==> CmpItem(l1[j], l2[j]) == 0) &&
              CmpFrom(l1, l2, i) == (if |l1| < |l2| then 1 else if |l1| > |l2| then -1 else 0))
    decreases |l1| - i
  {
    if i < |l1| && i < |l2| && CmpItem(l1[i], l2[i]) == 0 {
      CmpFromLexicographic(l1, l2, i + 1);
    }
  }

  /** The orderings of `cmp`'s documentation, as one relation: `l1` may come
      before `l2`. */
  predicate Le(l1: seq<Item>, l2: seq<Item>)
  {
    Cmp(l1, l2) != -1
  }

  /** The transitivity statement for three items: a chain of "not after"
      steps is "not after", and strictly so if one step was strict. */
  ghost predicate ChainItems(a: Item, b: Item, c: Item)
  {
    CmpItem(a, b) >= 0 && CmpItem(b, c) >= 0 ==>
      CmpItem(a, c) >= 0 && (CmpItem(a, c) == 0 ==> CmpItem(a, b) == 0 && CmpItem(b, c) == 0)
  }

  ghost predicate ChainFrom(l1: seq<Item>, l2: seq<Item>, l3: seq<Item>, i: nat)
    requires i <= |l1| && i <= |l2| && i <= |l3|
  {
    CmpFrom(l1, l2, i) >= 0 && CmpFrom(l2, l3, i) >= 0 ==>
      CmpFrom(l1, l3, i) >= 0 &&
      (CmpFrom(l1, l3, i) == 0 ==> CmpFrom(l1, l2, i) == 0 && CmpFrom(l2, l3, i) == 0)
  }

  lemma {:induction false} CmpItemTransitive(a: Item, b: Item, c: Item)
    ensures ChainItems(a, b, c)
    decreases ItemSize(a) + ItemSize(b) + ItemSize(c), 0
  {
    if !(a.Int? && b.Int? && c.Int?) {
      CmpItemPromotes(a, b);
      CmpItemPromotes(b, c);
      CmpItemPromotes(a, c);
      PromoteSize(a);
      PromoteSize(b);
      PromoteSize(c);
      CmpFromTransitive(Promote(a), Promote(b), Promote(c), 0);
    }
  }

  lemma PromoteSize(a: Item)
    ensures ListSize(Promote(a)) <= ItemSize(a)
    ensures a.List? ==> ListSize(Promote(a)) < ItemSize(a)
  {
    if a.Int? {
      SingletonSize(a);
    }
  }

  lemma {:induction false} CmpFromTransitive(l1: seq<Item>, l2: seq<Item>, l3: seq<Item>, i: nat)
    requires i <= |l1| && i <= |l2| && i <= |l3|
    ensures ChainFrom(l1, l2, l3, i)
    decreases ListSize(l1) + ListSize(l2) + ListSize(l3), 1, |l1| - i
  {
    if i < |l1| && i < |l2| && i < |l3| {
      ElementSize(l1, i);
      ElementSize(l2, i);
      ElementSize(l3, i);
      var a, b, c := l1[i], l2[i], l3[i];
      CmpItemTransitive(a, b, c);
      CmpItemTransitive(c, b, a);
      CmpItemAntisymmetric(a, b);
      CmpItemAntisymmetric(b, c);
      CmpItemAntisymmetric(a, c);
      CmpFromTransitive(l1, l2, l3, i + 1);
    }
  }

  /** Every two packets are ordered one way or the other, and the order is
      transitive: sorting by `Le` is meaningful. */
  lemma LeTotalPreorder()
    ensures TotalPreorder(Le)
  {
    forall a, b
      ensures Le(a, b) || Le(b, a)
    {
      CmpAntisymmetric(a, b);
    }
    forall a, b, c | Le(a, b) && Le(b, c)
      ensures Le(a, c)
    {
      CmpFromTransitive(a, b, c, 0);
    }
  }

  // ---------------------------------------------------------------------
  // The asserted examples
  // ---------------------------------------------------------------------

  function I(n: int): Item { Int(n) }
  function L(s: seq<Item>): Item { List(s) }

  /** The comparisons asserted in the source's main block. */
  lemma CmpExamples()
    ensures Cmp([I(1), I(1), I(3), I(1), I(1)], [I(1), I(1), I(5), I(1), I(1)]) == 1
    ensures Cmp([L([I(1)]), L([I(2), I(3), I(4)])], [L([I(1)]), I(4)]) == 1
    ensures Cmp([I(9)], [L([I(8), I(7), I(6)])]) == -1
    ensures Cmp([L([I(4), I(4)]), I(4), I(4)], [L([I(4), I(4)]), I(4), I(4), I(4)]) == 1
    ensures Cmp([I(7), I(7), I(7), I(7)], [I(7), I(7), I(7)]) == -1
    ensures Cmp([], [I(3)]) == 1
    ensures Cmp([L([L([])])], [L([])]) == -1
    ensures Cmp([I(1), L([I(2), L([I(3), L([I(4), L([I(5), I(6), I(7)])])])]), I(8), I(9)],
                [I(1), L([I(2), L([I(3), L([I(4), L([I(5), I(6), I(0)])])])]), I(8), I(9)]) == -1
  {
    var x5, y5 := [I(5), I(6), I(7)], [I(5), I(6), I(0)];
    assert Cmp(x5, y5) == -1;
    var x4, y4 := [I(4), L(x5)], [I(4), L(y5)];
    assert CmpItem(L(x5), L(y5)) == -1;
    assert CmpFrom(x4, y4, 1) == -1;
    assert CmpItem(x4[0], y4[0]) == 0;
    assert Cmp(x4, y4) == -1;
    var x3, y3 := [I(3), L(x4)], [I(3), L(y4)];
    assert CmpItem(L(x4), L(y4)) == -1;
    assert CmpFrom(x3, y3, 1) == -1;
    assert CmpItem(x3[0], y3[0]) == 0;
    assert Cmp(x3, y3) == -1;
    var x2, y2 := [I(2), L(x3)], [I(2), L(y3)];
    assert CmpItem(L(x3), L(y3)) == -1;
    assert CmpFrom(x2, y2, 1) == -1;
    assert CmpItem(x2[0], y2[0]) == 0;
    assert Cmp(x2, y2) == -1;
  }

  // ---------------------------------------------------------------------
  // Part 1: pairs in the right order
  // ---------------------------------------------------------------------

  /** One pair of packets of the input; pairs are numbered from 1. */
  datatype Pair = Pair(left: seq<Item>, right: seq<Item>)

  predicate RightOrder(p: Pair)
  {
    Cmp(p.left, p.right) == 1
  }

  /** The numbers of the pairs in the right order, ascending. */
  function RightOrderNumbers(pairs: seq<Pair>): (ns: seq<nat>)
    ensures forall n :: n in ns <==> 1 <= n <= |pairs| && RightOrder(pairs[n - 1])
    ensures forall i, j :: 0 <= i < j < |ns| ==> ns[i] < ns[j]
    ensures forall i :: 0 <= i < |ns| ==> ns[i] <= |pairs|
  {
    if |pairs| == 0 then []
    else
      var init := RightOrderNumbers(pairs[..|pairs| - 1]);
      if RightOrder(pairs[|pairs| - 1]) then init + [|pairs|] else init
  }

  function Sum(s: seq<nat>): nat
  {
    if |s| == 0 then 0 else Sum(s[..|s| - 1]) + s[|s| - 1]
  }

  /** `part_1`: the sum of the numbers of the pairs in the right order. */
  method Part1(pairs: seq<Pair>) returns (total: nat)
    ensures total == Sum(RightOrderNumbers(pairs))
  {
    total := 0;
    var i := 0;
    while i < |pairs|
      invariant 0 <= i <= |pairs|
      invariant total == Sum(RightOrderNumbers(pairs[..i]))
    {
      assert pairs[..i + 1][..i] == pairs[..i];
      if Cmp(pairs[i].left, pairs[i].right) == 1 {
        total := total + (i + 1);
      }
      i := i + 1;
    }
    assert pairs[..i] == pairs;
  }

  // ---------------------------------------------------------------------
  // Part 2: sorting with the divider packets
  // ---------------------------------------------------------------------

  const Divider2: seq<Item> := [L([I(2)])]
  const Divider6: seq<Item> := [L([I(6)])]

  /** The two dividers followed by the packets of every pair, in input order. */
  function AllPackets(pairs: seq<Pair>): (ps: seq<seq<Item>>)
    ensures |ps| == 2 + 2 * |pairs|
    ensures ps[0] == Divider2 && ps[1] == Divider6
    ensures forall k :: 0 <= k < |pairs| ==> ps[2 + 2 * k] == pairs[k].left && ps[3 + 2 * k] == pairs[k].right
  {
    if |pairs| == 0 then [Divider2, Divider6]
    else
      var last := pairs[|pairs| - 1];
      AllPackets(pairs[..|pairs| - 1]) + [last.left, last.right]
  }

  /** The first divider sorts strictly before the second. */
  lemma DividersOrdered()
    ensures Cmp(Divider2, Divider6) == 1 && !Le(Divider6, Divider2)
  {
    assert CmpItem(L([I(2)]), L([I(6)])) == 1;
    assert CmpItem(L([I(6)]), L([I(2)])) == -1;
  }

  /** Every copy of the first divider comes before every copy of the second. */
  ghost predicate DividersInOrder(ps: seq<seq<Item>>)
  {
    forall i, j :: 0 <= i < |ps| && 0 <= j < |ps| && ps[i] == Divider2 && ps[j] == Divider6 ==> i < j
  }

  lemma SortedDividersInOrder(ps: seq<seq<Item>>)
    requires SortedBy(ps, Le)
    ensures DividersInOrder(ps)
  {
    DividersOrdered();
    forall i, j | 0 <= i < |ps| && 0 <= j < |ps| && ps[i] == Divider2 && ps[j] == Divider6
      ensures i < j
    {
    }
  }

  /** The `while` loop of `part_2`: scans from the front until both keys are
      set, storing the 1-based position of the latest divider seen. When the
      dividers are in order, the first key is the last copy of `[[2]]` and the
      second the first copy of `[[6]]`. */
  method DecoderKeys(ps: seq<seq<Item>>) returns (k2: nat, k6: nat)
    ensures k2 != 0 <==> Divider2 in ps
    ensures k6 != 0 <==> Divider6 in ps
    ensures k2 != 0 ==> k2 <= |ps| && ps[k2 - 1] == Divider2
    ensures k6 != 0 ==> k6 <= |ps| && ps[k6 - 1] == Divider6
    ensures DividersInOrder(ps) && Divider2 in ps && Divider6 in ps ==>
      Divider2 !in ps[k2..] && Divider6 !in ps[..k6 - 1]
  {
    k2, k6 := 0, 0;
    var i := 0;
    while i < |ps| && (k2 == 0 || k6 == 0)
      invariant 0 <= i <= |ps|
      invariant k2 != 0 <==> Divider2 in ps[..i]
      invariant k6 != 0 <==> Divider6 in ps[..i]
      invariant k2 != 0 ==> k2 <= i && ps[k2 - 1] == Divider2 && Divider2 !in ps[k2..i]
      invariant k6 != 0 ==> k6 <= i && ps[k6 - 1] == Divider6
      invariant DividersInOrder(ps) && Divider2 in ps && k6 != 0 ==> Divider6 !in ps[..k6 - 1]
    {
      if ps[i] == Divider2 {
        k2 := i + 1;
      } else if ps[i] == Divider6 {
        k6 := i + 1;
      }
      assert ps[..i + 1] == ps[..i] + [ps[i]];
      i := i + 1;
    }
    if i < |ps| {
      assert Divider2 in ps[..i] && Divider6 in ps[..i];
    } else {
      assert ps[..i] == ps;
    }
  }

  /** `part_2`: sort every packet together with the two dividers, smallest
      first, and multiply the 1-based positions of the dividers. The sort is
      stable, as Python's is: packets that compare equal, such as `[2]` and
      the divider `[[2]]`, keep their input order, and by
      `Sorting.StableUnique` that fixes the sorted list. */
  method Part2(pairs: seq<Pair>) returns (key: nat, sorted: seq<seq<Item>>)
    ensures multiset(sorted) == multiset(AllPackets(pairs)) && SortedBy(sorted, Le)
    ensures exists i2, i6 :: DividerPositions(sorted, i2, i6) && key == (i2 + 1) * (i6 + 1)
    ensures forall x :: Ties(sorted, x, Le) == Ties(AllPackets(pairs), x, Le)
  {
    var all := AllPackets(pairs);
    sorted := SortBy(all, Le);
    SortedWithDividers(all, sorted);
    SortStable(all);
    var k2, k6 := DecoderKeys(sorted);
    key := k2 * k6;
    assert sorted[k2 - 1 + 1..] == sorted[k2..];
    assert DividerPositions(sorted, k2 - 1, k6 - 1);
  }

  lemma SortStable(all: seq<seq<Item>>)
    ensures forall x :: Ties(SortBy(all, Le), x, Le) == Ties(all, x, Le)
  {
    LeTotalPreorder();
    forall x
      ensures Ties(SortBy(all, Le), x, Le) == Ties(all, x, Le)
    {
      SortByStable(all, x, Le);
    }
  }

  /** `i2` is the last position of `[[2]]` and `i6` the first of `[[6]]`,
      and the first comes before the second. */
  ghost predicate DividerPositions(sorted: seq<seq<Item>>, i2: int, i6: int)
  {
    0 <= i2 < i6 < |sorted| && sorted[i2] == Divider2 && sorted[i6] == Divider6 &&
    Divider2 !in sorted[i2 + 1..] && Divider6 !in sorted[..i6]
  }

  /** The sorted packets are in order and hold both dividers. */
  lemma SortedWithDividers(all: seq<seq<Item>>, sorted: seq<seq<Item>>)
    requires |all| >= 2 && all[0] == Divider2 && all[1] == Divider6
    requires sorted == SortBy(all, Le)
    ensures multiset(sorted) == multiset(all) && SortedBy(sorted, Le)
    ensures DividersInOrder(sorted) && Divider2 in sorted && Divider6 in sorted
  {
    LeTotalPreorder();
    SortBySorted(all, Le);
    SortedDividersInOrder(sorted);
    assert all[0] in multiset(sorted) && all[1] in multiset(sorted);
  }
}

=== FILE: ranges.dfy ===
/** Closed integer ranges and the range algebra of day 15
    (day_15/part_1_2.py): the "intersect" test in which touching ranges
    count as intersecting, merging, sort-and-flatten into a canonical
    list, the complement within bounds and clamping to bounds.
    A range is the Python pair `(lo, hi)`; nothing forces `lo <= hi`, and
    the lemmas say where well-formedness is needed. */
module Ranges {
  import opened Outcomes
  import Sorting

  datatype Range = Range(lo: int, hi: int)

  predicate WellFormed(r: Range)
  {
    r.lo <= r.hi
  }

  predicate AllWellFormed(rs: seq<Range>)
  {
    forall i :: 0 <= i < |rs| ==> WellFormed(rs[i])
  }

  /** `x` is one of the integers of `r`. */
  predicate In(x: int, r: Range)
  {
    r.lo <= x <= r.hi
  }

  /** `x` is an integer of at least one range of `rs`. */
  ghost predicate Covered(x: int, rs: seq<Range>)
  {
    exists r :: r in rs && In(x, r)
  }

  function Abs(x: int): nat
  {
    if x < 0 then -x else x
  }

  function Min(a: int, b: int): int
  {
    if a <= b then a else b
  }

  function Max(a: int, b: int): int
  {
    if a >= b then a else b
  }

  // ---------------------------------------------------------------------
  // ranges_intersect and ranges_merge
  // ---------------------------------------------------------------------

  /** `ranges_intersect`: the ranges overlap, or one ends right next to where
      the other starts (consecutive integers "intersect"). */
  predicate Intersect(a: Range, b: Range)
  {
    (a.lo <= b.hi && b.lo <= a.hi) || Abs(a.hi - b.lo) == 1 || Abs(b.hi - a.lo) == 1
  }

  /** The test does not depend on the order of its arguments. */
  lemma IntersectSymmetric(a: Range, b: Range)
    ensures Intersect(a, b) == Intersect(b, a)
  {
  }

  /** For well-formed ranges the test holds exactly when the two sets of
      integers together fill the whole span from the lowest to the highest
      end with no hole, i.e. when they overlap or are adjacent. */
  lemma IntersectIffContiguous(a: Range, b: Range)
    requires WellFormed(a) && WellFormed(b)
    ensures Intersect(a, b) <==> a.lo <= b.hi + 1 && b.lo <= a.hi + 1
    ensures Intersect(a, b) <==>
      forall x :: Min(a.lo, b.lo) <= x <= Max(a.hi, b.hi) ==> In(x, a) || In(x, b)
  {
    if !Intersect(a, b) {
      var hole := if a.hi < b.lo then a.hi + 1 else b.hi + 1;
      assert Min(a.lo, b.lo) <= hole <= Max(a.hi, b.hi) && !In(hole, a) && !In(hole, b);
    }
  }

  /** `ranges_merge`: the smallest range holding both; the source asserts
      that the two intersect. */
  function Merge(a: Range, b: Range): (m: Range)
    requires Intersect(a, b)
    ensures WellFormed(a) && WellFormed(b) ==> WellFormed(m)
    ensures WellFormed(a) && WellFormed(b) ==> forall x :: In(x, m) <==> In(x, a) || In(x, b)
  {
    Range(Min(a.lo, b.lo), Max(a.hi, b.hi))
  }

  // ---------------------------------------------------------------------
  // Sorting: Python orders the pairs lexicographically
  // ---------------------------------------------------------------------

  /** Tuple order on `(lo, hi)`, as `list.sort()` uses it. */
  predicate RangeLe(a: Range, b: Range)
  {
    a.lo < b.lo || (a.lo == b.lo && a.hi <= b.hi)
  }

  lemma RangeLeTotalOrder()
    ensures Sorting.TotalPreorder(RangeLe) && Sorting.Antisymmetric(RangeLe)
  {
  }

  // ---------------------------------------------------------------------
  // ranges_flatten
  // ---------------------------------------------------------------------

  /** The canonical form: well-formed ranges, each one ending at least two
      integers before the next one starts (so neither overlapping nor adjacent). */
  predicate Flat(s: seq<Range>)
  {
    AllWellFormed(s) && forall i :: 0 <= i < |s| - 1 ==> s[i].hi + 1 < s[i + 1].lo
  }

  /** The fold of `ranges_flatten`: `acc` is `flat_ranges`, `rest` what the
      `for` loop has still to visit. */
  function MergeRun(acc: seq<Range>, rest: seq<Range>): (r: seq<Range>)
    requires |acc| > 0
    ensures |r| > 0
    decreases |rest|
  {
    if |rest| == 0 then acc
    else MergeRun(Absorb(acc, rest[0]), rest[1..])
  }

  /** One iteration of the loop: merge `r` into the last range kept when the
      two intersect, otherwise keep `r` as a new range. */
  function Absorb(acc: seq<Range>, r: Range): (next: seq<Range>)
    requires |acc| > 0
    ensures |next| > 0
  {
    var last := acc[|acc| - 1];
    if Intersect(last, r) then acc[..|acc| - 1] + [Merge(last, r)]
    else acc + [r]
  }

  /** A step of the fold keeps the list flat and adds exactly the integers
      of `r`. */
  lemma AbsorbFlat(acc: seq<Range>, r: Range)
    requires |acc| > 0 && Flat(acc) && WellFormed(r)
    requires acc[|acc| - 1].lo <= r.lo
    ensures Flat(Absorb(acc, r))
    ensures Absorb(acc, r)[|Absorb(acc, r)| - 1].lo <= r.lo
    ensures forall x :: Covered(x, Absorb(acc, r)) <==> Covered(x, acc) || In(x, r)
  {
    var last := acc[|acc| - 1];
    var init := acc[..|acc| - 1];
    assert acc == init + [last];
    CoveredAppend(init, [last]);
    CoveredAppend(acc, [r]);
    if Intersect(last, r) {
      var m := Merge(last, r);
      FlatAppend(init, m);
      CoveredAppend(init, [m]);
    } else {
      FlatAppend(acc, r);
    }
  }

  lemma CoveredAppend(a: seq<Range>, b: seq<Range>)
    ensures forall x :: Covered(x, a + b) <==> Covered(x, a) || Covered(x, b)
  {
    forall x
      ensures Covered(x, a + b) <==> Covered(x, a) || Covered(x, b)
    {
      if Covered(x, a + b) {
        var r :| r in a + b && In(x, r);
      }
      if Covered(x, a) {
        var r :| r in a && In(x, r);
        assert r in a + b;
      }
      if Covered(x, b) {
        var r :| r in b && In(x, r);
        assert r in a + b;
      }
    }
  }

  lemma FlatAppend(a: seq<Range>, r: Range)
    requires Flat(a) && WellFormed(r)
    requires |a| > 0 ==> a[|a| - 1].hi + 1 < r.lo
    ensures Flat(a + [r])
  {
  }

  /** Invariant of the fold: on sorted well-formed input it builds a flat
      list that covers what the ranges seen so far cover. */
  lemma {:induction false} MergeRunFlat(acc: seq<Range>, rest: seq<Range>)
    requires |acc| > 0 && Flat(acc)
    requires AllWellFormed(rest) && Sorting.SortedBy(rest, RangeLe)
    requires |rest| > 0 ==> acc[|acc| - 1].lo <= rest[0].lo
    ensures Flat(MergeRun(acc, rest))
    ensures forall x :: Covered(x, MergeRun(acc, rest)) <==> Covered(x, acc) || Covered(x, rest)
    decreases |rest|
  {
    if |rest| > 0 {
      var r := rest[0];
      assert rest == [r] + rest[1..];
      CoveredAppend([r], rest[1..]);
      assert r in [r];
      assert forall k :: 0 <= k < |rest[1..]| ==> RangeLe(r, rest[1..][k]);
      AbsorbFlat(acc, r);
      MergeRunFlat(Absorb(acc, r), rest[1..]);
    }
  }

  /** `ranges_flatten`: sort the pairs, then merge every range that
      intersects the last range kept. On well-formed input the result is
      flat and covers exactly the integers the input covers. */
  function Flatten(rs: seq<Range>): (flat: seq<Range>)
    ensures |flat| == 0 <==> |rs| == 0
    ensures AllWellFormed(rs) ==> Flat(flat)
    ensures AllWellFormed(rs) ==> forall x :: Covered(x, flat) <==> Covered(x, rs)
  {
    var sorted := Sorting.SortBy(rs, RangeLe);
    if |sorted| == 0 then []
    else
      FlattenSortedFacts(rs, sorted);
      MergeRun([sorted[0]], sorted)
  }

  /** Two sequences with the same multiset have the same elements. */
  lemma SameElements(a: seq<Range>, b: seq<Range>)
    requires multiset(a) == multiset(b)
    ensures forall r :: r in a <==> r in b
  {
    forall r
      ensures r in a <==> r in b
    {
      assert r in a <==> r in multiset(a);
      assert r in b <==> r in multiset(b);
    }
  }

  lemma FlattenSortedFacts(rs: seq<Range>, sorted: seq<Range>)
    requires sorted == Sorting.SortBy(rs, RangeLe) && |sorted| > 0
    ensures AllWellFormed(rs) ==>
      Flat(MergeRun([sorted[0]], sorted)) &&
      forall x :: Covered(x, MergeRun([sorted[0]], sorted)) <==> Covered(x, rs)
  {
    if AllWellFormed(rs) {
      RangeLeTotalOrder();
      Sorting.SortBySorted(rs, RangeLe);
      SameElements(sorted, rs);
      assert AllWellFormed(sorted) by {
        forall k | 0 <= k < |sorted|
          ensures WellFormed(sorted[k])
        {
          assert sorted[k] in rs;
        }
      }
      MergeRunFlat([sorted[0]], sorted);
      assert sorted[0] in sorted;
      forall x
        ensures Covered(x, sorted) <==> Covered(x, rs)
      {
        if Covered(x, sorted) {
          var r :| r in sorted && In(x, r);
          assert r in rs;
        }
        if Covered(x, rs) {
          var r :| r in rs && In(x, r);
          assert r in sorted;
        }
      }
    }
  }

  /** In a flat list every range ends well before any later one starts. */
  lemma {:induction false} FlatSeparated(s: seq<Range>)
    requires Flat(s)
    ensures forall i, j :: 0 <= i < j < |s| ==> s[i].hi + 1 < s[j].lo
  {
    if |s| > 1 {
      FlatSeparated(s[1..]);
      forall i, j | 0 <= i < j < |s|
        ensures s[i].hi + 1 < s[j].lo
      {
        if i > 0 {
          assert s[i] == s[1..][i - 1] && s[j] == s[1..][j - 1];
        } else if j > 1 {
          assert s[1] == s[1..][0] && s[j] == s[1..][j - 1];
        }
      }
    }
  }

  /** A flat list is sorted by `lo` (strictly) and no two neighbours satisfy
      `ranges_intersect`. */
  lemma FlatSortedApart(s: seq<Range>)
    requires Flat(s)
    ensures forall i, j :: 0 <= i < j < |s| ==> s[i].lo < s[j].lo
    ensures forall i :: 0 <= i < |s| - 1 ==> !Intersect(s[i], s[i + 1])
  {
    FlatSeparated(s);
  }

  lemma {:induction false} MergeRunOfFlat(s: seq<Range>, k: nat)
    requires Flat(s) && 1 <= k <= |s|
    ensures MergeRun(s[..k], s[k..]) == s
    decreases |s| - k
  {
    if k < |s| {
      assert !Intersect(s[k - 1], s[k]);
      assert s[..k] + [s[k]] == s[..k + 1];
      assert s[k..][1..] == s[k + 1..];
      MergeRunOfFlat(s, k + 1);
    } else {
      assert s[..k] == s;
    }
  }

  /** Flattening a list that is already flat returns it unchanged. */
  lemma FlattenOfFlat(s: seq<Range>)
    requires Flat(s)
    ensures Flatten(s) == s
  {
    if |s| > 0 {
      FlatSeparated(s);
      RangeLeTotalOrder();
      assert Sorting.SortedBy(s, RangeLe);
      Sorting.SortByOfSorted(s, RangeLe);
      assert Merge(s[0], s[0]) == s[0];
      assert [s[0]][..0] + [Merge(s[0], s[0])] == s[..1];
      MergeRunOfFlat(s, 1);
    }
  }

  /** `ranges_flatten` is idempotent. */
  lemma FlattenIdempotent(rs: seq<Range>)
    requires AllWellFormed(rs)
    ensures Flatten(Flatten(rs)) == Flatten(rs)
  {
    FlattenOfFlat(Flatten(rs));
  }

  /** The result does not depend on the order in which the ranges come. */
  lemma FlattenPermutation(a: seq<Range>, b: seq<Range>)
    requires multiset(a) == multiset(b)
    ensures Flatten(a) == Flatten(b)
  {
    RangeLeTotalOrder();
    Sorting.SortByPermutation(a, b, RangeLe);
  }

  // ---------------------------------------------------------------------
  // ranges_not_covered
  // ---------------------------------------------------------------------

  /** The gaps between consecutive ranges, in order (the `i > 0` branch). */
  function InnerGaps(flat: seq<Range>): seq<Range>
  {
    if |flat| < 2 then []
    else [Range(flat[0].hi + 1, flat[1].lo - 1)] + InnerGaps(flat[1..])
  }

  /** The k-th inner gap lies between the k-th and the (k+1)-th range. */
  lemma {:induction false} InnerGapsAt(flat: seq<Range>, k: int)
    requires 0 <= k < |flat| - 1
    ensures |InnerGaps(flat)| == |flat| - 1
    ensures InnerGaps(flat)[k] == Range(flat[k].hi + 1, flat[k + 1].lo - 1)
  {
    if k > 0 {
      InnerGapsAt(flat[1..], k - 1);
    } else if |flat| > 2 {
      InnerGapsAt(flat[1..], 0);
    }
  }

  /** `ranges_not_covered`: the leading gap, the gaps between neighbours and
      the trailing gap. The source asserts a non-empty list that lies within
      `[start, end]`. */
  function NotCovered(flat: seq<Range>, start: int, end: int): (gaps: seq<Range>)
    requires |flat| > 0
    requires start <= flat[0].lo && flat[|flat| - 1].hi <= end
    ensures Flat(flat) ==> Flat(gaps)
    ensures Flat(flat) ==> forall g :: g in gaps ==> start <= g.lo && g.hi <= end
    ensures Flat(flat) ==>
      forall x :: start <= x <= end ==> (Covered(x, gaps) <==> !Covered(x, flat))
  {
    var leading := if Abs(flat[0].lo - start) >= 1 then [Range(start, flat[0].lo - 1)] else [];
    var trailing :=
      if Abs(flat[|flat| - 1].hi - end) >= 1 then [Range(flat[|flat| - 1].hi + 1, end)] else [];
    NotCoveredFacts(flat, start, end, leading, trailing);
    leading + InnerGaps(flat) + trailing
  }

  /** Concatenating two flat lists, the first ending well before the second
      starts, gives a flat list. */
  lemma FlatConcat(a: seq<Range>, b: seq<Range>)
    requires Flat(a) && Flat(b)
    requires |a| > 0 && |b| > 0 ==> a[|a| - 1].hi + 1 < b[0].lo
    ensures Flat(a + b)
  {
    var c := a + b;
    forall i | 0 <= i < |c| - 1
      ensures c[i].hi + 1 < c[i + 1].lo
    {
      if i + 1 < |a| {
        assert c[i] == a[i] && c[i + 1] == a[i + 1];
      } else if i + 1 == |a| {
        assert c[i] == a[|a| - 1] && c[i + 1] == b[0];
      } else {
        assert c[i] == b[i - |a|] && c[i + 1] == b[i - |a| + 1];
      }
    }
    forall i | 0 <= i < |c|
      ensures WellFormed(c[i])
    {
      if i < |a| {
        assert c[i] == a[i];
      } else {
        assert c[i] == b[i - |a|];
      }
    }
  }

  lemma InnerGapsFacts(flat: seq<Range>)
    requires Flat(flat) && |flat| > 0
    ensures Flat(InnerGaps(flat))
    ensures |InnerGaps(flat)| > 0 ==>
      InnerGaps(flat)[0].lo == flat[0].hi + 1 &&
      InnerGaps(flat)[|InnerGaps(flat)| - 1].hi == flat[|flat| - 1].lo - 1
    ensures forall g :: g in InnerGaps(flat) ==>
      flat[0].hi < g.lo && g.hi < flat[|flat| - 1].lo
    ensures forall x :: flat[0].lo <= x <= flat[|flat| - 1].hi ==>
      (Covered(x, InnerGaps(flat)) <==> !Covered(x, flat))
  {
    InnerGapsFlat(flat);
    InnerGapsBounds(flat);
    InnerGapsPartition(flat);
    if |flat| >= 2 {
      InnerGapsAt(flat, 0);
      InnerGapsAt(flat, |flat| - 2);
    } else {
      InnerGapsLength(flat);
    }
  }

  lemma {:induction false} InnerGapsLength(flat: seq<Range>)
    ensures |InnerGaps(flat)| == if |flat| < 2 then 0 else |flat| - 1
  {
    if |flat| >= 2 {
      InnerGapsLength(flat[1..]);
    }
  }

  lemma InnerGapsFlat(flat: seq<Range>)
    requires Flat(flat)
    ensures Flat(InnerGaps(flat))
  {
    var inner := InnerGaps(flat);
    forall k | 0 <= k < |inner|
      ensures WellFormed(inner[k])
    {
      InnerGapsLength(flat);
      InnerGapsAt(flat, k);
    }
    forall k | 0 <= k < |inner| - 1
      ensures inner[k].hi + 1 < inner[k + 1].lo
    {
      InnerGapsLength(flat);
      InnerGapsAt(flat, k);
      InnerGapsAt(flat, k + 1);
      assert WellFormed(flat[k + 1]);
    }
  }

  lemma InnerGapsBounds(flat: seq<Range>)
    requires Flat(flat) && |flat| > 0
    ensures forall g :: g in InnerGaps(flat) ==>
      flat[0].hi < g.lo && g.hi < flat[|flat| - 1].lo
  {
    var inner := InnerGaps(flat);
    FlatSeparated(flat);
    forall g | g in inner
      ensures flat[0].hi < g.lo && g.hi < flat[|flat| - 1].lo
    {
      var k :| 0 <= k < |inner| && inner[k] == g;
      InnerGapsLength(flat);
      InnerGapsAt(flat, k);
      assert WellFormed(flat[k]) && WellFormed(flat[k + 1]);
      if k > 0 {
        assert flat[0].hi + 1 < flat[k].lo;
      }
      if k + 1 < |flat| - 1 {
        assert flat[k + 1].hi + 1 < flat[|flat| - 1].lo;
      }
    }
  }

  lemma {:induction false} InnerGapsPartition(flat: seq<Range>)
    requires Flat(flat) && |flat| > 0
    ensures forall x :: flat[0].lo <= x <= flat[|flat| - 1].hi ==>
      (Covered(x, InnerGaps(flat)) <==> !Covered(x, flat))
  {
    if |flat| == 1 {
      forall x | flat[0].lo <= x <= flat[0].hi
        ensures Covered(x, flat)
      {
        assert flat[0] in flat;
      }
    } else {
      var tail := flat[1..];
      assert tail[0] == flat[1] && tail[|tail| - 1] == flat[|flat| - 1];
      assert Flat(tail);
      InnerGapsPartition(tail);
      var g0 := Range(flat[0].hi + 1, flat[1].lo - 1);
      var rest := InnerGaps(tail);
      assert InnerGaps(flat) == [g0] + rest;
      InnerGapsAfterFirst(tail);
      FlatWithin(tail);
      assert flat == [flat[0]] + tail;
      PartitionStep(flat[0], tail, rest, flat, InnerGaps(flat));
    }
  }

  /** The gaps of a flat list lie after the end of its first range. */
  lemma InnerGapsAfterFirst(flat: seq<Range>)
    requires Flat(flat) && |flat| > 0
    ensures forall x :: Covered(x, InnerGaps(flat)) ==> x > flat[0].hi
  {
    var inner := InnerGaps(flat);
    forall x | Covered(x, inner)
      ensures x > flat[0].hi
    {
      var r :| r in inner && In(x, r);
      var k :| 0 <= k < |inner| && inner[k] == r;
      InnerGapsLength(flat);
      InnerGapsAt(flat, k);
      FlatSeparated(flat);
      if k > 0 {
        assert flat[0].hi + 1 < flat[k].lo;
        assert WellFormed(flat[k]);
      }
    }
  }

  /** One step of the partition: a first range and the gap after it, in
      front of a tail whose gaps partition the rest. */
  lemma PartitionStep(first: Range, tail: seq<Range>, rest: seq<Range>, whole: seq<Range>, gaps: seq<Range>)
    requires WellFormed(first) && |tail| > 0 && WellFormed(tail[0]) && first.hi + 1 < tail[0].lo
    requires whole == [first] + tail && gaps == [Range(first.hi + 1, tail[0].lo - 1)] + rest
    requires forall x :: tail[0].lo <= x <= tail[|tail| - 1].hi ==> (Covered(x, rest) <==> !Covered(x, tail))
    requires forall x :: Covered(x, rest) ==> x > tail[0].hi
    requires forall x :: Covered(x, tail) ==> tail[0].lo <= x <= tail[|tail| - 1].hi
    ensures forall x :: first.lo <= x <= tail[|tail| - 1].hi ==> (Covered(x, gaps) <==> !Covered(x, whole))
  {
    var g0 := Range(first.hi + 1, tail[0].lo - 1);
    CoveredAppend([g0], rest);
    CoveredAppend([first], tail);
    forall x | first.lo <= x <= tail[|tail| - 1].hi
      ensures Covered(x, [g0] + rest) <==> !Covered(x, [first] + tail)
    {
      if x <= first.hi {
        assert In(x, first) && first in [first];
        assert Covered(x, [first]);
        assert !In(x, g0);
        assert !Covered(x, [g0]);
      } else if x < tail[0].lo {
        assert In(x, g0) && g0 in [g0];
        assert Covered(x, [g0]);
        assert !Covered(x, [first]);
      } else {
        assert !In(x, g0) && !In(x, first);
        assert !Covered(x, [g0]) && !Covered(x, [first]);
      }
    }
  }

  /** Every integer a flat list covers lies between its first `lo` and last `hi`. */
  lemma FlatWithin(flat: seq<Range>)
    requires Flat(flat) && |flat| > 0
    ensures forall x :: Covered(x, flat) ==> flat[0].lo <= x <= flat[|flat| - 1].hi
  {
    FlatSeparated(flat);
    forall x | Covered(x, flat)
      ensures flat[0].lo <= x <= flat[|flat| - 1].hi
    {
      var r :| r in flat && In(x, r);
      var k :| 0 <= k < |flat| && flat[k] == r;
    }
  }

  lemma NotCoveredFacts(flat: seq<Range>, start: int, end: int,
                        leading: seq<Range>, trailing: seq<Range>)
    requires |flat| > 0
    requires start <= flat[0].lo && flat[|flat| - 1].hi <= end
    requires leading == if Abs(flat[0].lo - start) >= 1 then [Range(start, flat[0].lo - 1)] else []
    requires trailing ==
      if Abs(flat[|flat| - 1].hi - end) >= 1 then [Range(flat[|flat| - 1].hi + 1, end)] else []
    ensures Flat(flat) ==> Flat(leading + InnerGaps(flat) + trailing)
    ensures Flat(flat) ==> forall g :: g in leading + InnerGaps(flat) + trailing ==>
      start <= g.lo && g.hi <= end
    ensures Flat(flat) ==> forall x :: start <= x <= end ==>
      (Covered(x, leading + InnerGaps(flat) + trailing) <==> !Covered(x, flat))
  {
    if Flat(flat) {
      InnerGapsFacts(flat);
      GapsFlat(flat, leading, trailing);
      GapsPartition(flat, start, end, leading, trailing);
    }
  }

  lemma GapsFlat(flat: seq<Range>, leading: seq<Range>, trailing: seq<Range>)
    requires Flat(flat) && |flat| > 0
    requires |leading| <= 1 && |trailing| <= 1
    requires |leading| == 1 ==> WellFormed(leading[0]) && leading[0].hi == flat[0].lo - 1
    requires |trailing| == 1 ==>
      WellFormed(trailing[0]) && trailing[0].lo == flat[|flat| - 1].hi + 1
    requires Flat(InnerGaps(flat))
    requires |InnerGaps(flat)| > 0 ==>
      InnerGaps(flat)[0].lo == flat[0].hi + 1 &&
      InnerGaps(flat)[|InnerGaps(flat)| - 1].hi == flat[|flat| - 1].lo - 1
    ensures Flat(leading + InnerGaps(flat) + trailing)
  {
    var first, last := flat[0], flat[|flat| - 1];
    if |flat| > 1 {
      FlatSeparated(flat);
    }
    assert WellFormed(first) && WellFormed(last) && first.hi <= last.hi;
    FlatJoin(first, last, leading, InnerGaps(flat), trailing);
  }

  /** The leading gap, the inner gaps and the trailing gap of a list running
      from `first` to `last` make a flat list. */
  lemma FlatJoin(first: Range, last: Range, leading: seq<Range>, inner: seq<Range>, trailing: seq<Range>)
    requires WellFormed(first) && WellFormed(last) && first.hi <= last.hi
    requires |leading| <= 1 && |trailing| <= 1
    requires |leading| == 1 ==> WellFormed(leading[0]) && leading[0].hi == first.lo - 1
    requires |trailing| == 1 ==> WellFormed(trailing[0]) && trailing[0].lo == last.hi + 1
    requires Flat(inner)
    requires |inner| > 0 ==> inner[0].lo == first.hi + 1 && inner[|inner| - 1].hi == last.lo - 1
    ensures Flat(leading + inner + trailing)
  {
    assert Flat(leading) && Flat(trailing);
    FlatConcat(leading, inner);
    var li := leading + inner;
    if |li| > 0 && |trailing| > 0 {
      if |inner| > 0 {
        assert li[|li| - 1] == inner[|inner| - 1];
      } else {
        assert li[|li| - 1] == leading[0];
      }
    }
    FlatConcat(li, trailing);
  }

  lemma GapsPartition(flat: seq<Range>, start: int, end: int,
                      leading: seq<Range>, trailing: seq<Range>)
    requires Flat(flat) && |flat| > 0
    requires start <= flat[0].lo && flat[|flat| - 1].hi <= end
    requires leading == if Abs(flat[0].lo - start) >= 1 then [Range(start, flat[0].lo - 1)] else []
    requires trailing ==
      if Abs(flat[|flat| - 1].hi - end) >= 1 then [Range(flat[|flat| - 1].hi + 1, end)] else []
    requires forall g :: g in InnerGaps(flat) ==>
      flat[0].hi < g.lo && g.hi < flat[|flat| - 1].lo
    requires forall x :: flat[0].lo <= x <= flat[|flat| - 1].hi ==>
      (Covered(x, InnerGaps(flat)) <==> !Covered(x, flat))
    ensures forall g :: g in leading + InnerGaps(flat) + trailing ==> start <= g.lo && g.hi <= end
    ensures forall x :: start <= x <= end ==>
      (Covered(x, leading + InnerGaps(flat) + trailing) <==> !Covered(x, flat))
  {
    var inner := InnerGaps(flat);
    var first := flat[0];
    var last := flat[|flat| - 1];
    FlatWithin(flat);
    EndGaps(flat, start, end, leading, trailing);
    CoveredAppend(leading, inner);
    CoveredAppend(leading + inner, trailing);
    forall x | start <= x <= end
      ensures Covered(x, leading + inner + trailing) <==> !Covered(x, flat)
    {
      if x < first.lo || x > last.hi {
        if Covered(x, inner) {
          assert false;
        }
      }
    }
  }

  /** The leading gap covers `start` up to the first range, the trailing gap
      the last range up to `end`. */
  lemma EndGaps(flat: seq<Range>, start: int, end: int, leading: seq<Range>, trailing: seq<Range>)
    requires Flat(flat) && |flat| > 0
    requires start <= flat[0].lo && flat[|flat| - 1].hi <= end
    requires leading == if Abs(flat[0].lo - start) >= 1 then [Range(start, flat[0].lo - 1)] else []
    requires trailing ==
      if Abs(flat[|flat| - 1].hi - end) >= 1 then [Range(flat[|flat| - 1].hi + 1, end)] else []
    ensures forall x :: Covered(x, leading) <==> start <= x < flat[0].lo
    ensures forall x :: Covered(x, trailing) <==> flat[|flat| - 1].hi < x <= end
    ensures forall g :: g in leading ==> start <= g.lo && g.hi <= end
    ensures forall g :: g in trailing ==> start <= g.lo && g.hi <= end
  {
    assert WellFormed(flat[0]) && WellFormed(flat[|flat| - 1]);
    FlatWithin(flat);
    assert flat[0] in flat && In(flat[0].lo, flat[0]);
    assert Covered(flat[0].lo, flat);
    assert flat[|flat| - 1] in flat && In(flat[|flat| - 1].hi, flat[|flat| - 1]);
    assert Covered(flat[|flat| - 1].hi, flat);
    forall x
      ensures Covered(x, leading) <==> start <= x < flat[0].lo
    {
      if start <= x < flat[0].lo {
        assert In(x, leading[0]) && leading[0] in leading;
      }
      if Covered(x, leading) {
        var r :| r in leading && In(x, r);
      }
    }
    forall x
      ensures Covered(x, trailing) <==> flat[|flat| - 1].hi < x <= end
    {
      if flat[|flat| - 1].hi < x <= end {
        assert In(x, trailing[0]) && trailing[0] in trailing;
      }
      if Covered(x, trailing) {
        var r :| r in trailing && In(x, r);
      }
    }
  }

  /** The first gap starts at the least integer of `[start, end]` that the
      list leaves uncovered; there is no gap exactly when it covers all of
      `[start, end]`. */
  lemma NotCoveredFirstGap(flat: seq<Range>, start: int, end: int)
    requires Flat(flat) && |flat| > 0
    requires start <= flat[0].lo && flat[|flat| - 1].hi <= end
    ensures var gaps := NotCovered(flat, start, end);
      |gaps| > 0 ==> start <= gaps[0].lo <= end && !Covered(gaps[0].lo, flat)
    ensures var gaps := NotCovered(flat, start, end);
      |gaps| > 0 ==> forall x :: start <= x < gaps[0].lo ==> Covered(x, flat)
    ensures var gaps := NotCovered(flat, start, end);
      |gaps| == 0 ==> forall x :: start <= x <= end ==> Covered(x, flat)
  {
    var gaps := NotCovered(flat, start, end);
    FirstGap(flat, gaps, start, end);
  }

  /** The first of a flat list of gaps within `[start, end]` that partition
      it with `flat` starts at the least uncovered integer. */
  lemma FirstGap(flat: seq<Range>, gaps: seq<Range>, start: int, end: int)
    requires Flat(gaps) && forall g :: g in gaps ==> start <= g.lo && g.hi <= end
    requires forall x :: start <= x <= end ==> (Covered(x, gaps) <==> !Covered(x, flat))
    ensures |gaps| > 0 ==> start <= gaps[0].lo <= end && !Covered(gaps[0].lo, flat)
    ensures |gaps| > 0 ==> forall x :: start <= x < gaps[0].lo ==> Covered(x, flat)
    ensures |gaps| == 0 ==> forall x :: start <= x <= end ==> Covered(x, flat)
  {
    if |gaps| > 0 {
      var g := gaps[0];
      assert WellFormed(g) && g in gaps && In(g.lo, g);
      assert Covered(g.lo, gaps);
      FlatSortedApart(gaps);
      forall x | start <= x < g.lo
        ensures Covered(x, flat)
      {
        if !Covered(x, flat) {
          assert false;
        }
      }
    }
  }

  /** A flat list whose integers are exactly those of `[start, end]` is the
      single range `(start, end)`. */
  lemma FlatCoveringIsOneRange(f: seq<Range>, start: int, end: int)
    requires Flat(f) && start <= end
    requires forall x :: Covered(x, f) <==> start <= x <= end
    ensures f == [Range(start, end)]
  {
    assert Covered(start, f);
    assert |f| > 0;
    FlatWithin(f);
    var first := f[0];
    var last := f[|f| - 1];
    assert first in f && In(first.lo, first);
    assert Covered(first.lo, f);
    assert last in f && In(last.hi, last);
    assert Covered(last.hi, f);
    assert Covered(end, f);
    assert first.lo == start && last.hi == end;
    if |f| >= 2 {
      FlatSeparated(f);
      var hole := first.hi + 1;
      assert f[1] in f && In(f[1].lo, f[1]);
      assert Covered(f[1].lo, f);
      assert start <= hole <= end;
      assert Covered(hole, f);
      var r :| r in f && In(hole, r);
      var k :| 0 <= k < |f| && f[k] == r;
      if k == 0 {
        assert false;
      } else {
        assert false;
      }
    }
  }

  /** Round trip: a flat list together with its gaps flattens to the single
      range `(start, end)`. */
  lemma NotCoveredRoundTrip(flat: seq<Range>, start: int, end: int)
    requires Flat(flat) && |flat| > 0
    requires start <= flat[0].lo && flat[|flat| - 1].hi <= end
    ensures Flatten(flat + NotCovered(flat, start, end)) == [Range(start, end)]
  {
    var gaps := NotCovered(flat, start, end);
    var u := flat + gaps;
    FlatSeparated(flat);
    forall k | 0 <= k < |u|
      ensures WellFormed(u[k])
    {
      if k >= |flat| {
        assert u[k] == gaps[k - |flat|];
      }
    }
    CoveredAppend(flat, gaps);
    forall x
      ensures Covered(x, u) <==> start <= x <= end
    {
      if Covered(x, flat) {
        var r :| r in flat && In(x, r);
        var k :| 0 <= k < |flat| && flat[k] == r;
      } else if Covered(x, gaps) {
        var r :| r in gaps && In(x, r);
      }
    }
    assert WellFormed(flat[0]);
    FlatCoveringIsOneRange(Flatten(u), start, end);
  }

  // ---------------------------------------------------------------------
  // limit_range
  // ---------------------------------------------------------------------

  /** `limit_range`: the part of `r` inside `[minVal, maxVal]`; `None` stands
      for the empty tuple `()` the source returns when nothing is left. */
  function Limit(r: Range, minVal: int, maxVal: int): (c: Option<Range>)
    requires WellFormed(r)
    ensures c.Some? ==> WellFormed(c.value)
    ensures forall x :: (c.Some? && In(x, c.value)) <==> In(x, r) && minVal <= x <= maxVal
  {
    var left := if r.lo >= minVal then r.lo else minVal;
    var right := if r.hi <= maxVal then r.hi else maxVal;
    if left <= right then Some(Range(left, right)) else None
  }

  // ---------------------------------------------------------------------
  // The doctests
  // ---------------------------------------------------------------------

  lemma IntersectExamples()
    ensures Intersect(Range(1, 3), Range(3, 6))
    ensures Intersect(Range(1, 3), Range(2, 4))
    ensures !Intersect(Range(1, 3), Range(5, 7))
    ensures Intersect(Range(1, 2), Range(3, 4))
    ensures Intersect(Range(3, 4), Range(1, 2))
    ensures Merge(Range(1, 3), Range(2, 4)) == Range(1, 4)
  {
  }

  lemma FlattenExamples()
    ensures Flatten([Range(1, 3), Range(2, 5), Range(7, 9), Range(9, 10)]) ==
      [Range(1, 5), Range(7, 10)]
    ensures Flatten([Range(1, 2), Range(3, 4), Range(5, 6), Range(7, 8)]) == [Range(1, 8)]
    ensures Flatten([Range(1, 2), Range(4, 5), Range(7, 8)]) ==
      [Range(1, 2), Range(4, 5), Range(7, 8)]
  {
    FlattenOverlapping();
    FlattenAdjacent();
    FlattenApart();
  }

  lemma FlattenOverlapping()
    ensures Flatten([Range(1, 3), Range(2, 5), Range(7, 9), Range(9, 10)]) ==
      [Range(1, 5), Range(7, 10)]
  {
    MergeRunOverlapping();
    FlattenOfSorted([Range(1, 3), Range(2, 5), Range(7, 9), Range(9, 10)]);
  }

  lemma FlattenAdjacent()
    ensures Flatten([Range(1, 2), Range(3, 4), Range(5, 6), Range(7, 8)]) == [Range(1, 8)]
  {
    MergeRunAdjacent();
    FlattenOfSorted([Range(1, 2), Range(3, 4), Range(5, 6), Range(7, 8)]);
  }

  lemma FlattenApart()
    ensures Flatten([Range(1, 2), Range(4, 5), Range(7, 8)]) ==
      [Range(1, 2), Range(4, 5), Range(7, 8)]
  {
    MergeRunApart();
    FlattenOfSorted([Range(1, 2), Range(4, 5), Range(7, 8)]);
  }

  /** The doctests' inputs are already in order, so only the fold is left to compute. */
  lemma MergeRunOverlapping()
    ensures MergeRun([Range(1, 3)], [Range(1, 3), Range(2, 5), Range(7, 9), Range(9, 10)]) ==
      [Range(1, 5), Range(7, 10)]
  {
  }

  lemma MergeRunAdjacent()
    ensures MergeRun([Range(1, 2)], [Range(1, 2), Range(3, 4), Range(5, 6), Range(7, 8)]) ==
      [Range(1, 8)]
  {
  }

  lemma MergeRunApart()
    ensures MergeRun([Range(1, 2)], [Range(1, 2), Range(4, 5), Range(7, 8)]) ==
      [Range(1, 2), Range(4, 5), Range(7, 8)]
  {
  }

  /** On input that is already in order, flattening is the merging fold alone. */
  lemma FlattenOfSorted(rs: seq<Range>)
    requires |rs| > 0 && Sorting.SortedBy(rs, RangeLe)
    ensures Flatten(rs) == MergeRun([rs[0]], rs)
  {
    RangeLeTotalOrder();
    Sorting.SortByOfSorted(rs, RangeLe);
  }

  lemma LimitExamples()
    ensures Limit(Range(1, 3), 0, 4) == Some(Range(1, 3))
    ensures Limit(Range(1, 3), 1, 3) == Some(Range(1, 3))
    ensures Limit(Range(1, 3), 2, 2) == Some(Range(2, 2))
    ensures Limit(Range(2, 2), 2, 2) == Some(Range(2, 2))
    ensures Limit(Range(1, 3), 4, 5) == None
  {
  }

  lemma NotCoveredExamples()
    ensures NotCovered([Range(0, 10)], 0, 10) == []
    ensures NotCovered([Range(2, 8)], 0, 10) == [Range(0, 1), Range(9, 10)]
    ensures NotCovered([Range(1, 5), Range(7, 9)], 0, 10) ==
      [Range(0, 0), Range(6, 6), Range(10, 10)]
    ensures NotCovered([Range(1, 1)], 0, 10) == [Range(0, 0), Range(2, 10)]
  {
    assert InnerGaps([Range(1, 5), Range(7, 9)]) == [Range(6, 6)];
  }
}

=== FILE: rock_paper_scissors.dfy ===
/** Day 2 (day_02/part_1.py, day_02/part_2.py): rounds of rock, paper,
    scissors. A round scores the value of your shape plus 0, 3 or 6 for a
    loss, a draw or a win. The first part reads your shape from the second
    letter; the second reads the result you need and picks the shape that
    gets it. A letter missing from a table is a key error, modelled as
    `None`. */
module RockPaperScissors {
  import opened Outcomes

  datatype Item = Rock | Paper | Scissors

  const YouWin: nat := 6
  const YouLose: nat := 0
  const Draw: nat := 3

  /** A round as read from a line: the opponent's letter and yours. */
  datatype Play = Play(opponent: char, yours: char)

  /** The letter table of the first part, used for both players. */
  function ItemOfLetter(c: char): (i: Option<Item>)
    ensures i.Some? <==> c in "ABCXYZ"
  {
    match c
    case 'A' => Some(Rock)
    case 'B' => Some(Paper)
    case 'C' => Some(Scissors)
    case 'X' => Some(Rock)
    case 'Y' => Some(Paper)
    case 'Z' => Some(Scissors)
    case _ => None
  }

  /** The letter table of the second part: opponents only. */
  function OpponentItemOfLetter(c: char): (i: Option<Item>)
    ensures i.Some? <==> c in "ABC"
    ensures i.Some? ==> i == ItemOfLetter(c)
  {
    match c
    case 'A' => Some(Rock)
    case 'B' => Some(Paper)
    case 'C' => Some(Scissors)
    case _ => None
  }

  function Shape(i: Item): (v: nat)
    ensures 1 <= v <= 3
  {
    match i
    case Rock => 1
    case Paper => 2
    case Scissors => 3
  }

  /** The shape values tell the shapes apart. */
  lemma ShapeInjective(a: Item, b: Item)
    requires Shape(a) == Shape(b)
    ensures a == b
  {
  }

  /** `get_result`: a draw on equal shapes, a loss on the three losing
      pairs, a win otherwise. */
  function Result(opponent: Item, yours: Item): (r: nat)
    ensures r == Draw || r == YouLose || r == YouWin
    ensures r == Draw <==> opponent == yours
  {
    if opponent == yours then Draw
    else if (opponent == Rock && yours == Scissors)
         || (opponent == Scissors && yours == Paper)
         || (opponent == Paper && yours == Rock) then YouLose
    else YouWin
  }

  // ---------------------------------------------------------------------
  // The game table of the second part
  // ---------------------------------------------------------------------

  /** `GAME_LOGIC[x]['beats']`. */
  function Beats(x: Item): Item
  {
    match x
    case Rock => Scissors
    case Paper => Rock
    case Scissors => Paper
  }

  /** `GAME_LOGIC[x]['defeated_by']`. */
  function DefeatedBy(x: Item): Item
  {
    match x
    case Rock => Paper
    case Paper => Scissors
    case Scissors => Rock
  }

  /** The two entries of each item are the two other items, and they undo
      each other. */
  lemma GameLogicConsistent(x: Item)
    ensures Beats(x) != x && DefeatedBy(x) != x && Beats(x) != DefeatedBy(x)
    ensures Beats(DefeatedBy(x)) == x && DefeatedBy(Beats(x)) == x
  {
  }

  /** The first part's result agrees with the second part's table: you lose
      exactly when the opponent's item beats yours, and win exactly when
      it is defeated by yours. */
  lemma ResultAgreesWithGameLogic(opponent: Item, yours: Item)
    ensures Result(opponent, yours) == YouLose <==> yours == Beats(opponent)
    ensures Result(opponent, yours) == YouWin <==> yours == DefeatedBy(opponent)
  {
  }

  /** Swapping the players turns a win into a loss. */
  lemma ResultAntisymmetric(a: Item, b: Item)
    ensures Result(a, b) == YouWin <==> Result(b, a) == YouLose
  {
  }

  /** The result letters of the second part. */
  function ResultOfLetter(c: char): (r: Option<nat>)
    ensures r.Some? <==> c in "XYZ"
    ensures r.Some? ==> r.value in {YouLose, Draw, YouWin}
  {
    match c
    case 'X' => Some(YouLose)
    case 'Y' => Some(Draw)
    case 'Z' => Some(YouWin)
    case _ => None
  }

  /** `get_your_item`: what to play to get the result; anything that is
      neither a draw nor a win is taken as a loss. */
  function YourItem(opponent: Item, result: nat): (yours: Item)
    ensures result in {YouLose, Draw, YouWin} ==> Result(opponent, yours) == result
  {
    if result == Draw then opponent
    else if result == YouWin then DefeatedBy(opponent)
    else Beats(opponent)
  }

  /** The item that gets a result is the only one that does. */
  lemma YourItemUnique(opponent: Item, result: nat, yours: Item)
    requires Result(opponent, yours) == result
    ensures yours == YourItem(opponent, result)
  {
  }

  // ---------------------------------------------------------------------
  // Scores
  // ---------------------------------------------------------------------

  /** One round of the first part. */
  function RoundScore(p: Play): (s: Option<nat>)
    ensures s.Some? <==> ItemOfLetter(p.opponent).Some? && ItemOfLetter(p.yours).Some?
    ensures s.Some? ==> 1 <= s.value <= 9
    ensures s.Some? ==> s.value - Shape(ItemOfLetter(p.yours).value) == Result(ItemOfLetter(p.opponent).value, ItemOfLetter(p.yours).value)
  {
    match (ItemOfLetter(p.opponent), ItemOfLetter(p.yours))
    case (Some(o), Some(y)) => Some(Result(o, y) + Shape(y))
    case _ => None
  }

  /** Playing `yours` against `opponent` gets `result` and scores `score`. */
  predicate ScoresWith(opponent: Item, yours: Item, result: nat, score: nat)
  {
    Result(opponent, yours) == result && score == result + Shape(yours)
  }

  /** One round of the second part: the score has the requested result. */
  function RoundScore2(p: Play): (s: Option<nat>)
    ensures s.Some? <==> OpponentItemOfLetter(p.opponent).Some? && ResultOfLetter(p.yours).Some?
    ensures s.Some? ==> 1 <= s.value <= 9
    ensures s.Some? ==> exists y :: ScoresWith(OpponentItemOfLetter(p.opponent).value, y, ResultOfLetter(p.yours).value, s.value)
  {
    match (OpponentItemOfLetter(p.opponent), ResultOfLetter(p.yours))
    case (Some(o), Some(r)) =>
      var y := YourItem(o, r);
      assert ScoresWith(o, y, r, r + Shape(y));
      Some(r + Shape(y))
    case _ => None
  }

  /** Which part's rules score a round. */
  datatype Part = First | Second

  /** The score of one round under a part's rules, or a key error when a
      letter is not one that part's table knows. */
  function Round(part: Part, p: Play): (s: Option<nat>)
    ensures s.Some? <==> (p.opponent in (if part == First then "ABCXYZ" else "ABC")
                          && p.yours in (if part == First then "ABCXYZ" else "XYZ"))
    ensures s.Some? ==> 1 <= s.value <= 9
  {
    match part
    case First => RoundScore(p)
    case Second => RoundScore2(p)
  }

  /** `get_total_score` of either part: the sum of the round scores, or a
      key error if any round has an unknown letter. */
  function TotalScore(part: Part, plays: seq<Play>): (t: Option<nat>)
    ensures t.Some? <==> forall k :: 0 <= k < |plays| ==> Round(part, plays[k]).Some?
    ensures t.Some? ==> |plays| <= t.value <= 9 * |plays|
  {
    if |plays| == 0 then Some(0)
    else
      var rest := TotalScore(part, plays[..|plays| - 1]);
      var last := Round(part, plays[|plays| - 1]);
      assert forall k :: 0 <= k < |plays| - 1 ==> plays[..|plays| - 1][k] == plays[k];
      Snoc(rest, last)
  }

  /** The total of a strategy guide split in two is the sum of the two
      totals, and a key error in either half is one for the whole. */
  lemma {:induction false} TotalScoreConcat(part: Part, a: seq<Play>, b: seq<Play>)
    ensures TotalScore(part, a + b) == Snoc(TotalScore(part, a), TotalScore(part, b))
  {
    if |b| == 0 {
      assert a + b == a;
    } else {
      var init, last := b[..|b| - 1], b[|b| - 1];
      TotalScoreConcat(part, a, init);
      SplitLast(a, b);
      TotalScoreAppend(part, a + init, last);
      TotalScoreAppend(part, init, last);
      SnocAssociates(TotalScore(part, a), TotalScore(part, init), Round(part, last));
    }
  }

  lemma SplitLast(a: seq<Play>, b: seq<Play>)
    requires |b| > 0
    ensures a + b == (a + b[..|b| - 1]) + [b[|b| - 1]]
    ensures b == b[..|b| - 1] + [b[|b| - 1]]
  {
  }

  /** One more round adds its score to the total. */
  lemma TotalScoreAppend(part: Part, plays: seq<Play>, p: Play)
    ensures TotalScore(part, plays + [p]) == Snoc(TotalScore(part, plays), Round(part, p))
  {
    assert (plays + [p])[..|plays|] == plays;
  }

  /** The total after one more round: a key error stays one. */
  function Snoc(total: Option<nat>, round: Option<nat>): Option<nat>
  {
    if total.Some? && round.Some? then Some(total.value + round.value) else None
  }

  lemma SnocAssociates(x: Option<nat>, y: Option<nat>, r: Option<nat>)
    ensures Snoc(Snoc(x, y), r) == Snoc(x, Snoc(y, r))
  {
  }

  /** A guide of one round scores that round. */
  lemma TotalScoreSingle(part: Part, p: Play)
    ensures TotalScore(part, [p]) == Round(part, p)
  {
    assert [p][..0] == [];
  }

  /** The example of the puzzle statement under the first part's rules:
      paper against rock, rock against paper, scissors against scissors. */
  lemma ExampleFirst()
    ensures TotalScore(First, [Play('A', 'Y'), Play('B', 'X'), Play('C', 'Z')]) == Some(15)
  {
    var plays := [Play('A', 'Y'), Play('B', 'X'), Play('C', 'Z')];
    assert plays[..2][..1] == [Play('A', 'Y')];
    assert plays[..2] == [Play('A', 'Y'), Play('B', 'X')];
  }

  /** The same lines under the second part's rules: a draw, a loss and a
      win. */
  lemma ExampleSecond()
    ensures TotalScore(Second, [Play('A', 'Y'), Play('B', 'X'), Play('C', 'Z')]) == Some(12)
  {
    var plays := [Play('A', 'Y'), Play('B', 'X'), Play('C', 'Z')];
    assert plays[..2][..1] == [Play('A', 'Y')];
    assert plays[..2] == [Play('A', 'Y'), Play('B', 'X')];
  }
}

=== FILE: rope.dfy ===
/** Day 9 (day_09/part_1.py, day_09/part_2.py): a rope whose head moves one
    cell at a time and whose other knots follow it; the answers count the
    cells the tail visits. Positions are pairs whose first coordinate is
    changed by `U`/`D` and whose second by `L`/`R`. */
module Rope {
  import opened Ranges

  datatype Pos = Pos(a: int, b: int)

  datatype Direction = L | R | U | D

  /** One instruction line: a direction and a number of unit steps. */
  datatype Instruction = Instruction(dir: Direction, steps: nat)

  function Unit(d: Direction): (u: Pos)
    ensures Abs(u.a) + Abs(u.b) == 1
  {
    match d
    case L => Pos(0, -1)
    case R => Pos(0, 1)
    case U => Pos(1, 0)
    case D => Pos(-1, 0)
  }

  function Add(p: Pos, q: Pos): Pos
  {
    Pos(p.a + q.a, p.b + q.b)
  }

  function Sub(p: Pos, q: Pos): Pos
  {
    Pos(p.a - q.a, p.b - q.b)
  }

  /** The larger of the two coordinate distances. */
  function Chebyshev(p: Pos, q: Pos): nat
  {
    Max(Abs(p.a - q.a), Abs(p.b - q.b))
  }

  /** The unit steps of the instructions, in order. */
  function Steps(instructions: seq<Instruction>): (steps: seq<Direction>)
  {
    if |instructions| == 0 then []
    else
      var last := instructions[|instructions| - 1];
      Steps(instructions[..|instructions| - 1]) + seq(last.steps, _ => last.dir)
  }

  lemma {:induction false} StepsLength(instructions: seq<Instruction>)
    ensures |Steps(instructions)| == SumSteps(instructions)
  {
    if |instructions| > 0 {
      StepsLength(instructions[..|instructions| - 1]);
    }
  }

  function SumSteps(instructions: seq<Instruction>): nat
  {
    if |instructions| == 0 then 0
    else SumSteps(instructions[..|instructions| - 1]) + instructions[|instructions| - 1].steps
  }

  // ---------------------------------------------------------------------
  // First part: a head and a tail
  // ---------------------------------------------------------------------

  /** `move_head`. */
  function MoveHead(head: Pos, d: Direction): (h: Pos)
    ensures h == Add(head, Unit(d))
  {
    match d
    case L => Pos(head.a, head.b - 1)
    case R => Pos(head.a, head.b + 1)
    case U => Pos(head.a + 1, head.b)
    case D => Pos(head.a - 1, head.b)
  }

  /** `drag_tail`: the cell behind the head, against the direction. */
  function DragTail(head: Pos, d: Direction): (t: Pos)
    ensures Add(t, Unit(d)) == head
  {
    match d
    case L => Pos(head.a, head.b + 1)
    case R => Pos(head.a, head.b - 1)
    case U => Pos(head.a - 1, head.b)
    case D => Pos(head.a + 1, head.b)
  }

  /** `are_distant`. */
  predicate AreDistant(head: Pos, tail: Pos)
  {
    Abs(head.a - tail.a) >= 2 || Abs(head.b - tail.b) >= 2
  }

  lemma AreDistantIffFar(head: Pos, tail: Pos)
    ensures AreDistant(head, tail) <==> Chebyshev(head, tail) >= 2
  {
  }

  /** The tail is dragged onto the cell the head has just left. */
  lemma DragTailIsPreviousHead(head: Pos, d: Direction)
    ensures DragTail(MoveHead(head, d), d) == head
  {
  }

  datatype Knots2 = Knots2(head: Pos, tail: Pos)

  /** One unit step of `get_num_positions_visited`. */
  function Step2(k: Knots2, d: Direction): (r: Knots2)
    ensures r.head == MoveHead(k.head, d)
  {
    var head := MoveHead(k.head, d);
    if AreDistant(head, k.tail) then Knots2(head, DragTail(head, d)) else Knots2(head, k.tail)
  }

  /** After every step the tail touches the head, when it did before. */
  lemma Step2KeepsTouching(k: Knots2, d: Direction)
    requires !AreDistant(k.head, k.tail)
    ensures !AreDistant(Step2(k, d).head, Step2(k, d).tail)
    ensures Chebyshev(Step2(k, d).tail, k.tail) <= 1
  {
    DragTailIsPreviousHead(k.head, d);
  }

  /** The states after each prefix of the steps, the start included. */
  function Trace2(steps: seq<Direction>): (ks: seq<Knots2>)
    ensures |ks| == |steps| + 1 && ks[0] == Knots2(Pos(0, 0), Pos(0, 0))
  {
    if |steps| == 0 then [Knots2(Pos(0, 0), Pos(0, 0))]
    else
      var before := Trace2(steps[..|steps| - 1]);
      before + [Step2(before[|before| - 1], steps[|steps| - 1])]
  }

  /** In every state of the run the tail touches the head. */
  lemma {:induction false} Trace2Touching(steps: seq<Direction>)
    ensures forall i :: 0 <= i < |Trace2(steps)| ==> !AreDistant(Trace2(steps)[i].head, Trace2(steps)[i].tail)
  {
    if |steps| > 0 {
      var before := Trace2(steps[..|steps| - 1]);
      Trace2Touching(steps[..|steps| - 1]);
      Step2KeepsTouching(before[|before| - 1], steps[|steps| - 1]);
    }
  }

  function TailsOf(ks: seq<Knots2>): set<Pos>
  {
    set i | 0 <= i < |ks| :: ks[i].tail
  }

  /** One more step adds one state, and its tail to the visited cells. */
  lemma Trace2Next(steps: seq<Direction>, i: nat)
    requires i < |steps|
    ensures var before := Trace2(steps[..i]);
      var next := Step2(before[i], steps[i]);
      Trace2(steps[..i + 1]) == before + [next] &&
      TailsOf(Trace2(steps[..i + 1])) == TailsOf(before) + {next.tail} &&
      Trace2(steps[..i + 1])[i + 1] == next
  {
    assert steps[..i + 1][..i] == steps[..i];
    var before := Trace2(steps[..i]);
    var next := Step2(before[i], steps[i]);
    assert forall j :: 0 <= j < |before| ==> (before + [next])[j] == before[j];
    assert (before + [next])[|before|] == next;
  }

  /** `get_num_positions_visited`: the loop over the steps, recording the
      tail whenever it is dragged. */
  method NumPositionsVisited(instructions: seq<Instruction>) returns (count: nat)
    ensures count == |TailsOf(Trace2(Steps(instructions)))|
    ensures count >= 1
  {
    var steps := Steps(instructions);
    var k := Knots2(Pos(0, 0), Pos(0, 0));
    var positions := {k.tail};
    var i := 0;
    while i < |steps|
      invariant 0 <= i <= |steps|
      invariant k == Trace2(steps[..i])[i]
      invariant positions == TailsOf(Trace2(steps[..i]))
    {
      k, positions := VisitStep(steps, i, k, positions);
      i := i + 1;
    }
    assert steps[..|steps|] == steps;
    StartVisited(steps);
    count := |positions|;
  }

  /** One turn of the loop of `get_num_positions_visited`. */
  method VisitStep(steps: seq<Direction>, i: nat, k: Knots2, positions: set<Pos>) returns (k': Knots2, positions': set<Pos>)
    requires i < |steps| && k == Trace2(steps[..i])[i] && positions == TailsOf(Trace2(steps[..i]))
    ensures k' == Trace2(steps[..i + 1])[i + 1] && positions' == TailsOf(Trace2(steps[..i + 1]))
  {
    k' := Step2(k, steps[i]);
    Trace2Next(steps, i);
    positions' := positions;
    if k'.tail != k.tail {
      positions' := positions + {k'.tail};
    }
  }

  /** The start cell is always visited. */
  lemma StartVisited(steps: seq<Direction>)
    ensures Pos(0, 0) in TailsOf(Trace2(steps))
  {
    assert Trace2(steps)[0].tail == Pos(0, 0);
  }

  // ---------------------------------------------------------------------
  // Second part as written
  // ---------------------------------------------------------------------

  const NumKnots: nat := 10

  function Start(): (knots: seq<Pos>)
    ensures |knots| == NumKnots && forall i :: 0 <= i < |knots| ==> knots[i] == Pos(0, 0)
  {
    seq(NumKnots, _ => Pos(0, 0))
  }

  /** `_are_adjacent`. */
  predicate Adjacent(p: Pos, q: Pos)
  {
    Abs(p.a - q.a) <= 1 && Abs(p.b - q.b) <= 1
  }

  lemma AdjacentFacts(p: Pos, q: Pos)
    ensures Adjacent(p, q) == Adjacent(q, p)
    ensures Adjacent(p, q) <==> Chebyshev(p, q) <= 1
    ensures Adjacent(p, q) <==> !AreDistant(p, q)
  {
  }

  /** The new position of knot `i` in `stretch`: next to its successor the
      knot is shifted by `_compute_vector_from_direction`, which returns a
      position rather than a unit vector, so the knot lands at twice its
      position plus the step; away from it the knot jumps onto its
      successor. */
  function NewPosAsWritten(knots: seq<Pos>, i: nat, d: Direction): (p: Pos)
    requires i + 1 < |knots|
    ensures Adjacent(knots[i], knots[i + 1]) ==> p == Add(Add(knots[i], knots[i]), Unit(d))
    ensures !Adjacent(knots[i], knots[i + 1]) ==> p == knots[i + 1]
  {
    var vector := if Adjacent(knots[i], knots[i + 1]) then MoveHead(knots[i], d) else Sub(knots[i + 1], knots[i]);
    Add(knots[i], vector)
  }

  /** `stretch` from knot `i` on: write knot `i` and stop once it is next to
      its successor. */
  function StretchFrom(knots: seq<Pos>, i: nat, d: Direction): (r: seq<Pos>)
    requires i < |knots|
    ensures |r| == |knots|
    ensures forall j :: 0 <= j < i ==> r[j] == knots[j]
    ensures r[|knots| - 1] == knots[|knots| - 1]
    decreases |knots| - i
  {
    if i + 1 >= |knots| then knots
    else
      var next := knots[i := NewPosAsWritten(knots, i, d)];
      if Adjacent(next[i], next[i + 1]) then next else StretchFrom(next, i + 1, d)
  }

  function StretchAsWritten(knots: seq<Pos>, d: Direction): (r: seq<Pos>)
    requires |knots| > 0
    ensures |r| == |knots| && r[|knots| - 1] == knots[|knots| - 1]
  {
    StretchFrom(knots, 0, d)
  }

  function TraceAsWritten(steps: seq<Direction>): (ks: seq<seq<Pos>>)
    ensures |ks| == |steps| + 1 && ks[0] == Start()
    ensures forall i :: 0 <= i < |ks| ==> |ks[i]| == NumKnots
  {
    if |steps| == 0 then [Start()]
    else
      var before := TraceAsWritten(steps[..|steps| - 1]);
      before + [StretchAsWritten(before[|before| - 1], steps[|steps| - 1])]
  }

  /** The tail is the last knot, and `stretch` never writes it. */
  lemma {:induction false} TailNeverMoves(steps: seq<Direction>)
    ensures forall i :: 0 <= i < |TraceAsWritten(steps)| ==> TraceAsWritten(steps)[i][NumKnots - 1] == Pos(0, 0)
  {
    if |steps| > 0 {
      TailNeverMoves(steps[..|steps| - 1]);
    }
  }

  /** `get_num_different_positions_tail` as written: the tail positions
      after each step. */
  function TailCountAsWritten(instructions: seq<Instruction>): nat
  {
    var ks := TraceAsWritten(Steps(instructions));
    |set i | 1 <= i < |ks| :: ks[i][NumKnots - 1]|
  }

  /** As written, the answer is 1 for any non-empty list of steps. */
  lemma TailCountAsWrittenIsOne(instructions: seq<Instruction>)
    ensures TailCountAsWritten(instructions) == (if |Steps(instructions)| == 0 then 0 else 1)
  {
    var ks := TraceAsWritten(Steps(instructions));
    TailNeverMoves(Steps(instructions));
    var tails := set i | 1 <= i < |ks| :: ks[i][NumKnots - 1];
    if |ks| > 1 {
      assert ks[1][NumKnots - 1] in tails;
      assert tails == {Pos(0, 0)};
    } else {
      assert tails == {};
    }
  }

  /** Two steps right pull the first two knots apart: the rope as written
      does not stay connected. */
  lemma RopeBreaksAsWritten()
    ensures var k := TraceAsWritten([R, R])[2];
      k[0] == Pos(0, 3) && k[1] == Pos(0, 1) && !Adjacent(k[0], k[1])
  {
    TwoStepsRight();
    FirstStretchAsWritten();
    SecondStretchAsWritten(Start()[0 := Pos(0, 1)]);
  }

  lemma TwoStepsRight()
    ensures TraceAsWritten([R])[1] == StretchAsWritten(Start(), R)
    ensures TraceAsWritten([R, R])[2] == StretchAsWritten(TraceAsWritten([R])[1], R)
  {
    assert [R, R][..1] == [R];
    assert [R][..0] == [];
  }

  lemma FirstStretchAsWritten()
    ensures StretchAsWritten(Start(), R) == Start()[0 := Pos(0, 1)]
  {
    var s0 := Start();
    assert NewPosAsWritten(s0, 0, R) == Pos(0, 1);
    assert Adjacent(Pos(0, 1), s0[1]);
  }

  lemma SecondStretchAsWritten(s1: seq<Pos>)
    requires |s1| == NumKnots && s1[0] == Pos(0, 1) && s1[1] == Pos(0, 0) && s1[2] == Pos(0, 0)
    ensures var r := StretchAsWritten(s1, R); r[0] == Pos(0, 3) && r[1] == Pos(0, 1)
  {
    assert Adjacent(s1[0], s1[1]);
    assert MoveHead(s1[0], R) == Pos(0, 2);
    assert NewPosAsWritten(s1, 0, R) == Pos(0, 3);
    var s2 := s1[0 := Pos(0, 3)];
    assert !Adjacent(s2[0], s2[1]);
    assert StretchAsWritten(s1, R) == StretchFrom(s2, 1, R);
    StretchSecondKnotAsWritten(s2);
  }

  lemma StretchSecondKnotAsWritten(s2: seq<Pos>)
    requires |s2| == NumKnots && s2[0] == Pos(0, 3) && s2[1] == Pos(0, 0) && s2[2] == Pos(0, 0)
    ensures var r := StretchFrom(s2, 1, R); r[0] == Pos(0, 3) && r[1] == Pos(0, 1)
  {
    assert NewPosAsWritten(s2, 1, R) == Pos(0, 1);
    var s3 := s2[1 := Pos(0, 1)];
    assert Adjacent(s3[1], s3[2]);
  }

  // ---------------------------------------------------------------------
  // Second part, knots that follow
  // ---------------------------------------------------------------------

  function Sign(x: int): int
  {
    if x > 0 then 1 else if x < 0 then -1 else 0
  }

  /** A knot that no longer touches the knot ahead of it steps towards it,
      diagonally when they share neither row nor column. */
  function Follow(ahead: Pos, knot: Pos): Pos
  {
    if Adjacent(ahead, knot) then knot
    else Pos(knot.a + Sign(ahead.a - knot.a), knot.b + Sign(ahead.b - knot.b))
  }

  /** A knot that touched the knot ahead before that one moved at most one
      cell touches it again after following, having moved at most one cell. */
  lemma FollowTouches(ahead: Pos, ahead': Pos, knot: Pos)
    requires Adjacent(ahead, knot) && Chebyshev(ahead', ahead) <= 1
    ensures Adjacent(ahead', Follow(ahead', knot))
    ensures Chebyshev(Follow(ahead', knot), knot) <= 1
  {
  }

  /** With one knot behind the head, following is the first part's drag. */
  lemma FollowIsDrag(k: Knots2, d: Direction)
    requires !AreDistant(k.head, k.tail)
    ensures Follow(MoveHead(k.head, d), k.tail) == Step2(k, d).tail
  {
    DragTailIsPreviousHead(k.head, d);
  }

  /** Every knot after the first follows the one ahead of it. */
  function FollowChain(ahead: Pos, rest: seq<Pos>): (r: seq<Pos>)
    ensures |r| == |rest|
    decreases |rest|
  {
    if |rest| == 0 then []
    else
      var k := Follow(ahead, rest[0]);
      [k] + FollowChain(k, rest[1..])
  }

  /** The head steps; the others follow in order. */
  function Stretch(knots: seq<Pos>, d: Direction): (r: seq<Pos>)
    requires |knots| > 0
    ensures |r| == |knots| && r[0] == Add(knots[0], Unit(d))
  {
    var head := MoveHead(knots[0], d);
    [head] + FollowChain(head, knots[1..])
  }

  /** Consecutive knots touch. */
  predicate Taut(knots: seq<Pos>)
  {
    forall i :: 0 < i < |knots| ==> Adjacent(knots[i - 1], knots[i])
  }

  lemma {:induction false} FollowChainTaut(ahead: Pos, ahead': Pos, rest: seq<Pos>)
    requires Taut([ahead] + rest) && Chebyshev(ahead', ahead) <= 1
    ensures Taut([ahead'] + FollowChain(ahead', rest))
    decreases |rest|
  {
    if |rest| > 0 {
      var k := Follow(ahead', rest[0]);
      assert Adjacent(([ahead] + rest)[0], ([ahead] + rest)[1]);
      FollowTouches(ahead, ahead', rest[0]);
      assert Taut([rest[0]] + rest[1..]) by {
        assert [rest[0]] + rest[1..] == rest;
        forall i | 0 < i < |rest|
          ensures Adjacent(rest[i - 1], rest[i])
        {
          assert ([ahead] + rest)[i] == rest[i - 1] && ([ahead] + rest)[i + 1] == rest[i];
        }
      }
      FollowChainTaut(rest[0], k, rest[1..]);
      var tail := FollowChain(k, rest[1..]);
      assert FollowChain(ahead', rest) == [k] + tail;
      forall i | 0 < i < |rest| + 1
        ensures Adjacent(([ahead'] + ([k] + tail))[i - 1], ([ahead'] + ([k] + tail))[i])
      {
        if i > 1 {
          assert ([ahead'] + ([k] + tail))[i - 1] == ([k] + tail)[i - 2];
          assert ([ahead'] + ([k] + tail))[i] == ([k] + tail)[i - 1];
        }
      }
    }
  }

  /** A taut rope stays taut after a step of its head. */
  lemma StretchTaut(knots: seq<Pos>, d: Direction)
    requires |knots| > 0 && Taut(knots)
    ensures Taut(Stretch(knots, d))
  {
    assert knots == [knots[0]] + knots[1..];
    FollowChainTaut(knots[0], MoveHead(knots[0], d), knots[1..]);
  }

  function Trace(steps: seq<Direction>): (ks: seq<seq<Pos>>)
    ensures |ks| == |steps| + 1 && ks[0] == Start()
    ensures forall i :: 0 <= i < |ks| ==> |ks[i]| == NumKnots
  {
    if |steps| == 0 then [Start()]
    else
      var before := Trace(steps[..|steps| - 1]);
      before + [Stretch(before[|before| - 1], steps[|steps| - 1])]
  }

  /** Every state of the run is a taut rope of ten knots. */
  lemma {:induction false} TraceTaut(steps: seq<Direction>)
    ensures forall i :: 0 <= i < |Trace(steps)| ==> Taut(Trace(steps)[i])
  {
    if |steps| > 0 {
      var before := Trace(steps[..|steps| - 1]);
      TraceTaut(steps[..|steps| - 1]);
      StretchTaut(before[|before| - 1], steps[|steps| - 1]);
    }
  }

  /** The number of cells the tail of the following rope occupies after
      each step: at least one once there is a step, and no more than there
      are steps. */
  function TailCount(instructions: seq<Instruction>): (n: nat)
    ensures |Steps(instructions)| == 0 ==> n == 0
    ensures |Steps(instructions)| > 0 ==> 1 <= n <= |Steps(instructions)|
  {
    var ks := Trace(Steps(instructions));
    var tails := set i | 1 <= i < |ks| :: ks[i][NumKnots - 1];
    TailsBound(ks);
    if |ks| > 1 then assert ks[1][NumKnots - 1] in tails; |tails| else |tails|
  }

  /** The cells the tail occupies after the steps are no more than the steps. */
  lemma TailsBound(ks: seq<seq<Pos>>)
    requires |ks| > 0
    requires forall i :: 0 <= i < |ks| ==> |ks[i]| == NumKnots
    ensures |set i | 1 <= i < |ks| :: ks[i][NumKnots - 1]| <= |ks| - 1
  {
    var visited := set i | 1 <= i < |ks| :: ks[i][NumKnots - 1];
    if |ks| > 1 {
      var tails := seq(|ks| - 1, j requires 0 <= j < |ks| - 1 => ks[j + 1][NumKnots - 1]);
      assert visited == (set x | x in tails) by {
        forall x | x in tails
          ensures x in visited
        {
          var j :| 0 <= j < |tails| && tails[j] == x;
          assert ks[j + 1][NumKnots - 1] == x;
        }
        forall i | 1 <= i < |ks|
          ensures ks[i][NumKnots - 1] in tails
        {
          assert tails[i - 1] == ks[i][NumKnots - 1];
        }
      }
      CardOfElements(tails);
    } else {
      assert visited == {};
    }
  }

  /** A sequence has no more distinct elements than it is long. */
  lemma {:induction false} CardOfElements(xs: seq<Pos>)
    ensures |set x | x in xs| <= |xs|
  {
    if |xs| > 0 {
      var init := xs[..|xs| - 1];
      CardOfElements(init);
      assert (set x | x in xs) == (set x | x in init) + {xs[|xs| - 1]} by {
        assert xs == init + [xs[|xs| - 1]];
      }
    }
  }

  /** The tail moves at most one cell per step. */
  lemma {:induction false} TailStepsAtMostOne(steps: seq<Direction>)
    ensures forall i :: 1 <= i < |Trace(steps)| ==>
      Chebyshev(Trace(steps)[i][NumKnots - 1], Trace(steps)[i - 1][NumKnots - 1]) <= 1
  {
    if |steps| > 0 {
      var before := Trace(steps[..|steps| - 1]);
      TailStepsAtMostOne(steps[..|steps| - 1]);
      TraceTaut(steps[..|steps| - 1]);
      var last := before[|before| - 1];
      assert last == [last[0]] + last[1..];
      ChainMovesAtMostOne(last[0], MoveHead(last[0], steps[|steps| - 1]), last[1..]);
    }
  }

  /** Each following knot moves at most one cell. */
  lemma {:induction false} ChainMovesAtMostOne(ahead: Pos, ahead': Pos, rest: seq<Pos>)
    requires Taut([ahead] + rest) && Chebyshev(ahead', ahead) <= 1
    ensures forall i :: 0 <= i < |rest| ==> Chebyshev(FollowChain(ahead', rest)[i], rest[i]) <= 1
    decreases |rest|
  {
    if |rest| > 0 {
      var k := Follow(ahead', rest[0]);
      assert Adjacent(([ahead] + rest)[0], ([ahead] + rest)[1]);
      FollowTouches(ahead, ahead', rest[0]);
      assert Taut([rest[0]] + rest[1..]) by {
        assert [rest[0]] + rest[1..] == rest;
        forall i | 0 < i < |rest|
          ensures Adjacent(rest[i - 1], rest[i])
        {
          assert ([ahead] + rest)[i] == rest[i - 1] && ([ahead] + rest)[i + 1] == rest[i];
        }
      }
      ChainMovesAtMostOne(rest[0], k, rest[1..]);
    }
  }

  /** The knots of a still rope stay where they are when the one ahead of
      them has not moved away. */
  lemma {:induction false} FollowChainStill(ahead: Pos, rest: seq<Pos>)
    requires Taut([ahead] + rest)
    ensures FollowChain(ahead, rest) == rest
    decreases |rest|
  {
    if |rest| > 0 {
      assert Adjacent(([ahead] + rest)[0], ([ahead] + rest)[1]);
      assert Taut([rest[0]] + rest[1..]) by {
        assert [rest[0]] + rest[1..] == rest;
        forall i | 0 < i < |rest|
          ensures Adjacent(rest[i - 1], rest[i])
        {
          assert ([ahead] + rest)[i] == rest[i - 1] && ([ahead] + rest)[i + 1] == rest[i];
        }
      }
      FollowChainStill(rest[0], rest[1..]);
      assert [rest[0]] + rest[1..] == rest;
    }
  }

  lemma ChebyshevTriangle(p: Pos, q: Pos, r: Pos)
    ensures Chebyshev(p, r) <= Chebyshev(p, q) + Chebyshev(q, r)
  {
  }

  /** The ends of a taut rope are at most one cell apart per link. */
  lemma {:induction false} TautSpan(knots: seq<Pos>)
    requires |knots| > 0 && Taut(knots)
    ensures Chebyshev(knots[0], knots[|knots| - 1]) <= |knots| - 1
  {
    if |knots| > 1 {
      var init := knots[..|knots| - 1];
      assert Taut(init) by {
        forall i | 0 < i < |init|
          ensures Adjacent(init[i - 1], init[i])
        {
          assert init[i - 1] == knots[i - 1] && init[i] == knots[i];
        }
      }
      TautSpan(init);
      AdjacentFacts(knots[|knots| - 2], knots[|knots| - 1]);
      ChebyshevTriangle(knots[0], knots[|knots| - 2], knots[|knots| - 1]);
    }
  }

  /** The cell `n` unit steps from the start in one direction. */
  function Walk(d: Direction, n: nat): Pos
  {
    if n == 0 then Pos(0, 0) else Add(Walk(d, n - 1), Unit(d))
  }

  /** `n` steps in one direction end `n` cells along that direction's axis. */
  lemma {:induction false} WalkDistance(d: Direction, n: nat)
    ensures Walk(d, n) == match d
      case L => Pos(0, -(n as int))
      case R => Pos(0, n)
      case U => Pos(n, 0)
      case D => Pos(-(n as int), 0)
    ensures Chebyshev(Walk(d, n), Pos(0, 0)) == n
  {
    if n > 0 {
      WalkDistance(d, n - 1);
    }
  }

  /** After `n` steps in one direction the head is `n` cells away from the
      start in that direction. */
  lemma {:induction false} HeadMoves(d: Direction, n: nat)
    ensures Trace(seq(n, _ => d))[n][0] == Walk(d, n)
  {
    if n > 0 {
      var steps, init := seq(n, _ => d), seq(n - 1, _ => d);
      HeadMoves(d, n - 1);
      assert steps[..n - 1] == init;
      var before := Trace(init);
      assert Trace(steps) == before + [Stretch(before[n - 1], d)];
    }
  }

  /** A rope of ten knots at the start is taut. */
  lemma StartTaut()
    ensures Taut(Start())
  {
    var start := Start();
    forall i | 0 < i < |start|
      ensures Adjacent(start[i - 1], start[i])
    {
      AdjacentFacts(start[i - 1], start[i]);
    }
  }

  /** After the first step only the head has moved: the tail is still at
      the start. */
  lemma TailStaysFirst(d: Direction)
    ensures Trace([d])[1][NumKnots - 1] == Pos(0, 0)
  {
    StretchStill(d);
    TraceOne(d);
  }

  lemma TraceOne(d: Direction)
    ensures Trace([d]) == [Start(), Stretch(Start(), d)]
  {
    assert [d][..0] == [];
  }

  /** From the start, one step of the head leaves every other knot where it
      is. */
  lemma StretchStill(d: Direction)
    ensures Stretch(Start(), d)[1..] == Start()[1..]
  {
    var rest := Start()[1..];
    var head := MoveHead(Pos(0, 0), d);
    var k := [head] + rest;
    assert Taut(k) by {
      forall i | 0 < i < |k|
        ensures Adjacent(k[i - 1], k[i])
      {
        AdjacentFacts(k[i - 1], k[i]);
      }
    }
    FollowChainStill(head, rest);
  }

  /** After ten or more steps in one direction the head is that many cells
      from the start, and the taut rope spans nine: the tail has left the
      start. */
  lemma TailLeaves(d: Direction, n: nat)
    requires n >= NumKnots
    ensures Trace(seq(n, _ => d))[n][NumKnots - 1] != Pos(0, 0)
  {
    var steps := seq(n, _ => d);
    var last := Trace(steps)[n];
    HeadMoves(d, n);
    WalkDistance(d, n);
    TraceTaut(steps);
    TautSpan(last);
    ChebyshevTriangle(last[0], last[NumKnots - 1], Pos(0, 0));
  }

  /** The rope of ten knots moves its tail: ten or more steps in one
      direction visit at least two cells, where the rope as written counts
      one. */
  lemma TailMoves(d: Direction, n: nat)
    requires n >= NumKnots
    ensures TailCount([Instruction(d, n)]) >= 2
  {
    var steps := seq(n, _ => d);
    assert Steps([Instruction(d, n)]) == steps by {
      assert [Instruction(d, n)][..0] == [];
    }
    var ks := Trace(steps);
    TailStaysFirst(d);
    TailLeaves(d, n);
    FirstState(steps);
    var tails := set i | 1 <= i < |ks| :: ks[i][NumKnots - 1];
    assert ks[1][NumKnots - 1] in tails && ks[n][NumKnots - 1] in tails;
    TwoInSet(ks[1][NumKnots - 1], ks[n][NumKnots - 1], tails);
  }

  /** The state after the first step depends on that step alone. */
  lemma {:induction false} FirstState(steps: seq<Direction>)
    requires |steps| >= 1
    ensures Trace(steps)[1] == Trace([steps[0]])[1]
  {
    if |steps| > 1 {
      var init := steps[..|steps| - 1];
      FirstState(init);
      assert init[0] == steps[0];
      assert Trace(steps)[1] == Trace(init)[1];
    } else {
      OneStep(steps, steps[0]);
    }
  }

  lemma OneStep(steps: seq<Direction>, d: Direction)
    requires |steps| >= 1 && steps[0] == d
    ensures steps[..1] == [d]
  {
  }

  lemma TwoInSet(x: Pos, y: Pos, s: set<Pos>)
    requires x != y && x in s && y in s
    ensures |s| >= 2
  {
    var both := {x, y};
    assert s == both + (s - both);
    assert both * (s - both) == {};
  }
}

=== FILE: rucksacks.dfy ===
/** Day 3 (day_03/part_1.py, day_03/part_2.py): rucksacks are strings of
    item letters. The first part finds, in each rucksack, the item of the
    second compartment that is also in the first; the second finds the badge
    common to each group of three rucksacks. Both count items in a table of
    52 slots indexed by letter. */
module Rucksacks {

  /** One slot per letter, upper and lower case. */
  const NumItems: nat := 52

  const GroupSize: nat := 3

  predicate IsLetter(c: char)
  {
    'A' <= c <= 'Z' || 'a' <= c <= 'z'
  }

  predicate Letters(s: string)
  {
    forall k :: 0 <= k < |s| ==> IsLetter(s[k])
  }

  // ---------------------------------------------------------------------
  // Letters, slots and priorities
  // ---------------------------------------------------------------------

  /** `letter_to_index`: upper case first, then lower case. */
  function Index(c: char): (i: nat)
    requires IsLetter(c)
    ensures i < NumItems
    ensures 'A' <= c <= 'Z' <==> i < NumItems / 2
  {
    if c <= 'Z' then c as int - 'A' as int
    else c as int - 'a' as int + ('Z' as int - 'A' as int + 1)
  }

  /** The letter of a slot. */
  function Letter(i: nat): (c: char)
    requires i < NumItems
    ensures IsLetter(c)
  {
    if i < 26 then ('A' as int + i) as char else ('a' as int + i - 26) as char
  }

  /** Slots and letters are in one-to-one correspondence. */
  lemma IndexRoundTrip(c: char, i: nat)
    requires IsLetter(c) && i < NumItems
    ensures Letter(Index(c)) == c
    ensures Index(Letter(i)) == i
  {
  }

  lemma IndexInjective(c: char, d: char)
    requires IsLetter(c) && IsLetter(d) && Index(c) == Index(d)
    ensures c == d
  {
    IndexRoundTrip(c, 0);
    IndexRoundTrip(d, 0);
  }

  /** `letter_to_priority`: lower case first, from 1. */
  function Priority(c: char): (p: nat)
    requires IsLetter(c)
    ensures 1 <= p <= NumItems
    ensures 'a' <= c <= 'z' <==> p <= NumItems / 2
  {
    if c <= 'Z' then c as int - 'A' as int + NumItems / 2 + 1
    else c as int - 'a' as int + 1
  }

  /** The priority is the slot rotated by half the table. */
  lemma PriorityOfIndex(c: char)
    requires IsLetter(c)
    ensures Priority(c) == (Index(c) + NumItems / 2) % NumItems + 1
  {
  }

  /** Some item of `s` sits in slot `i`. */
  predicate HasSlot(s: string, i: nat)
    requires Letters(s)
  {
    exists k :: 0 <= k < |s| && Index(s[k]) == i
  }

  lemma HasSlotSnoc(s: string, i: nat)
    requires Letters(s) && i < |s|
    ensures forall j :: 0 <= j < NumItems ==> (HasSlot(s[..i + 1], j) <==> HasSlot(s[..i], j) || j == Index(s[i]))
  {
    assert s[..i + 1][i] == s[i];
    assert forall k :: 0 <= k < i ==> s[..i + 1][k] == s[..i][k];
  }

  lemma HasSlotIff(s: string, c: char)
    requires Letters(s) && IsLetter(c)
    ensures HasSlot(s, Index(c)) <==> c in s
  {
    if HasSlot(s, Index(c)) {
      var k :| 0 <= k < |s| && Index(s[k]) == Index(c);
      IndexInjective(s[k], c);
    }
  }

  // ---------------------------------------------------------------------
  // Part 1: the item in both compartments
  // ---------------------------------------------------------------------

  /** Position `i` of the second compartment holds an item of the first. */
  predicate SharedAt(s: string, i: int)
  {
    |s| / 2 <= i < |s| && s[i] in s[..|s| / 2]
  }

  /** The priority of the first shared item of the second compartment, or 0
      if there is none. */
  function SharedPriority(s: string): (p: nat)
    requires Letters(s)
    ensures p <= NumItems
  {
    SharedFrom(s, |s| / 2)
  }

  function SharedFrom(s: string, i: nat): (p: nat)
    requires Letters(s) && |s| / 2 <= i
    ensures p <= NumItems
    decreases |s| - i
  {
    if i >= |s| then 0
    else if s[i] in s[..|s| / 2] then Priority(s[i])
    else SharedFrom(s, i + 1)
  }

  /** The rucksack adds nothing exactly when no item of the second
      compartment is in the first, and otherwise the priority of the first
      such item. */
  lemma SharedPriorityIsFirst(s: string)
    requires Letters(s)
    ensures SharedPriority(s) == 0 <==> forall i :: |s| / 2 <= i < |s| ==> !SharedAt(s, i)
    ensures SharedPriority(s) > 0 ==> exists i :: FirstShared(s, |s| / 2, i) && SharedPriority(s) == Priority(s[i])
  {
    SharedFromIsFirst(s, |s| / 2);
  }

  lemma {:induction false} SharedFromIsFirst(s: string, i: nat)
    requires Letters(s) && |s| / 2 <= i
    ensures SharedFrom(s, i) == 0 <==> forall j :: i <= j < |s| ==> !SharedAt(s, j)
    ensures SharedFrom(s, i) > 0 ==> exists j :: FirstShared(s, i, j) && SharedFrom(s, i) == Priority(s[j])
    decreases |s| - i
  {
    if i < |s| {
      if s[i] in s[..|s| / 2] {
        assert FirstShared(s, i, i);
      } else {
        assert !SharedAt(s, i) && SharedFrom(s, i) == SharedFrom(s, i + 1);
        SharedFromIsFirst(s, i + 1);
        if SharedFrom(s, i) > 0 {
          var j :| FirstShared(s, i + 1, j) && SharedFrom(s, i) == Priority(s[j]);
          assert FirstShared(s, i, j);
        }
      }
    }
  }

  /** Position `j` is the first shared one from `i` on. */
  predicate FirstShared(s: string, i: int, j: int)
  {
    i <= j && SharedAt(s, j) && forall k :: i <= k < j ==> !SharedAt(s, k)
  }

  /** One rucksack of `get_sum_of_priorities`: count the first compartment's
      items by slot, then stop at the first item of the second compartment
      whose slot is not empty. */
  method RucksackPriority(s: string) returns (p: nat)
    requires Letters(s)
    ensures p == SharedPriority(s)
  {
    var counts := CountItems(s, |s| / 2);
    var i := |s| / 2;
    p := 0;
    var found := false;
    while i < |s| && !found
      invariant |s| / 2 <= i <= |s|
      invariant found ==> p == SharedPriority(s)
      invariant !found ==> p == 0 && SharedFrom(s, |s| / 2) == SharedFrom(s, i)
      decreases |s| - i, !found
    {
      HasSlotIff(s[..|s| / 2], s[i]);
      if counts[Index(s[i])] > 0 {
        p := Priority(s[i]);
        found := true;
      }
      i := i + 1;
    }
  }

  /** The table after counting the first `n` items: a slot is non-zero
      exactly when one of them sits in it. */
  method CountItems(s: string, n: nat) returns (counts: seq<nat>)
    requires Letters(s) && n <= |s|
    ensures |counts| == NumItems
    ensures forall j :: 0 <= j < NumItems ==> (counts[j] > 0 <==> HasSlot(s[..n], j))
  {
    counts := seq(NumItems, _ => 0);
    var i := 0;
    while i < n
      invariant 0 <= i <= n && |counts| == NumItems
      invariant forall j :: 0 <= j < NumItems ==> (counts[j] > 0 <==> HasSlot(s[..i], j))
    {
      HasSlotSnoc(s, i);
      counts := counts[Index(s[i]) := counts[Index(s[i])] + 1];
      i := i + 1;
    }
  }

  /** The sum over the rucksacks, the last one added last. */
  function SumOfPriorities(rs: seq<string>): nat
    requires forall k :: 0 <= k < |rs| ==> Letters(rs[k])
  {
    if |rs| == 0 then 0 else SumOfPriorities(rs[..|rs| - 1]) + SharedPriority(rs[|rs| - 1])
  }

  /** `get_sum_of_priorities`: the table is cleared for every rucksack, so
      each one contributes on its own. */
  method GetSumOfPriorities(rs: seq<string>) returns (total: nat)
    requires forall k :: 0 <= k < |rs| ==> Letters(rs[k])
    ensures total == SumOfPriorities(rs)
  {
    total := 0;
    var n := 0;
    while n < |rs|
      invariant 0 <= n <= |rs|
      invariant total == SumOfPriorities(rs[..n])
    {
      var p := RucksackPriority(rs[n]);
      assert rs[..n + 1][..n] == rs[..n];
      total := total + p;
      n := n + 1;
    }
    assert rs[..n] == rs;
  }

  /** Each rucksack adds at most one priority. */
  lemma {:induction false} SumOfPrioritiesBound(rs: seq<string>)
    requires forall k :: 0 <= k < |rs| ==> Letters(rs[k])
    ensures SumOfPriorities(rs) <= NumItems * |rs|
  {
    if |rs| > 0 {
      SumOfPrioritiesBound(rs[..|rs| - 1]);
      assert NumItems * |rs| == NumItems * (|rs| - 1) + NumItems;
    }
  }

  // ---------------------------------------------------------------------
  // Part 2: the badge of each group of three
  // ---------------------------------------------------------------------

  /** The item is in every rucksack of `rs`. */
  predicate InAll(rs: seq<string>, c: char)
  {
    forall j :: 0 <= j < |rs| ==> c in rs[j]
  }

  /** The priority of the first item of `c` that is also in `a` and `b`, or
      0 if there is none. */
  function Badge(a: string, b: string, c: string): (p: nat)
    requires Letters(c)
    ensures p <= NumItems
  {
    BadgeFrom(a, b, c, 0)
  }

  function BadgeFrom(a: string, b: string, c: string, i: nat): (p: nat)
    requires Letters(c)
    ensures p <= NumItems
    decreases |c| - i
  {
    if i >= |c| then 0
    else if InAll([a, b], c[i]) then Priority(c[i])
    else BadgeFrom(a, b, c, i + 1)
  }

  /** The group adds nothing exactly when the third rucksack has no item of
      the other two, and otherwise the priority of its first such item. */
  lemma BadgeIsFirstCommon(a: string, b: string, c: string)
    requires Letters(c)
    ensures Badge(a, b, c) == 0 <==> forall k :: 0 <= k < |c| ==> !InAll([a, b], c[k])
    ensures Badge(a, b, c) > 0 ==> exists k :: FirstCommon(a, b, c, 0, k) && Badge(a, b, c) == Priority(c[k])
  {
    BadgeFromIsFirstCommon(a, b, c, 0);
  }

  lemma {:induction false} BadgeFromIsFirstCommon(a: string, b: string, c: string, i: nat)
    requires Letters(c)
    ensures BadgeFrom(a, b, c, i) == 0 <==> forall k :: i <= k < |c| ==> !InAll([a, b], c[k])
    ensures BadgeFrom(a, b, c, i) > 0 ==> exists k :: FirstCommon(a, b, c, i, k) && BadgeFrom(a, b, c, i) == Priority(c[k])
    decreases |c| - i
  {
    if i < |c| {
      if InAll([a, b], c[i]) {
        assert FirstCommon(a, b, c, i, i);
      } else {
        BadgeFromIsFirstCommon(a, b, c, i + 1);
        if BadgeFrom(a, b, c, i) > 0 {
          var k :| FirstCommon(a, b, c, i + 1, k) && BadgeFrom(a, b, c, i) == Priority(c[k]);
          assert FirstCommon(a, b, c, i, k);
        }
      }
    }
  }

  /** Position `k` of `c` holds the first item from `i` on that is also in
      `a` and `b`. */
  predicate FirstCommon(a: string, b: string, c: string, i: int, k: int)
  {
    0 <= i <= k < |c| && InAll([a, b], c[k]) && forall j :: i <= j < k ==> !InAll([a, b], c[j])
  }

  /** The badges of the complete groups; rucksacks left over after the last
      complete group add nothing. */
  function SumOfBadges(rs: seq<string>): nat
    requires forall k :: 0 <= k < |rs| ==> Letters(rs[k])
  {
    if |rs| < GroupSize then 0 else Badge(rs[0], rs[1], rs[2]) + SumOfBadges(rs[GroupSize..])
  }

  /** Adding a complete group at the end adds its badge. */
  lemma {:induction false} SumOfBadgesSnoc(rs: seq<string>, m: nat)
    requires forall k :: 0 <= k < |rs| ==> Letters(rs[k])
    requires 3 * m + 3 <= |rs|
    ensures SumOfBadges(rs[..3 * m + 3]) == SumOfBadges(rs[..3 * m]) + Badge(rs[3 * m], rs[3 * m + 1], rs[3 * m + 2])
  {
    if m > 0 {
      SumOfBadgesSnoc(rs[3..], m - 1);
      assert rs[..3 * m + 3][3..] == rs[3..][..3 * (m - 1) + 3];
      assert rs[..3 * m][3..] == rs[3..][..3 * (m - 1)];
    }
  }

  /** An incomplete last group adds nothing. */
  lemma {:induction false} SumOfBadgesIgnoresRest(rs: seq<string>)
    requires forall k :: 0 <= k < |rs| ==> Letters(rs[k])
    ensures SumOfBadges(rs) == SumOfBadges(rs[..|rs| - |rs| % 3])
  {
    var t := |rs| % 3;
    if |rs| >= 3 {
      var rest := rs[3..];
      SumOfBadgesIgnoresRest(rest);
      assert |rest| % 3 == t;
      var whole := rs[..|rs| - t];
      assert |whole| >= 3;
      assert whole[3..] == rest[..|rest| - t];
      assert whole[..3] == rs[..3];
    } else {
      assert |rs[..|rs| - t]| == 0;
    }
  }

  /** Each complete group adds at most one priority. */
  lemma {:induction false} SumOfBadgesBound(rs: seq<string>)
    requires forall k :: 0 <= k < |rs| ==> Letters(rs[k])
    ensures SumOfBadges(rs) <= NumItems * (|rs| / 3)
  {
    if |rs| >= 3 {
      SumOfBadgesBound(rs[3..]);
      assert |rs| / 3 == |rs[3..]| / 3 + 1;
      assert NumItems * (|rs| / 3) == NumItems * (|rs[3..]| / 3) + NumItems;
    }
  }

  /** The table at position `k` of a group: no slot above `k`, and slot `i`
      at `k` exactly when its letter is in all of the group's first `k`
      rucksacks. */
  predicate Marks(counts: seq<int>, prev: seq<string>)
  {
    |counts| == NumItems &&
    forall i :: 0 <= i < NumItems ==> counts[i] <= |prev| && (counts[i] == |prev| <==> InAll(prev, Letter(i)))
  }

  /** The first and second rucksack of a group: a slot counted by all the
      earlier rucksacks goes up by one, once, however often the item occurs. */
  method MarkRucksack(counts: seq<int>, r: string, k: nat, ghost prev: seq<string>) returns (counts': seq<int>)
    requires Letters(r) && Marks(counts, prev) && k == |prev|
    ensures Marks(counts', prev + [r])
  {
    counts' := counts;
    var j := 0;
    while j < |r|
      invariant 0 <= j <= |r| && |counts'| == NumItems
      invariant forall i :: 0 <= i < NumItems ==> counts'[i] == if counts[i] == k && HasSlot(r[..j], i) then k + 1 else counts[i]
    {
      HasSlotSnoc(r, j);
      var slot := Index(r[j]);
      if counts'[slot] == k {
        counts' := counts'[slot := k + 1];
      }
      j := j + 1;
    }
    assert r[..j] == r;
    forall i | 0 <= i < NumItems
      ensures InAll(prev + [r], Letter(i)) <==> InAll(prev, Letter(i)) && Letter(i) in r
      ensures HasSlot(r, i) <==> Letter(i) in r
    {
      IndexRoundTrip(Letter(i), i);
      HasSlotIff(r, Letter(i));
      assert (prev + [r])[k] == r;
      assert forall q :: 0 <= q < k ==> (prev + [r])[q] == prev[q];
    }
  }

  /** The third rucksack of a group: the first item whose slot was counted by
      both earlier rucksacks is the badge. */
  method FindBadge(counts: seq<int>, r: string, ghost a: string, ghost b: string) returns (p: nat)
    requires Letters(r) && Marks(counts, [a, b])
    ensures p == Badge(a, b, r)
  {
    p := 0;
    var found := false;
    var i := 0;
    while i < |r| && !found
      invariant 0 <= i <= |r|
      invariant found ==> p == Badge(a, b, r)
      invariant !found ==> p == 0 && Badge(a, b, r) == BadgeFrom(a, b, r, i)
      decreases |r| - i, !found
    {
      CommonSlot(counts, a, b, r[i]);
      if counts[Index(r[i])] == 2 {
        p := Priority(r[i]);
        found := true;
      }
      i := i + 1;
    }
  }

  lemma CommonSlot(counts: seq<int>, a: string, b: string, c: char)
    requires Marks(counts, [a, b]) && IsLetter(c)
    ensures counts[Index(c)] == 2 <==> InAll([a, b], c)
  {
    IndexRoundTrip(c, 0);
  }

  /** `get_sum_of_badges`: the table is cleared when a new group starts. */
  method GetSumOfBadges(rs: seq<string>) returns (total: nat)
    requires forall k :: 0 <= k < |rs| ==> Letters(rs[k])
    ensures total == SumOfBadges(rs)
  {
    total := 0;
    var counts := seq(NumItems, _ => 0);
    var n := 0;
    ghost var groups := 0;
    while n < |rs|
      invariant GroupState(rs, n, groups, counts, total)
    {
      counts, total, groups := ReadRucksack(rs, n, groups, counts, total);
      n := n + 1;
    }
    assert rs[..n] == rs;
    GroupPosition(n, groups);
    SumOfBadgesIgnoresRest(rs);
  }

  /** The state after the first `n` rucksacks: `groups` complete groups
      summed, and the table marking the rucksacks of the open group. */
  predicate GroupState(rs: seq<string>, n: nat, groups: nat, counts: seq<int>, total: nat)
    requires forall k :: 0 <= k < |rs| ==> Letters(rs[k])
  {
    3 * groups <= n <= |rs| && n - 3 * groups < 3 && |counts| == NumItems &&
    total == SumOfBadges(rs[..3 * groups]) &&
    (n == 0 ==> counts == seq(NumItems, _ => 0)) &&
    (n > 3 * groups ==> Marks(counts, rs[3 * groups..n]))
  }

  /** One turn of the loop of `get_sum_of_badges`. */
  method ReadRucksack(rs: seq<string>, n: nat, ghost groups: nat, counts: seq<int>, total: nat)
    returns (counts': seq<int>, total': nat, ghost groups': nat)
    requires forall k :: 0 <= k < |rs| ==> Letters(rs[k])
    requires n < |rs| && GroupState(rs, n, groups, counts, total)
    ensures GroupState(rs, n + 1, groups', counts', total')
    ensures |counts'| == NumItems
    ensures total' == SumOfBadges(rs[..n + 1 - (n + 1) % GroupSize])
  {
    var inGroup := n % GroupSize;
    GroupPosition(n, groups);
    counts', total', groups' := counts, total, groups;
    if n != 0 && inGroup == 0 {
      counts' := seq(NumItems, _ => 0);
    }
    if inGroup != GroupSize - 1 {
      ghost var prev := rs[3 * groups..n];
      if inGroup == 0 {
        assert Marks(counts', prev);
      }
      assert prev + [rs[n]] == rs[3 * groups..n + 1];
      counts' := MarkRucksack(counts', rs[n], inGroup, prev);
    } else {
      ghost var start := 3 * groups;
      assert rs[start..n] == [rs[start], rs[start + 1]];
      var p := FindBadge(counts', rs[n], rs[start], rs[start + 1]);
      SumOfBadgesSnoc(rs, groups);
      total' := total + p;
      groups' := groups + 1;
    }
    GroupPosition(n + 1, groups');
  }

  lemma GroupPosition(n: nat, groups: nat)
    requires 3 * groups <= n < 3 * groups + 3
    ensures n % 3 == n - 3 * groups
  {
  }
}

=== FILE: scenic.dfy ===
/** Day 8, second part (day_08/part_2.py): the best scenic score of the
    grid, the product of a tree's viewing distances in the four directions. */
module Scenic {
  import opened Outcomes
  import opened Forest

  /** Which up walk a score uses: the one as written, which does not count a
      strictly taller blocking tree, or the intended one, which counts the
      blocking tree like the other three walks do. */
  datatype Version = AsWritten | Intended

  predicate Interior(g: Grid, r: int, c: int)
  {
    1 <= r < |g| - 1 && 1 <= c < Width(g) - 1
  }

  /** The heights met walking from a tree towards each edge, nearest first. */
  function RayUp(g: Grid, r: nat, c: nat): (ray: seq<nat>)
    requires Rectangular(g) && r < |g| && c < Width(g)
    ensures |ray| == r && forall k :: 0 <= k < r ==> ray[k] == g[r - 1 - k][c]
  {
    seq(r, k requires 0 <= k < r => g[r - 1 - k][c])
  }

  function RayDown(g: Grid, r: nat, c: nat): (ray: seq<nat>)
    requires Rectangular(g) && r < |g| && c < Width(g)
    ensures |ray| == |g| - 1 - r && forall k :: 0 <= k < |ray| ==> ray[k] == g[r + 1 + k][c]
  {
    seq(|g| - 1 - r, k requires 0 <= k < |g| - 1 - r => g[r + 1 + k][c])
  }

  function RayLeft(row: seq<nat>, c: nat): (ray: seq<nat>)
    requires c < |row|
    ensures |ray| == c && forall k :: 0 <= k < c ==> ray[k] == row[c - 1 - k]
  {
    seq(c, k requires 0 <= k < c => row[c - 1 - k])
  }

  function RayRight(row: seq<nat>, c: nat): (ray: seq<nat>)
    requires c < |row|
    ensures |ray| == |row| - 1 - c && forall k :: 0 <= k < |ray| ==> ray[k] == row[c + 1 + k]
  {
    row[c + 1..]
  }

  /** The down, left and right walks: they count every tree up to and
      including the first one at least as tall as the viewer, or up to the
      edge. */
  function ViewDistance(h: nat, ray: seq<nat>): (d: nat)
    requires |ray| > 0
    ensures 1 <= d <= |ray|
    ensures forall k :: 0 <= k < d - 1 ==> ray[k] < h
    ensures d == |ray| || ray[d - 1] >= h
  {
    if |ray| == 1 || ray[0] >= h then 1 else 1 + ViewDistance(h, ray[1..])
  }

  /** The up walk as written: it stops where the others do but counts only
      trees no taller than the viewer, so a strictly taller blocker is left
      out. */
  function UpCountAsWritten(h: nat, ray: seq<nat>): (n: nat)
    requires |ray| > 0
    ensures n == ViewDistance(h, ray) - (if ray[ViewDistance(h, ray) - 1] > h then 1 else 0)
  {
    (if ray[0] <= h then 1 else 0) + (if |ray| > 1 && ray[0] < h then UpCountAsWritten(h, ray[1..]) else 0)
  }

  /** The up walk of either version: the as-written count falls short of
      the intended one exactly when the tree that ends the walk is taller
      than the viewer. */
  function UpCount(v: Version, h: nat, ray: seq<nat>): (n: nat)
    requires |ray| > 0
    ensures n <= ViewDistance(h, ray)
    ensures n == ViewDistance(h, ray) <==> v == Intended || ray[ViewDistance(h, ray) - 1] <= h
  {
    match v
    case AsWritten => UpCountAsWritten(h, ray)
    case Intended => ViewDistance(h, ray)
  }

  /** `get_scenic_score`: the product of the four counts. Each walk reads its
      first neighbour before checking any bound, so the tree must be in the
      interior. */
  function ScenicScore(g: Grid, r: int, c: int, v: Version): (score: nat)
    requires Rectangular(g) && Interior(g, r, c)
    ensures v == Intended ==> score >= 1
    ensures v == AsWritten ==> (score == 0 <==> g[r - 1][c] > g[r][c])
  {
    var h := g[r][c];
    var left := ViewDistance(h, RayLeft(g[r], c));
    var right := ViewDistance(h, RayRight(g[r], c));
    var up := UpCount(v, h, RayUp(g, r, c));
    var down := ViewDistance(h, RayDown(g, r, c));
    assert v == AsWritten ==> (up == 0 <==> g[r - 1][c] > h) by {
      if v == AsWritten {
        var ray := RayUp(g, r, c);
        if ViewDistance(h, ray) > 1 {
          assert ray[0] < h;
        }
      }
    }
    ProductPositive(left, right, up, down);
    left * right * up * down
  }

  lemma ProductPositive(a: nat, b: nat, c: nat, d: nat)
    requires a >= 1 && b >= 1 && d >= 1
    ensures c >= 1 ==> a * b * c * d >= 1
    ensures c == 0 <==> a * b * c * d == 0
  {
    MulPositive(a, b);
    MulPositive(a * b, d);
    if c >= 1 {
      MulPositive(a * b, c);
      MulPositive(a * b * c, d);
    }
  }

  lemma MulPositive(a: nat, b: nat)
    requires a >= 1 && b >= 1
    ensures a * b >= 1
  {
  }

  /** The positions `get_highest_scenic_score` visits for the given row and
      column counts, row by row: everything strictly inside. */
  function Positions(rows: int, cols: int): (ps: seq<Cell>)
    ensures forall p :: p in ps <==> 1 <= p.row < rows - 1 && 1 <= p.col < cols - 1
  {
    PositionsFrom(1, rows, cols)
  }

  function PositionsFrom(r: int, rows: int, cols: int): (ps: seq<Cell>)
    requires r >= 1
    ensures forall p :: p in ps <==> r <= p.row < rows - 1 && 1 <= p.col < cols - 1
    decreases rows - r
  {
    if r >= rows - 1 then [] else RowPositions(r, 1, cols) + PositionsFrom(r + 1, rows, cols)
  }

  function RowPositions(r: int, c: int, cols: int): (ps: seq<Cell>)
    ensures forall p :: p in ps <==> p.row == r && c <= p.col < cols - 1
    decreases cols - c
  {
    if c >= cols - 1 then [] else [Cell(r, c)] + RowPositions(r, c + 1, cols)
  }

  /** The scores of the visited positions in order; `None` when a visited
      position is not interior, where a walk would read past the grid. */
  function Scores(g: Grid, ps: seq<Cell>, v: Version): (s: Option<seq<int>>)
    requires Rectangular(g)
    ensures s.Some? <==> forall i :: 0 <= i < |ps| ==> Interior(g, ps[i].row, ps[i].col)
    ensures s.Some? ==> |s.value| == |ps|
    ensures s.Some? ==> forall i :: 0 <= i < |ps| ==> s.value[i] == ScenicScore(g, ps[i].row, ps[i].col, v)
  {
    if forall i :: 0 <= i < |ps| ==> Interior(g, ps[i].row, ps[i].col) then
      Some(seq(|ps|, i requires 0 <= i < |ps| && Interior(g, ps[i].row, ps[i].col) => ScenicScore(g, ps[i].row, ps[i].col, v) as int))
    else None
  }

  /** The running maximum of the loop, starting from `best`. */
  function MaxFrom(best: int, xs: seq<int>): (m: int)
    ensures m >= best && forall i :: 0 <= i < |xs| ==> m >= xs[i]
    ensures m == best || exists i :: 0 <= i < |xs| && m == xs[i]
    decreases |xs|
  {
    if |xs| == 0 then best
    else
      var m := MaxFrom(if xs[0] > best then xs[0] else best, xs[1..]);
      assert forall i :: 1 <= i < |xs| ==> xs[1..][i - 1] == xs[i];
      m
  }

  /** The search over the visited positions: the best of `best` and their
      scores, or `None` when a visited position is not interior. */
  function BestOf(g: Grid, ps: seq<Cell>, best: int, v: Version): (m: Option<int>)
    requires Rectangular(g)
    ensures m.Some? ==> m.value >= best
  {
    match Scores(g, ps, v)
    case None => None
    case Some(xs) => Some(MaxFrom(best, xs))
  }

  /** The search fails exactly when a visited position is not interior;
      otherwise it is at least `best` and every visited score, and it is
      `best` or one of them. */
  lemma BestOfIsBest(g: Grid, ps: seq<Cell>, best: int, v: Version)
    requires Rectangular(g)
    ensures BestOf(g, ps, best, v).Some? <==> forall i :: 0 <= i < |ps| ==> Interior(g, ps[i].row, ps[i].col)
    ensures BestOf(g, ps, best, v).Some? ==>
      forall i :: 0 <= i < |ps| ==> BestOf(g, ps, best, v).value >= ScenicScore(g, ps[i].row, ps[i].col, v)
    ensures BestOf(g, ps, best, v).Some? ==> (BestOf(g, ps, best, v).value == best ||
      exists i :: 0 <= i < |ps| && BestOf(g, ps, best, v).value == ScenicScore(g, ps[i].row, ps[i].col, v))
  {
    var s := Scores(g, ps, v);
    if s.Some? {
      var m := MaxFrom(best, s.value);
      assert BestOf(g, ps, best, v) == Some(m);
      if m != best {
        var i :| 0 <= i < |s.value| && m == s.value[i];
        assert m == ScenicScore(g, ps[i].row, ps[i].col, v);
      }
    }
  }

  /** `get_highest_scenic_score` as written: it takes the number of rows as
      the column count and the row length as the row count, and an empty
      grid has no first row. */
  function HighestAsWritten(g: Grid): (m: Option<int>)
    requires Rectangular(g)
    ensures m.Some? <==> |g| > 0 && (|g| == Width(g) || |g| < 3 || Width(g) < 3)
  {
    if |g| == 0 then None
    else
      var ps := Positions(Width(g), |g|);
      BestOfIsBest(g, ps, -1, AsWritten);
      SwappedVisitsInterior(g);
      BestOf(g, ps, -1, AsWritten)
  }

  /** The swapped counts visit only interior positions exactly when the
      grid is square or has no interior either way. */
  lemma SwappedVisitsInterior(g: Grid)
    requires Rectangular(g) && |g| > 0
    ensures var ps := Positions(Width(g), |g|);
      (forall i :: 0 <= i < |ps| ==> Interior(g, ps[i].row, ps[i].col))
      <==> (|g| == Width(g) || |g| < 3 || Width(g) < 3)
  {
    var ps := Positions(Width(g), |g|);
    var h, w := |g|, Width(g);
    if w > h >= 3 {
      assert Cell(h - 1, 1) in ps;
      var i :| 0 <= i < |ps| && ps[i] == Cell(h - 1, 1);
      assert !Interior(g, ps[i].row, ps[i].col);
    } else if h > w >= 3 {
      assert Cell(1, w - 1) in ps;
      var i :| 0 <= i < |ps| && ps[i] == Cell(1, w - 1);
      assert !Interior(g, ps[i].row, ps[i].col);
    } else {
      forall i | 0 <= i < |ps|
        ensures Interior(g, ps[i].row, ps[i].col)
      {
        assert ps[i] in ps;
      }
    }
  }

  /** On a square grid the swapped counts agree, and the result is the best
      as-written score over the interior, or -1 if there is none. */
  lemma HighestAsWrittenOnSquare(g: Grid)
    requires Rectangular(g) && 0 < |g| == Width(g)
    ensures HighestAsWritten(g).Some?
    ensures forall r, c :: Interior(g, r, c) ==> HighestAsWritten(g).value >= ScenicScore(g, r, c, AsWritten)
    ensures HighestAsWritten(g).value == -1 || exists r, c :: Interior(g, r, c) && HighestAsWritten(g).value == ScenicScore(g, r, c, AsWritten)
  {
    HighestOver(g, AsWritten);
  }

  /** On three rows of four trees the swapped counts visit the bottom row,
      where the walk down reads past the grid. */
  lemma SwappedBoundsFail()
    ensures var g: Grid := [[1, 1, 1, 1], [1, 1, 1, 1], [1, 1, 1, 1]];
      Rectangular(g) && HighestAsWritten(g) == None
  {
    var g: Grid := [[1, 1, 1, 1], [1, 1, 1, 1], [1, 1, 1, 1]];
    var ps := Positions(Width(g), |g|);
    BestOfIsBest(g, ps, -1, AsWritten);
    assert Cell(2, 1) in ps;
    var i :| 0 <= i < |ps| && ps[i] == Cell(2, 1);
    assert !Interior(g, ps[i].row, ps[i].col);
  }

  /** The intended search: every interior position, with the intended up
      walk. */
  function Highest(g: Grid): (best: int)
    requires Rectangular(g)
    ensures best >= -1
    ensures forall r, c :: Interior(g, r, c) ==> best >= ScenicScore(g, r, c, Intended)
    ensures best == -1 || exists r, c :: Interior(g, r, c) && best == ScenicScore(g, r, c, Intended)
    ensures best == -1 <==> |g| < 3 || Width(g) < 3
  {
    HighestOver(g, Intended);
    HighestPositive(g);
    BestOf(g, Positions(|g|, Width(g)), -1, Intended).value
  }

  lemma HighestPositive(g: Grid)
    requires Rectangular(g)
    ensures var m := BestOf(g, Positions(|g|, Width(g)), -1, Intended);
      m.Some? && (m.value == -1 <==> |g| < 3 || Width(g) < 3)
  {
    HighestOver(g, Intended);
    var ps := Positions(|g|, Width(g));
    var m := BestOf(g, ps, -1, Intended);
    if |g| >= 3 && Width(g) >= 3 {
      assert Interior(g, 1, 1);
      assert m.value >= ScenicScore(g, 1, 1, Intended) >= 1;
    }
  }

  /** Searching the interior positions finds the best score among them. */
  lemma HighestOver(g: Grid, v: Version)
    requires Rectangular(g)
    ensures var m := BestOf(g, Positions(|g|, Width(g)), -1, v);
      m.Some? &&
      (forall r, c :: Interior(g, r, c) ==> m.value >= ScenicScore(g, r, c, v)) &&
      (m.value == -1 || exists r, c :: Interior(g, r, c) && m.value == ScenicScore(g, r, c, v))
  {
    var ps := Positions(|g|, Width(g));
    AllInterior(g);
    BestOfIsBest(g, ps, -1, v);
    var m := BestOf(g, ps, -1, v);
    forall r, c | Interior(g, r, c)
      ensures m.value >= ScenicScore(g, r, c, v)
    {
      PositionIndex(|g|, Width(g), r, c);
    }
  }

  lemma AllInterior(g: Grid)
    requires Rectangular(g)
    ensures var ps := Positions(|g|, Width(g));
      forall i :: 0 <= i < |ps| ==> Interior(g, ps[i].row, ps[i].col)
  {
    var ps := Positions(|g|, Width(g));
    forall i | 0 <= i < |ps|
      ensures Interior(g, ps[i].row, ps[i].col)
    {
      assert ps[i] in ps;
    }
  }

  lemma PositionIndex(rows: int, cols: int, r: int, c: int)
    requires 1 <= r < rows - 1 && 1 <= c < cols - 1
    ensures exists i :: 0 <= i < |Positions(rows, cols)| && Positions(rows, cols)[i] == Cell(r, c)
  {
    assert Cell(r, c) in Positions(rows, cols);
  }

  /** A tree with a taller one just above it scores 0 as written, where the
      intended walk would give it 1. */
  lemma TallerAboveScoresZero()
    ensures var g: Grid := [[9, 9, 9], [9, 5, 9], [9, 9, 9]];
      Rectangular(g) && ScenicScore(g, 1, 1, AsWritten) == 0 && ScenicScore(g, 1, 1, Intended) == 1
  {
    var g: Grid := [[9, 9, 9], [9, 5, 9], [9, 9, 9]];
    assert RayLeft(g[1], 1) == [9];
    assert RayRight(g[1], 1) == [9];
    assert RayUp(g, 1, 1) == [9];
    assert RayDown(g, 1, 1) == [9];
  }
}

=== FILE: sensors.dfy ===
/** Sensors as Manhattan "circles", their projection onto a row, and the two
    queries of day 15 built on the range algebra (day_15/part_1_2.py):
    the number of cells of a row where no beacon can be, and the tuning
    frequency of the first cell of a box that no sensor reaches. */
module Sensors {
  import opened Outcomes
  import opened Ranges

  /** `DISTRESS_SIGNAL_X_MULT_MAGIC_NUM`. */
  const DistressMult: int := 4000000

  datatype Point = Point(x: int, y: int)

  /** `CircleManhattan`: a sensor at `center` whose closest beacon is
      `radius` away. */
  datatype Circle = Circle(id: int, center: Point, radius: int)

  /** `_manhattan`, and `manhattan_2d` of the brute-force version. */
  function Manhattan(p: Point, q: Point): (d: nat)
    ensures d == 0 <==> p == q
  {
    Abs(p.x - q.x) + Abs(p.y - q.y)
  }

  /** The Manhattan distance is a metric. */
  lemma ManhattanMetric(p: Point, q: Point, s: Point)
    ensures Manhattan(p, q) == Manhattan(q, p)
    ensures Manhattan(p, s) <= Manhattan(p, q) + Manhattan(q, s)
  {
  }

  /** `p` is within the radius of some circle of `circles`: no unknown
      beacon can be there. */
  ghost predicate Reached(p: Point, circles: seq<Circle>)
  {
    exists c :: c in circles && Manhattan(c.center, p) <= c.radius
  }

  // ---------------------------------------------------------------------
  // CircleManhattan
  // ---------------------------------------------------------------------

  /** The rows the circle spans (the test both queries make before `get_x`). */
  predicate InSpan(c: Circle, y: int)
  {
    c.center.y - c.radius <= y <= c.center.y + c.radius
  }

  /** `get_x`: the two x-coordinates of the circumference at row `y`. The
      pair is a well-formed range exactly on the rows the circle spans, it
      is centred on the centre's x, and its integers are the cells of the
      row within the radius. */
  function GetX(c: Circle, y: int): (r: Range)
    ensures r.lo + r.hi == 2 * c.center.x
    ensures WellFormed(r) <==> InSpan(c, y)
    ensures forall x :: In(x, r) <==> Manhattan(c.center, Point(x, y)) <= c.radius
  {
    Range(-c.radius + Abs(y - c.center.y) + c.center.x,
          c.radius - Abs(y - c.center.y) + c.center.x)
  }

  /** `CircleManhattan.__init__`: the circle through `point`. The point is on
      the circumference: its x is one end of `get_x` at its row. */
  function NewCircle(id: int, center: Point, point: Point): (c: Circle)
    ensures c.id == id && c.center == center && c.radius >= 0
    ensures InSpan(c, point.y)
    ensures GetX(c, point.y).lo == point.x || GetX(c, point.y).hi == point.x
    ensures forall p :: Manhattan(center, p) < Manhattan(center, point) ==> Reached(p, [c])
  {
    var c := Circle(id, center, Manhattan(center, point));
    assert c in [c];
    c
  }

  // ---------------------------------------------------------------------
  // The covered cells of one row
  // ---------------------------------------------------------------------

  /** The `get_x` ranges of the circles spanning row `y`, in input order:
      they cover exactly the reached cells of the row. */
  function RowCover(circles: seq<Circle>, y: int): (rc: seq<Range>)
    ensures AllWellFormed(rc) && |rc| <= |circles|
    ensures |rc| == 0 <==> forall c :: c in circles ==> !InSpan(c, y)
    ensures forall x :: Covered(x, rc) <==> Reached(Point(x, y), circles)
  {
    if |circles| == 0 then []
    else
      var init := circles[..|circles| - 1];
      var c := circles[|circles| - 1];
      var rest := RowCover(init, y);
      var here := if InSpan(c, y) then [GetX(c, y)] else [];
      RowCoverStep(circles, y, rest, here);
      rest + here
  }

  lemma RowCoverStep(circles: seq<Circle>, y: int, rest: seq<Range>, here: seq<Range>)
    requires |circles| > 0
    requires AllWellFormed(rest) && |rest| <= |circles| - 1
    requires |rest| == 0 <==> forall c :: c in circles[..|circles| - 1] ==> !InSpan(c, y)
    requires forall x :: Covered(x, rest) <==> Reached(Point(x, y), circles[..|circles| - 1])
    requires here == if InSpan(circles[|circles| - 1], y) then [GetX(circles[|circles| - 1], y)] else []
    ensures AllWellFormed(rest + here) && |rest + here| <= |circles|
    ensures |rest + here| == 0 <==> forall c :: c in circles ==> !InSpan(c, y)
    ensures forall x :: Covered(x, rest + here) <==> Reached(Point(x, y), circles)
  {
    var init := circles[..|circles| - 1];
    var c := circles[|circles| - 1];
    assert circles == init + [c];
    CoveredAppend(rest, here);
    forall x
      ensures Covered(x, rest + here) <==> Reached(Point(x, y), circles)
    {
      var p := Point(x, y);
      if Reached(p, circles) {
        var d :| d in circles && Manhattan(d.center, p) <= d.radius;
        if d in init {
          assert Reached(p, init);
        } else {
          assert d == c;
          assert In(x, GetX(c, y)) && GetX(c, y) in here;
        }
      }
      if Covered(x, here) {
        assert c in circles;
      }
      if Reached(p, init) {
        var d :| d in init && Manhattan(d.center, p) <= d.radius;
        assert d in circles;
      }
    }
  }

  /** The integers of a range. */
  function RangeSet(r: Range): set<int>
  {
    set x | r.lo <= x <= r.hi && In(x, r)
  }

  /** A well-formed range holds `hi - lo + 1` integers. */
  lemma {:induction false} RangeSetSize(r: Range)
    requires WellFormed(r)
    ensures |RangeSet(r)| == r.hi - r.lo + 1
    decreases r.hi - r.lo
  {
    if r.lo == r.hi {
      assert RangeSet(r) == {r.lo};
    } else {
      var shorter := Range(r.lo, r.hi - 1);
      RangeSetSize(shorter);
      assert RangeSet(r) == RangeSet(shorter) + {r.hi};
    }
  }

  /** The integers covered by a list of ranges. */
  function UnionSet(rs: seq<Range>): (s: set<int>)
    ensures forall x :: x in s <==> Covered(x, rs)
  {
    if |rs| == 0 then {}
    else
      var init := rs[..|rs| - 1];
      assert rs == init + [rs[|rs| - 1]];
      CoveredAppend(init, [rs[|rs| - 1]]);
      UnionSet(init) + RangeSet(rs[|rs| - 1])
  }

  /** The beacons of row `y` inside `r`. */
  function BeaconsIn(beacons: set<Point>, r: Range, y: int): set<Point>
  {
    set b | b in beacons && b.y == y && In(b.x, r)
  }

  /** The cells of `r` on row `y` that hold no beacon. */
  function FreeIn(r: Range, y: int, beacons: set<Point>): set<int>
  {
    set x | r.lo <= x <= r.hi && Point(x, y) !in beacons
  }

  /** The cells covered by `rs` on row `y` that hold no beacon. */
  function FreeCovered(rs: seq<Range>, y: int, beacons: set<Point>): set<int>
  {
    set x | x in UnionSet(rs) && Point(x, y) !in beacons
  }

  /** What part 1 counts, in per-cell terms: the cells of row `y` that some
      sensor reaches and that are not a known beacon. */
  ghost function NoBeaconCells(y: int, circles: seq<Circle>, beacons: set<Point>): (s: set<int>)
    ensures forall x :: x in s <==> Reached(Point(x, y), circles) && Point(x, y) !in beacons
  {
    FreeCovered(RowCover(circles, y), y, beacons)
  }

  /** `get_num_beacons_in_range`: a scan of the whole beacon set. */
  method NumBeaconsInRange(beacons: set<Point>, r: Range, y: int) returns (n: nat)
    ensures n == |BeaconsIn(beacons, r, y)|
  {
    n := 0;
    var rest := beacons;
    while rest != {}
      invariant rest <= beacons
      invariant n == |BeaconsIn(beacons - rest, r, y)|
      decreases |rest|
    {
      var b :| b in rest;
      var before := BeaconsIn(beacons - rest, r, y);
      if b.y == y && r.lo <= b.x <= r.hi {
        assert BeaconsIn(beacons - (rest - {b}), r, y) == before + {b};
        n := n + 1;
      } else {
        assert BeaconsIn(beacons - (rest - {b}), r, y) == before;
      }
      rest := rest - {b};
    }
    assert beacons - rest == beacons;
  }

  /** Points of one row are told apart by their x. */
  lemma {:induction false} RowImageSize(s: set<Point>, y: int)
    requires forall b :: b in s ==> b.y == y
    ensures |set b | b in s :: b.x| == |s|
    decreases |s|
  {
    if s != {} {
      var b :| b in s;
      var s' := s - {b};
      RowImageSize(s', y);
      var image := set p | p in s :: p.x;
      var image' := set p | p in s' :: p.x;
      assert image == image' + {b.x};
    }
  }

  /** A range of a row holds its width minus the beacons in it free cells:
      the term `r[1] - r[0] + 1 - num_beacons` of part 1. */
  lemma FreeInSize(r: Range, y: int, beacons: set<Point>)
    requires WellFormed(r)
    ensures |FreeIn(r, y, beacons)| == r.hi - r.lo + 1 - |BeaconsIn(beacons, r, y)|
  {
    var inRange := BeaconsIn(beacons, r, y);
    var xs := set b | b in inRange :: b.x;
    RowImageSize(inRange, y);
    RangeSetSize(r);
    forall x | x in RangeSet(r)
      ensures x in FreeIn(r, y, beacons) + xs
    {
      if Point(x, y) in beacons {
        assert Point(x, y) in inRange;
      }
    }
    assert RangeSet(r) == FreeIn(r, y, beacons) + xs;
    assert FreeIn(r, y, beacons) !! xs;
  }

  /** Adding the next range of a flat list adds its free cells, which no
      earlier range covers. */
  lemma FreeCoveredStep(flat: seq<Range>, i: int, y: int, beacons: set<Point>)
    requires Flat(flat) && 0 <= i < |flat|
    ensures |FreeCovered(flat[..i + 1], y, beacons)| ==
      |FreeCovered(flat[..i], y, beacons)| + flat[i].hi - flat[i].lo + 1 -
      |BeaconsIn(beacons, flat[i], y)|
  {
    FreeInSize(flat[i], y, beacons);
    FreeCoveredSplit(flat, i, y, beacons);
    EarlierRangesBefore(flat, i);
    var before := FreeCovered(flat[..i], y, beacons);
    var here := FreeIn(flat[i], y, beacons);
    assert before !! here;
  }

  lemma FreeCoveredSplit(flat: seq<Range>, i: int, y: int, beacons: set<Point>)
    requires 0 <= i < |flat|
    ensures FreeCovered(flat[..i + 1], y, beacons) ==
      FreeCovered(flat[..i], y, beacons) + FreeIn(flat[i], y, beacons)
  {
    assert flat[..i + 1][..i] == flat[..i];
  }

  /** In a flat list the ranges before the i-th cover only integers below
      its start. */
  lemma EarlierRangesBefore(flat: seq<Range>, i: int)
    requires Flat(flat) && 0 <= i < |flat|
    ensures forall x :: Covered(x, flat[..i]) ==> x < flat[i].lo
  {
    FlatSeparated(flat);
    forall x | Covered(x, flat[..i])
      ensures x < flat[i].lo
    {
      var r :| r in flat[..i] && In(x, r);
      var k :| 0 <= k < i && flat[..i][k] == r;
      assert flat[k].hi + 1 < flat[i].lo;
    }
  }

  /** `get_num_x_coordinates_without_beacon`: over the flattened cover of
      row `y`, the width of each range minus the beacons inside it. The
      count is the number of cells of the row that a sensor reaches and that
      hold no known beacon. */
  method NumXWithoutBeacon(y: int, circles: seq<Circle>, beacons: set<Point>) returns (n: int)
    ensures n == |NoBeaconCells(y, circles, beacons)|
  {
    var cover := RowCover(circles, y);
    var flat := Flatten(cover);
    n := 0;
    var i := 0;
    while i < |flat|
      invariant 0 <= i <= |flat|
      invariant n == |FreeCovered(flat[..i], y, beacons)|
    {
      var k := NumBeaconsInRange(beacons, flat[i], y);
      FreeCoveredStep(flat, i, y, beacons);
      n := n + flat[i].hi - flat[i].lo + 1 - k;
      i := i + 1;
    }
    assert flat[..i] == flat;
    FreeCoveredFlatten(cover, y, beacons);
  }

  /** Flattening does not change the free covered cells. */
  lemma FreeCoveredFlatten(cover: seq<Range>, y: int, beacons: set<Point>)
    requires AllWellFormed(cover)
    ensures FreeCovered(Flatten(cover), y, beacons) == FreeCovered(cover, y, beacons)
  {
  }

  // ---------------------------------------------------------------------
  // The tuning frequency
  // ---------------------------------------------------------------------

  /** Row `y` can be scanned without the source failing: some circle spans
      it (otherwise `ranges_not_covered` indexes an empty list) and no
      clamp to `[xLo, xHi]` is empty (otherwise the `()` that `limit_range`
      returns reaches `ranges_intersect`, which indexes it). */
  predicate Scannable(circles: seq<Circle>, y: int, xLo: int, xHi: int)
  {
    (exists c :: c in circles && InSpan(c, y)) &&
    forall c :: c in circles && InSpan(c, y) ==> Limit(GetX(c, y), xLo, xHi).Some?
  }

  /** The clamped ranges of the circles spanning row `y`, or `None` when a
      clamp comes out empty. */
  function ClampedCover(circles: seq<Circle>, y: int, xLo: int, xHi: int): (cc: Option<seq<Range>>)
    ensures cc.Some? <==> forall c :: c in circles && InSpan(c, y) ==> Limit(GetX(c, y), xLo, xHi).Some?
    ensures cc.Some? ==> AllWellFormed(cc.value)
    ensures cc.Some? ==> (|cc.value| == 0 <==> forall c :: c in circles ==> !InSpan(c, y))
    ensures cc.Some? ==> forall r :: r in cc.value ==> xLo <= r.lo && r.hi <= xHi
    ensures cc.Some? ==> forall x ::
      Covered(x, cc.value) <==> Reached(Point(x, y), circles) && xLo <= x <= xHi
    decreases |circles|, 1
  {
    if |circles| == 0 then Some([])
    else
      var init := circles[..|circles| - 1];
      var c := circles[|circles| - 1];
      var rest := ClampedCover(init, y, xLo, xHi);
      assert circles == init + [c];
      if rest.None? then
        ClampedFails(circles, y, xLo, xHi);
        None
      else if !InSpan(c, y) then
        ClampedSkip(circles, y, xLo, xHi, rest.value);
        rest
      else
        var lc := Limit(GetX(c, y), xLo, xHi);
        if lc.None? then None
        else
          ClampedAdd(circles, y, xLo, xHi, rest.value, lc.value);
          Some(rest.value + [lc.value])
  }

  lemma ClampedFails(circles: seq<Circle>, y: int, xLo: int, xHi: int)
    requires |circles| > 0
    requires ClampedCover(circles[..|circles| - 1], y, xLo, xHi).None?
    ensures !forall c :: c in circles && InSpan(c, y) ==> Limit(GetX(c, y), xLo, xHi).Some?
    decreases |circles|, 0
  {
    var d :| d in circles[..|circles| - 1] && InSpan(d, y) && Limit(GetX(d, y), xLo, xHi).None?;
    assert d in circles;
  }

  lemma ClampedSkip(circles: seq<Circle>, y: int, xLo: int, xHi: int, rs: seq<Range>)
    requires |circles| > 0 && !InSpan(circles[|circles| - 1], y)
    requires ClampedCover(circles[..|circles| - 1], y, xLo, xHi) == Some(rs)
    ensures forall c :: c in circles && InSpan(c, y) ==> Limit(GetX(c, y), xLo, xHi).Some?
    ensures |rs| == 0 <==> forall c :: c in circles ==> !InSpan(c, y)
    ensures forall x :: Covered(x, rs) <==> Reached(Point(x, y), circles) && xLo <= x <= xHi
    decreases |circles|, 0
  {
    var init := circles[..|circles| - 1];
    var c := circles[|circles| - 1];
    assert circles == init + [c];
    forall x
      ensures Covered(x, rs) <==> Reached(Point(x, y), circles) && xLo <= x <= xHi
    {
      if Reached(Point(x, y), circles) {
        var d :| d in circles && Manhattan(d.center, Point(x, y)) <= d.radius;
        if d != c {
          assert d in init;
        }
      }
      if Covered(x, rs) {
        var d :| d in init && Manhattan(d.center, Point(x, y)) <= d.radius;
        assert d in circles;
      }
    }
  }

  lemma ClampedAdd(circles: seq<Circle>, y: int, xLo: int, xHi: int, rs: seq<Range>, r: Range)
    requires |circles| > 0 && InSpan(circles[|circles| - 1], y)
    requires ClampedCover(circles[..|circles| - 1], y, xLo, xHi) == Some(rs)
    requires Limit(GetX(circles[|circles| - 1], y), xLo, xHi) == Some(r)
    ensures forall c :: c in circles && InSpan(c, y) ==> Limit(GetX(c, y), xLo, xHi).Some?
    ensures forall x :: Covered(x, rs + [r]) <==> Reached(Point(x, y), circles) && xLo <= x <= xHi
    decreases |circles|, 0
  {
    var init := circles[..|circles| - 1];
    var c := circles[|circles| - 1];
    assert circles == init + [c];
    CoveredAppend(rs, [r]);
    forall x
      ensures Covered(x, rs + [r]) <==> Reached(Point(x, y), circles) && xLo <= x <= xHi
    {
      if Reached(Point(x, y), circles) && xLo <= x <= xHi {
        var d :| d in circles && Manhattan(d.center, Point(x, y)) <= d.radius;
        if d == c {
          assert In(x, r) && r in [r];
        } else {
          assert d in init;
        }
      }
      if Covered(x, [r]) {
        assert In(x, GetX(c, y));
      }
      if Covered(x, rs) {
        var d :| d in init && Manhattan(d.center, Point(x, y)) <= d.radius;
        assert d in circles;
      }
    }
  }

  /** A well-formed list whose ranges lie within `[lo, hi]` flattens into
      one that also does. */
  lemma FlattenWithin(cover: seq<Range>, lo: int, hi: int)
    requires AllWellFormed(cover) && |cover| > 0
    requires forall r :: r in cover ==> lo <= r.lo && r.hi <= hi
    ensures lo <= Flatten(cover)[0].lo
    ensures Flatten(cover)[|Flatten(cover)| - 1].hi <= hi
  {
    var flat := Flatten(cover);
    var first := flat[0];
    var last := flat[|flat| - 1];
    assert WellFormed(first) && WellFormed(last);
    assert first in flat && In(first.lo, first);
    assert Covered(first.lo, flat);
    assert last in flat && In(last.hi, last);
    assert Covered(last.hi, flat);
  }

  datatype RowScan = Crash | Gap(x: int) | NoGap

  /** One iteration of `get_tuning_frequency`: flatten the clamped cover of
      row `y`, take what it leaves uncovered in `[xLo, xHi]` and report the
      start of the first gap. The result is the first cell of the row that
      no sensor reaches, and `Crash` exactly on the rows the source cannot
      scan. */
  function GapAtRow(circles: seq<Circle>, y: int, xLo: int, xHi: int): (s: RowScan)
    ensures s.Crash? <==> !Scannable(circles, y, xLo, xHi)
    ensures s.Gap? ==> xLo <= s.x <= xHi && !Reached(Point(s.x, y), circles)
    ensures s.Gap? ==> forall x :: xLo <= x < s.x ==> Reached(Point(x, y), circles)
    ensures s.NoGap? ==> forall x :: xLo <= x <= xHi ==> Reached(Point(x, y), circles)
  {
    match ClampedCover(circles, y, xLo, xHi)
    case None => Crash
    case Some(cover) =>
      if |cover| == 0 then Crash
      else
        var flat := Flatten(cover);
        FlattenWithin(cover, xLo, xHi);
        var gaps := Flatten(NotCovered(flat, xLo, xHi));
        GapAtRowFacts(circles, y, xLo, xHi, cover, flat, gaps);
        if |gaps| > 0 then Gap(gaps[0].lo) else NoGap
  }

  lemma GapAtRowFacts(circles: seq<Circle>, y: int, xLo: int, xHi: int,
                      cover: seq<Range>, flat: seq<Range>, gaps: seq<Range>)
    requires ClampedCover(circles, y, xLo, xHi) == Some(cover) && |cover| > 0
    requires flat == Flatten(cover)
    requires xLo <= flat[0].lo && flat[|flat| - 1].hi <= xHi
    requires gaps == Flatten(NotCovered(flat, xLo, xHi))
    ensures Scannable(circles, y, xLo, xHi)
    ensures |gaps| > 0 ==> xLo <= gaps[0].lo <= xHi && !Reached(Point(gaps[0].lo, y), circles)
    ensures |gaps| > 0 ==> forall x :: xLo <= x < gaps[0].lo ==> Reached(Point(x, y), circles)
    ensures |gaps| == 0 ==> forall x :: xLo <= x <= xHi ==> Reached(Point(x, y), circles)
  {
    var nc := NotCovered(flat, xLo, xHi);
    FlattenOfFlat(nc);
    NotCoveredFirstGap(flat, xLo, xHi);
    var c :| c in circles && InSpan(c, y);
  }

  datatype Search = Crashed(row: int) | Found(p: Point) | NotFound

  /** Every cell `xLo..xHi` of row `y` is reached. */
  ghost predicate RowReached(circles: seq<Circle>, y: int, xLo: int, xHi: int)
  {
    forall x :: xLo <= x <= xHi ==> Reached(Point(x, y), circles)
  }

  /** Every cell of the rows `yFrom..yTo-1` in columns `xLo..xHi` is reached. */
  ghost predicate RowsReached(circles: seq<Circle>, yFrom: int, yTo: int, xLo: int, xHi: int)
  {
    forall y :: yFrom <= y < yTo ==> RowReached(circles, y, xLo, xHi)
  }

  /** Every row `yFrom..yTo-1` can be scanned. */
  predicate RowsScannable(circles: seq<Circle>, yFrom: int, yTo: int, xLo: int, xHi: int)
  {
    forall y :: yFrom <= y < yTo ==> Scannable(circles, y, xLo, xHi)
  }

  /** The rows `y..yHi` of the loop of `get_tuning_frequency`, in ascending
      order, stopping at the first row with a gap or the first row that
      cannot be scanned. */
  function Scan(circles: seq<Circle>, xLo: int, xHi: int, y: int, yHi: int): (r: Search)
    decreases yHi - y
    ensures r.Crashed? ==> y <= r.row <= yHi && !Scannable(circles, r.row, xLo, xHi)
    ensures r.Crashed? ==> RowsReached(circles, y, r.row, xLo, xHi)
    ensures r.Crashed? ==> RowsScannable(circles, y, r.row, xLo, xHi)
    ensures r.Found? ==> y <= r.p.y <= yHi && xLo <= r.p.x <= xHi && !Reached(r.p, circles)
    ensures r.Found? ==> RowsReached(circles, y, r.p.y, xLo, xHi)
    ensures r.Found? ==> RowReached(circles, r.p.y, xLo, r.p.x - 1)
    ensures r.Found? ==> RowsScannable(circles, y, r.p.y + 1, xLo, xHi)
    ensures r.NotFound? ==> RowsReached(circles, y, yHi + 1, xLo, xHi)
    ensures r.NotFound? ==> RowsScannable(circles, y, yHi + 1, xLo, xHi)
  {
    if y > yHi then NotFound
    else
      var s := GapAtRow(circles, y, xLo, xHi);
      if s.Crash? then
        assert RowsReached(circles, y, y, xLo, xHi) && RowsScannable(circles, y, y, xLo, xHi);
        Crashed(y)
      else if s.Gap? then
        FoundAtRow(circles, y, xLo, xHi, s);
        Found(Point(s.x, y))
      else
        var rest := Scan(circles, xLo, xHi, y + 1, yHi);
        RowsReachedExtend(circles, y, rest, xLo, xHi, yHi);
        RowsScannableExtend(circles, y, rest, xLo, xHi, yHi);
        rest
  }

  /** The facts `Scan` promises about a gap found in its first row. */
  lemma FoundAtRow(circles: seq<Circle>, y: int, xLo: int, xHi: int, s: RowScan)
    requires s == GapAtRow(circles, y, xLo, xHi) && s.Gap?
    ensures xLo <= s.x <= xHi && !Reached(Point(s.x, y), circles)
    ensures RowsReached(circles, y, y, xLo, xHi) && RowReached(circles, y, xLo, s.x - 1)
    ensures RowsScannable(circles, y, y + 1, xLo, xHi)
  {
    assert Scannable(circles, y, xLo, xHi);
  }

  lemma RowsReachedExtend(circles: seq<Circle>, y: int, rest: Search, xLo: int, xHi: int, yHi: int)
    requires RowReached(circles, y, xLo, xHi)
    requires rest.Crashed? ==> RowsReached(circles, y + 1, rest.row, xLo, xHi)
    requires rest.Found? ==> RowsReached(circles, y + 1, rest.p.y, xLo, xHi)
    requires rest.NotFound? ==> RowsReached(circles, y + 1, yHi + 1, xLo, xHi)
    ensures rest.Crashed? ==> RowsReached(circles, y, rest.row, xLo, xHi)
    ensures rest.Found? ==> RowsReached(circles, y, rest.p.y, xLo, xHi)
    ensures rest.NotFound? ==> RowsReached(circles, y, yHi + 1, xLo, xHi)
  {
  }

  lemma RowsScannableExtend(circles: seq<Circle>, y: int, rest: Search, xLo: int, xHi: int, yHi: int)
    requires Scannable(circles, y, xLo, xHi)
    requires rest.Crashed? ==> RowsScannable(circles, y + 1, rest.row, xLo, xHi)
    requires rest.Found? ==> RowsScannable(circles, y + 1, rest.p.y + 1, xLo, xHi)
    requires rest.NotFound? ==> RowsScannable(circles, y + 1, yHi + 1, xLo, xHi)
    ensures rest.Crashed? ==> RowsScannable(circles, y, rest.row, xLo, xHi)
    ensures rest.Found? ==> RowsScannable(circles, y, rest.p.y + 1, xLo, xHi)
    ensures rest.NotFound? ==> RowsScannable(circles, y, yHi + 1, xLo, xHi)
  {
  }

  /** The tuning frequency of a cell. */
  function Encode(p: Point): int
  {
    p.x * DistressMult + p.y
  }

  /** The cell of a tuning frequency. */
  function Decode(f: int): Point
  {
    Point(f / DistressMult, f % DistressMult)
  }

  /** Decoding a tuning frequency gives back the cell, for rows below the
      multiplier. */
  lemma DecodeEncode(p: Point)
    requires 0 <= p.y < DistressMult
    ensures Decode(Encode(p)) == p
  {
    var f := p.x * DistressMult + p.y;
    assert f == DistressMult * p.x + p.y;
  }

  lemma FoundFrequency(p: Point, xLo: int, yLo: int, yHi: int)
    requires yLo <= p.y <= yHi && xLo <= p.x
    ensures 0 <= yLo && yHi < DistressMult ==> Decode(Encode(p)) == p
    ensures 0 <= xLo && 0 <= yLo ==> Encode(p) >= 0
  {
    if 0 <= yLo && yHi < DistressMult {
      DecodeEncode(p);
    }
    if 0 <= xLo && 0 <= yLo {
      assert p.x * DistressMult >= 0;
    }
  }

  /** `p` is the first cell of the box, row by row and then by x, that no
      sensor reaches, and every row up to its own can be scanned. */
  ghost predicate FirstUnreached(circles: seq<Circle>, p: Point, xLo: int, xHi: int, yLo: int, yHi: int)
  {
    xLo <= p.x <= xHi && yLo <= p.y <= yHi && !Reached(p, circles) &&
    RowsReached(circles, yLo, p.y, xLo, xHi) && RowReached(circles, p.y, xLo, p.x - 1) &&
    RowsScannable(circles, yLo, p.y + 1, xLo, xHi)
  }

  /** There is at most one first unreached cell. */
  lemma FirstUnreachedUnique(circles: seq<Circle>, p: Point, q: Point, xLo: int, xHi: int, yLo: int, yHi: int)
    requires FirstUnreached(circles, p, xLo, xHi, yLo, yHi)
    requires FirstUnreached(circles, q, xLo, xHi, yLo, yHi)
    ensures p == q
  {
    ReachedBeforeFirst(circles, p, q, xLo, xHi, yLo, yHi);
    ReachedBeforeFirst(circles, q, p, xLo, xHi, yLo, yHi);
  }

  /** Every cell of the box before the first unreached cell is reached. */
  lemma ReachedBeforeFirst(circles: seq<Circle>, p: Point, q: Point, xLo: int, xHi: int, yLo: int, yHi: int)
    requires FirstUnreached(circles, q, xLo, xHi, yLo, yHi)
    requires xLo <= p.x <= xHi && yLo <= p.y
    ensures p.y < q.y || (p.y == q.y && p.x < q.x) ==> Reached(p, circles)
  {
    if p.y < q.y {
      assert RowReached(circles, p.y, xLo, xHi);
    }
  }

  /** On the multiplier's own row the encoding collides with row 0 of the
      next column, so a frequency decodes back only below that row. */
  lemma LastRowAliases(k: int)
    ensures Encode(Point(k, DistressMult)) == Encode(Point(k + 1, 0))
    ensures Decode(Encode(Point(k, DistressMult))) == Point(k + 1, 0)
  {
    DecodeEncode(Point(k + 1, 0));
  }

  /** `get_tuning_frequency`: `x * 4000000 + y` for the first cell of the box
      (row by row, then by x) that no sensor reaches, or `-1` when there is
      none; `None` when the scan meets a row it cannot scan before it finds
      a gap. Every row the scan passes is scannable, so a result other than
      `None` is one the source returns without raising. */
  function TuningFrequency(circles: seq<Circle>, xLo: int, xHi: int, yLo: int, yHi: int): (f: Option<int>)
    ensures f.Some? ==>
      (f.value == -1 && RowsReached(circles, yLo, yHi + 1, xLo, xHi) &&
       RowsScannable(circles, yLo, yHi + 1, xLo, xHi)) ||
      exists p :: f.value == Encode(p) && FirstUnreached(circles, p, xLo, xHi, yLo, yHi)
    ensures 0 <= yLo && yHi < DistressMult && f.Some? && f.value != -1 ==>
      var p := Decode(f.value);
      xLo <= p.x <= xHi && yLo <= p.y <= yHi && !Reached(p, circles) &&
      RowsReached(circles, yLo, p.y, xLo, xHi) && RowReached(circles, p.y, xLo, p.x - 1) &&
      RowsScannable(circles, yLo, p.y + 1, xLo, xHi)
    ensures 0 <= xLo && 0 <= yLo && f == Some(-1) ==>
      RowsReached(circles, yLo, yHi + 1, xLo, xHi) && RowsScannable(circles, yLo, yHi + 1, xLo, xHi)
    ensures f.None? ==> exists y ::
      (yLo <= y <= yHi && !Scannable(circles, y, xLo, xHi) &&
       RowsScannable(circles, yLo, y, xLo, xHi) && RowsReached(circles, yLo, y, xLo, xHi))
    ensures (forall y :: yLo <= y <= yHi ==> Scannable(circles, y, xLo, xHi)) ==> f.Some?
  {
    var r := Scan(circles, xLo, xHi, yLo, yHi);
    if r.Crashed? then
      assert yLo <= r.row <= yHi && !Scannable(circles, r.row, xLo, xHi);
      None
    else if r.NotFound? then Some(-1)
    else
      FoundFrequency(r.p, xLo, yLo, yHi);
      assert FirstUnreached(circles, r.p, xLo, xHi, yLo, yHi);
      Some(Encode(r.p))
  }

  /** Whenever the box has a first unreached cell, the frequency is that
      cell's `x * 4000000 + y`, whatever the bounds; in particular for the
      puzzle's own box `0..4000000` in both directions. */
  lemma TuningFrequencyOfFirstUnreached(circles: seq<Circle>, q: Point, xLo: int, xHi: int, yLo: int, yHi: int)
    requires FirstUnreached(circles, q, xLo, xHi, yLo, yHi)
    ensures TuningFrequency(circles, xLo, xHi, yLo, yHi) == Some(Encode(q))
  {
    var p := FrequencyCell(circles, q, xLo, xHi, yLo, yHi);
    FirstUnreachedUnique(circles, p, q, xLo, xHi, yLo, yHi);
  }

  /** While a first unreached cell exists the scan neither crashes nor
      reports -1 for a fully reached box, so the result encodes a first
      unreached cell. */
  lemma FrequencyCell(circles: seq<Circle>, q: Point, xLo: int, xHi: int, yLo: int, yHi: int) returns (p: Point)
    requires FirstUnreached(circles, q, xLo, xHi, yLo, yHi)
    ensures TuningFrequency(circles, xLo, xHi, yLo, yHi) == Some(Encode(p))
    ensures FirstUnreached(circles, p, xLo, xHi, yLo, yHi)
  {
    var f := TuningFrequency(circles, xLo, xHi, yLo, yHi);
    FrequencyExists(circles, q, xLo, xHi, yLo, yHi);
    NotAllReached(circles, q, xLo, xHi, yLo, yHi);
    p :| f.value == Encode(p) && FirstUnreached(circles, p, xLo, xHi, yLo, yHi);
  }

  /** A box with an unreached cell is not fully reached. */
  lemma NotAllReached(circles: seq<Circle>, q: Point, xLo: int, xHi: int, yLo: int, yHi: int)
    requires FirstUnreached(circles, q, xLo, xHi, yLo, yHi)
    ensures !RowsReached(circles, yLo, yHi + 1, xLo, xHi)
  {
    assert !RowReached(circles, q.y, xLo, xHi);
  }

  /** While a first unreached cell exists the scan does not crash. */
  lemma FrequencyExists(circles: seq<Circle>, q: Point, xLo: int, xHi: int, yLo: int, yHi: int)
    requires FirstUnreached(circles, q, xLo, xHi, yLo, yHi)
    ensures TuningFrequency(circles, xLo, xHi, yLo, yHi).Some?
  {
    forall y
      ensures !(yLo <= y <= yHi && !Scannable(circles, y, xLo, xHi) &&
                RowsScannable(circles, yLo, y, xLo, xHi) && RowsReached(circles, yLo, y, xLo, xHi))
    {
      NoStopBeforeFirst(circles, q, y, xLo, xHi, yLo, yHi);
    }
  }

  /** The scan cannot stop at an unscannable row while a first unreached
      cell exists: the rows before it are scannable, and a later stop would
      need its row fully reached. */
  lemma NoStopBeforeFirst(circles: seq<Circle>, q: Point, y: int, xLo: int, xHi: int, yLo: int, yHi: int)
    requires FirstUnreached(circles, q, xLo, xHi, yLo, yHi)
    ensures !(yLo <= y <= yHi && !Scannable(circles, y, xLo, xHi) &&
              RowsScannable(circles, yLo, y, xLo, xHi) && RowsReached(circles, yLo, y, xLo, xHi))
  {
    if q.y < y {
      assert RowsReached(circles, yLo, y, xLo, xHi) ==> RowReached(circles, q.y, xLo, xHi);
    }
  }

  // ---------------------------------------------------------------------
  // get_bounding_box
  // ---------------------------------------------------------------------

  datatype Box = Box(minX: int, minY: int, maxX: int, maxY: int)

  /** The reach of one circle: the square `[x - r, x + r] x [y - r, y + r]`. */
  function CircleBox(c: Circle): Box
  {
    Box(c.center.x - c.radius, c.center.y - c.radius, c.center.x + c.radius, c.center.y + c.radius)
  }

  predicate BoxInside(inner: Box, outer: Box)
  {
    outer.minX <= inner.minX && outer.minY <= inner.minY &&
    inner.maxX <= outer.maxX && inner.maxY <= outer.maxY
  }

  /** `b` holds the reach of every circle, and each of its four sides
      touches some circle's reach: no smaller box holds them all. */
  predicate Tight(circles: seq<Circle>, b: Box)
  {
    (forall c :: c in circles ==> BoxInside(CircleBox(c), b)) &&
    (exists c :: c in circles && CircleBox(c).minX == b.minX) &&
    (exists c :: c in circles && CircleBox(c).minY == b.minY) &&
    (exists c :: c in circles && CircleBox(c).maxX == b.maxX) &&
    (exists c :: c in circles && CircleBox(c).maxY == b.maxY)
  }

  /** The smallest box holding two boxes. */
  function Join(a: Box, b: Box): (j: Box)
    ensures BoxInside(a, j) && BoxInside(b, j)
  {
    Box(Min(a.minX, b.minX), Min(a.minY, b.minY), Max(a.maxX, b.maxX), Max(a.maxY, b.maxY))
  }

  /** `get_bounding_box`: the tightest box holding the reach of every
      circle. */
  function BoundingBox(circles: seq<Circle>): (b: Box)
    requires |circles| > 0
    ensures Tight(circles, b)
  {
    var c := circles[|circles| - 1];
    if |circles| == 1 then
      assert c in circles;
      CircleBox(c)
    else
      var init := circles[..|circles| - 1];
      var b := BoundingBox(init);
      assert circles == init + [c];
      TightSnoc(init, c, b);
      Join(b, CircleBox(c))
  }

  /** Joining the reach of one more circle to a tight box gives a tight box. */
  lemma TightSnoc(init: seq<Circle>, c: Circle, b: Box)
    requires Tight(init, b)
    ensures Tight(init + [c], Join(b, CircleBox(c)))
  {
    var all := init + [c];
    var j := Join(b, CircleBox(c));
    assert c in all;
    assert forall d :: d in init ==> d in all;
    forall d | d in all
      ensures BoxInside(CircleBox(d), j)
    {
      if d != c {
        assert d in init;
      }
    }
  }

  // ---------------------------------------------------------------------
  // Examples
  // ---------------------------------------------------------------------

  /** The sensor at (8, 7) whose beacon is at (2, 10) reaches the cells
      2..14 of row 10 and none of row 17. */
  lemma CircleExample()
    ensures NewCircle(7, Point(8, 7), Point(2, 10)).radius == 9
    ensures GetX(NewCircle(7, Point(8, 7), Point(2, 10)), 10) == Range(2, 14)
    ensures !InSpan(NewCircle(7, Point(8, 7), Point(2, 10)), 17)
  {
  }
}

=== FILE: sorting.dfy ===
/** A stable insertion sort over sequences, parameterised by a "less than or
    equal" relation. It stands for Python's `list.sort()` / `sorted()`, which are
    stable: elements that compare equal keep their input order. */
module Sorting {

  /** Every two elements are related one way or the other. */
  ghost predicate Total<T(!new)>(le: (T, T) -> bool)
  {
    forall a, b :: le(a, b) || le(b, a)
  }

  ghost predicate Transitive<T(!new)>(le: (T, T) -> bool)
  {
    forall a, b, c :: le(a, b) && le(b, c) ==> le(a, c)
  }

  ghost predicate Antisymmetric<T(!new)>(le: (T, T) -> bool)
  {
    forall a, b :: le(a, b) && le(b, a) ==> a == b
  }

  /** A total preorder: what a sort key or a consistent `__lt__` provides. */
  ghost predicate TotalPreorder<T(!new)>(le: (T, T) -> bool)
  {
    Total(le) && Transitive(le)
  }

  predicate SortedBy<T>(s: seq<T>, le: (T, T) -> bool)
  {
    forall i, j :: 0 <= i < j < |s| ==> le(s[i], s[j])
  }

  /** Inserts `x` after every element of `s` that is `le` to it, so that a later
      element never overtakes an earlier equal one. */
  function Insert<T>(x: T, s: seq<T>, le: (T, T) -> bool): (r: seq<T>)
    ensures multiset(r) == multiset(s) + multiset{x}
    ensures |r| == |s| + 1
  {
    if |s| == 0 || !le(s[0], x) then [x] + s
    else
      assert s == [s[0]] + s[1..];
      [s[0]] + Insert(x, s[1..], le)
  }

  /** Sorts `s` by inserting its elements one after another, in input order. */
  function SortBy<T>(s: seq<T>, le: (T, T) -> bool): (r: seq<T>)
    ensures multiset(r) == multiset(s)
    ensures |r| == |s|
  {
    if |s| == 0 then []
    else
      assert s == s[..|s| - 1] + [s[|s| - 1]];
      Insert(s[|s| - 1], SortBy(s[..|s| - 1], le), le)
  }

  /** The elements of `s` tied with `x` (each `le` to the other), in order. */
  function Ties<T>(s: seq<T>, x: T, le: (T, T) -> bool): seq<T>
  {
    if |s| == 0 then []
    else (if le(s[0], x) && le(x, s[0]) then [s[0]] else []) + Ties(s[1..], x, le)
  }

  lemma {:induction false} TiesAppend<T>(a: seq<T>, b: seq<T>, x: T, le: (T, T) -> bool)
    ensures Ties(a + b, x, le) == Ties(a, x, le) + Ties(b, x, le)
  {
    if |a| > 0 {
      assert (a + b)[0] == a[0] && (a + b)[1..] == a[1..] + b;
      TiesAppend(a[1..], b, x, le);
    } else {
      assert a + b == b;
    }
  }

  /** A sequence none of whose elements is tied with `x` has no ties with it. */
  lemma {:induction false} NoTies<T>(s: seq<T>, x: T, le: (T, T) -> bool)
    requires forall k :: 0 <= k < |s| ==> !(le(s[k], x) && le(x, s[k]))
    ensures Ties(s, x, le) == []
  {
    if |s| > 0 {
      NoTies(s[1..], x, le);
    }
  }

  /** In a sorted sequence whose head is above `y`, nothing is tied with
      `y`, nor with anything tied with `y`. */
  lemma AboveNotTied<T(!new)>(y: T, s: seq<T>, x: T, le: (T, T) -> bool)
    requires TotalPreorder(le) && SortedBy(s, le)
    requires |s| > 0 && !le(s[0], y) && le(y, x) && le(x, y)
    ensures Ties(s, x, le) == []
  {
    forall k | 0 <= k < |s|
      ensures !(le(s[k], x) && le(x, s[k]))
    {
      assert le(s[0], s[k]);
    }
    NoTies(s, x, le);
  }

  /** Inserting into a sorted sequence puts the new element after the
      elements tied with it. */
  lemma {:induction false} InsertTies<T(!new)>(y: T, s: seq<T>, x: T, le: (T, T) -> bool)
    requires TotalPreorder(le) && SortedBy(s, le)
    ensures Ties(Insert(y, s, le), x, le) == Ties(s, x, le) + (if le(y, x) && le(x, y) then [y] else [])
  {
    if |s| == 0 || !le(s[0], y) {
      assert Insert(y, s, le) == [y] + s;
      assert ([y] + s)[1..] == s;
      if le(y, x) && le(x, y) && |s| > 0 {
        AboveNotTied(y, s, x, le);
      }
    } else {
      InsertTies(y, s[1..], x, le);
      assert Insert(y, s, le) == [s[0]] + Insert(y, s[1..], le);
      assert ([s[0]] + Insert(y, s[1..], le))[1..] == Insert(y, s[1..], le);
    }
  }

  lemma {:induction false} InsertSorted<T(!new)>(x: T, s: seq<T>, le: (T, T) -> bool)
    requires TotalPreorder(le)
    requires SortedBy(s, le)
    ensures SortedBy(Insert(x, s, le), le)
  {
    if |s| == 0 || !le(s[0], x) {
    } else {
      InsertSorted(x, s[1..], le);
      var r := Insert(x, s, le);
      var t := Insert(x, s[1..], le);
      assert r == [s[0]] + t;
      forall k | 0 <= k < |t|
        ensures le(s[0], t[k])
      {
        assert t[k] in multiset(t);
        assert t[k] in multiset(s[1..]) + multiset{x};
        if t[k] != x {
          assert t[k] in multiset(s[1..]);
          var m :| 0 <= m < |s[1..]| && s[1..][m] == t[k];
          assert s[m + 1] == t[k];
        }
      }
    }
  }

  /** The output of `SortBy` is sorted whenever `le` is a total preorder. */
  lemma {:induction false} SortBySorted<T(!new)>(s: seq<T>, le: (T, T) -> bool)
    requires TotalPreorder(le)
    ensures SortedBy(SortBy(s, le), le)
  {
    if |s| > 0 {
      SortBySorted(s[..|s| - 1], le);
      InsertSorted(s[|s| - 1], SortBy(s[..|s| - 1], le), le);
    }
  }

  /** `SortBy` is stable: the elements tied with any `x` keep their input
      order. */
  lemma {:induction false} SortByStable<T(!new)>(s: seq<T>, x: T, le: (T, T) -> bool)
    requires TotalPreorder(le)
    ensures Ties(SortBy(s, le), x, le) == Ties(s, x, le)
  {
    if |s| > 0 {
      var init, y := s[..|s| - 1], s[|s| - 1];
      var sortedInit := SortBy(init, le);
      assert SortBy(s, le) == Insert(y, sortedInit, le);
      SortByStable(init, x, le);
      SortBySorted(init, le);
      InsertTies(y, sortedInit, x, le);
      LastTies(s, x, le);
    }
  }

  lemma LastTies<T>(s: seq<T>, x: T, le: (T, T) -> bool)
    requires |s| > 0
    ensures Ties(s, x, le) == Ties(s[..|s| - 1], x, le)
              + (if le(s[|s| - 1], x) && le(x, s[|s| - 1]) then [s[|s| - 1]] else [])
  {
    var init, y := s[..|s| - 1], s[|s| - 1];
    assert init + [y] == s;
    TiesAppend(init, [y], x, le);
    TiesSingle(y, x, le);
  }

  lemma TiesSingle<T>(y: T, x: T, le: (T, T) -> bool)
    ensures Ties([y], x, le) == if le(y, x) && le(x, y) then [y] else []
  {
    assert [y][1..] == [];
  }

  /** A sorted sequence whose tied elements appear in a given order is
      unique: a stable sort has exactly one possible result, even when
      distinct elements are tied. */
  lemma {:induction false} StableUnique<T(!new)>(a: seq<T>, b: seq<T>, le: (T, T) -> bool)
    requires TotalPreorder(le)
    requires SortedBy(a, le) && SortedBy(b, le)
    requires forall x :: Ties(a, x, le) == Ties(b, x, le)
    ensures a == b
  {
    if |a| == 0 || |b| == 0 {
      var c := if |a| == 0 then b else a;
      if |c| > 0 {
        HeadTied(c, le);
        assert false;
      }
    } else {
      var a0, b0 := a[0], b[0];
      assert le(a0, a0);
      // Some element of `b` is tied with `a0`, and `b0` comes no later.
      assert Ties(b, a0, le) == Ties(a, a0, le) != [];
      var k := TiedIndex(b, a0, le);
      assert le(b0, b[k]);
      assert le(b0, a0);
      // Symmetrically for `b0` in `a`.
      assert le(b0, b0);
      assert Ties(a, b0, le) == Ties(b, b0, le) != [];
      var j := TiedIndex(a, b0, le);
      assert le(a0, a[j]);
      assert le(a0, b0);
      assert Ties(a, a0, le)[0] == a0;
      assert Ties(b, a0, le)[0] == b0;
      assert a0 == b0;
      forall x
        ensures Ties(a[1..], x, le) == Ties(b[1..], x, le)
      {
        var h := if le(a0, x) && le(x, a0) then [a0] else [];
        assert Ties(a, x, le) == h + Ties(a[1..], x, le);
        assert Ties(b, x, le) == h + Ties(b[1..], x, le);
        assert Ties(a[1..], x, le) == Ties(a, x, le)[|h|..];
        assert Ties(b[1..], x, le) == Ties(b, x, le)[|h|..];
      }
      StableUnique(a[1..], b[1..], le);
      assert a == [a0] + a[1..] && b == [b0] + b[1..];
    }
  }

  /** The head of a sequence is tied with itself under a total preorder. */
  lemma HeadTied<T(!new)>(s: seq<T>, le: (T, T) -> bool)
    requires TotalPreorder(le) && |s| > 0
    ensures Ties(s, s[0], le) != []
  {
    assert le(s[0], s[0]);
  }

  /** A position of `s` tied with `x`, when there is one. */
  lemma {:induction false} TiedIndex<T>(s: seq<T>, x: T, le: (T, T) -> bool) returns (k: nat)
    requires Ties(s, x, le) != []
    ensures k < |s| && le(s[k], x) && le(x, s[k])
  {
    if le(s[0], x) && le(x, s[0]) {
      k := 0;
    } else {
      var j := TiedIndex(s[1..], x, le);
      k := j + 1;
    }
  }

  /** Two sorted sequences with the same elements are equal, when `le` is a
      total order: sorting has exactly one possible result. */
  lemma {:induction false} SortedUnique<T(!new)>(a: seq<T>, b: seq<T>, le: (T, T) -> bool)
    requires Total(le) && Antisymmetric(le)
    requires SortedBy(a, le) && SortedBy(b, le)
    requires multiset(a) == multiset(b)
    ensures a == b
  {
    assert |a| == |multiset(a)| == |b|;
    if |a| > 0 {
      SortedHeads(a, b, le);
      DropHead(a);
      DropHead(b);
      SortedUnique(a[1..], b[1..], le);
    }
  }

  /** Two sorted sequences with the same elements start with the same one. */
  lemma SortedHeads<T(!new)>(a: seq<T>, b: seq<T>, le: (T, T) -> bool)
    requires Total(le) && Antisymmetric(le)
    requires SortedBy(a, le) && SortedBy(b, le)
    requires multiset(a) == multiset(b) && |a| > 0
    ensures |b| > 0 && a[0] == b[0]
  {
    assert a[0] in multiset(b);
    var j :| 0 <= j < |b| && b[j] == a[0];
    assert b[0] in multiset(a);
    var i :| 0 <= i < |a| && a[i] == b[0];
    assert le(a[0], a[i]) && le(b[0], b[j]);
  }

  /** Dropping the head removes one copy of it from the elements. */
  lemma DropHead<T>(a: seq<T>)
    requires |a| > 0
    ensures multiset(a[1..]) == multiset(a) - multiset{a[0]}
  {
    assert a == [a[0]] + a[1..];
  }

  /** Sorting a sequence that is already sorted under a total order leaves it as it is. */
  lemma SortByOfSorted<T(!new)>(s: seq<T>, le: (T, T) -> bool)
    requires TotalPreorder(le) && Antisymmetric(le)
    requires SortedBy(s, le)
    ensures SortBy(s, le) == s
  {
    SortBySorted(s, le);
    SortedUnique(SortBy(s, le), s, le);
  }

  /** Under a total order the sorted result depends only on the multiset of inputs. */
  lemma SortByPermutation<T(!new)>(a: seq<T>, b: seq<T>, le: (T, T) -> bool)
    requires TotalPreorder(le) && Antisymmetric(le)
    requires multiset(a) == multiset(b)
    ensures SortBy(a, le) == SortBy(b, le)
  {
    SortBySorted(a, le);
    SortBySorted(b, le);
    SortedUnique(SortBy(a, le), SortBy(b, le), le);
  }
}
